=== FILE: README.md ===
# auto-run-task core, modelled in Dafny

`auto-run-task` runs a "task set" (a JSON file of numbered tasks inside a project
directory) through an AI coding CLI, one task at a time, in dependency and
priority order. This project models the decision-making core of that runner and
proves what it promises:

- **Tool table** (`config.dfy`): the four configured CLIs, their command
  templates and the model placeholder.
- **Task set records** (`task_set.dfy`, `store.dfy`): the `TaskCLIConfig`,
  `Task` and `TaskSet` records, their dictionary round trips, the defaults
  applied on load, statistics, and atomic saving over an abstract file store
  (write a temporary file, then rename) with a crash point.
- **Plans** (`state.dfy`): plans kept as raw JSON, the "tasks" check on load,
  the start-index search and plan statistics.
- **Projects** (`project.dfy`): `ProjectConfig` and `RunRecord`, their
  dictionary forms, run-history updates and status updates.
- **Scheduler** (`scheduler.dfy`): the `(batch, priority)` stable ordering with
  the dependency-driven ordering, the cycle and dangling-dependency validation
  (an explicit depth-first search over a class holding the visited and
  in-stack sets) and the wave execution plan.
- **Validators** (`validators.dfy`): the `ValidationResult` accumulator, the
  `__init__.json` and task-set file validators.
- **Executor** (`executor.dfy`, `run_loop.dfy`, `sanitizer.dfy`): delay-range
  parsing, command building, the child environment, the per-task outcome
  classification (minimum execution time, exit code, interrupt), the
  inter-task delay decision, and the run loop that walks the schedule, updates
  each task's status and run record, and records whether it saved the task
  set, which the `run` command then writes back to the task-set file; the log
  sanitizer (ANSI stripping, noise-line removal, output tail). The child
  process is an oracle: its exit code, output and duration are inputs.
- **Runtime and display** (`runtime.dfy`, `display_core.dfy`, `renderer.dfy`):
  run-directory naming, elapsed-time formatting and prompt rendering.
- **Notifications** (`notify.dfy`): notifier selection from the environment,
  batch message titles, UTF-8 truncation, duration formatting and the output
  budget fitting.
- **Commands** (`run_cmd.dfy`, `reset_cmd.dfy`): the `run` command's argument
  checks and dispatch and the `reset` command's target selection and reset loop.

Shared helpers: `wrappers.dfy` (Option/Result), `text.dfy` (Python string
operations: whitespace, strip, split, replace, integer parsing), `json.dfy`
(a JSON value datatype). Durations are integer tenths of a second.

## Model

| member | source | states |
|---|---|---|
| `Config.ListToolNames` | task_runner/config.py:121-123 | the tool names are the table's keys in insertion order: kimi, agent, copilot, claude |
| `Config.Lookup` | task_runner/config.py:115-118 | a tool is found exactly when its name is one of the table's names, and the entry found carries that name |
| `Config.GetToolConfig` | task_runner/config.py:113-118 | success exactly for the four configured names, returning the table entry of that name; otherwise the `KeyError` |
| `Config.UnknownToolMessage` | task_runner/config.py:115-117 | the error for an unknown tool is "Unknown tool '<name>'. Available: kimi, agent, copilot, claude" |
| `Config.TemplatesHaveTaskFile` | task_runner/config.py:26-95 | every command template reads the prompt file through the `{task_file}` placeholder |
| `Config.ToolTableFacts` | task_runner/config.py:26-95 | only kimi runs without the proxy; a tool without model support has no default and no model list; a default model is one of the tool's listed models |
| `Store.TmpPath` | task_runner/state.py:44 | `with_suffix(".json.tmp")` is defined exactly when the path has a non-empty final name, differs from the path and ends in ".json.tmp" |
| `Store.TargetNeverPartial` | task_runner/state.py:38-48 | wherever an atomic write stops, the target holds its old document or the complete new one, never the partial temporary content, and no other file but the temporary one changes |
| `Store.FileStore.WriteAtomic` | task_runner/state.py:44-48 | the write succeeds exactly when the temporary path exists; then the target holds the content and the temporary file is gone; on failure nothing changes |
| `State.CheckPlan` | task_runner/state.py:32-35 | a plan is accepted exactly when it is an object holding a "tasks" array, and is returned unchanged |
| `State.LoadPlan` | task_runner/state.py:11-35 | a missing file fails (`FileNotFoundError`); otherwise the result is the check of the stored document |
| `State.SavePlan` | task_runner/state.py:38-48 | the plan is written through its temporary sibling and renamed over the target; the files afterwards are the completed atomic write |
| `State.FindTaskNo` | task_runner/state.py:64-68 | the first index from `i` whose task has the task_no, with every entry before it an object; -1 when every entry is an object without it; `None` (the `AttributeError` of `t.get`) exactly when a non-object entry comes before any match |
| `State.FindNotCompleted` | task_runner/state.py:71-75 | the first index from `i` whose task is an object not completed, or the length when all are completed; `None` (the `AttributeError`) when a non-object entry comes after only completed tasks |
| `State.FindStartIndex` | task_runner/state.py:51-75 | with a start task_no: its first index, or -1 when absent; otherwise the first task not completed, or the length; it raises (`None`) exactly when the search reaches an entry that is not an object |
| `State.PlanStats` | task_runner/state.py:78-98 | it raises (`None`) exactly when some entry is not an object; otherwise total is the task count and completed/failed/in_progress count the tasks with that status |
| `State.PlanStatsMeaning` | task_runner/state.py:89-97 | not_started counts the tasks with any other status (never negative) and remaining is failed + in_progress + not_started |
| `Durations.FormatElapsed` | task_runner/display/core.py:76-87 | the text ends in "s" and has an hours part exactly from one hour on and a minutes part exactly from one minute on |
| `Durations.ReadHours` | task_runner/display/core.py:82-83 | "Hh MMm SSs" reads back as 3600·H + 60·M + S |
| `Durations.ReadMinutes` | task_runner/display/core.py:84-85 | "Mm SSs" reads back as 60·M + S |
| `Durations.ReadSeconds` | task_runner/display/core.py:86-87 | "Ss" reads back as S |
| `Durations.FormatElapsedReadBack` | task_runner/display/core.py:76-87 | formatting loses only the fraction: the whole seconds read back from the text |
| `Runtime.MapChar` | task_runner/runtime.py:39 | the string of the same length with every `c` replaced by `d` |
| `Runtime.ReplaceCharIsMap` | task_runner/runtime.py:39 | `str.replace` of one character by one character is that character map |
| `Runtime.SafeNameChars` | task_runner/runtime.py:38-44 | the safe name has the task_no's length, '/' and '\' become '_', every other character is kept, and no separator is left |
| `Runtime.SafeNameCollision` | task_runner/runtime.py:38-44 | two task_nos get the same safe name exactly when they agree up to the choice among '/', '\' and '_' |
| `Runtime.SafeName` | task_runner/runtime.py:38-44 | its contract is carried by `Runtime.SafeNameChars` and `Runtime.SafeNameCollision` |
| `Runtime.FileNamesHaveNoSeparator` | task_runner/runtime.py:30-44 | prompt and log paths are the run directory, "/prompts/" or "/logs/", a separator-free name and "_task.md" or ".log" |
| `Runtime.PromptPath` | task_runner/runtime.py:38-40 | its contract is carried by `Runtime.FileNamesHaveNoSeparator` |
| `Runtime.LogPath` | task_runner/runtime.py:42-44 | its contract is carried by `Runtime.FileNamesHaveNoSeparator` and `Runtime.LogPathsDistinct` |
| `Runtime.LogPathsDistinct` | task_runner/runtime.py:42-44 | two tasks share a log path exactly when their safe names are equal |
| `Runtime.RunDirName` | task_runner/runtime.py:59-61 | the run directory name is the run id, "__" and the task set name |
| `Runtime.RunDir` | task_runner/runtime.py:57-61 | its contract is carried by `Runtime.RunDirsDistinct` |
| `Runtime.RunDirsDistinct` | task_runner/runtime.py:57-61 | within one project, two runs with same-length ids share a run directory only when they have the same id and task set |
| `Runtime.RunDirNameInjective` | task_runner/runtime.py:59-61 | run ids have one length, so a run directory name determines its run id and task set |
| `Runtime.SummaryStatus` | task_runner/runtime.py:112 | "completed" exactly when the failed count is missing or 0, "partial" otherwise |
| `Runtime.BackupTarget` | task_runner/runtime.py:123-134 | a backup is made exactly when the task set file exists, to runtime/backups/<name>_<stamp>.tasks.json |
| `TaskSets.CliToDict` | task_runner/task_set.py:21-27 | the per-task override serialises to at most the keys "tool" and "model", each present exactly when that value is a non-empty string |
| `TaskSets.CliFromDict` | task_runner/task_set.py:29-33 | a missing or falsy `cli` value reads as the empty override |
| `TaskSets.CliRoundTrip` | task_runner/task_set.py:21-33 | reading back a serialised override gives the override with empty strings normalised to absent |
| `TaskSets.TaskFromDict` | task_runner/task_set.py:72-85 | every missing key takes its documented default (batch 1, priority 50, status not-started, empty strings, no override) and the whole dictionary is kept as the raw record |
| `TaskSets.TaskToDict` | task_runner/task_set.py:51-70 | the six base fields always overwrite the raw record; prompt, cli and depends_on are written only when set and otherwise keep whatever the raw record held |
| `TaskSets.TaskToDictKeeps` | task_runner/task_set.py:53 | unknown keys of the raw record survive serialisation unchanged, and the key set is exactly raw keys plus the written fields |
| `TaskSets.FromDictCoherent` | task_runner/task_set.py:72-85 | a task read from a dictionary has its typed fields in agreement with its raw record |
| `TaskSets.ReadBackBase` | task_runner/task_set.py:51-85 | the six base fields survive a serialise-then-read |
| `TaskSets.ReadBackOptional` | task_runner/task_set.py:64-69 | prompt and depends_on survive a serialise-then-read up to empty-string normalisation |
| `TaskSets.ReadBackCli` | task_runner/task_set.py:66-67 | the override survives a serialise-then-read up to normalisation |
| `TaskSets.TaskRoundTrip` | task_runner/task_set.py:51-85 | `from_dict(to_dict(t))` has the same fields as `t` and its raw record is the serialised dictionary |
| `TaskSets.ToDictOfAgreeingRaw` | task_runner/task_set.py:53-70 | a task whose raw record already carries its field values serialises to exactly that record |
| `TaskSets.SaveLoadFixpoint` | task_runner/task_set.py:51-85 | after one load, save and load cycle the serialised task no longer changes |
| `TaskSets.TasksFromJson` | task_runner/task_set.py:107 | one task per element of the `tasks` list, in order |
| `TaskSets.TasksToJson` | task_runner/task_set.py:102 | one serialised dictionary per task, in order |
| `TaskSets.TaskSetFromDict` | task_runner/task_set.py:105-114 | the raw record is the document without "tasks", the template is the document's string template, the name and path are the given ones, and the task count matches the list |
| `TaskSets.TaskSetToDict` | task_runner/task_set.py:98-103 | the document is the raw record plus "tasks" plus the template when it is set, nothing else |
| `TaskSets.TaskSetRoundTrip` | task_runner/task_set.py:98-114 | reading back a written task set gives the same template, the same number of tasks with the same fields, and every raw key back |
| `TaskSets.WithDefaults` | task_runner/task_set.py:152-156 | a task's own tool and model win; an empty one is replaced by the project default when that default is set; nothing else in the task changes |
| `TaskSets.WithDefaultsCoherent` | task_runner/task_set.py:152-156 | filling defaults keeps a task coherent with its raw record |
| `TaskSets.FillDefaults` | task_runner/task_set.py:149-156 | with non-empty project defaults every task in the array becomes its default-filled version; otherwise the array is unchanged |
| `TaskSets.FilledTasks` | task_runner/task_set.py:149-156 | the same fill stated on a sequence: same length, each task default-filled exactly when the defaults are non-empty |
| `TaskSets.LoadTaskSet` | task_runner/task_set.py:129-158 | fails exactly when the `<name>.tasks.json` file is missing; otherwise returns the task set read from that file with defaults filled |
| `TaskSets.SaveTaskSet` | task_runner/task_set.py:161-174 | fails exactly when there is neither a stored path nor a project directory; otherwise writes the serialised set atomically to the stored path, or else to `<dir>/<name>.tasks.json`, and changes nothing on failure |
| `TaskSets.Count` | task_runner/task_set.py:202-204 | a count of matching tasks never exceeds the number of tasks |
| `TaskSets.CountPartition` | task_runner/task_set.py:202-205 | counts over four mutually exclusive and exhaustive predicates add up to the total |
| `TaskSets.TaskSetStats` | task_runner/task_set.py:198-214 | total, completed, failed and in-progress are the counts of tasks with those statuses |
| `TaskSets.TaskSetStatsMeaning` | task_runner/task_set.py:205-213 | not-started is the count of tasks with any other status, hence never negative, and remaining is failed plus in-progress plus not-started |
| `Projects.NumOr` | task_runner/project.py:70 | `cumulated_minutes` reads as the stored number, or 0 when the key is missing |
| `Projects.RunRecordFromDict` | task_runner/project.py:65-76 | every missing key of a run record takes its default: empty strings, 0 minutes and counts, status "running" |
| `Projects.RunRecordRoundTrip` | task_runner/project.py:53-76 | reading back a serialised run record gives the same record |
| `Projects.RunRecordToDict` | task_runner/project.py:53-63 | its contract is carried by `Projects.RunRecordRoundTrip` |
| `Projects.RecordsToJson` | task_runner/project.py:106 | one dictionary per run record, in order |
| `Projects.RecordsFromItems` | task_runner/project.py:111 | the run history reads when every element is an object, one record per element in order |
| `Projects.RecordsFromValue` | task_runner/project.py:111 | a missing `run_record` reads as the empty history |
| `Projects.RecordsRoundTrip` | task_runner/project.py:106-111 | reading back a serialised history gives the same history |
| `Projects.ConfigFromDict` | task_runner/project.py:109-123 | each missing key takes its default (status "planned", tool "copilot", model "claude-opus-4.6", empty strings and lists); the config remembers the given directory |
| `Projects.ConfigStringsReadBack` | task_runner/project.py:96-123 | project, workspace, description and status survive a write-then-read |
| `Projects.ConfigDefaultsReadBack` | task_runner/project.py:96-123 | created_at, default tool and model, tags and the history survive a write-then-read |
| `Projects.ConfigRoundTrip` | task_runner/project.py:96-123 | reading back a written config gives the same config with the given directory |
| `Projects.ConfigToDict` | task_runner/project.py:96-107 | its contract is carried by `Projects.ConfigRoundTrip`, `Projects.ConfigStringsReadBack` and `Projects.ConfigDefaultsReadBack` |
| `Projects.InitPathHasTmp` | task_runner/project.py:204-206 | `__init__.json` always has its `.json.tmp` sibling |
| `Projects.SaveProject` | task_runner/project.py:201-210 | the config is written atomically to `__init__.json` in its own directory, or else in the directory named after the project |
| `Projects.LoadProject` | task_runner/project.py:187-198 | a missing `__init__.json` is an error; a loaded config remembers the project's directory |
| `Projects.SaveThenLoad` | task_runner/project.py:187-210 | loading a project right after saving it gives back the saved config |
| `Projects.AddRunRecord` | task_runner/project.py:279-282 | the record is appended at the end of the history, the older records and every other field are unchanged, and the updated config is saved |
| `Projects.UpdateProjectStatus` | task_runner/project.py:285-288 | only the status changes, and the updated config is saved |
| `Renderer.WordLen` | task_runner/renderer.py:39 | the `\w+` run at the start of a string is the longest prefix of word characters |
| `Renderer.SubKeysNoKeys` | task_runner/renderer.py:39 | a template without `{{key}}` placeholders passes the key substitution unchanged |
| `Renderer.WordLenOfKey` | task_runner/renderer.py:39 | the word run of `key}}...` stops exactly at the closing braces |
| `Renderer.SubKeysPlaceholder` | task_runner/renderer.py:32-39 | a leading `{{key}}` is replaced by the text of the key's value and substitution continues after it |
| `Renderer.SubKeysPlainPrefix` | task_runner/renderer.py:39 | text without a brace is copied through by the key substitution |
| `Renderer.SubKeys` | task_runner/renderer.py:32-39 | its contract is carried by `Renderer.SubKeysNoKeys`, `Renderer.SubKeysPlaceholder` and `Renderer.SubKeysPlainPrefix` |
| `Renderer.ReplacePlainPrefix` | task_runner/renderer.py:43 | text without a `#` is copied through by the `#item` replacement |
| `Renderer.ReplaceMarker` | task_runner/renderer.py:43 | a leading `#item` is replaced and replacement continues after it |
| `Renderer.RenderItems` | task_runner/renderer.py:29-45 | a template made of plain pieces joined by `#item` renders to the pieces joined by the task's JSON |
| `Renderer.Render` | task_runner/renderer.py:13-45 | its contract is carried by `Renderer.RenderItems`, `Renderer.RenderUnchanged`, `Renderer.RenderLoneKey`, `Renderer.MissingKeyEmpty` and `Renderer.ItemAfterKeys` |
| `Renderer.NoBraceJoin` | task_runner/renderer.py:39 | joining brace-free pieces with `#item` gives a brace-free string |
| `Renderer.ReplaceJoin` | task_runner/renderer.py:43 | replacing `#item` in pieces joined by it gives the pieces joined by the replacement |
| `Renderer.RenderUnchanged` | task_runner/renderer.py:29-45 | a template with neither placeholder renders to itself |
| `Renderer.SpacedKeyUntouched` | task_runner/renderer.py:39 | `{{ key }}` with spaces is not a placeholder and is left as written |
| `Renderer.RenderLoneKey` | task_runner/renderer.py:32-43 | a lone `{{key}}` renders to the key's text, in which any `#item` is then replaced by the task's JSON |
| `Renderer.MissingKeyEmpty` | task_runner/renderer.py:34 | a key the task lacks renders as the empty string |
| `Renderer.NoneRendersNone` | task_runner/renderer.py:37 | a null value renders as Python's `str(None)`, "None" |
| `Renderer.ItemAfterKeys` | task_runner/renderer.py:39-43 | a value that is itself the text `#item` is expanded in the second pass, because keys are substituted first |
| `ResetCommand.Positions` | task_runner/commands/reset_cmd.py:56 | the starting target list is every task, in file order |
| `ResetCommand.Filter` | task_runner/commands/reset_cmd.py:56-65 | a task stays a target exactly when it is in the requested batch (if any) and has the requested status (if any) |
| `ResetCommand.Targets` | task_runner/commands/reset_cmd.py:56-80 | the targets, when there are any, are valid task positions |
| `ResetCommand.TargetsMissing` | task_runner/commands/reset_cmd.py:67-79 | with `--from`, the command fails exactly when no filtered task has the given task number |
| `ResetCommand.TargetsFromAnchor` | task_runner/commands/reset_cmd.py:67-80 | with `--from`, the targets are sorted by (batch, priority), start at the first matching anchor in that order, and are exactly the filtered tasks from the anchor onward |
| `ResetCommand.KeepDistinct` | task_runner/commands/reset_cmd.py:61-65 | filtering a list without repeated tasks gives a list without repeated tasks |
| `ResetCommand.TargetsDistinct` | task_runner/commands/reset_cmd.py:56-80 | no task is a target twice |
| `ResetCommand.CleanTestAsWritten` | task_runner/commands/reset_cmd.py:94 | as written, the clean test raises exactly for a "not-started" task without the `elapsed_seconds` attribute, and otherwise agrees with the intended test |
| `ResetCommand.LoadedNotStartedAsWritten` | task_runner/commands/reset_cmd.py:94 | a loaded task without a status makes the as-written test raise, while the intended test counts it clean and leaves it unchanged |
| `ResetCommand.ResetTask` | task_runner/commands/reset_cmd.py:93-100 | a target ends "not-started" with no elapsed time; a clean one is untouched; any other has its status, elapsed time and last run cleared and nothing else changed |
| `ResetCommand.ResetAll` | task_runner/commands/reset_cmd.py:93-100 | resetting the targets keeps the number of tasks |
| `ResetCommand.DirtyCount` | task_runner/commands/reset_cmd.py:91-100 | the reset count never exceeds the number of targets |
| `ResetCommand.ResetAllEffect` | task_runner/commands/reset_cmd.py:93-100 | after the loop each target is its reset version and every other task is unchanged |
| `ResetCommand.ResetLoop` | task_runner/commands/reset_cmd.py:91-100 | the loop leaves the task array as the specification says, its reset count is the number of targets that were not clean, and reset plus already-clean is the number of targets |
| `ResetCommand.ResetOutcome` | task_runner/commands/reset_cmd.py:93-100 | every target ends "not-started" with no elapsed time, clean targets keep every field, dirty ones lose only status, elapsed time and last run, and non-targets are unchanged |
| `TaskSets.TaskSetPathHasTmp` | task_runner/task_set.py:164-168 | `<name>.tasks.json` always has its `.json.tmp` sibling |
| `TaskSets.SavedFiles` | task_runner/task_set.py:159-174 | after `save_task_set` the task-set file holds the saved set, and no file except its temporary sibling changed |
| `ResetCommand.ApplyReset` | task_runner/commands/reset_cmd.py:55-107 | exit 1 exactly when the `--from` anchor is missing, else exit 0; the files change only when at least one target was dirty, and then to the saved reset set |
| `ResetCommand.ResetSpecCases` | task_runner/commands/reset_cmd.py:19-53 | without `--all`, `--status` or `--from` the command exits 1 and writes nothing; any exit 1 writes nothing; the exit code is 0 or 1 |
| `ResetCommand.ResetSpec` | task_runner/commands/reset_cmd.py:13-133 | its contract is carried by `ResetCommand.ResetSpecCases` and `ResetCommand.HandleReset` |
| `ResetCommand.HandleReset` | task_runner/commands/reset_cmd.py:13-107 | the command's exit code and files are those of the specification, with a missing project or task set exiting 1 |
| `ResetCommand.ResetAndSave` | task_runner/commands/reset_cmd.py:55-107 | the target selection, the loop and the save leave the exit code and files the specification gives |
| `RunCommand.RunModel` | task_runner/commands/run_cmd.py:71-74 | a tool without model support runs with no model; otherwise the given model, or the tool's default when none was given and the tool has one |
| `RunCommand.RunModelListed` | task_runner/commands/run_cmd.py:59-74 | for any configured tool, a model that passes validation resolves to one of the tool's listed models exactly when the tool supports models |
| `RunCommand.UseProxyReachesChild` | task_runner/commands/run_cmd.py:108-115 | the child process gets the proxy exactly when the mode is "on", or it is not "off" and the tool needs the proxy |
| `RunCommand.Heartbeat` | task_runner/commands/run_cmd.py:125-138 | verbose mode caps the heartbeat interval at 15 seconds; otherwise the interval is the given one |
| `RunCommand.ResultsOf` | task_runner/executor.py:329-330 | the results hold succeeded, failed, skipped and attempted, with attempted = succeeded + failed |
| `RunCommand.FinalRecord` | task_runner/commands/run_cmd.py:213-221 | the finished record keeps its start and task set, takes the stop time and minutes, reads "completed" exactly when nothing failed, and copies the counts |
| `RunCommand.FinalRecordOfRun` | task_runner/commands/run_cmd.py:206-221 | a run that exits 0 is recorded "completed", a "partial" one exited 1, and the recorded attempts are successes plus failures |
| `RunCommand.Saved` | task_runner/project.py:201-210 | after a save the project's `__init__.json` holds the config |
| `RunCommand.Started` | task_runner/commands/run_cmd.py:166-175 | starting a run appends its record to the history and turns a "planned" project "active"; nothing else changes |
| `RunCommand.Outcomes` | task_runner/executor.py:1065 | one child-process result (exit code and elapsed time) is supplied for each scheduled task the loop runs |
| `RunCommand.WithProject` | task_runner/commands/run_cmd.py:47-70 | an unknown tool or a model the tool does not list exits 1 and writes nothing |
| `RunCommand.Completed` | task_runner/commands/run_cmd.py:206-227 | the command returns the executor's exit code; the task-set file holds the loop's final tasks when the loop saved, and the final run record replaces the running one |
| `RunCommand.TaskSetFileApart` | task_runner/task_set.py:164 | the task-set file is neither the project's `__init__.json` nor that file's temporary sibling |
| `RunCommand.SavedKeepsTaskSet` | task_runner/project.py:201-210 | saving the project leaves the task-set file as it was |
| `RunCommand.CompletedTaskSetFile` | task_runner/executor.py:1037-1168 | after the run the task-set file holds exactly the loop's final tasks when the loop saved, and is unchanged otherwise |
| `RunCommand.LaunchTaskSetFile` | task_runner/executor.py:1037-1168 | the file holds the loop's final tasks after a saving run; a run that never saved (every dry run among them) leaves both the tasks and the file as loaded |
| `RunCommand.LoopExitAgrees` | task_runner/commands/run_cmd.py:206-218 | when the executor exits 0 no task failed, so the status written is "completed" |
| `RunCommand.SavedLoads` | task_runner/project.py:187-210 | a saved project loads back as saved |
| `RunCommand.StartedLoads` | task_runner/commands/run_cmd.py:166-175 | after the start-of-run saves the project loads with the running record appended |
| `RunCommand.CompletedHistory` | task_runner/commands/run_cmd.py:166-222 | after a run the project loads with exactly one new record, carrying the run id, task set and stop time, status "completed" or "partial" ("completed" when the run exits 0), and attempts equal to successes plus failures |
| `RunCommand.RaisedHistory` | task_runner/commands/run_cmd.py:166-183 | a bad `--delay` raises after the run record was saved, leaving the project with a record still "running" |
| `RunCommand.Execute` | task_runner/commands/run_cmd.py:33-227 | the command's exit code, raised error and files are those of the specification (`RunCommand.ExecuteSpec`): exit 1 for a missing project, unknown tool, unlisted model or missing task set, exit 0 when nothing is scheduled, otherwise the loop's exit code with the task set and project written back |
| `RunCommand.ExecuteSpec` | task_runner/commands/run_cmd.py:33-227 | its contract is carried by `RunCommand.Execute` (the method computes it), `RunCommand.CompletedHistory` and `RunCommand.LaunchTaskSetFile` |
| `RunCommand.ExecuteWithTool` | task_runner/commands/run_cmd.py:76-106 | a missing task set exits 1 and an empty schedule exits 0, both without writing; otherwise the run proceeds as `RunCommand.LaunchRun` specifies |
| `RunCommand.LaunchRun` | task_runner/commands/run_cmd.py:108-227 | the run record is started, the delay parsed (a bad value raises the parser's error) and the executor run, after which the task-set and project files are those `RunCommand.Launch` gives |
| `RunCommand.StartRun` | task_runner/commands/run_cmd.py:165-175 | the project gets the running record and, if it was "planned", the status "active", and is saved after each change |
| `RunCommand.FinishRun` | task_runner/commands/run_cmd.py:185-222 | the exit code is the executor loop's; the task-set file is rewritten with the loop's tasks when the loop saved, and the project file holds the final record in place of the running one |
| `Scheduling.KeyLtTransitive` | task_runner/scheduler.py:29 | the (batch, priority, original position) order is transitive |
| `Scheduling.Insert` | task_runner/scheduler.py:29 | inserting a position into a sorted list keeps it sorted and adds exactly that position |
| `Scheduling.SortUpTo` | task_runner/scheduler.py:29 | the first n positions sort into a list that holds exactly them, in key order |
| `Scheduling.SortedPositions` | task_runner/scheduler.py:26-29 | the stable sort by (batch, priority) is a key-ordered list of every task exactly once |
| `Scheduling.SortedIndexOrder` | task_runner/scheduler.py:29 | in a key-sorted list, one entry comes before another exactly when its key is smaller |
| `Scheduling.SortedUnique` | task_runner/scheduler.py:29 | two key-sorted lists of the same positions are equal, so the stable sort has one answer |
| `Scheduling.Keep` | task_runner/scheduler.py:33-45 | a list filter keeps exactly the entries whose task passes, in the same order |
| `Scheduling.Filtered` | task_runner/scheduler.py:26-45 | after sorting and the batch, priority, status and retry filters, the list is sorted and holds exactly the passing tasks |
| `Scheduling.KeepIf` | task_runner/scheduler.py:32-45 | a filter that is switched off keeps the list; one that is on keeps the passing entries |
| `Scheduling.FirstWithNo` | task_runner/scheduler.py:49-55 | the scan stops at the first entry with the anchor task number, or at the end when there is none |
| `Scheduling.StartFrom` | task_runner/scheduler.py:48-58 | the start-from loop keeps the anchor and everything after it, or the whole list when the anchor is absent |
| `Scheduling.ScheduleTasks` | task_runner/scheduler.py:12-60 | the scheduled list is the specification's, in key order |
| `Scheduling.ScheduledSorted` | task_runner/scheduler.py:12-60 | the schedule is in (batch, priority, original order) |
| `Scheduling.SortedSuffix` | task_runner/scheduler.py:48-57 | a suffix of a sorted list is sorted |
| `Scheduling.ScheduleWithoutFilters` | task_runner/scheduler.py:26-60 | with no filter every task is scheduled, sorted |
| `Scheduling.FiltersAreConjunctive` | task_runner/scheduler.py:31-45 | applying the filters one after another equals keeping the tasks that pass all of them |
| `Scheduling.FromAnchorMembers` | task_runner/scheduler.py:48-57 | the list from an anchor holds exactly the anchor and the entries after it in key order |
| `Scheduling.ScheduledMembers` | task_runner/scheduler.py:12-60 | with a found anchor the schedule is exactly the passing tasks from the anchor onward; with none it is every passing task |
| `Scheduling.DepMapKeys` | task_runner/scheduler.py:68 | the task map's keys are exactly the task numbers |
| `Scheduling.IterAdd` | task_runner/scheduler.py:81-99 | following dependencies a + b steps is following a steps then b |
| `Scheduling.NoneStays` | task_runner/scheduler.py:81-99 | once the dependency chain has ended it stays ended |
| `Scheduling.CycleNeverEnds` | task_runner/scheduler.py:81-99 | a chain that returns to its start never ends |
| `Scheduling.SafeStep` | task_runner/scheduler.py:93-99 | a task is cycle-free when its dependency is absent or cycle-free |
| `Scheduling.AllSafeNoCycle` | task_runner/scheduler.py:101-103 | when every task is cycle-free the dependency graph has no cycle |
| `Scheduling.PathSet` | task_runner/scheduler.py:79 | the in-stack set is the set of the current path |
| `Scheduling.ChainExtend` | task_runner/scheduler.py:93-94 | following a dependency extends the current path |
| `Scheduling.ChainIter` | task_runner/scheduler.py:93-94 | m steps from a path entry reach the entry m places later |
| `Scheduling.PathCycle` | task_runner/scheduler.py:83-84 | reaching a task already on the path is a real cycle |
| `Scheduling.CycleMsgShape` | task_runner/scheduler.py:95 | the cycle message has the documented form |
| `Scheduling.DanglingErrorAt` | task_runner/scheduler.py:72-75 | a task reports an error exactly when it names a dependency that is not a task number, with the documented message |
| `Scheduling.DanglingErrorsEmpty` | task_runner/scheduler.py:71-75 | there are no missing-reference errors exactly when no task has a dangling dependency |
| `Scheduling.DanglingPrefixEmpty` | task_runner/scheduler.py:71-75 | no errors over a prefix means no dangling task in it |
| `Scheduling.DanglingWitness` | task_runner/scheduler.py:71-75 | an error implies some task has a dangling dependency |
| `Scheduling.DanglingReported` | task_runner/scheduler.py:71-75 | every dangling task's message is among the errors |
| `Scheduling.DependencyChecker.constructor` | task_runner/scheduler.py:67-79 | the checker starts with empty visited and in-stack sets and no cycle reports |
| `Scheduling.DependencyChecker.Dfs` | task_runner/scheduler.py:81-99 | a reported cycle is a real cycle; no report means the task is cycle-free and the stack is as before; a reported cycle adds a message; visited only grows |
| `Scheduling.DependencyChecker.Visit` | task_runner/scheduler.py:90-99 | visiting a new task marks it visited and keeps the Dfs guarantees |
| `Scheduling.DependencyChecker.Follow` | task_runner/scheduler.py:93-99 | following the dependency either reports a real cycle or pops the task, now known cycle-free |
| `Scheduling.DependencyChecker.Push` | task_runner/scheduler.py:90-91 | the task enters visited and the stack and nothing else changes |
| `Scheduling.DependencyChecker.Pop` | task_runner/scheduler.py:98 | the task leaves the stack and nothing else changes |
| `Scheduling.DependencyChecker.Unwind` | task_runner/scheduler.py:94-96 | a cycle report is appended for the task and it stays on the stack |
| `Scheduling.PushPreserves` | task_runner/scheduler.py:90-91 | pushing keeps the search invariant |
| `Scheduling.LeafPreserves` | task_runner/scheduler.py:90-99 | a task without a dependency is pushed and popped keeping the invariant |
| `Scheduling.PopPreserves` | task_runner/scheduler.py:98 | popping a cycle-free task keeps the invariant |
| `Scheduling.UnwindPreserves` | task_runner/scheduler.py:94-96 | unwinding after a cycle keeps the invariant |
| `Scheduling.FindCycles` | task_runner/scheduler.py:77-103 | the search reports some cycle exactly when the dependency graph has one |
| `Scheduling.ReportDangling` | task_runner/scheduler.py:70-75 | the missing-reference loop appends exactly the dangling messages in task order |
| `Scheduling.DanglingStep` | task_runner/scheduler.py:71-75 | one loop iteration appends that task's message, if any |
| `Scheduling.CycleMsgs` | task_runner/scheduler.py:95 | one cycle message per reported task, in order |
| `Scheduling.CycleMsgsAreCycleMsgs` | task_runner/scheduler.py:95 | every cycle report has the cycle-message form |
| `Scheduling.ReportCycles` | task_runner/scheduler.py:95 | the cycle messages are appended in order |
| `Scheduling.CycleMsgsStep` | task_runner/scheduler.py:95 | one report appends one message |
| `Scheduling.ValidateDependencies` | task_runner/scheduler.py:63-105 | the result is valid exactly when no dependency dangles and there is no cycle; the missing-reference errors come first, in task order, then at least one cycle message when there is a cycle; no warnings |
| `Scheduling.NamesOfAppend` | task_runner/scheduler.py:119 | the task numbers of a concatenation are those of its parts |
| `Scheduling.LastPerNo` | task_runner/scheduler.py:119 | the task map keeps one task per task number, covering every number |
| `Scheduling.LastPerNoKeepsLast` | task_runner/scheduler.py:119 | for a duplicated task number the later task in sorted order wins the map |
| `Scheduling.WinnersMeaning` | task_runner/scheduler.py:116-122 | the tasks the plan works on are sorted, one per task number, cover every number, and are all tasks when numbers are distinct |
| `Scheduling.Winners` | task_runner/scheduler.py:116-122 | its contract is carried by `Scheduling.WinnersMeaning` and `Scheduling.DistinctWinnersOnce` |
| `Scheduling.InsertByNo` | task_runner/scheduler.py:138 | inserting into a list sorted by task number keeps it sorted and adds the entry |
| `Scheduling.SortByNo` | task_runner/scheduler.py:138 | the fallback wave is sorted by task number and is a permutation of the pending tasks |
| `Scheduling.Flatten` | task_runner/scheduler.py:121-144 | the waves flatten in order |
| `Scheduling.FlattenValid` | task_runner/scheduler.py:121-144 | the flattened waves are valid task positions |
| `Scheduling.AppendWave` | task_runner/scheduler.py:144 | appending a wave keeps the earlier waves and their readiness and maximality |
| `Scheduling.KeepSplit` | task_runner/scheduler.py:130-134 | a filter by a disjoint or splits into the two filters as multisets |
| `Scheduling.WaveSplit` | task_runner/scheduler.py:130-148 | the remaining tasks split into the new wave and what stays remaining |
| `Scheduling.Pending` | task_runner/scheduler.py:122-148 | the pending tasks are valid positions |
| `Scheduling.PlanStart` | task_runner/scheduler.py:119-125 | the loop invariant holds before the first wave |
| `Scheduling.PlanGuard` | task_runner/scheduler.py:124-127 | the iteration cap is never what stops the loop while tasks remain |
| `Scheduling.PlanStep` | task_runner/scheduler.py:127-148 | a non-empty ready wave keeps the invariant and shrinks the pending tasks |
| `Scheduling.PlanStepCounts` | task_runner/scheduler.py:143-148 | after a wave the completed numbers are those placed so far and placed plus pending is every task once |
| `Scheduling.NewWave` | task_runner/scheduler.py:130-144 | every wave is non-empty, in (batch, priority) order, holds only tasks whose dependency was met earlier, and holds every task that was ready |
| `Scheduling.FallbackWave` | task_runner/scheduler.py:136-140 | when nothing is ready the last wave is the pending tasks sorted by task number, each of them stuck, and all tasks are placed |
| `Scheduling.PlanFallback` | task_runner/scheduler.py:136-140 | the fallback completes a valid execution plan |
| `Scheduling.PlanFinish` | task_runner/scheduler.py:127-150 | when nothing remains the waves are a valid execution plan |
| `Scheduling.SortedCount` | task_runner/scheduler.py:117 | a sorted list holds each task at most once |
| `Scheduling.FlattenFront` | task_runner/scheduler.py:121-144 | the flattened waves start with the first wave |
| `Scheduling.FlattenLength` | task_runner/scheduler.py:121-144 | non-empty waves flatten to at least as many tasks as waves |
| `Scheduling.NoDependenciesOneWave` | task_runner/scheduler.py:108-150 | without dependencies the plan has at most one wave, and that wave holds every task (one per task number) exactly once, in (batch, priority) order; no wave for no tasks |
| `Scheduling.FirstWaveAll` | task_runner/scheduler.py:130-144 | without dependencies the plan is the single first wave, holding exactly the tasks that win their task number |
| `Scheduling.OnlyOneWave` | task_runner/scheduler.py:127-148 | a first wave holding every task is the only wave |
| `Scheduling.EveryTaskOnce` | task_runner/scheduler.py:108-150 | with distinct task numbers every task appears in exactly one wave exactly once |
| `Scheduling.DistinctWinnersOnce` | task_runner/scheduler.py:119 | with distinct task numbers every task wins the map |
| `Scheduling.ExecutionPlan` | task_runner/scheduler.py:108-150 | the waves form a valid execution plan over one task per task number: ready waves in (batch, priority) order, then at most one stuck fallback wave sorted by task number, every task placed once; no waves exactly for no tasks |
| `Scheduling.PendingNonEmpty` | task_runner/scheduler.py:127-138 | while numbers remain some task is pending |
| `Scheduling.NoneReady` | task_runner/scheduler.py:136 | an empty ready wave means no pending task is ready |
| `Scheduling.KeepNone` | task_runner/scheduler.py:130-134 | a filter nothing passes gives the empty list |
| `Validators.ValidationResult.constructor` | task_runner/validators.py:11-16 | a new result has no errors and no warnings |
| `Validators.ValidationResult.AddError` | task_runner/validators.py:22-23 | the message is appended to the errors; warnings are unchanged |
| `Validators.ValidationResult.AddWarning` | task_runner/validators.py:25-26 | the message is appended to the warnings; errors, and so validity, are unchanged |
| `Validators.ValidationResult.Merge` | task_runner/validators.py:28-30 | the other result's errors and warnings are appended in order; the merged result is valid exactly when both were |
| `Validators.EntryErrorsUnfold` | task_runner/validators.py:147-168 | a non-object entry gives only the not-an-object error; an object gives its task-number errors then its status errors |
| `Validators.ValidateTaskSetFile` | task_runner/validators.py:125-170 | the errors and warnings are those of the specification, in order |
| `Validators.CheckEntry` | task_runner/validators.py:147-168 | one loop iteration appends that entry's errors and warnings and records its task number as seen |
| `Validators.CheckTaskNo` | task_runner/validators.py:152-158 | a missing or falsy task number is an error, one equal in Python's sense to an earlier one a duplicate error, and a new one is added to the seen set by its hash key |
| `Validators.HashKey` | task_runner/validators.py:146-158 | booleans, integers and floats map to their real value (so `true`, `1` and `1.0` collide, as in a Python set); every other value is its own key |
| `Validators.HashKeyTruthy` | task_runner/validators.py:152-155 | values a Python set treats as equal are equally truthy, so a falsy task number never collides with a seen one |
| `Validators.CheckTaskStatus` | task_runner/validators.py:163-168 | a status outside the five valid task statuses, defaulting to "not-started", appends the invalid-status error |
| `Validators.SeenNosMeaning` | task_runner/validators.py:146-158 | a task number's key is in the seen set exactly when an earlier object entry had an equal task number |
| `Validators.SeenNosStep` | task_runner/validators.py:155-158 | each entry adds its truthy task number to the seen set |
| `Validators.EntryErrorsEmpty` | task_runner/validators.py:147-168 | an entry gives no error exactly when it is an object with a new task number and a valid status |
| `Validators.EntriesErrorsEmpty` | task_runner/validators.py:146-168 | the loop gives no error exactly when every entry is good |
| `Validators.EntriesErrorsStep` | task_runner/validators.py:147-168 | the loop is error-free up to n exactly when it was up to n - 1 and entry n - 1 is error-free |
| `Validators.GoodEntriesStep` | task_runner/validators.py:147-168 | the entries are good up to n exactly when they were up to n - 1 and entry n - 1 is good |
| `Validators.FirstOccurrenceWins` | task_runner/validators.py:155-158 | of two entries with task numbers equal in Python's sense, the first is accepted and the later one is reported as a duplicate with its own value |
| `Validators.OneAndTrueCollide` | task_runner/validators.py:155-156 | a task_no `1` followed by a task_no `true` draws "Duplicate task_no: 'True'" and the list is rejected |
| `Validators.InterruptedStatusRejected` | task_runner/validators.py:163-168 | a task marked "interrupted", a status the executor itself writes, makes the task set invalid |
| `Validators.TaskSetFileOk` | task_runner/validators.py:125-170 | the file is valid exactly when it is an object whose "tasks" is a list of good entries; a non-object, a missing or a non-list "tasks" gives exactly one error and no warning; an empty list gives only the no-tasks warning |
| `Validators.ValidateInitJson` | task_runner/validators.py:38-70 | a non-object gives the single not-an-object error; otherwise one missing-field error per absent required key, then the status, workspace and `run_record` errors, and the name-mismatch warning |
| `Validators.CheckProjectStatus` | task_runner/validators.py:56-60 | a status outside the four project statuses, defaulting to "planned", appends the invalid-status error |
| `Validators.CheckWorkspace` | task_runner/validators.py:62-64 | a non-empty relative workspace appends the absolute-path error |
| `Validators.InitOk` | task_runner/validators.py:38-70 | `__init__.json` is valid exactly when it is an object with "project" and "workspace", a valid status, an empty or absolute workspace and a list run record; there is at most one warning |
| `Executor.FirstIndex` | task_runner/executor.py:99 | `split("-", 1)` splits at the first dash |
| `Executor.ParseRangeParts` | task_runner/executor.py:98-108 | a parsed range has its lower bound at most its upper bound |
| `Executor.ParseDelayRange` | task_runner/executor.py:82-118 | no value gives the default (60, 120); any parsed range is ordered |
| `Executor.DelayWithoutDash` | task_runner/executor.py:94-118 | every value without a dash is accepted exactly when it reads as an integer, which is the fixed delay (never negative); otherwise the invalid-value error |
| `Executor.DelayWithDash` | task_runner/executor.py:94-108 | every value `A-B` with no dash in A splits after A and is accepted exactly when both sides read as non-negative integers, giving (min, max); an unreadable side is the invalid-range error |
| `Executor.NatStringFacts` | task_runner/executor.py:101-111 | a decimal numeral is stripped, has no dash and parses back to its value |
| `Executor.DelayFixed` | task_runner/executor.py:95-118 | a single number n gives the fixed delay (n, n), with "0" giving (0, 0) |
| `Executor.SplitAfterDigits` | task_runner/executor.py:98-101 | a value with a dash after a numeral splits into that numeral and the rest |
| `Executor.DelayPair` | task_runner/executor.py:98-108 | "a-b" gives (min(a, b), max(a, b)) |
| `Executor.DelayNegativeUpper` | task_runner/executor.py:98-107 | "a--b" reads b as negative and is rejected with the non-negative-values error |
| `Executor.DoubleDash` | task_runner/executor.py:99 | a double dash splits into the first part and a negative second part |
| `Executor.NegativeValueUnreachable` | task_runner/executor.py:110-117 | the single-value negative check can never fire, because a value with a dash takes the range branch |
| `Executor.DelayLeadingMinus` | task_runner/executor.py:98-105 | "-n" splits into an empty first part and is rejected as an invalid range |
| `Executor.NeedsProxy` | task_runner/executor.py:506-520 | "on" always and "off" never gives the proxy; otherwise the task's tool decides, and without one the run-level setting |
| `Executor.LowerKey` | task_runner/executor.py:526 | lower-casing maps every character and keeps the length |
| `Executor.LoweredProxyKeys` | task_runner/executor.py:526 | the lowered list has one lowered entry per proxy variable |
| `Executor.ProxyKeyCaseInsensitive` | task_runner/executor.py:522-529 | a variable is removed exactly when its lowered name is a lowered proxy variable name |
| `Executor.ProxyKeySameLower` | task_runner/executor.py:526 | two names with the same lowered form are treated alike |
| `Executor.ProxyKeyLength` | task_runner/config.py:99-110 | every removed proxy variable name has 8 to 11 characters |
| `Executor.ProxyEnvKeyLength` | task_runner/config.py:99-110 | every listed proxy variable has 8 to 11 characters |
| `Executor.MakeEnv` | task_runner/executor.py:506-530 | with the proxy the environment is copied unchanged; without it exactly the proxy variables, in any letter case, are dropped and every other value is kept |
| `Executor.ReplaceSkip` | task_runner/executor.py:538-540 | replacement copies text that cannot start the pattern |
| `Executor.ReplaceHit` | task_runner/executor.py:538-540 | a leading pattern is replaced and replacement continues after it |
| `Executor.ReplaceAbsent` | task_runner/executor.py:538-540 | text without the pattern's first character is unchanged |
| `Executor.FillPlaceholder` | task_runner/executor.py:538-540 | a single placeholder between placeholder-free text is replaced in place |
| `Executor.BuildWithoutModel` | task_runner/executor.py:532-541 | a template with only `{task_file}` becomes the template with the prompt path in its place, whatever the model |
| `Executor.KimiCommand` | task_runner/config.py:26-95 | kimi's command is `kimi --quiet --yolo -p "$(cat <file>)"` |
| `Executor.KimiTemplateParts` | task_runner/config.py:26-95 | kimi's template has no brace outside its placeholder |
| `Executor.ReplaceSkipOne` | task_runner/executor.py:538-540 | a character that does not start a match is copied |
| `Executor.FillAfterOther` | task_runner/executor.py:538-540 | a placeholder after an already-filled different one is replaced in place |
| `Executor.BuildWithModel` | task_runner/executor.py:532-541 | a template with `{model}` then `{task_file}` gets the model and the prompt path in place |
| `Executor.BuildCommand` | task_runner/executor.py:532-541 | its contract is carried by `Executor.BuildWithoutModel`, `Executor.BuildWithModel`, `Executor.KimiCommand` and `Executor.CopilotCommand` |
| `Executor.CopilotCommand` | task_runner/config.py:26-95 | copilot's command is `copilot --silent --yolo --model <model> -p "$(cat <file>)"` |
| `Executor.CopilotTemplateParts` | task_runner/config.py:26-95 | copilot's template has no brace outside its placeholders |
| `Executor.SignalCounter.constructor` | task_runner/executor.py:422-424 | no signal has been seen and the run is not interrupted |
| `Executor.SignalCounter.OnSignal` | task_runner/executor.py:426-441 | each signal counts, marks the run interrupted and takes the action for its number |
| `Executor.Actions` | task_runner/executor.py:426-441 | one action per signal |
| `Executor.SecondSignalForcesExit` | task_runner/executor.py:435-441 | the first signal kills the child and every later one forces exit status 130 |
| `Executor.TaskTool` | task_runner/executor.py:1020-1028 | the run's tool is used unless the command line did not name one and the task names a known tool, which then wins |
| `Executor.TaskModel` | task_runner/executor.py:1021-1030 | the run's model is used unless the command line did not name one and the task names one, which then wins |
| `Executor.Classify` | task_runner/executor.py:1072-1162 | an interrupt wins, then a timeout; a task succeeds exactly when it exited 0 after at least 10 seconds |
| `Executor.ShortRunReasonIgnoresExitCode` | task_runner/executor.py:1187-1191 | a run under 10 seconds is reported as too fast whatever its exit code; a longer one reports its exit code |
| `Executor.FailureReason` | task_runner/executor.py:1187-1191 | its contract is carried by `Executor.ShortRunReasonIgnoresExitCode` |
| `Executor.ShouldDelay` | task_runner/executor.py:545-569 | its contract is carried by `RunLoop.FinishCounts` and `RunLoop.RunCounters`: a delay only after a success, at most one per success |
| `Executor.DelaySeconds` | task_runner/executor.py:572 | the drawn delay lies between the lower bound and the larger of the bounds |
| `LogSanitizer.ParamsEnd` | task_runner/executor.py:125-127 | the `[0-9;]*` run of an escape sequence is its longest parameter prefix |
| `LogSanitizer.FindBel` | task_runner/executor.py:126 | the search finds the first BEL at or after the position, or reports there is none |
| `LogSanitizer.AnsiMatchLen` | task_runner/executor.py:124-129 | a carriage return is a one-character match; only an escape or a carriage return can start a match; a match stays inside the text |
| `LogSanitizer.StripAnsiFrom` | task_runner/executor.py:170 | stripping never lengthens the text, removes every carriage return, and leaves text without escapes or carriage returns unchanged |
| `LogSanitizer.StripAnsi` | task_runner/executor.py:124-129 | the stripped text has no carriage return, is no longer, and equals the input when there is nothing to strip |
| `LogSanitizer.SkipSpaces` | task_runner/executor.py:141-150 | the `\s*` run is the longest whitespace prefix |
| `LogSanitizer.SearchFinds` | task_runner/executor.py:141-142 | an error phrase at any later position is found by the search |
| `LogSanitizer.PeerClosedOpensBlock` | task_runner/executor.py:140-150 | a line that is single-line peer-closed noise also opens a noise block, so the single-line check never sees it |
| `LogSanitizer.KindOfUnfold` | task_runner/executor.py:176-195 | each line is classified as blank, block start, block end and single-line noise on its stripped text |
| `LogSanitizer.Kinds` | task_runner/executor.py:176-177 | one classification per line |
| `LogSanitizer.StepKept` | task_runner/executor.py:176-200 | each line is kept or dropped, nothing else |
| `LogSanitizer.StepAppends` | task_runner/executor.py:195-200 | a blank line right after a kept blank line is never kept |
| `LogSanitizer.PrevBlankIsLastKept` | task_runner/executor.py:195-198 | `prev_blank` says whether the last kept line was blank |
| `LogSanitizer.AppendIncreasing` | task_runner/executor.py:200 | kept lines stay in input order |
| `LogSanitizer.ScanFacts` | task_runner/executor.py:172-200 | the kept lines are in input order, come from the lines seen, and `prev_blank` tracks the last kept line |
| `LogSanitizer.Pick` | task_runner/executor.py:200-202 | picking lines by position keeps their order |
| `LogSanitizer.KeptLines` | task_runner/executor.py:172-200 | the kept positions are increasing and inside the text |
| `LogSanitizer.FilterLine` | task_runner/executor.py:177-200 | one loop iteration updates the noise and blank flags and keeps the line exactly as the specification step says |
| `LogSanitizer.ScanStepShift` | task_runner/executor.py:177-200 | one step decides the same way wherever the line stands |
| `LogSanitizer.ScanAdvance` | task_runner/executor.py:176-200 | the loop state after a line is the specification's state after it |
| `LogSanitizer.LoopStep` | task_runner/executor.py:176-200 | the loop invariant holds after each line |
| `LogSanitizer.FilterLines` | task_runner/executor.py:172-202 | the loop keeps exactly the lines the specification keeps, in order |
| `LogSanitizer.SanitizeText` | task_runner/executor.py:163-202 | the clean text is the ANSI-stripped text's lines, filtered, joined |
| `LogSanitizer.PickAppend` | task_runner/executor.py:200 | keeping one more line appends it |
| `LogSanitizer.KeptGrows` | task_runner/executor.py:172-200 | the kept list only grows |
| `LogSanitizer.KeptTail` | task_runner/executor.py:172-200 | lines kept after a point come from after that point |
| `LogSanitizer.KeptIffStep` | task_runner/executor.py:176-200 | a line's fate is decided when it is read |
| `LogSanitizer.AppendNoAdjacentBlank` | task_runner/executor.py:195-198 | appending keeps the no-two-adjacent-blank property |
| `LogSanitizer.NoAdjacentBlankKinds` | task_runner/executor.py:195-198 | the kept lines never hold two blank lines in a row |
| `LogSanitizer.NoAdjacentBlanks` | task_runner/executor.py:167-198 | the clean text never has two consecutive blank lines |
| `LogSanitizer.KeptLineIsClean` | task_runner/executor.py:180-192 | a kept line is outside any noise block and is neither a block start nor single-line noise |
| `LogSanitizer.NonBlankCleanLineKept` | task_runner/executor.py:180-200 | a non-blank line outside noise that is neither noise nor a block start is kept |
| `LogSanitizer.KeptBefore` | task_runner/executor.py:180-200 | the lines kept before position j are the start of the output, and every line kept later comes at or after j |
| `LogSanitizer.BlankAfterNonBlankKept` | task_runner/executor.py:167-200 | a blank line outside noise, that is neither noise nor a block start, is kept when nothing was kept before it or the last kept line is non-blank, so a run of blank lines collapses to one line, not zero |
| `LogSanitizer.InsideBlockKinds` | task_runner/executor.py:180-188 | after a block start and until a block end, the state is in noise and nothing is kept |
| `LogSanitizer.NoiseBlockDroppedKinds` | task_runner/executor.py:180-188 | every line from a block start up to its end is dropped |
| `LogSanitizer.BlockKinds` | task_runner/executor.py:140-146 | the block start and end patterns are read on the stripped lines |
| `LogSanitizer.InsideBlock` | task_runner/executor.py:180-188 | inside a noise block nothing is kept |
| `LogSanitizer.NoiseBlockDropped` | task_runner/executor.py:180-188 | a noise block, from its start line up to but excluding its end line, is removed |
| `LogSanitizer.BlockCloses` | task_runner/executor.py:180-183 | the `</html>` line ends the block, and is itself dropped |
| `LogSanitizer.NonBlank` | task_runner/executor.py:210 | the tail source holds only non-blank lines |
| `LogSanitizer.SliceFrom` | task_runner/executor.py:211 | a Python slice from a start index is a suffix |
| `LogSanitizer.TailAsWritten` | task_runner/executor.py:211 | the tail as written is a suffix of the lines |
| `LogSanitizer.Tail` | task_runner/executor.py:205-212 | the tail is the last `max_lines` lines, or all of them when there are fewer |
| `LogSanitizer.TailAsWrittenPositive` | task_runner/executor.py:211 | for a positive bound the written slice is the intended tail |
| `LogSanitizer.TailAsWrittenZero` | task_runner/executor.py:211 | with bound 0 the written slice keeps every line, where the intended tail is empty |
| `LogSanitizer.OutputTailLines` | task_runner/executor.py:205-212 | the tail is at most `max_lines` non-blank lines, the last ones of the text |
| `LogSanitizer.ExtractOutputTailAgrees` | task_runner/executor.py:205-212 | for the positive bounds the executor uses, the written and the corrected tail agree |
| `LogSanitizer.ExtractOutputTail` | task_runner/executor.py:205-212 | its contract is carried by `LogSanitizer.TailAsWritten` and `LogSanitizer.ExtractOutputTailAgrees` |
| `Notify.Utf8Prefix` | task_runner/notify.py:382 | the kept body is a prefix of the text, cut at a character boundary, within the byte budget |
| `Notify.Utf8PrefixMaximal` | task_runner/notify.py:382 | the kept body is the longest such prefix: one more character would exceed the budget |
| `Notify.StrippedNoteBytes` | task_runner/notify.py:374-379 | the stripped truncation note is 19 bytes of UTF-8 |
| `Notify.NoteFacts` | task_runner/notify.py:374-375 | the truncation note's byte length is the suffix length the code subtracts |
| `Notify.NoteStripped` | task_runner/notify.py:374-379 | stripping the note removes its two leading newlines |
| `Notify.PrefixWithNote` | task_runner/notify.py:376-383 | a prefix plus the note that fits the budget is a valid cut of an over-long text |
| `Notify.NoteAppendBytes` | task_runner/notify.py:383 | appending the note adds exactly its byte length |
| `Notify.TruncateUtf8Cuts` | task_runner/notify.py:364-383 | when there is room for the note, an over-long text becomes its longest fitting prefix plus the note, within the limit |
| `Notify.TruncateUtf8Spec` | task_runner/notify.py:364-383 | a text within the limit is unchanged; with no room for the note the stripped note alone is returned; the result never exceeds the larger of the limit and 19 bytes |
| `Notify.TruncateUtf8` | task_runner/notify.py:364-383 | its contract is carried by `Notify.TruncateUtf8Cuts` and `Notify.TruncateUtf8Spec` |
| `Notify.LastLinesSpec` | task_runner/notify.py:404-406 | at most `max_lines` lines are kept, the last ones, all of them when there are few enough |
| `Notify.CutToSpec` | task_runner/notify.py:407-410 | a short text is kept; a long one becomes the cut marker followed by its last `max_chars` characters |
| `Notify.CompactResultBlank` | task_runner/notify.py:398-411 | a missing or blank text compacts to the empty string; otherwise the stripped text's last lines are joined and cut |
| `Notify.CompactResult` | task_runner/notify.py:398-411 | its contract is carried by `Notify.CompactResultBlank`, `Notify.LastLinesSpec` and `Notify.CutToSpec` |
| `Notify.Times07` | task_runner/notify.py:446 | `int(max_chars * 0.7)` is within one of 7/10 of the value |
| `Notify.PowerAbove` | task_runner/notify.py:446 | the least power of two above the operand: a power of two, above it, whose half is at most the operand: the binary scale of 7/10 of the value, which decides whether the float product `max_chars * 0.7` lands below it |
| `Notify.PowerAboveFrom` | task_runner/notify.py:446 | doubling a power of two whose half is at most the operand ends at a power of two above the operand whose half is still at most it |
| `Notify.FitFromShape` | task_runner/notify.py:440-448 | the shrinking loop returns a compacted text that fits, or the final 3-line, 120-character fallback, always with at least 3 lines and 120 characters allowed |
| `Notify.FitOutputSpec` | task_runner/notify.py:414-448 | a missing or blank tail, or a budget of 80 bytes or less, gives the empty string; otherwise a compacted tail that fits or the smallest fallback |
| `Notify.FitFrom` | task_runner/notify.py:437-448 | its contract is carried by `Notify.FitFromShape` and `Notify.ShrinkToFit` |
| `Notify.FitOutput` | task_runner/notify.py:414-448 | its contract is carried by `Notify.FitOutputSpec` and `Notify.FitOutputByBudget` |
| `Notify.FitOutputByBudget` | task_runner/notify.py:414-448 | the method computes the specified fitted output |
| `Notify.ShrinkToFit` | task_runner/notify.py:437-448 | the eight-step loop returns what the specification's shrinking gives |
| `Notify.CreateNotifier` | task_runner/notify.py:135-161 | disabled when `enabled` is False or the environment switch says off; otherwise the given non-empty URL, or else the stripped environment URL when it is non-empty |
| `Notify.EnvSwitchOff` | task_runner/notify.py:153-155 | the switch is read stripped and case-insensitively, so " OFF\n" disables |
| `Notify.EnvSwitchOn` | task_runner/notify.py:153-155 | a switch value whose stripped length cannot spell one of the off words leaves notifications on |
| `Notify.BatchKindOf` | task_runner/notify.py:183-188 | an interrupt wins; otherwise any failure gives the with-failures message, else the all-done one |
| `Notify.BatchHeadlineDistinct` | task_runner/notify.py:183-193 | the three batch outcomes have three distinct titles and three distinct status lines |
| `RunLoop.Finish` | task_runner/executor.py:1065-1143 | after the child process only the task at hand can change: interrupted, timed out or concluded |
| `RunLoop.Conclude` | task_runner/executor.py:1145-1230 | concluding a run changes only that task |
| `RunLoop.StepAt` | task_runner/executor.py:982-1230 | one pass of the loop body changes only the scheduled task it handles |
| `RunLoop.Step` | task_runner/executor.py:982-1230 | the loop body changes only its own task |
| `RunLoop.StepUnfold` | task_runner/executor.py:982-1230 | the loop body is one expanded pass |
| `RunLoop.RunUpTo` | task_runner/executor.py:982-1230 | the loop keeps the number of tasks; its behaviour is stated by `RunLoop.StoppedStaysStopped`, `RunLoop.SignalInPassStops` and the lemmas below |
| `RunLoop.SignalInPassStops` | task_runner/executor.py:982-984 | a signal during a pass (a skip, a dry-run pass, a tool that is not installed, or after the child) sets the interrupted flag, and the loop head stops: no later task is touched |
| `RunLoop.StepKeepsCompleted` | task_runner/executor.py:988-994 | a completed task is skipped and left as it was |
| `RunLoop.StepDryRun` | task_runner/executor.py:1013-1015 | in a dry run a pass changes no task; only the skip counter can move, and a signal during the pass sets the interrupted flag |
| `RunLoop.FinishCounts` | task_runner/executor.py:1072-1230 | after the child process the counters grow by at most one and a delay is drawn only after a success, within the range |
| `RunLoop.StepCounts` | task_runner/executor.py:982-1230 | each pass grows the counters by at most one and records a delay only after a success, within the range |
| `RunLoop.StepCompletes` | task_runner/executor.py:1145-1168 | outside a dry run, a pass that fails nothing and is not interrupted leaves its task completed |
| `RunLoop.UnscheduledUnchanged` | task_runner/executor.py:927-982 | a task that is not scheduled is never changed |
| `RunLoop.CompletedUnchanged` | task_runner/executor.py:988-994 | a task completed before the run is never changed |
| `RunLoop.DryRunChangesNothing` | task_runner/executor.py:982-1015 | a dry run changes no task, counts only skips, and is interrupted exactly when a signal came in during one of its passes |
| `RunLoop.RunCounters` | task_runner/executor.py:976-1230 | successes, failures and skips add up to at most the tasks processed, at most one delay per success, each within the range |
| `RunLoop.StoppedStaysStopped` | task_runner/executor.py:983-984 | once interrupted the loop processes nothing more |
| `RunLoop.CleanRunCompletesAll` | task_runner/executor.py:982-1230 | outside a dry run, a run without failure or interrupt leaves every scheduled task completed |
| `RunLoop.RunV3DryRun` | task_runner/executor.py:909-1279 | a dry run leaves the tasks untouched and returns 0, or 1 exactly when a signal came in during one of its passes |
| `RunLoop.RunV3Outcome` | task_runner/executor.py:909-1279 | the exit code is 0 or 1, 1 after any failure or interrupt; exit 0 outside a dry run means every scheduled task completed; unscheduled and already completed tasks are untouched |
| `RunLoop.RunV3` | task_runner/executor.py:909-1279 | its contract is carried by `RunLoop.RunV3Outcome`, `RunLoop.RunV3DryRun` and `RunLoop.RunV3Saved`, and the in-place `RunLoop.Run` is proved equal to it |
| `RunLoop.StepSaved` | task_runner/executor.py:1037-1168 | a pass either saves the task set or leaves every task as it was, and a save once made stays recorded |
| `RunLoop.UnsavedUnchanged` | task_runner/executor.py:982-1230 | a loop that never saved has changed no task, so the file on disk and the loop's tasks agree whichever way it ends |
| `RunLoop.RunV3Saved` | task_runner/executor.py:909-1279 | a run that did not save leaves the tasks as loaded, and a dry run never saves |
| `RunLoop.SummariseNotice` | task_runner/executor.py:1238-1277 | the summary adds only the batch notice, sent exactly when a notifier exists and some task succeeded or failed |
| `RunLoop.Settle` | task_runner/executor.py:1072-1143 | the in-place end of the loop body leaves the array and totals the specification gives |
| `RunLoop.Record` | task_runner/executor.py:1145-1230 | the in-place conclusion leaves the array and totals the specification gives |
| `RunLoop.ProcessTask` | task_runner/executor.py:982-1230 | one in-place pass over the task array matches the loop-body specification |
| `RunLoop.Run` | task_runner/executor.py:909-1279 | the exit code, final task array and totals are those of the specification |

## Left out

- Subprocess supervision (PTY or pipe execution, draining, killing the child, the timeout killer, cleanup): the child process is an oracle whose exit code, output, duration and timeout flag are inputs of the run loop.
- The heartbeat thread, the progress tracker and all console rendering (banners, tables, colours): output only, no decision depends on them.
- The sleep of the inter-task delay: only the decision to delay (`Executor.ShouldDelay`) and the drawn number of seconds (`Executor.DelaySeconds`, with the random draw a parameter) are modelled.
- Clock, environment variables, `PATH` lookups (`shutil.which`) and randomness: parameters of the model (the run environment record), not computed.
- `json.dumps` / `json.load` text and float `repr`: the file store keeps JSON values, and where text matters (rendering) the encoder is a parameter.
- `Projects.NumOr`: a `cumulated_minutes` that is present but not a number (a string, `null`, a list) reads as 0; `RunRecord.from_dict` keeps the stored value, and `to_dict` writes it back.
- `Projects.RunRecordFromDict`: a field present with a value of another type reads as the field's default (empty string, "running", 0); the source keeps the stored value and writes it back.
- `Projects.ConfigFromDict`: a field present with a value of another type reads as the field's default; the source keeps the stored value. Where it matters: `"default_tool": null` makes the source look up the tool `None` and exit 1 with the unknown-tool error, where the model runs copilot; `"default_model": null` (or any falsy value) makes the source fall back to the tool's own default model, where the model validates "claude-opus-4.6" against the tool's list and can exit 1. A non-list "tags" is kept by the source and read as empty by the model.
- `TaskSets.TaskFromDict`: a field present with a value of another type is read as the field's default (task_no, task_name, description "", batch 1, priority 50, status "not-started", prompt and depends_on absent). `Task.from_dict` keeps the stored value as it is. A float or bool batch or priority (2.5, false) then takes part in the sort, so the run order can differ from the model's. Batches that are all strings sort among themselves, while mixing strings or `null` with numbers raises `TypeError` in the sort. `to_dict` writes the kept value back, where the model writes the default for the six base fields. A non-string prompt or depends_on is used by the source but ignored by the model; both write it back unchanged.
- `TaskSets.CliFromDict`: a truthy "cli" value that is not an object (a non-empty string or list, a non-zero number, `true`) makes `TaskCLIConfig.from_dict` raise `AttributeError` while the task set loads; the model reads it as no override. A non-string "tool" or "model" inside the object is kept by the source and read as absent by the model.
- `TaskSets.TaskSetFromDict`: a "tasks" value that is not a list is read by the model as no tasks. The source iterates it: `null`, a number or a bool raise `TypeError`; a non-empty string or object reaches `Task.from_dict` with a string and raises `AttributeError`. Only `""` and `{}` give an empty set there too. After such a load the model's commands go on with an empty set, where the source's commands fail. A non-string "template" is ignored by the model and used by the source.
- Unhashable `task_no` or `status` values (lists, objects) in the validators, which make the source raise `TypeError`.
- Python's `str.splitlines` and the case-insensitive regular expressions are modelled for the line separators and the ASCII patterns the source uses, not as a general regular-expression engine.
- Decoding child output with `errors="replace"` / `errors="ignore"`: the model works on already decoded text.
- `MAX_EXECUTION_SECONDS`: imported by `task_runner/executor.py:33` but not defined in `task_runner/config.py`; its value is a parameter.
- The per-run context files (run metadata, summary file, the live status file, the `latest` link, the backup copy of the task set): only their paths and names are modelled (`Runtime`).
- The intermediate saves of the task set inside the loop: every `save_task_set` writes the whole current set, so the model's loop records only whether any save happened (`RunLoop.StepSaved`) and the `run` command writes the loop's final tasks once; the file contents between two saves, seen by a crash in mid-run, are not modelled.
- The writing of the rendered prompt files: prompt text is produced by `Renderer`, its path by `Runtime.PromptPath`.
- `Scheduling.ExecutionPlan`: the source builds each ready wave by iterating a set, so tasks of equal (batch, priority) may come out in any order; the contract promises only (batch, priority) order within a wave, and the model's waves happen to keep file order among ties.
- `Validators.ValidateTaskSetFile`: its messages show a value through `str()`. For a float task_no or status (`2.5`) and for an empty list or object (`[]`, `{}`, falsy task numbers) the model shows the text `<value>`, because Python's float and container formatting is not modelled; strings, integers, booleans and `null` show as the source shows them.
- `Validators.CheckEntry`: the missing-task_name warning shows a float or empty-container task_no as `<value>` where the source shows `str()` of it.
- `Validators.CheckTaskNo`: the duplicate message shows a float task_no as `<value>` where the source shows `str()` of it (`2.5`); equality of task numbers follows Python's.
- `Validators.CheckTaskStatus`: the invalid-status message shows a float task_no or status as `<value>` where the source shows `str()` of it.
- `Validators.CheckProjectStatus`: the invalid-status message shows a float status as `<value>` where the source shows `str()` of it.
- `Validators.ValidateInitJson`: the two missing-key errors ("project", "workspace") are reported in the iteration order of a Python set of strings, which varies between runs with hash randomisation; the model reports them in the order "project", "workspace". Its status and name messages show a float value as `<value>` where the source shows `str()` of it.
- `TaskSets.TasksFromJson`: an element of the `tasks` list that is not an object makes the source raise `AttributeError` in `Task.from_dict`; the model reads it as a task with every field defaulted.
- `TaskSets.LoadTaskSet`: a task-set document that is not an object makes the source raise `AttributeError`; the model loads it as an empty task set, and a file that is not JSON at all is outside the model (the store holds parsed values).
- `Renderer.WordLen` and `Renderer.SubKeys`: Python's `\w` matches Unicode letters and digits; the model's word characters are ASCII letters, digits and `_`, so a `{{key}}` with a non-ASCII key is left in place here where the source would substitute it.
- `Text.ParseInt`: Python's `int()` also accepts non-ASCII decimal digits (Arabic-Indic, full-width); the model accepts ASCII digits only.
- `template_override`, `work_dir`, the git safety check, `quiet` and `no_color`: options the modelled loop does not consume.
- `_run_legacy` (the plan-file mode of the executor): only the v3 task-set loop is modelled.
- The rounding of cumulated minutes in the project's run record: a parameter.
- The `dryrun`, `list`, `status` and `project` commands, `discover_task_sets`, `list_runs`, and the filesystem checks `validate_workspace`, `validate_project_structure` and `validate_template_references`.
- `RunLoop.RunUpTo`: a signal between installing the handlers and the first loop-head check (while the notifier is created, the tool is checked or the banner is shown) makes the source stop before the first task; each pass's outcome can only carry signals that come in during that pass, so the model runs at least the first pass. A signal after the last pass is modelled as one during it.
- Aliasing of configuration objects: the model returns updated records (project configuration, run record) explicitly instead of mutating shared objects.
- `Notify.TruncateUtf8Spec`: for a budget below 19 bytes the result is the 19-byte stripped truncation note, so the bound proved is the larger of the budget and 19, as the source behaves.
- `Validators.CheckWorkspace`: a truthy workspace that is not a string (a number, `true`, a list or an object) makes `Path(workspace)` raise `TypeError` (task_runner/validators.py:63), so `validate_init_json` returns no result. The model instead appends the "must be an absolute path" error and completes the validation.
- `Validators.InterruptedStatusRejected`: the task-set validator rejects the status "interrupted" that the executor writes; this is modelled as written, not corrected.
- The renderer test expecting the `cli` field to be left out of the `#item` JSON: the code serialises the whole task, and the model follows the code.

## Findings

| source | as written | input that shows it | evidently intended | confidence | as-written member | corrected member |
|---|---|---|---|---|---|---|
| task_runner/executor.py:211 | with `max_lines` equal to 0, `lines[-0:]` is the whole list, so every non-blank line is kept | `_extract_output_tail("a\nb", 0)` returns `"a\nb"` | an empty tail for a zero line budget | not executed | `LogSanitizer.TailAsWritten`, `LogSanitizer.TailAsWrittenZero` | `LogSanitizer.Tail`, `LogSanitizer.OutputTailLines` |
| task_runner/commands/reset_cmd.py:94 | the clean test reads `task.elapsed_seconds`, an attribute a task loaded by `load_task_set` does not have, so it raises `AttributeError` for any "not-started" target | `reset --all` on a task set holding a task with status "not-started" (or no "status" key) | count the task as already clean and leave it unchanged | not executed | `ResetCommand.CleanTestAsWritten`, `ResetCommand.LoadedNotStartedAsWritten` | `ResetCommand.ResetLoop`, `ResetCommand.ResetOutcome` |

=== FILE: config.dfy ===
/** The table of supported AI CLI tools (`task_runner/config.py`). */
module Config {
  import opened Wrappers
  import opened Text

  /** One CLI tool: how to invoke it, whether it needs the network proxy and
      which models it accepts. The human-readable description is not modelled. */
  datatype ToolConfig = ToolConfig(
    name: string,
    cmdTemplate: string,
    needsProxy: bool,
    supportsModel: bool,
    defaultModel: Option<string>,
    models: seq<string>)

  const Kimi := ToolConfig(
    "kimi", "kimi --quiet --yolo -p \"$(cat " + TaskFilePlaceholder + ")\"", false, false, None, [])

  const Agent := ToolConfig(
    "agent", "agent --print -f --trust --model " + ModelPlaceholder + " \"$(cat " + TaskFilePlaceholder + ")\"", true, true,
    Some("opus-4.6"),
    ["auto", "composer-1.5", "composer-1", "gpt-5.3-codex", "gpt-5.3-codex-fast",
     "gpt-5.3-codex-high", "gpt-5.3-codex-high-fast", "gpt-5.3-codex-xhigh",
     "opus-4.6-thinking", "opus-4.6", "opus-4.5", "opus-4.5-thinking", "sonnet-4.6",
     "sonnet-4.6-thinking", "sonnet-4.5", "sonnet-4.5-thinking"])

  const Copilot := ToolConfig(
    "copilot", "copilot --silent --yolo --model " + ModelPlaceholder + " -p \"$(cat " + TaskFilePlaceholder + ")\"", true, true,
    Some("claude-opus-4.6"),
    ["claude-sonnet-4.6", "claude-sonnet-4.5", "claude-haiku-4.5", "claude-opus-4.6",
     "claude-opus-4.6-fast", "claude-opus-4.5", "claude-sonnet-4", "gemini-3-pro",
     "gpt-5.3-codex", "gpt-5.2-codex", "gpt-5.2", "gpt-5.1-codex-max", "gpt-5.1-codex",
     "gpt-5.1", "gpt-5.1-codex-mini", "gpt-5-mini", "gpt-4.1"])

  const Claude := ToolConfig(
    "claude", "claude --print --permission-mode bypassPermissions -p \"$(cat " + TaskFilePlaceholder + ")\"",
    true, false, None, [])

  /** `TOOL_CONFIGS`, in the dictionary's insertion order. */
  const ToolConfigs: seq<ToolConfig> := [Kimi, Agent, Copilot, Claude]

  const TaskFilePlaceholder := "{task_file}"
  const ModelPlaceholder := "{model}"

  /** Environment variables that carry proxy settings. */
  const ProxyEnvKeys: seq<string> := [
    "HTTP_PROXY", "HTTPS_PROXY", "ALL_PROXY", "SOCKS_PROXY", "NO_PROXY",
    "http_proxy", "https_proxy", "all_proxy", "socks_proxy", "no_proxy"]

  function Names(tools: seq<ToolConfig>): (names: seq<string>)
    ensures |names| == |tools|
    ensures forall i :: 0 <= i < |tools| ==> names[i] == tools[i].name
  {
    if tools == [] then [] else [tools[0].name] + Names(tools[1..])
  }

  /** `list_tool_names()`: the table's keys in order. */
  function ListToolNames(): (names: seq<string>)
    ensures names == ["kimi", "agent", "copilot", "claude"]
  {
    Names(ToolConfigs)
  }

  function Lookup(tools: seq<ToolConfig>, name: string): (r: Option<ToolConfig>)
    ensures r.Some? <==> name in Names(tools)
    ensures r.Some? ==> r.value in tools && r.value.name == name
  {
    if tools == [] then None
    else if tools[0].name == name then Some(tools[0])
    else Lookup(tools[1..], name)
  }

  /** `get_tool_config(name)`: the tool's entry, or the `KeyError` message
      naming the available tools. */
  function GetToolConfig(name: string): (r: Result<ToolConfig, string>)
    ensures r.Success? <==> name in ListToolNames()
    ensures r.Success? ==> r.value in ToolConfigs && r.value.name == name
  {
    var found := Lookup(ToolConfigs, name);
    assert Names(ToolConfigs) == ListToolNames();
    match found
    case Some(t) => Success(t)
    case None => Failure("Unknown tool '" + name + "'. Available: " + Join(ListToolNames(), ", "))
  }

  /** The message for an unknown tool lists the four tool names in table
      order. */
  lemma UnknownToolMessage(name: string)
    requires name !in ListToolNames()
    ensures GetToolConfig(name).error
      == "Unknown tool '" + name + "'. Available: " + ("kimi" + ", " + ("agent" + ", " + ("copilot" + ", " + "claude")))
  {
    var names := ListToolNames();
    assert names[1..][1..][1..] == ["claude"];
  }

  /** Every command template reads the prompt file through `{task_file}`. */
  lemma TemplatesHaveTaskFile()
    ensures forall t :: t in ToolConfigs ==> Contains(t.cmdTemplate, TaskFilePlaceholder)
  {
    forall t | t in ToolConfigs ensures Contains(t.cmdTemplate, TaskFilePlaceholder) {
      var k := |t.cmdTemplate| - |TaskFilePlaceholder| - 2;
      assert t.cmdTemplate[k..k + |TaskFilePlaceholder|] == TaskFilePlaceholder;
      assert OccursAt(t.cmdTemplate, TaskFilePlaceholder, k);
    }
  }

  /** Tool facts the rest of the runner relies on: only kimi runs without the
      proxy, a tool without model support has no default model, and a default
      model is always one of the tool's listed models. */
  lemma ToolTableFacts()
    ensures forall t :: t in ToolConfigs ==> (t.needsProxy <==> t.name != "kimi")
    ensures forall t :: t in ToolConfigs ==> (!t.supportsModel ==> t.defaultModel.None? && t.models == [])
    ensures forall t :: t in ToolConfigs && t.defaultModel.Some? ==> t.defaultModel.value in t.models
  {
    assert Agent.models[9] == "opus-4.6";
    assert Copilot.models[3] == "claude-opus-4.6";
  }
}

=== FILE: display_core.dfy ===
/** Elapsed-time formatting (`task_runner/display/core.py`). The executor's
    `_fmt_elapsed_short` and the notifier's `_format_duration` are the same
    three-way format, character for character, and use this function. */
module Durations {
  import opened Text

  /** `format_elapsed(elapsed)` with `elapsed` given in tenths of a second:
      `int()` truncates the fraction, then hours, minutes and seconds are
      written as "Hh MMm SSs", "Mm SSs" or "Ss". */
  function FormatElapsed(tenths: nat): (r: string)
    ensures r != [] && r[|r| - 1] == 's'
    ensures (tenths / 10 >= 3600) <==> 'h' in r
    ensures (tenths / 10 >= 60) <==> 'm' in r
  {
    var total := tenths / 10;
    var hours := total / 3600;
    var mins := total % 3600 / 60;
    var secs := total % 60;
    if hours > 0 then
      NatToString(hours) + "h " + Pad2(mins) + "m " + Pad2(secs) + "s"
    else if mins > 0 then
      NatToString(mins) + "m " + Pad2(secs) + "s"
    else
      NatToString(secs) + "s"
  }

  /** Reading a formatted duration back, one character at a time: digits
      accumulate into `cur`, and a unit letter adds `cur` times its weight
      (h = 3600, m = 60, s = 1) to `acc`. */
  datatype Reading = Reading(acc: nat, cur: nat)

  function Step(r: Reading, c: char): Reading {
    if IsDigit(c) then Reading(r.acc, 10 * r.cur + DigitValue(c))
    else if c == 'h' then Reading(r.acc + 3600 * r.cur, 0)
    else if c == 'm' then Reading(r.acc + 60 * r.cur, 0)
    else if c == 's' then Reading(r.acc + r.cur, 0)
    else r
  }

  function ReadFrom(s: string, r: Reading): Reading
    decreases |s|
  {
    if s == [] then r else ReadFrom(s[1..], Step(r, s[0]))
  }

  function ReadElapsed(s: string): nat {
    ReadFrom(s, Reading(0, 0)).acc
  }

  lemma {:induction false} ReadAppend(x: string, y: string, r: Reading)
    ensures ReadFrom(x + y, r) == ReadFrom(y, ReadFrom(x, r))
    decreases |x|
  {
    if x == [] {
      assert x + y == y;
    } else {
      assert (x + y)[0] == x[0] && (x + y)[1..] == x[1..] + y;
      ReadAppend(x[1..], y, Step(r, x[0]));
    }
  }

  lemma DigitRoundTrip(d: nat)
    requires d < 10
    ensures DigitValue(DigitChar(d)) == d
  {
  }

  /** The digits of `n` read as `n`. */
  lemma {:induction false} ReadNat(n: nat, acc: nat)
    ensures ReadFrom(NatToString(n), Reading(acc, 0)) == Reading(acc, n)
  {
    if n < 10 {
      DigitRoundTrip(n);
    } else {
      ReadNat(n / 10, acc);
      ReadAppend(NatToString(n / 10), [DigitChar(n % 10)], Reading(acc, 0));
      DigitRoundTrip(n % 10);
    }
  }

  lemma ReadPad2(n: nat, acc: nat)
    ensures ReadFrom(Pad2(n), Reading(acc, 0)) == Reading(acc, n)
  {
    ReadNat(n, acc);
    if n < 10 {
      ReadAppend("0", NatToString(n), Reading(acc, 0));
    }
  }

  lemma ModOf(n: nat, q: nat, m: nat)
    requires n == 60 * q + m && m < 60
    ensures n % 60 == m && n / 60 == q
  {
  }

  lemma SplitSeconds(total: nat)
    ensures total == 3600 * (total / 3600) + 60 * (total % 3600 / 60) + total % 60
    ensures total % 3600 / 60 < 60
  {
    var h := total / 3600;
    var r := total % 3600;
    assert total == 3600 * h + r;
    ModOf(r, r / 60, r % 60);
    ModOf(total, 60 * h + r / 60, r % 60);
  }

  /** A unit letter, optionally followed by a space, closes a number. */
  lemma ReadUnit(u: string, acc: nat, n: nat)
    requires u in ["h ", "m ", "s"]
    ensures ReadFrom(u, Reading(acc, n))
      == Reading(acc + (if u[0] == 'h' then 3600 * n else if u[0] == 'm' then 60 * n else n), 0)
  {
    assert u[0] != ' ' && !IsDigit(u[0]);
    assert u[1..] == [] || (u[1..][0] == ' ' && u[1..][1..] == []);
  }

  lemma ReadHours(h: nat, m: nat, s: nat)
    ensures ReadElapsed(NatToString(h) + "h " + Pad2(m) + "m " + Pad2(s) + "s") == 3600 * h + 60 * m + s
  {
    var p1 := NatToString(h) + "h ";
    var p2 := p1 + Pad2(m);
    var p3 := p2 + "m ";
    var p4 := p3 + Pad2(s);
    var a1 := 3600 * h;
    var a2 := a1 + 60 * m;
    ReadNat(h, 0);
    ReadAppend(NatToString(h), "h ", Reading(0, 0));
    ReadUnit("h ", 0, h);
    assert ReadFrom(p1, Reading(0, 0)) == Reading(a1, 0);
    ReadAppend(p1, Pad2(m), Reading(0, 0));
    ReadPad2(m, a1);
    ReadAppend(p2, "m ", Reading(0, 0));
    ReadUnit("m ", a1, m);
    assert ReadFrom(p3, Reading(0, 0)) == Reading(a2, 0);
    ReadAppend(p3, Pad2(s), Reading(0, 0));
    ReadPad2(s, a2);
    ReadAppend(p4, "s", Reading(0, 0));
    ReadUnit("s", a2, s);
  }

  lemma ReadMinutes(m: nat, s: nat)
    ensures ReadElapsed(NatToString(m) + "m " + Pad2(s) + "s") == 60 * m + s
  {
    var p1 := NatToString(m) + "m ";
    var p2 := p1 + Pad2(s);
    ReadNat(m, 0);
    ReadAppend(NatToString(m), "m ", Reading(0, 0));
    ReadUnit("m ", 0, m);
    assert ReadFrom(p1, Reading(0, 0)) == Reading(60 * m, 0);
    ReadAppend(p1, Pad2(s), Reading(0, 0));
    ReadPad2(s, 60 * m);
    ReadAppend(p2, "s", Reading(0, 0));
    ReadUnit("s", 60 * m, s);
  }

  lemma ReadSeconds(s: nat)
    ensures ReadElapsed(NatToString(s) + "s") == s
  {
    ReadNat(s, 0);
    ReadAppend(NatToString(s), "s", Reading(0, 0));
    ReadUnit("s", 0, s);
  }

  /** Formatting loses nothing but the fraction: the whole seconds can be
      read back from the text. */
  lemma FormatElapsedReadBack(tenths: nat)
    ensures ReadElapsed(FormatElapsed(tenths)) == tenths / 10
  {
    var total := tenths / 10;
    SplitSeconds(total);
    var hours := total / 3600;
    var mins := total % 3600 / 60;
    var secs := total % 60;
    if hours > 0 {
      ReadHours(hours, mins, secs);
    } else if mins > 0 {
      ReadMinutes(mins, secs);
    } else {
      ReadSeconds(secs);
    }
  }
}

=== FILE: executor.dfy ===
/** The executor's pure decisions (`task_runner/executor.py`): the `--delay`
    parser, the proxy-aware environment, command building, the signal
    counter, per-task tool and model resolution, result classification and
    the inter-task delay gate. */
module Executor {
  import opened Wrappers
  import opened Text
  import opened Config
  import opened TaskSets

  // ---------------------------------------------------------------- --delay

  /** Seconds to wait between tasks, drawn from `[lo, hi]`. */
  datatype DelayRange = DelayRange(lo: nat, hi: nat)

  const DefaultDelay := DelayRange(60, 120)

  function Min(a: int, b: int): int {
    if a <= b then a else b
  }

  function Max(a: int, b: int): int {
    if a <= b then b else a
  }

  /** Position of the first `c` in `s`, or `|s|`. */
  function FirstIndex(s: string, c: char): (k: nat)
    ensures k <= |s|
    ensures forall i :: 0 <= i < k ==> s[i] != c
    ensures k < |s| ==> s[k] == c
  {
    if s == [] || s[0] == c then 0 else 1 + FirstIndex(s[1..], c)
  }

  function RangeError(value: string): string {
    "Invalid delay range '" + value + "'. Use '60-120', '30', or '0'."
  }

  function ValueError(value: string): string {
    "Invalid delay value '" + value + "'. Use '60-120', '30', or '0'."
  }

  const NegativeRange := "Delay values must be non-negative."
  const NegativeValue := "Delay value must be non-negative."

  /** The "A-B" branch, given the text before and after the first '-'. */
  function ParseRangeParts(v: string, before: string, after: string): (r: Result<DelayRange, string>)
    ensures r.Success? ==> r.value.lo <= r.value.hi
  {
    var lo := ParseInt(before);
    var hi := ParseInt(after);
    if lo.None? || hi.None? then Failure(RangeError(v))
    else if lo.value < 0 || hi.value < 0 then Failure(NegativeRange)
    else Success(DelayRange(Min(lo.value, hi.value), Max(lo.value, hi.value)))
  }

  /** `parse_delay_range(value)`: `None` is the default (60, 120), "0"
      disables the delay, "A-B" (split at the first '-') is the range between
      the two numbers in either order, and "N" is a fixed delay. The error
      messages are those of the `ArgumentTypeError`s raised. */
  function ParseDelayRange(value: Option<string>): (r: Result<DelayRange, string>)
    ensures r.Success? ==> r.value.lo <= r.value.hi
    ensures value.None? ==> r == Success(DefaultDelay)
  {
    match value
    case None => Success(DefaultDelay)
    case Some(raw) =>
      var v := Strip(raw);
      if v == "0" then Success(DelayRange(0, 0))
      else if '-' in v then
        var k := FirstIndex(v, '-');
        ParseRangeParts(v, v[..k], v[k + 1..])
      else
        match ParseInt(v)
        case None => Failure(ValueError(v))
        case Some(n) => if n < 0 then Failure(NegativeValue) else Success(DelayRange(n, n))
  }

  lemma NatStringFacts(n: nat)
    ensures var d := NatToString(n);
      d != [] && Strip(d) == d && '-' !in d && ParseInt(d) == Some(n)
      && !IsSpace(d[0]) && !IsSpace(d[|d| - 1])
  {
    var d := NatToString(n);
    assert IsDigit(d[0]) && IsDigit(d[|d| - 1]);
    StripNoEdgeSpace(d);
    ParseIntOfNatToString(n);
    assert !IsDigit('-');
  }

  /** "N" is the fixed delay (N, N). */
  lemma DelayFixed(n: nat)
    ensures ParseDelayRange(Some(NatToString(n))) == Success(DelayRange(n, n))
  {
    NatStringFacts(n);
    if n != 0 {
      assert NatToString(n) != "0";
    }
  }

  /** A value "<digits>-<rest>" is split at the '-' after the digits. */
  lemma SplitAfterDigits(n: nat, rest: string)
    requires rest != [] && !IsSpace(rest[|rest| - 1])
    ensures var v := NatToString(n) + "-" + rest;
      ParseDelayRange(Some(v)) == ParseRangeParts(v, NatToString(n), rest)
  {
    var da := NatToString(n);
    var v := da + "-" + rest;
    NatStringFacts(n);
    assert v[0] == da[0] && v[|v| - 1] == rest[|rest| - 1];
    StripNoEdgeSpace(v);
    assert v[|da|] == '-';
    var k := FirstIndex(v, '-');
    assert k == |da| by {
      forall i | 0 <= i < |da| ensures v[i] != '-' {
        assert v[i] == da[i];
      }
    }
    assert v[..|da|] == da;
    assert v[|da| + 1..] == rest;
    assert v != "0" by {
      assert |v| > 1;
    }
  }

  /** "A-B" is the range from the smaller to the larger number. */
  lemma DelayPair(a: nat, b: nat)
    ensures ParseDelayRange(Some(NatToString(a) + "-" + NatToString(b)))
         == Success(DelayRange(Min(a, b), Max(a, b)))
  {
    NatStringFacts(a);
    NatStringFacts(b);
    SplitAfterDigits(a, NatToString(b));
  }

  /** A negative upper bound ("A--B") is the non-negative error. */
  lemma DelayNegativeUpper(a: nat, b: nat)
    requires b > 0
    ensures ParseDelayRange(Some(NatToString(a) + "--" + NatToString(b))) == Failure(NegativeRange)
  {
    var da := NatToString(a);
    var db := NatToString(b);
    var rest := "-" + db;
    assert ParseInt(rest) == Some(-(b as int)) by {
      ParseIntNegative(b);
    }
    assert ParseInt(da) == Some(a) by {
      NatStringFacts(a);
    }
    DoubleDash(da, db);
    assert !IsSpace(rest[|rest| - 1]) by {
      NatStringFacts(b);
      assert rest[|rest| - 1] == db[|db| - 1];
    }
    SplitAfterDigits(a, rest);
  }

  lemma DoubleDash(x: string, y: string)
    ensures x + "--" + y == x + "-" + ("-" + y)
  {
    assert "--" == "-" + "-";
  }

  /** A value without '-' never parses to a negative number, so
      "Delay value must be non-negative." is never raised: a leading minus
      sign always takes the range branch, and "-N" is an invalid range. */
  lemma NegativeValueUnreachable(raw: string)
    ensures ParseDelayRange(Some(raw)) != Failure(NegativeValue)
  {
    var v := Strip(raw);
    if v != "0" && '-' !in v {
      StripFacts(v);
    }
    assert NegativeValue != NegativeRange;
  }

  /** Every value without a '-' (after stripping) is accepted exactly when
      it reads as an integer, which is then the fixed delay; otherwise it is
      the invalid-value error. */
  lemma DelayWithoutDash(raw: string)
    requires '-' !in Strip(raw)
    ensures var v := Strip(raw); var r := ParseDelayRange(Some(raw));
      (r.Success? <==> ParseInt(v).Some?)
      && (ParseInt(v).Some? ==> ParseInt(v).value >= 0 && r == Success(DelayRange(ParseInt(v).value, ParseInt(v).value)))
      && (ParseInt(v).None? ==> r == Failure(ValueError(v)))
  {
    var v := Strip(raw);
    StripFacts(v);
    if v == "0" {
      NatStringFacts(0);
      assert NatToString(0) == "0";
    }
  }

  /** Every value "A-B" (after stripping) with no '-' in A is split after A:
      it is accepted exactly when both sides read as non-negative integers,
      giving the range from the smaller to the larger; a side that does not
      read is the invalid-range error, a negative side the non-negative
      error. */
  lemma DelayWithDash(raw: string, a: string, b: string)
    requires Strip(raw) == a + "-" + b && '-' !in a
    ensures var r := ParseDelayRange(Some(raw));
      (r.Success? <==> ParseInt(a).Some? && ParseInt(b).Some? && ParseInt(a).value >= 0 && ParseInt(b).value >= 0)
      && (r.Success? ==> r.value.lo == Min(ParseInt(a).value, ParseInt(b).value)
                         && r.value.hi == Max(ParseInt(a).value, ParseInt(b).value))
      && (ParseInt(a).None? || ParseInt(b).None? ==> r == Failure(RangeError(Strip(raw))))
  {
    var v := Strip(raw);
    assert v[|a|] == '-';
    var k := FirstIndex(v, '-');
    assert k == |a| by {
      forall i | 0 <= i < |a| ensures v[i] != '-' {
        assert v[i] == a[i];
      }
    }
    assert v[..k] == a;
    assert v[k + 1..] == b;
  }

  lemma DelayLeadingMinus(n: nat)
    ensures ParseDelayRange(Some("-" + NatToString(n))) == Failure(RangeError("-" + NatToString(n)))
  {
    var d := NatToString(n);
    var v := "-" + d;
    assert v[|v| - 1] == d[|d| - 1];
    StripNoEdgeSpace(v);
    assert FirstIndex(v, '-') == 0;
    assert v[..0] == [];
    assert v != "0";
  }

  // ---------------------------------------------------------------- environment

  /** Whether the child process gets the proxy variables: `--proxy on/off`
      wins, then the per-task tool's `needs_proxy`, then the run's setting. */
  function NeedsProxy(proxyMode: Option<string>, taskNeedsProxy: Option<bool>, useProxy: bool): (b: bool)
    ensures proxyMode == Some("on") ==> b
    ensures proxyMode == Some("off") ==> !b
    ensures proxyMode != Some("on") && proxyMode != Some("off") && taskNeedsProxy.Some? ==> b == taskNeedsProxy.value
    ensures proxyMode != Some("on") && proxyMode != Some("off") && taskNeedsProxy.None? ==> b == useProxy
  {
    if proxyMode == Some("on") then true
    else if proxyMode == Some("off") then false
    else if taskNeedsProxy.Some? then taskNeedsProxy.value
    else useProxy
  }

  const Kelvin: char := '\U{212A}'

  /** `str.lower()` on one character, as far as comparing with ASCII text
      goes: 'A'-'Z' become 'a'-'z' and the Kelvin sign becomes 'k'. Every
      other character either lowers to itself or to something that is not
      ASCII, so keeping it unchanged decides the same comparisons. */
  function LowerChar(c: char): char {
    if 'A' <= c <= 'Z' then (c as int + 32) as char
    else if c == Kelvin then 'k'
    else c
  }

  function LowerKey(k: string): (r: string)
    ensures |r| == |k|
    ensures forall i :: 0 <= i < |k| ==> r[i] == LowerChar(k[i])
  {
    if k == [] then [] else [LowerChar(k[0])] + LowerKey(k[1..])
  }

  /** `[v.lower() for v in PROXY_ENV_KEYS]` */
  function LoweredProxyKeys(): (r: seq<string>)
    ensures |r| == |ProxyEnvKeys|
    ensures forall i :: 0 <= i < |r| ==> r[i] == LowerKey(ProxyEnvKeys[i])
  {
    seq(|ProxyEnvKeys|, i requires 0 <= i < |ProxyEnvKeys| => LowerKey(ProxyEnvKeys[i]))
  }

  /** `k in PROXY_ENV_KEYS or k.lower() in [v.lower() for v in PROXY_ENV_KEYS]` */
  predicate IsProxyKey(k: string) {
    k in ProxyEnvKeys || LowerKey(k) in LoweredProxyKeys()
  }

  /** The exact-match test is subsumed: a key is a proxy key exactly when
      its lower-cased form is one of the lower-cased proxy keys. */
  lemma ProxyKeyCaseInsensitive(k: string)
    ensures IsProxyKey(k) <==> LowerKey(k) in LoweredProxyKeys()
  {
    if k in ProxyEnvKeys {
      var i :| 0 <= i < |ProxyEnvKeys| && ProxyEnvKeys[i] == k;
      assert LoweredProxyKeys()[i] == LowerKey(k);
    }
  }

  /** Whether a key is a proxy key depends only on its lower-cased form, so
      "Https_Proxy" and, through the Kelvin sign, "SOC\u212AS_PROXY" are
      proxy keys like "https_proxy" and "socks_proxy". */
  lemma ProxyKeySameLower(k1: string, k2: string)
    requires LowerKey(k1) == LowerKey(k2)
    ensures IsProxyKey(k1) <==> IsProxyKey(k2)
  {
    ProxyKeyCaseInsensitive(k1);
    ProxyKeyCaseInsensitive(k2);
  }

  /** Proxy keys are 8 to 11 characters long, so a longer name such as
      "HTTP_PROXY_HOST" is kept. */
  lemma ProxyKeyLength(k: string)
    requires IsProxyKey(k)
    ensures 8 <= |k| <= 11
  {
    ProxyKeyCaseInsensitive(k);
    var i :| 0 <= i < |LoweredProxyKeys()| && LoweredProxyKeys()[i] == LowerKey(k);
    ProxyEnvKeyLength(i);
  }

  lemma ProxyEnvKeyLength(i: nat)
    requires i < |ProxyEnvKeys|
    ensures 8 <= |ProxyEnvKeys[i]| <= 11
  {
    var lengths := [10, 11, 9, 11, 8, 10, 11, 9, 11, 8];
    assert forall j :: 0 <= j < |ProxyEnvKeys| ==> |ProxyEnvKeys[j]| == lengths[j];
  }

  /** `_make_env()`: a copy of the environment from which, when no proxy is
      needed, every proxy key is deleted one at a time. */
  method MakeEnv(environ: map<string, string>, needsProxy: bool) returns (env: map<string, string>)
    ensures needsProxy ==> env == environ
    ensures forall k :: k in env <==> k in environ && (needsProxy || !IsProxyKey(k))
    ensures forall k :: k in env ==> env[k] == environ[k]
  {
    env := environ;
    if !needsProxy {
      var keysToRemove := set k | k in env && IsProxyKey(k);
      var rest := keysToRemove;
      while rest != {}
        invariant rest <= keysToRemove
        invariant forall k :: k in env <==> k in environ && (k !in keysToRemove || k in rest)
        invariant forall k :: k in env ==> env[k] == environ[k]
        decreases rest
      {
        var key :| key in rest;
        env := env - {key};
        rest := rest - {key};
      }
    }
  }

  // ---------------------------------------------------------------- command

  /** A value Python treats as true: present and not the empty string. */
  predicate Given(s: Option<string>) {
    s.Some? && s.value != ""
  }

  /** `_build_command(task_file, tool_config, model)`: the tool defaults to
      the run's tool and the model to the run's model (`model or
      self.model`); `{task_file}` is replaced, and `{model}` only when there
      is a model. */
  function BuildCommand(taskFile: string, runTool: ToolConfig, runModel: Option<string>,
                        tool: Option<ToolConfig>, model: Option<string>): string
  {
    var tc := tool.GetOr(runTool);
    var m := if Given(model) then model else runModel;
    var cmd := ReplaceAll(tc.cmdTemplate, "{task_file}", taskFile);
    if Given(m) then ReplaceAll(cmd, "{model}", m.value) else cmd
  }

  /** Text without the pattern's first character is copied unchanged. */
  lemma {:induction false} ReplaceSkip(x: string, y: string, pat: string, rep: string)
    requires pat != [] && pat[0] !in x
    ensures ReplaceAll(x + y, pat, rep) == x + ReplaceAll(y, pat, rep)
    decreases |x|
  {
    if x != [] {
      var s := x + y;
      assert s[0] == x[0] && s[1..] == x[1..] + y;
      if |s| >= |pat| {
        assert s[..|pat|] != pat by {
          assert s[..|pat|][0] == x[0];
        }
      }
      ReplaceSkip(x[1..], y, pat, rep);
      assert x == [x[0]] + x[1..];
    } else {
      assert x + y == y;
    }
  }

  lemma ReplaceHit(y: string, pat: string, rep: string)
    requires pat != []
    ensures ReplaceAll(pat + y, pat, rep) == rep + ReplaceAll(y, pat, rep)
  {
    var s := pat + y;
    assert s[..|pat|] == pat && s[|pat|..] == y;
  }

  /** Text without the pattern's first character is left as it is. */
  lemma ReplaceAbsent(x: string, pat: string, rep: string)
    requires pat != [] && pat[0] !in x
    ensures ReplaceAll(x, pat, rep) == x
  {
    ReplaceSkip(x, [], pat, rep);
    assert x + [] == x;
  }

  /** A template with one placeholder, and no other occurrence of its first
      character, has the placeholder replaced by the value. */
  lemma FillPlaceholder(pre: string, post: string, pat: string, rep: string)
    requires pat != [] && pat[0] !in pre && pat[0] !in post
    ensures ReplaceAll(pre + pat + post, pat, rep) == pre + rep + post
  {
    assert pre + pat + post == pre + (pat + post);
    ReplaceSkip(pre, pat + post, pat, rep);
    ReplaceHit(post, pat, rep);
    ReplaceAbsent(post, pat, rep);
  }

  /** A tool whose template holds only the prompt-file placeholder runs that
      template with the path filled in, whatever model is given. */
  lemma BuildWithoutModel(taskFile: string, tc: ToolConfig, runModel: Option<string>,
                          model: Option<string>, pre: string, post: string)
    requires tc.cmdTemplate == pre + TaskFilePlaceholder + post
    requires '{' !in pre && '{' !in post && '{' !in taskFile
    ensures BuildCommand(taskFile, tc, runModel, Some(tc), model) == pre + taskFile + post
  {
    FillPlaceholder(pre, post, TaskFilePlaceholder, taskFile);
    var m := if Given(model) then model else runModel;
    if Given(m) {
      ReplaceAbsent(pre + taskFile + post, ModelPlaceholder, m.value);
    }
  }

  /** The kimi command is its template with the prompt file path filled in,
      whatever model is given. */
  lemma KimiCommand(taskFile: string, runModel: Option<string>, model: Option<string>)
    requires '{' !in taskFile
    ensures BuildCommand(taskFile, Kimi, runModel, Some(Kimi), model)
         == "kimi --quiet --yolo -p \"$(cat " + taskFile + ")\""
  {
    KimiTemplateParts();
    BuildWithoutModel(taskFile, Kimi, runModel, model, "kimi --quiet --yolo -p \"$(cat ", ")\"");
  }

  /** The pieces of the kimi template around its placeholder hold no '{'. */
  lemma KimiTemplateParts()
    ensures '{' !in "kimi --quiet --yolo -p \"$(cat " && '{' !in ")\""
  {
  }

  /** Text that starts like the pattern but differs at its second character
      is copied through its first character. */
  lemma ReplaceSkipOne(c: char, y: string, pat: string, rep: string)
    requires |pat| >= 2 && y != [] && y[0] != pat[1]
    ensures ReplaceAll([c] + y, pat, rep) == [c] + ReplaceAll(y, pat, rep)
  {
    var s := [c] + y;
    assert s[1..] == y;
    if |s| >= |pat| {
      assert s[..|pat|][1] == y[0];
    }
  }

  /** Filling the pattern into `a + q + b + pat + post` leaves an earlier
      placeholder `q` alone when `q` agrees with the pattern only in its
      first character. */
  lemma FillAfterOther(a: string, q: string, b: string, post: string, pat: string, rep: string)
    requires |pat| >= 2 && |q| >= 2 && q[1] != pat[1]
    requires pat[0] !in a && pat[0] !in q[1..] && pat[0] !in b && pat[0] !in post
    ensures ReplaceAll(a + q + b + pat + post, pat, rep) == a + q + b + rep + post
  {
    var y := q[1..] + b + pat + post;
    calc {
      ReplaceAll(a + q + b + pat + post, pat, rep);
      == { assert q == [q[0]] + q[1..]; assert a + q + b + pat + post == a + ([q[0]] + y); }
      ReplaceAll(a + ([q[0]] + y), pat, rep);
      == { ReplaceSkip(a, [q[0]] + y, pat, rep); }
      a + ReplaceAll([q[0]] + y, pat, rep);
      == { ReplaceSkipOne(q[0], y, pat, rep); }
      a + ([q[0]] + ReplaceAll(y, pat, rep));
      == { assert pat[0] !in q[1..] + b; FillPlaceholder(q[1..] + b, post, pat, rep); }
      a + ([q[0]] + (q[1..] + b + rep + post));
      == { assert q == [q[0]] + q[1..]; }
      a + q + b + rep + post;
    }
  }

  /** A tool whose template holds the model placeholder and then the
      prompt-file placeholder runs with both filled in. */
  lemma BuildWithModel(taskFile: string, tc: ToolConfig, model: string, pre: string, mid: string, post: string)
    requires tc.cmdTemplate == pre + ModelPlaceholder + mid + TaskFilePlaceholder + post
    requires '{' !in pre && '{' !in mid && '{' !in post && '{' !in taskFile && model != ""
    ensures BuildCommand(taskFile, tc, None, Some(tc), Some(model)) == pre + model + mid + taskFile + post
  {
    var filled := pre + ModelPlaceholder + mid + taskFile + post;
    assert ReplaceAll(tc.cmdTemplate, TaskFilePlaceholder, taskFile) == filled by {
      FillAfterOther(pre, ModelPlaceholder, mid, post, TaskFilePlaceholder, taskFile);
    }
    assert ReplaceAll(filled, ModelPlaceholder, model) == pre + model + mid + taskFile + post by {
      assert filled == pre + ModelPlaceholder + (mid + taskFile + post);
      FillPlaceholder(pre, mid + taskFile + post, ModelPlaceholder, model);
    }
  }

  /** The copilot command with a model carries the model after `--model`
      and the prompt file path in the `cat`. */
  lemma CopilotCommand(taskFile: string, model: string)
    requires '{' !in taskFile && model != ""
    ensures BuildCommand(taskFile, Copilot, None, Some(Copilot), Some(model))
         == "copilot --silent --yolo --model " + model + " -p \"$(cat " + taskFile + ")\""
  {
    CopilotTemplateParts();
    BuildWithModel(taskFile, Copilot, model, "copilot --silent --yolo --model ", " -p \"$(cat ", ")\"");
  }

  /** The pieces of the copilot template around its placeholders hold no '{'. */
  lemma CopilotTemplateParts()
    ensures '{' !in "copilot --silent --yolo --model " && '{' !in " -p \"$(cat " && '{' !in ")\""
  {
  }

  // ---------------------------------------------------------------- signals

  /** What the handler does after counting a signal. */
  datatype SignalAction = KillChild | ForceExit(code: int)

  /** The two-tier Ctrl+C counter of `_signal_handler`. */
  class SignalCounter {
    var count: nat
    var interrupted: bool

    constructor ()
      ensures count == 0 && !interrupted
    {
      count := 0;
      interrupted := false;
    }

    /** One SIGINT/SIGTERM: counted, the run marked interrupted; the first
        kills the child process group, any later one exits with code 130. */
    method OnSignal() returns (action: SignalAction)
      modifies this
      ensures count == old(count) + 1 && interrupted
      ensures action == ActionAfter(count)
    {
      count := count + 1;
      interrupted := true;
      if count == 1 {
        action := KillChild;
      } else {
        action := ForceExit(130);
      }
    }
  }

  function ActionAfter(count: nat): SignalAction {
    if count == 1 then KillChild else ForceExit(130)
  }

  /** The actions taken for the first `n` signals of a run. */
  function Actions(n: nat): (r: seq<SignalAction>)
    ensures |r| == n
  {
    if n == 0 then [] else Actions(n - 1) + [ActionAfter(n)]
  }

  /** Only the first signal lets the run wind down; the second forces the
      exit, so at most one signal ever takes the gentle path. */
  lemma {:induction false} SecondSignalForcesExit(n: nat)
    ensures forall i :: 0 <= i < n ==> (Actions(n)[i] == KillChild <==> i == 0)
    ensures forall i :: 1 <= i < n ==> Actions(n)[i] == ForceExit(130)
  {
    if n > 0 {
      SecondSignalForcesExit(n - 1);
      assert Actions(n) == Actions(n - 1) + [ActionAfter(n)];
    }
  }

  // ---------------------------------------------------------------- per task

  /** The tool a task runs with: its own `cli.tool` unless `--tool` was given
      on the command line, falling back to the run's tool (with a warning)
      when the name is not in the tool table. */
  function TaskTool(runTool: ToolConfig, toolOverride: bool, cli: CliConfig): (tc: ToolConfig)
    ensures toolOverride || !Given(cli.tool) ==> tc == runTool
    ensures !toolOverride && Given(cli.tool) && cli.tool.value in ListToolNames()
      ==> tc in ToolConfigs && tc.name == cli.tool.value
    ensures !toolOverride && Given(cli.tool) && cli.tool.value !in ListToolNames() ==> tc == runTool
  {
    if Given(cli.tool) && !toolOverride then
      match GetToolConfig(cli.tool.value)
      case Success(t) => t
      case Failure(_) => runTool
    else runTool
  }

  /** The model a task runs with: its own `cli.model` unless `--model` was
      given on the command line. */
  function TaskModel(runModel: Option<string>, modelOverride: bool, cli: CliConfig): (m: Option<string>)
    ensures modelOverride || !Given(cli.model) ==> m == runModel
    ensures !modelOverride && Given(cli.model) ==> m == cli.model
  {
    if Given(cli.model) && !modelOverride then cli.model else runModel
  }

  // ---------------------------------------------------------------- outcomes

  /** What the child process run reported, with the elapsed wall time in
      tenths of a second, plus the events around it: a signal before the
      child returned, when it finished (`datetime.now().isoformat()`), the
      random draw for the delay, a signal later in the pass (after the
      child, or anywhere in a pass that starts no child) but before the
      delay, and a signal during or after the delay countdown. Each signal
      sets `self.interrupted`, which the loop head reads. */
  datatype Outcome = Outcome(
    rc: int,
    elapsed: nat,
    timedOut: bool,
    interrupted: bool,
    finishedAt: string,
    delayDraw: nat,
    signalInPass: bool,
    signalInDelay: bool)

  /** `MIN_EXECUTION_SECONDS`, in tenths. */
  const MinExecution: nat := 100

  datatype Verdict = VInterrupted | VTimedOut | VCompleted | VFailed

  /** How `_run_v3` classifies a finished run, checked in this order:
      interrupted, timed out, then success (exit code 0 and at least ten
      seconds). */
  function Classify(o: Outcome): (v: Verdict)
    ensures v == VInterrupted <==> o.interrupted
    ensures v == VTimedOut <==> !o.interrupted && o.timedOut
    ensures v == VCompleted <==> !o.interrupted && !o.timedOut && o.rc == 0 && o.elapsed >= MinExecution
  {
    if o.interrupted then VInterrupted
    else if o.timedOut then VTimedOut
    else if o.rc == 0 && o.elapsed >= MinExecution then VCompleted
    else VFailed
  }

  /** `f"{elapsed:.1f}"` for a time in tenths. */
  function OneDecimal(tenths: nat): string {
    NatToString(tenths / 10) + "." + [DigitChar(tenths % 10)]
  }

  /** The failure notice's reason: the exit code when the run lasted at
      least ten seconds, otherwise "too fast". */
  function FailureReason(o: Outcome): string {
    if o.elapsed >= MinExecution then "exit code " + IntToString(o.rc)
    else "执行过快 (" + OneDecimal(o.elapsed) + "s < 10s)"
  }

  /** The reason is chosen by the elapsed time alone: a run shorter than ten
      seconds is reported "too fast" whatever its exit code, and a longer one
      reports its exit code. */
  lemma ShortRunReasonIgnoresExitCode(o: Outcome, rc: int)
    ensures o.elapsed < MinExecution ==> FailureReason(o) == FailureReason(o.(rc := rc))
    ensures o.elapsed < MinExecution ==> FailureReason(o)[..6] == "执行过快 ("
    ensures o.elapsed >= MinExecution ==> FailureReason(o)[..10] == "exit code "
  {
  }

  /** `_inter_task_delay`'s gate: no delay in a dry run, after an interrupt,
      after a failure, when the delay is disabled (0, 0), or after the last
      task. */
  predicate ShouldDelay(dryRun: bool, interrupted: bool, lastSuccess: bool, delay: DelayRange, remaining: nat) {
    !dryRun && !interrupted && lastSuccess && !(delay.lo == 0 && delay.hi == 0) && remaining > 0
  }

  /** `random.randint(lo, max(lo, hi))`, with the random draw a parameter. */
  function DelaySeconds(delay: DelayRange, draw: nat): (d: nat)
    ensures delay.lo <= d <= Max(delay.lo, delay.hi)
  {
    delay.lo + draw % (Max(delay.lo, delay.hi) - delay.lo + 1)
  }
}

=== FILE: json.dfy ===
/** JSON values as the task runner reads and writes them (after `json.load`,
    before `json.dump`), with Python's truthiness and `dict.get` defaults. */
module JsonData {
  import opened Wrappers
  import opened Text

  datatype Json =
    | JNull
    | JBool(b: bool)
    | JInt(i: int)
    | JFloat(f: real)
    | JStr(s: string)
    | JArr(items: seq<Json>)
    | JObj(fields: map<string, Json>)

  /** Python's `bool(value)`. */
  predicate Truthy(j: Json) {
    match j
    case JNull => false
    case JBool(b) => b
    case JInt(i) => i != 0
    case JFloat(f) => f != 0.0
    case JStr(s) => s != []
    case JArr(items) => items != []
    case JObj(fields) => fields != map[]
  }

  /** `bool(value)` for an optional string field. */
  predicate Present(o: Option<string>) {
    o.Some? && o.value != []
  }

  /** An optional string whose falsy values (`None`, `""`) are all `None`. */
  function Norm(o: Option<string>): (r: Option<string>)
    ensures Present(r) == Present(o)
    ensures r.None? || r == o
  {
    if Present(o) then o else None
  }

  /** `d.get(k, default)` for a string field. */
  function StrOr(d: map<string, Json>, k: string, default: string): string {
    if k in d && d[k].JStr? then d[k].s else default
  }

  /** `d.get(k, default)` for an integer field. */
  function IntOr(d: map<string, Json>, k: string, default: int): int {
    if k in d && d[k].JInt? then d[k].i else default
  }

  /** `d.get(k, default)` for a numeric field that may hold an int or a float. */
  function RealOr(d: map<string, Json>, k: string, default: real): real {
    if k in d && d[k].JFloat? then d[k].f
    else if k in d && d[k].JInt? then d[k].i as real
    else default
  }

  /** `d.get(k)` for an optional string field. */
  function OptStr(d: map<string, Json>, k: string): Option<string> {
    if k in d && d[k].JStr? then Some(d[k].s) else None
  }

  /** The JSON value written for an optional string. */
  function OptStrJson(o: Option<string>): Json {
    match o
    case Some(s) => JStr(s)
    case None => JNull
  }

  /** `obj.get(k)` on a value that should be an object. */
  function Field(j: Json, k: string): Option<Json> {
    if j.JObj? && k in j.fields then Some(j.fields[k]) else None
  }

  /** `str(value)` for the values error messages show. */
  function Display(j: Json): string {
    match j
    case JNull => "None"
    case JBool(b) => if b then "True" else "False"
    case JStr(s) => s
    case JInt(i) => IntToString(i)
    case _ => "<value>"
  }
}

=== FILE: notify.dfy ===
/** The text helpers of the WeCom notifier (`task_runner/notify.py`): byte
    budget truncation, the compact result excerpt and its fitting loop, the
    decision whether a notifier exists, and the batch message's headline.
    Sending (HTTP, TLS) is not modelled. */
module Notify {
  import opened Wrappers
  import opened Text
  import opened Executor

  // ---------------------------------------------------------------- truncate_utf8

  const TruncNote := "\n\n> (内容已截断)"

  /** The longest prefix of `s` whose UTF-8 encoding fits in `budget` bytes:
      `s.encode()[:budget].decode("utf-8", errors="ignore")`, which drops the
      bytes of a character cut in half. */
  function Utf8Prefix(s: string, budget: nat): (r: string)
    ensures |r| <= |s| && r == s[..|r|]
    ensures Utf8Len(r) <= budget
  {
    if s == [] || Utf8CharLen(s[0]) > budget then []
    else [s[0]] + Utf8Prefix(s[1..], budget - Utf8CharLen(s[0]))
  }

  /** No longer prefix fits: the prefix is the whole text, or one more
      character would exceed the budget. */
  lemma {:induction false} Utf8PrefixMaximal(s: string, budget: nat)
    ensures var r := Utf8Prefix(s, budget);
      |r| == |s| || Utf8Len(s[..|r| + 1]) > budget
  {
    var r := Utf8Prefix(s, budget);
    if s != [] && Utf8CharLen(s[0]) <= budget {
      var b := budget - Utf8CharLen(s[0]);
      Utf8PrefixMaximal(s[1..], b);
      var r1 := Utf8Prefix(s[1..], b);
      assert r == [s[0]] + r1;
      if |r| < |s| {
        assert s[..|r| + 1] == [s[0]] + s[1..][..|r1| + 1];
        Utf8LenAppend([s[0]], s[1..][..|r1| + 1]);
      }
    } else if s != [] {
      assert s[..1] == [s[0]];
    }
  }

  /** `len(suffix.encode("utf-8"))` and `suffix.strip()` for the note. */
  const NoteBytes := 21
  const StrippedNote := "> (内容已截断)"

  lemma StrippedNoteBytes()
    ensures Utf8Len(StrippedNote) == 19
  {
  }

  lemma NoteFacts()
    ensures Utf8Len(TruncNote) == NoteBytes && Utf8Len(StrippedNote) == 19
  {
    StrippedNoteBytes();
    assert TruncNote == "\n\n" + StrippedNote;
    Utf8LenAppend("\n\n", StrippedNote);
  }

  /** The stripped note is `suffix.strip()`. */
  lemma NoteStripped()
    ensures Strip(TruncNote) == StrippedNote
  {
    assert TruncNote[1..][1..] == StrippedNote;
  }

  /** `truncate_utf8(text, max_bytes)`: the text itself when it fits; else,
      when the note's 21 bytes leave room, the longest fitting prefix plus
      the note; else the stripped note alone. */
  function TruncateUtf8(text: string, maxBytes: int): string {
    if Utf8Len(text) <= maxBytes then text
    else
      var target := maxBytes - NoteBytes;
      if target <= 0 then StrippedNote
      else Utf8Prefix(text, target) + TruncNote
  }

  /** `r` is a proper prefix of `text` followed by `note`, within `maxBytes`. */
  ghost predicate CutWithNote(text: string, r: string, note: string, maxBytes: int) {
    exists k :: 0 <= k < |text| && r == text[..k] + note && Utf8Len(r) <= maxBytes
  }

  /** A prefix that fits a budget the text exceeds even with a note
      appended is a proper prefix. */
  lemma PrefixWithNote(text: string, p: string, note: string, maxBytes: int)
    requires |p| <= |text| && p == text[..|p|] && Utf8Len(p + note) <= maxBytes < Utf8Len(text)
    ensures CutWithNote(text, p + note, note, maxBytes)
  {
    Utf8LenAppend(p, note);
    assert text[..|text|] == text;
    assert |p| < |text|;
  }

  /** Appending the note adds its 21 bytes. */
  lemma NoteAppendBytes(p: string)
    ensures Utf8Len(p + TruncNote) == Utf8Len(p) + NoteBytes
  {
    NoteFacts();
    Utf8LenAppend(p, TruncNote);
  }

  /** A truncated text is a character-boundary prefix of the text followed
      by the note, within the budget. */
  lemma TruncateUtf8Cuts(text: string, maxBytes: int)
    requires Utf8Len(text) > maxBytes > NoteBytes
    ensures CutWithNote(text, TruncateUtf8(text, maxBytes), TruncNote, maxBytes)
  {
    var p := Utf8Prefix(text, maxBytes - NoteBytes);
    NoteAppendBytes(p);
    PrefixWithNote(text, p, TruncNote, maxBytes);
  }

  /** What `truncate_utf8` promises: a text that fits is returned as it is,
      a truncated one fits the budget, and when the note leaves no room the
      stripped note alone comes back; that is 19 bytes, so the result never
      exceeds the larger of the budget and 19 bytes. */
  lemma TruncateUtf8Spec(text: string, maxBytes: int)
    ensures var r := TruncateUtf8(text, maxBytes);
      (Utf8Len(text) <= maxBytes ==> r == text)
      && (Utf8Len(text) > maxBytes && maxBytes <= NoteBytes ==> r == StrippedNote)
      && Utf8Len(r) <= Max(maxBytes, 19)
  {
    if Utf8Len(text) > maxBytes {
      if maxBytes > NoteBytes {
        TruncateUtf8Cuts(text, maxBytes);
        var k :| 0 <= k < |text| && TruncateUtf8(text, maxBytes) == text[..k] + TruncNote
          && Utf8Len(TruncateUtf8(text, maxBytes)) <= maxBytes;
      } else {
        StrippedNoteBytes();
      }
    }
  }

  // ---------------------------------------------------------------- excerpts

  const CutMarker := "...(截断)\n"

  /** `lines[-n:] if len(lines) > n else lines`; note that `lines[-0:]` is
      every line. */
  function LastLines(lines: seq<string>, n: nat): seq<string> {
    if |lines| > n && n > 0 then lines[|lines| - n..] else lines
  }

  /** At most `n` lines, the last ones, in order. */
  lemma LastLinesSpec(lines: seq<string>, n: nat)
    requires n > 0
    ensures var kept := LastLines(lines, n);
      |kept| <= n && kept == lines[|lines| - |kept|..] && (|lines| <= n ==> kept == lines)
  {
  }

  /** `compact[-n:]` behind the cut marker when the text is longer than `n`. */
  function CutTo(compact: string, n: nat): string {
    if |compact| > n then CutMarker + (if n == 0 then compact else compact[|compact| - n..])
    else compact
  }

  /** A text within the limit is kept; a longer one keeps exactly its last
      `n` characters behind the marker. */
  lemma CutToSpec(compact: string, n: nat)
    requires n > 0
    ensures |compact| <= n ==> CutTo(compact, n) == compact
    ensures |compact| > n ==>
      CutTo(compact, n) == CutMarker + compact[|compact| - n..] && |CutTo(compact, n)| == |CutMarker| + n
  {
  }

  /** `_compact_result_text(text, max_lines=, max_chars=)`: nothing for a
      missing or blank text; otherwise the stripped text's last lines joined
      with "\n", cut to its last `max_chars` characters. */
  function CompactResult(text: Option<string>, maxLines: nat, maxChars: nat): string {
    if text.None? || text.value == "" then ""
    else
      var normalized := Strip(text.value);
      if normalized == "" then ""
      else CutTo(Join(LastLines(SplitLines(normalized), maxLines), "\n"), maxChars)
  }

  /** A missing or blank text gives "", and any other text is excerpted. */
  lemma CompactResultBlank(text: Option<string>, maxLines: nat, maxChars: nat)
    ensures text.None? || IsBlank(text.value) ==> CompactResult(text, maxLines, maxChars) == ""
    ensures text.Some? && !IsBlank(text.value) ==>
      (CompactResult(text, maxLines, maxChars)
       == CutTo(Join(LastLines(SplitLines(Strip(text.value)), maxLines), "\n"), maxChars))
  {
    if text.Some? {
      StripFacts(text.value);
    }
  }

  /** `int(m * 0.7)` in binary floating point. The product is exact except
      when `7m/10` is a whole number N: 0.7 is stored slightly low, and when
      N lies in the top eighth of its binade the product rounds to the float
      just below N, so `int()` yields N - 1 (m = 90 gives 62, not 63). */
  function Times07(m: nat): (r: nat)
    ensures r <= 7 * m / 10 && 7 * m / 10 <= r + 1
  {
    var n := 7 * m / 10;
    if m % 10 == 0 && m > 0 && 8 * n > 7 * PowerAbove(n) then n - 1 else n
  }

  /** `p` is a power of two. */
  predicate IsPow2(p: nat) {
    p == 1 || (p >= 2 && p % 2 == 0 && IsPow2(p / 2))
  }

  /** The smallest power of two above `n`: a power of two whose half is at
      most `n`. */
  function PowerAbove(n: nat): (p: nat)
    ensures IsPow2(p) && p > n && (p == 1 || p / 2 <= n)
  {
    PowerAboveFrom(n, 1)
  }

  /** Doubling `p` until it passes `n`. */
  function PowerAboveFrom(n: nat, p: nat): (r: nat)
    requires IsPow2(p) && (p == 1 || p / 2 <= n)
    ensures IsPow2(r) && r > n && r >= p && (r == 1 || r / 2 <= n)
    decreases n + 1 - p
  {
    if p > n then p
    else
      assert (2 * p) / 2 == p;
      PowerAboveFrom(n, 2 * p)
  }

  const Wrapper: seq<string> := ["\n### 最终结果输出", ""]

  /** The room left for the excerpt: the target minus the bytes of the
      message around it and 96 bytes of slack. */
  function Available(prefix: seq<string>, suffix: seq<string>, targetBytes: int): int {
    targetBytes - Utf8Len(Join(prefix + Wrapper + suffix, "\n")) - 96
  }

  /** The first fitting candidate from round `i` on, each round shrinking the
      line limit by 2 (down to 3) and the character limit to 70% (down to
      120); after eight rounds the smallest excerpt, fitting or not. */
  function FitFrom(tail: Option<string>, available: int, i: nat, maxLines: nat, maxChars: nat): string
    decreases 8 - i
  {
    if i >= 8 then CompactResult(tail, 3, 120)
    else
      var c := CompactResult(tail, maxLines, maxChars);
      if Utf8Len(c) <= available then c
      else FitFrom(tail, available, i + 1, Max(3, maxLines - 2), Max(120, Times07(maxChars)))
  }

  /** `_fit_output_by_budget`'s result. */
  function FitOutput(prefix: seq<string>, tail: Option<string>, suffix: seq<string>, targetBytes: int): string {
    if tail.None? || IsBlank(tail.value) then ""
    else
      var available := Available(prefix, suffix, targetBytes);
      if available <= 80 then ""
      else FitFrom(tail, available, 0, 18, Min(2200, Max(300, available * 2)))
  }

  /** Every candidate is an excerpt with at least 3 lines and 120
      characters allowed; one returned before the last resort fits the room. */
  lemma {:induction false} FitFromShape(tail: Option<string>, available: int, i: nat, maxLines: nat, maxChars: nat)
    requires maxLines >= 3 && maxChars >= 120
    ensures var r := FitFrom(tail, available, i, maxLines, maxChars);
      (Utf8Len(r) <= available || r == CompactResult(tail, 3, 120))
      && exists l: nat, c: nat :: l >= 3 && c >= 120 && r == CompactResult(tail, l, c)
    decreases 8 - i
  {
    var r := FitFrom(tail, available, i, maxLines, maxChars);
    if i >= 8 {
      assert r == CompactResult(tail, 3, 120);
    } else if Utf8Len(CompactResult(tail, maxLines, maxChars)) <= available {
      assert r == CompactResult(tail, maxLines, maxChars);
    } else {
      FitFromShape(tail, available, i + 1, Max(3, maxLines - 2), Max(120, Times07(maxChars)));
    }
  }

  /** `_fit_output_by_budget`: "" for a blank tail or when at most 80 bytes
      are left; otherwise an excerpt with limits of at least 3 lines and 120
      characters, which fits the room unless it is the last resort. */
  lemma FitOutputSpec(prefix: seq<string>, tail: Option<string>, suffix: seq<string>, targetBytes: int)
    ensures var r := FitOutput(prefix, tail, suffix, targetBytes);
      var available := Available(prefix, suffix, targetBytes);
      (tail.None? || IsBlank(tail.value) || available <= 80 ==> r == "")
      && (tail.Some? && !IsBlank(tail.value) && available > 80 ==>
            (Utf8Len(r) <= available || r == CompactResult(tail, 3, 120))
            && exists l: nat, c: nat :: l >= 3 && c >= 120 && r == CompactResult(tail, l, c))
  {
    var available := Available(prefix, suffix, targetBytes);
    if tail.Some? && !IsBlank(tail.value) && available > 80 {
      FitFromShape(tail, available, 0, 18, Min(2200, Max(300, available * 2)));
    }
  }

  /** `_fit_output_by_budget` as the source runs it. */
  method FitOutputByBudget(prefix: seq<string>, tail: Option<string>, suffix: seq<string>, targetBytes: int)
      returns (r: string)
    ensures r == FitOutput(prefix, tail, suffix, targetBytes)
  {
    if tail.None? || IsBlank(tail.value) {
      return "";
    }
    var available := Available(prefix, suffix, targetBytes);
    if available <= 80 {
      return "";
    }
    r := ShrinkToFit(tail, available, 18, Min(2200, Max(300, available * 2)));
  }

  /** The eight rounds of shrinking and the last resort. */
  method ShrinkToFit(tail: Option<string>, available: int, lines0: nat, chars0: nat) returns (r: string)
    requires lines0 >= 3 && chars0 >= 120
    ensures r == FitFrom(tail, available, 0, lines0, chars0)
  {
    var maxLines := lines0;
    var maxChars := chars0;
    var i := 0;
    while i < 8
      invariant 0 <= i <= 8 && maxLines >= 3 && maxChars >= 120
      invariant FitFrom(tail, available, 0, lines0, chars0) == FitFrom(tail, available, i, maxLines, maxChars)
    {
      var compact := CompactResult(tail, maxLines, maxChars);
      if Utf8Len(compact) <= available {
        return compact;
      }
      maxLines := Max(3, maxLines - 2);
      maxChars := Max(120, Times07(maxChars));
      i := i + 1;
    }
    r := CompactResult(tail, 3, 120);
  }

  // ---------------------------------------------------------------- create_notifier

  const EnvNotifyEnabled := "TASK_RUNNER_NOTIFY_ENABLED"
  const EnvWebhook := "TASK_RUNNER_WECOM_WEBHOOK"
  const OffWords: seq<string> := ["false", "0", "no", "off"]

  /** `os.environ.get(key, "")` */
  function EnvGet(env: map<string, string>, key: string): string {
    if key in env then env[key] else ""
  }

  /** The environment switches notifications off. */
  predicate EnvDisabled(env: map<string, string>) {
    LowerKey(Strip(EnvGet(env, EnvNotifyEnabled))) in OffWords
  }

  /** `create_notifier(webhook_url, enabled)`, giving the webhook URL of the
      notifier created, or `None`. */
  function CreateNotifier(webhookUrl: Option<string>, enabled: Option<bool>, env: map<string, string>): (r: Option<string>)
    ensures enabled == Some(false) || EnvDisabled(env) ==> r.None?
    ensures r.Some? ==> r.value != []
    ensures enabled != Some(false) && !EnvDisabled(env) && webhookUrl.Some? && webhookUrl.value != []
      ==> r == webhookUrl
    ensures enabled != Some(false) && !EnvDisabled(env) && (webhookUrl.None? || webhookUrl.value == [])
      ==> r == (if Strip(EnvGet(env, EnvWebhook)) == [] then None else Some(Strip(EnvGet(env, EnvWebhook))))
  {
    if enabled == Some(false) then None
    else if EnvDisabled(env) then None
    else
      var url := if webhookUrl.Some? && webhookUrl.value != [] then webhookUrl.value else Strip(EnvGet(env, EnvWebhook));
      if url == [] then None else Some(url)
  }

  /** The switch is read without regard to case or surrounding white space:
      " OFF\n" disables notifications just as "off" does. */
  lemma EnvSwitchOff(env: map<string, string>)
    ensures EnvDisabled(env[EnvNotifyEnabled := " OFF\n"])
  {
    assert " OFF\n"[1..] == "OFF\n" && "OFF\n"[..3] == "OFF";
    assert Strip(" OFF\n") == "OFF";
    assert LowerKey("OFF") == "off";
  }

  /** An unset switch, or one set to anything of another length than the
      four words, leaves notifications on. */
  lemma EnvSwitchOn(env: map<string, string>)
    ensures var v := Strip(EnvGet(env, EnvNotifyEnabled));
      |v| !in {1, 2, 3, 5} ==> !EnvDisabled(env)
  {
  }

  // ---------------------------------------------------------------- batch headline

  datatype BatchKind = BatchInterrupted | BatchWithFailures | BatchAllDone

  /** The headline of `build_batch_complete_message`: an interrupt takes
      precedence over failures, which take precedence over success. */
  function BatchKindOf(interrupted: bool, failed: int): (k: BatchKind)
    ensures k == BatchInterrupted <==> interrupted
    ensures k == BatchWithFailures <==> !interrupted && failed > 0
    ensures k == BatchAllDone <==> !interrupted && failed <= 0
  {
    if interrupted then BatchInterrupted else if failed > 0 then BatchWithFailures else BatchAllDone
  }

  function BatchTitle(k: BatchKind): string {
    match k
    case BatchInterrupted => "🤖 轻易云自动机器人｜执行中断"
    case BatchWithFailures => "🤖 轻易云自动机器人｜执行完成（有失败）"
    case BatchAllDone => "🤖 轻易云自动机器人｜全部完成"
  }

  function BatchStatus(k: BatchKind): string {
    match k
    case BatchInterrupted => "⚠️ 已中断"
    case BatchWithFailures => "❌ 存在失败"
    case BatchAllDone => "✅ 全部成功"
  }

  /** The title and the overall status line follow the same precedence, and
      each names its case: different cases give different titles and
      different status lines. */
  lemma BatchHeadlineDistinct(k1: BatchKind, k2: BatchKind)
    ensures BatchTitle(k1) == BatchTitle(k2) <==> k1 == k2
    ensures BatchStatus(k1) == BatchStatus(k2) <==> k1 == k2
  {
    if k1 != k2 {
      assert BatchTitle(k1)[11] != BatchTitle(k2)[11] || |BatchTitle(k1)| != |BatchTitle(k2)|;
      assert BatchStatus(k1)[0] != BatchStatus(k2)[0];
    }
  }
}

=== FILE: project.dfy ===
/** Project metadata (`task_runner/project.py`): the run history entries and
    the project configuration kept in `__init__.json`, their conversion to
    and from JSON, and the operations that update and save them. */
module Projects {
  import opened Wrappers
  import opened JsonData
  import opened Store

  // ---------------------------------------------------------------- RunRecord

  /** One run history entry. `cumulated_minutes` keeps the JSON number it
      was given (an int by default, a float once a run has finished). */
  datatype RunRecord = RunRecord(
    runAt: string,
    stopAt: string,
    cumulatedMinutes: Json,
    status: string,
    taskSetName: string,
    tasksAttempted: int,
    tasksSucceeded: int,
    tasksFailed: int)

  predicate IsNumber(j: Json) {
    j.JInt? || j.JFloat?
  }

  /** `d.get(k, 0)` for a numeric field. */
  function NumOr(d: map<string, Json>, k: string): (j: Json)
    ensures IsNumber(j)
    ensures k in d && IsNumber(d[k]) ==> j == d[k]
    ensures k !in d ==> j == JInt(0)
  {
    if k in d && IsNumber(d[k]) then d[k] else JInt(0)
  }

  /** A new entry with the dataclass defaults for every field not given. */
  function NewRunRecord(runAt: string, status: string, taskSetName: string): RunRecord {
    RunRecord(runAt, "", JInt(0), status, taskSetName, 0, 0, 0)
  }

  /** `RunRecord.to_dict` */
  function RunRecordToDict(r: RunRecord): map<string, Json> {
    map["run_at" := JStr(r.runAt), "stop_at" := JStr(r.stopAt),
        "cumulated_minutes" := r.cumulatedMinutes, "status" := JStr(r.status),
        "task_set_name" := JStr(r.taskSetName), "tasks_attempted" := JInt(r.tasksAttempted),
        "tasks_succeeded" := JInt(r.tasksSucceeded), "tasks_failed" := JInt(r.tasksFailed)]
  }

  /** `RunRecord.from_dict`: every missing key takes its default. */
  function RunRecordFromDict(d: map<string, Json>): (r: RunRecord)
    ensures IsNumber(r.cumulatedMinutes)
    ensures "run_at" !in d ==> r.runAt == ""
    ensures "stop_at" !in d ==> r.stopAt == ""
    ensures "cumulated_minutes" !in d ==> r.cumulatedMinutes == JInt(0)
    ensures "status" !in d ==> r.status == "running"
    ensures "task_set_name" !in d ==> r.taskSetName == ""
    ensures "tasks_attempted" !in d ==> r.tasksAttempted == 0
    ensures "tasks_succeeded" !in d ==> r.tasksSucceeded == 0
    ensures "tasks_failed" !in d ==> r.tasksFailed == 0
  {
    RunRecord(
      StrOr(d, "run_at", ""),
      StrOr(d, "stop_at", ""),
      NumOr(d, "cumulated_minutes"),
      StrOr(d, "status", "running"),
      StrOr(d, "task_set_name", ""),
      IntOr(d, "tasks_attempted", 0),
      IntOr(d, "tasks_succeeded", 0),
      IntOr(d, "tasks_failed", 0))
  }

  /** Reading back a written entry gives the entry. */
  lemma RunRecordRoundTrip(r: RunRecord)
    requires IsNumber(r.cumulatedMinutes)
    ensures RunRecordFromDict(RunRecordToDict(r)) == r
  {
    var d := RunRecordToDict(r);
    assert "run_at" in d && "stop_at" in d && "cumulated_minutes" in d && "status" in d;
    assert "task_set_name" in d && "tasks_attempted" in d && "tasks_succeeded" in d && "tasks_failed" in d;
  }

  /** Entries as the list `to_dict` writes. */
  function RecordsToJson(rs: seq<RunRecord>): (items: seq<Json>)
    ensures |items| == |rs|
    ensures forall i :: 0 <= i < |rs| ==> items[i] == JObj(RunRecordToDict(rs[i]))
  {
    if rs == [] then [] else [JObj(RunRecordToDict(rs[0]))] + RecordsToJson(rs[1..])
  }

  const NoGet := "'str' object has no attribute 'get'"
  const NotIterable := "object is not iterable"

  /** `[RunRecord.from_dict(r) for r in items]`: every item must be an object
      (`.get` fails on anything else). */
  function RecordsFromItems(items: seq<Json>): (r: Result<seq<RunRecord>, string>)
    ensures r.Success? <==> forall i :: 0 <= i < |items| ==> items[i].JObj?
    ensures r.Success? ==> |r.value| == |items|
    ensures r.Success? ==> forall i :: 0 <= i < |items| ==> r.value[i] == RunRecordFromDict(items[i].fields)
  {
    if items == [] then Success([])
    else if !items[0].JObj? then Failure(NoGet)
    else match RecordsFromItems(items[1..])
      case Success(rest) => Success([RunRecordFromDict(items[0].fields)] + rest)
      case Failure(e) => Failure(e)
  }

  /** The `run_record` value of a document: missing is an empty history, a
      list is read item by item, an empty string or object iterates to
      nothing, a non-empty one yields string items (`.get` fails), and any
      other value is not iterable. */
  function RecordsFromValue(v: Option<Json>): (r: Result<seq<RunRecord>, string>)
    ensures v.None? ==> r == Success([])
    ensures v.Some? && v.value.JArr? ==> r == RecordsFromItems(v.value.items)
  {
    match v
    case None => Success([])
    case Some(JArr(items)) => RecordsFromItems(items)
    case Some(JStr(s)) => if s == [] then Success([]) else Failure(NoGet)
    case Some(JObj(m)) => if m == map[] then Success([]) else Failure(NoGet)
    case Some(_) => Failure(NotIterable)
  }

  /** Written entries read back as themselves. */
  lemma {:induction false} RecordsRoundTrip(rs: seq<RunRecord>)
    requires forall i :: 0 <= i < |rs| ==> IsNumber(rs[i].cumulatedMinutes)
    ensures RecordsFromItems(RecordsToJson(rs)) == Success(rs)
  {
    if rs != [] {
      var items := RecordsToJson(rs);
      assert items[1..] == RecordsToJson(rs[1..]);
      RecordsRoundTrip(rs[1..]);
      RunRecordRoundTrip(rs[0]);
      assert [rs[0]] + rs[1..] == rs;
    }
  }

  // ---------------------------------------------------------------- ProjectConfig

  const DefaultProjectStatus := "planned"
  const DefaultTool := "copilot"
  const DefaultModel := "claude-opus-4.6"

  /** The project configuration; `projectDir` is `_project_dir`, which is
      never written to the file. */
  datatype ProjectConfig = ProjectConfig(
    project: string,
    workspace: string,
    description: string,
    status: string,
    createdAt: string,
    defaultTool: string,
    defaultModel: string,
    tags: seq<Json>,
    runRecord: seq<RunRecord>,
    projectDir: Option<string>)

  predicate RecordsNumeric(c: ProjectConfig) {
    forall i :: 0 <= i < |c.runRecord| ==> IsNumber(c.runRecord[i].cumulatedMinutes)
  }

  /** `ProjectConfig.to_dict` */
  function ConfigToDict(c: ProjectConfig): map<string, Json> {
    map["project" := JStr(c.project), "description" := JStr(c.description),
        "workspace" := JStr(c.workspace), "status" := JStr(c.status),
        "created_at" := JStr(c.createdAt), "default_tool" := JStr(c.defaultTool),
        "default_model" := JStr(c.defaultModel), "tags" := JArr(c.tags),
        "run_record" := JArr(RecordsToJson(c.runRecord))]
  }

  /** `d.get("tags", [])` */
  function TagsOr(d: map<string, Json>): seq<Json> {
    if "tags" in d && d["tags"].JArr? then d["tags"].items else []
  }

  /** `ProjectConfig.from_dict(d, project_dir)`: fails only when the run
      history cannot be read; every other missing key takes its default. */
  function ConfigFromDict(d: map<string, Json>, projectDir: Option<string>): (r: Result<ProjectConfig, string>)
    ensures r.Success? <==> RecordsFromValue(if "run_record" in d then Some(d["run_record"]) else None).Success?
    ensures r.Success? ==> r.value.projectDir == projectDir && RecordsNumeric(r.value)
    ensures r.Success? && "project" !in d ==> r.value.project == ""
    ensures r.Success? && "workspace" !in d ==> r.value.workspace == ""
    ensures r.Success? && "description" !in d ==> r.value.description == ""
    ensures r.Success? && "status" !in d ==> r.value.status == DefaultProjectStatus
    ensures r.Success? && "created_at" !in d ==> r.value.createdAt == ""
    ensures r.Success? && "default_tool" !in d ==> r.value.defaultTool == DefaultTool
    ensures r.Success? && "default_model" !in d ==> r.value.defaultModel == DefaultModel
    ensures r.Success? && "tags" !in d ==> r.value.tags == []
    ensures r.Success? && "run_record" !in d ==> r.value.runRecord == []
  {
    match RecordsFromValue(if "run_record" in d then Some(d["run_record"]) else None)
    case Failure(e) => Failure(e)
    case Success(records) =>
      Success(ProjectConfig(
        StrOr(d, "project", ""),
        StrOr(d, "workspace", ""),
        StrOr(d, "description", ""),
        StrOr(d, "status", DefaultProjectStatus),
        StrOr(d, "created_at", ""),
        StrOr(d, "default_tool", DefaultTool),
        StrOr(d, "default_model", DefaultModel),
        TagsOr(d),
        records,
        projectDir))
  }

  /** The string fields of a written configuration read back unchanged. */
  lemma ConfigStringsReadBack(c: ProjectConfig)
    ensures var d := ConfigToDict(c);
      StrOr(d, "project", "") == c.project && StrOr(d, "workspace", "") == c.workspace
      && StrOr(d, "description", "") == c.description
      && StrOr(d, "status", DefaultProjectStatus) == c.status
  {
    var d := ConfigToDict(c);
    assert "project" in d && "workspace" in d && "description" in d && "status" in d;
  }

  lemma ConfigDefaultsReadBack(c: ProjectConfig)
    ensures var d := ConfigToDict(c);
      StrOr(d, "created_at", "") == c.createdAt
      && StrOr(d, "default_tool", DefaultTool) == c.defaultTool
      && StrOr(d, "default_model", DefaultModel) == c.defaultModel
      && TagsOr(d) == c.tags
      && "run_record" in d && d["run_record"] == JArr(RecordsToJson(c.runRecord))
  {
    var d := ConfigToDict(c);
    assert "created_at" in d && "default_tool" in d && "default_model" in d && "tags" in d;
  }

  /** Saving a configuration and reading it back for a project directory
      gives the same configuration, attached to that directory. */
  lemma ConfigRoundTrip(c: ProjectConfig, projectDir: Option<string>)
    requires RecordsNumeric(c)
    ensures ConfigFromDict(ConfigToDict(c), projectDir) == Success(c.(projectDir := projectDir))
  {
    ConfigStringsReadBack(c);
    ConfigDefaultsReadBack(c);
    RecordsRoundTrip(c.runRecord);
  }

  // ---------------------------------------------------------------- persistence

  const InitFile := "__init__.json"

  /** `get_project_dir(name)`: the project's directory under the projects
      root. */
  function ProjectDir(projectsRoot: string, name: string): string {
    PathJoin(projectsRoot, name)
  }

  /** Where `save_project` writes: the configuration's own directory, else
      the directory named after the project. */
  function InitPath(c: ProjectConfig, projectsRoot: string): string {
    PathJoin(c.projectDir.GetOr(ProjectDir(projectsRoot, c.project)), InitFile)
  }

  /** `__init__.json` always has a temporary sibling. */
  lemma InitPathHasTmp(dir: string)
    ensures TmpPath(PathJoin(dir, InitFile)).Some?
  {
    var p := PathJoin(dir, InitFile);
    assert p[|p| - 1] == 'n';
  }

  /** `save_project`: write `__init__.json.tmp`, then rename it over
      `__init__.json`. */
  method SaveProject(store: FileStore, c: ProjectConfig, projectsRoot: string)
    modifies store
    ensures var path := InitPath(c, projectsRoot);
      TmpPath(path).Some?
      && store.files == CrashState(old(store.files), path, TmpPath(path).value,
                                   JObj(ConfigToDict(c)), JObj(ConfigToDict(c)), 2)
  {
    InitPathHasTmp(c.projectDir.GetOr(ProjectDir(projectsRoot, c.project)));
    var ok := store.WriteAtomic(InitPath(c, projectsRoot), JObj(ConfigToDict(c)));
  }

  /** `load_project(name)`: `FileNotFoundError` without `__init__.json`;
      a document that is not an object fails at `d.get`. */
  function LoadProject(files: map<string, Json>, projectsRoot: string, name: string): (r: Result<ProjectConfig, string>)
    ensures PathJoin(ProjectDir(projectsRoot, name), InitFile) !in files ==> r.Failure?
    ensures r.Success? ==> r.value.projectDir == Some(ProjectDir(projectsRoot, name))
  {
    var dir := ProjectDir(projectsRoot, name);
    var path := PathJoin(dir, InitFile);
    if path !in files then Failure("Project not found: " + name)
    else if !files[path].JObj? then Failure("object has no attribute 'get'")
    else ConfigFromDict(files[path].fields, Some(dir))
  }

  /** A saved project loads back as the configuration that was saved. */
  lemma SaveThenLoad(files: map<string, Json>, c: ProjectConfig, projectsRoot: string, name: string)
    requires c.projectDir == Some(ProjectDir(projectsRoot, name)) && RecordsNumeric(c)
    requires TmpPath(InitPath(c, projectsRoot)).Some?
    ensures var path := InitPath(c, projectsRoot);
      var after := CrashState(files, path, TmpPath(path).value, JObj(ConfigToDict(c)), JObj(ConfigToDict(c)), 2);
      LoadProject(after, projectsRoot, name) == Success(c)
  {
    ConfigRoundTrip(c, c.projectDir);
  }

  /** `add_run_record`: the entry is appended to the history and the
      project saved. The configuration object the caller holds is updated in
      place; here the updated value is returned. */
  method AddRunRecord(store: FileStore, c: ProjectConfig, record: RunRecord, projectsRoot: string)
    returns (updated: ProjectConfig)
    modifies store
    ensures |updated.runRecord| == |c.runRecord| + 1
    ensures updated.runRecord[..|c.runRecord|] == c.runRecord
    ensures updated.runRecord[|c.runRecord|] == record
    ensures updated == c.(runRecord := updated.runRecord)
    ensures var path := InitPath(updated, projectsRoot);
      TmpPath(path).Some?
      && store.files == CrashState(old(store.files), path, TmpPath(path).value,
                                   JObj(ConfigToDict(updated)), JObj(ConfigToDict(updated)), 2)
  {
    updated := c.(runRecord := c.runRecord + [record]);
    assert updated.runRecord[..|c.runRecord|] == c.runRecord;
    SaveProject(store, updated, projectsRoot);
  }

  /** `update_project_status`: only the status changes, then the project is
      saved. */
  method UpdateProjectStatus(store: FileStore, c: ProjectConfig, status: string, projectsRoot: string)
    returns (updated: ProjectConfig)
    modifies store
    ensures updated.status == status
    ensures updated == c.(status := updated.status)
    ensures var path := InitPath(updated, projectsRoot);
      TmpPath(path).Some?
      && store.files == CrashState(old(store.files), path, TmpPath(path).value,
                                   JObj(ConfigToDict(updated)), JObj(ConfigToDict(updated)), 2)
  {
    updated := c.(status := status);
    SaveProject(store, updated, projectsRoot);
  }
}

=== FILE: renderer.dfy ===
/** Prompt rendering (`task_runner/renderer.py`): every `{{key}}` whose key
    is a run of word characters becomes the task's value for that key, and
    then every `#item` becomes the JSON text of the whole task. JSON text
    encoding and Python's `repr` of floats are parameters. */
module Renderer {
  import opened Text
  import opened JsonData

  /** How values become text: `json.dumps(value, ensure_ascii=False,
      indent=2)` and `str(x)` of a float. */
  datatype Encoder = Encoder(dumps: Json -> string, floatText: real -> string)

  const ItemMarker := "#item"

  /** The regex class `\w`, over ASCII. */
  predicate IsWordChar(c: char) {
    ('a' <= c <= 'z') || ('A' <= c <= 'Z') || ('0' <= c <= '9') || c == '_'
  }

  /** The length of the run of word characters `s` starts with. */
  function WordLen(s: string): (n: nat)
    ensures n <= |s|
    ensures forall i :: 0 <= i < n ==> IsWordChar(s[i])
    ensures n < |s| ==> !IsWordChar(s[n])
  {
    if s != [] && IsWordChar(s[0]) then 1 + WordLen(s[1..]) else 0
  }

  /** `\{\{(\w+)\}\}` matches at the start of `s`: two opening braces, a
      non-empty word run, two closing braces. */
  predicate KeyAtStart(s: string) {
    |s| >= 2 && s[0] == '{' && s[1] == '{'
    && var n := WordLen(s[2..]);
    n > 0 && |s| >= n + 4 && s[n + 2] == '}' && s[n + 3] == '}'
  }

  /** `task.get(key, "")` */
  function Lookup(task: map<string, Json>, key: string): Json {
    if key in task then task[key] else JStr("")
  }

  /** What `_replace_key` returns for a value: dicts and lists as JSON text,
      everything else through `str`. */
  function KeyText(v: Json, enc: Encoder): string {
    match v
    case JObj(_) => enc.dumps(v)
    case JArr(_) => enc.dumps(v)
    case JFloat(f) => enc.floatText(f)
    case _ => Display(v)
  }

  /** `re.sub(r"\{\{(\w+)\}\}", _replace_key, s)`: scanning left to right,
      a match is replaced and skipped, any other character is kept. */
  function SubKeys(s: string, task: map<string, Json>, enc: Encoder): string
    decreases |s|
  {
    if s == [] then []
    else if KeyAtStart(s) then
      var n := WordLen(s[2..]);
      KeyText(Lookup(task, s[2..n + 2]), enc) + SubKeys(s[n + 4..], task, enc)
    else [s[0]] + SubKeys(s[1..], task, enc)
  }

  /** `render_prompt(template, task)` */
  function Render(template: string, task: map<string, Json>, enc: Encoder): string {
    ReplaceAll(SubKeys(template, task, enc), ItemMarker, enc.dumps(JObj(task)))
  }

  // ---------------------------------------------------------------- key substitution

  /** Two opening braces at `i` followed by a word character: the only place
      a placeholder can start. */
  predicate OpensKey(s: string, i: nat) {
    i + 2 < |s| && s[i] == '{' && s[i + 1] == '{' && IsWordChar(s[i + 2])
  }

  predicate NoKeys(s: string) {
    forall i | 0 <= i < |s| :: !OpensKey(s, i)
  }

  /** Text in which no `{{` is followed by a word character (no braces at
      all, or `{{ key }}` with spaces) comes back unchanged. */
  lemma {:induction false} SubKeysNoKeys(s: string, task: map<string, Json>, enc: Encoder)
    requires NoKeys(s)
    ensures SubKeys(s, task, enc) == s
    decreases |s|
  {
    if s != [] {
      assert !OpensKey(s, 0);
      assert !KeyAtStart(s);
      assert NoKeys(s[1..]) by {
        forall i | 0 <= i < |s| - 1 ensures !OpensKey(s[1..], i) {
          assert !OpensKey(s, i + 1);
        }
      }
      SubKeysNoKeys(s[1..], task, enc);
    }
  }

  /** The word run of `key + "}}" + rest` is exactly `key`. */
  lemma WordLenOfKey(key: string, rest: string)
    requires forall i :: 0 <= i < |key| ==> IsWordChar(key[i])
    ensures WordLen(key + "}}" + rest) == |key|
    decreases |key|
  {
    if key != [] {
      assert (key + "}}" + rest)[1..] == key[1..] + "}}" + rest;
      WordLenOfKey(key[1..], rest);
    }
  }

  /** A placeholder at the start is replaced by the text of the key's value. */
  lemma SubKeysPlaceholder(key: string, rest: string, task: map<string, Json>, enc: Encoder)
    requires key != [] && forall i :: 0 <= i < |key| ==> IsWordChar(key[i])
    ensures SubKeys("{{" + key + "}}" + rest, task, enc)
         == KeyText(Lookup(task, key), enc) + SubKeys(rest, task, enc)
  {
    var s := "{{" + key + "}}" + rest;
    assert s[2..] == key + "}}" + rest;
    WordLenOfKey(key, rest);
    var n := |key|;
    assert s[n + 2] == '}' && s[n + 3] == '}';
    assert s[2..n + 2] == key;
    assert s[n + 4..] == rest;
  }

  /** Text without an opening brace is copied through as it is. */
  lemma {:induction false} SubKeysPlainPrefix(a: string, b: string, task: map<string, Json>, enc: Encoder)
    requires forall i :: 0 <= i < |a| ==> a[i] != '{'
    ensures SubKeys(a + b, task, enc) == a + SubKeys(b, task, enc)
    decreases |a|
  {
    if a != [] {
      var s := a + b;
      assert s[0] == a[0] && !KeyAtStart(s);
      assert s[1..] == a[1..] + b;
      SubKeysPlainPrefix(a[1..], b, task, enc);
      calc {
        SubKeys(s, task, enc);
        [a[0]] + SubKeys(a[1..] + b, task, enc);
        [a[0]] + (a[1..] + SubKeys(b, task, enc));
        { assert [a[0]] + a[1..] == a; }
        a + SubKeys(b, task, enc);
      }
    } else {
      assert a + b == b;
    }
  }

  // ---------------------------------------------------------------- #item

  /** A prefix without `#` is copied through by the replacement of `#item`. */
  lemma {:induction false} ReplacePlainPrefix(a: string, b: string, rep: string)
    requires forall i :: 0 <= i < |a| ==> a[i] != '#'
    ensures ReplaceAll(a + b, ItemMarker, rep) == a + ReplaceAll(b, ItemMarker, rep)
    decreases |a|
  {
    if a != [] {
      var s := a + b;
      if |s| >= |ItemMarker| {
        assert s[..|ItemMarker|][0] != ItemMarker[0];
      }
      assert s[1..] == a[1..] + b;
      ReplacePlainPrefix(a[1..], b, rep);
      calc {
        ReplaceAll(s, ItemMarker, rep);
        [a[0]] + ReplaceAll(a[1..] + b, ItemMarker, rep);
        [a[0]] + (a[1..] + ReplaceAll(b, ItemMarker, rep));
        { assert [a[0]] + a[1..] == a; }
        a + ReplaceAll(b, ItemMarker, rep);
      }
    } else {
      assert a + b == b;
    }
  }

  /** A leading `#item` becomes the replacement. */
  lemma ReplaceMarker(b: string, rep: string)
    ensures ReplaceAll(ItemMarker + b, ItemMarker, rep) == rep + ReplaceAll(b, ItemMarker, rep)
  {
    assert (ItemMarker + b)[..|ItemMarker|] == ItemMarker;
    assert (ItemMarker + b)[|ItemMarker|..] == b;
  }

  /** Pieces without `{` or `#` joined by `#item` render as the same pieces
      joined by the task's JSON text: every `#item` is replaced. */
  lemma {:induction false} RenderItems(parts: seq<string>, task: map<string, Json>, enc: Encoder)
    requires forall k, i :: 0 <= k < |parts| && 0 <= i < |parts[k]| ==> parts[k][i] != '{' && parts[k][i] != '#'
    ensures Render(Join(parts, ItemMarker), task, enc) == Join(parts, enc.dumps(JObj(task)))
  {
    var t := Join(parts, ItemMarker);
    NoBraceJoin(parts);
    SubKeysPlainPrefix(t, [], task, enc);
    assert t + [] == t;
    ReplaceJoin(parts, enc.dumps(JObj(task)));
  }

  lemma {:induction false} NoBraceJoin(parts: seq<string>)
    requires forall k, i :: 0 <= k < |parts| && 0 <= i < |parts[k]| ==> parts[k][i] != '{'
    ensures forall i :: 0 <= i < |Join(parts, ItemMarker)| ==> Join(parts, ItemMarker)[i] != '{'
  {
    if |parts| > 1 {
      NoBraceJoin(parts[1..]);
      var tail := Join(parts[1..], ItemMarker);
      assert Join(parts, ItemMarker) == parts[0] + ItemMarker + tail;
      forall i | 0 <= i < |Join(parts, ItemMarker)|
        ensures Join(parts, ItemMarker)[i] != '{'
      {
        if i >= |parts[0]| + |ItemMarker| {
          assert Join(parts, ItemMarker)[i] == tail[i - |parts[0]| - |ItemMarker|];
        }
      }
    }
  }

  lemma {:induction false} ReplaceJoin(parts: seq<string>, rep: string)
    requires forall k, i :: 0 <= k < |parts| && 0 <= i < |parts[k]| ==> parts[k][i] != '#'
    ensures ReplaceAll(Join(parts, ItemMarker), ItemMarker, rep) == Join(parts, rep)
  {
    if parts == [] {
    } else if |parts| == 1 {
      ReplacePlainPrefix(parts[0], [], rep);
      assert parts[0] + [] == parts[0];
    } else {
      var tail := Join(parts[1..], ItemMarker);
      assert Join(parts, ItemMarker) == parts[0] + (ItemMarker + tail);
      ReplacePlainPrefix(parts[0], ItemMarker + tail, rep);
      ReplaceMarker(tail, rep);
      ReplaceJoin(parts[1..], rep);
    }
  }

  // ---------------------------------------------------------------- render_prompt

  /** A template with no placeholder and no `#item` (the empty one among
      them) renders as itself. */
  lemma RenderUnchanged(template: string, task: map<string, Json>, enc: Encoder)
    requires NoKeys(template) && !Contains(template, ItemMarker)
    ensures Render(template, task, enc) == template
  {
    SubKeysNoKeys(template, task, enc);
    ReplaceAllNoMatch(template, ItemMarker, enc.dumps(JObj(task)));
  }

  /** `{{ key }}` with spaces is not a placeholder. */
  lemma SpacedKeyUntouched(key: string, task: map<string, Json>, enc: Encoder)
    requires forall i :: 0 <= i < |key| ==> key[i] != '{' && key[i] != '#'
    ensures Render("{{ " + key + " }}", task, enc) == "{{ " + key + " }}"
  {
    var t := "{{ " + key + " }}";
    assert t == "{{ " + (key + " }}");
    assert NoKeys(t) by {
      forall i | 0 <= i < |t| ensures !OpensKey(t, i) {
        if 2 <= i < |t| - 2 {
          assert t[i] == (" " + key + " }}")[i - 2];
        }
      }
    }
    SubKeysNoKeys(t, task, enc);
    ReplacePlainPrefix(t, [], enc.dumps(JObj(task)));
    assert t + [] == t;
  }

  /** A lone placeholder renders as its value's text, `#item`s in that text
      then being replaced as well. */
  lemma RenderLoneKey(key: string, task: map<string, Json>, enc: Encoder)
    requires key != [] && forall i :: 0 <= i < |key| ==> IsWordChar(key[i])
    ensures Render("{{" + key + "}}", task, enc)
         == ReplaceAll(KeyText(Lookup(task, key), enc), ItemMarker, enc.dumps(JObj(task)))
  {
    SubKeysPlaceholder(key, [], task, enc);
    assert "{{" + key + "}}" + [] == "{{" + key + "}}";
    assert KeyText(Lookup(task, key), enc) + SubKeys([], task, enc) == KeyText(Lookup(task, key), enc);
  }

  /** A missing key renders as the empty text. */
  lemma MissingKeyEmpty(key: string, task: map<string, Json>, enc: Encoder)
    requires key != [] && forall i :: 0 <= i < |key| ==> IsWordChar(key[i])
    requires key !in task
    ensures Render("{{" + key + "}}", task, enc) == ""
  {
    RenderLoneKey(key, task, enc);
  }

  /** A present `None` renders as `None`. */
  lemma NoneRendersNone(key: string, task: map<string, Json>, enc: Encoder)
    requires key != [] && forall i :: 0 <= i < |key| ==> IsWordChar(key[i])
    requires key in task && task[key] == JNull
    ensures Render("{{" + key + "}}", task, enc) == "None"
  {
    RenderLoneKey(key, task, enc);
    ReplacePlainPrefix("None", [], enc.dumps(JObj(task)));
    assert "None" + [] == "None";
  }

  /** `#item` is replaced after the keys: a value that reads `#item` turns
      into the task's JSON text. */
  lemma ItemAfterKeys(key: string, task: map<string, Json>, enc: Encoder)
    requires key != [] && forall i :: 0 <= i < |key| ==> IsWordChar(key[i])
    requires key in task && task[key] == JStr(ItemMarker)
    ensures Render("{{" + key + "}}", task, enc) == enc.dumps(JObj(task))
  {
    RenderLoneKey(key, task, enc);
    ReplaceMarker([], enc.dumps(JObj(task)));
    assert ItemMarker + [] == ItemMarker;
  }
}

=== FILE: reset_cmd.dfy ===
/** The `reset` command (`task_runner/commands/reset_cmd.py`): choose the
    target tasks of a task set, put every one that is not already clean back
    to "not-started" with its timing cleared, and save the set when anything
    changed. Console output is not modelled. */
module ResetCommand {
  import opened Wrappers
  import opened JsonData
  import opened Store
  import opened TaskSets
  import opened Scheduling
  import opened Projects

  /** The command line: `--all`, `--status`, `--from` and `--batch`. */
  datatype ResetArgs = ResetArgs(
    projectName: string,
    taskSetName: string,
    resetAll: bool,
    status: Option<string>,
    startFrom: Option<string>,
    batch: Option<int>)

  /** At least one of `--all`, `--status` and `--from` was given. */
  predicate HasFilter(a: ResetArgs) {
    a.resetAll || Present(a.status) || Present(a.startFrom)
  }

  // ---------------------------------------------------------------- targets

  /** `list(task_set.tasks)` as positions, in list order. */
  function Positions(n: nat): (r: seq<nat>)
    ensures |r| == n
    ensures forall i :: 0 <= i < n ==> r[i] == i
    ensures forall x: nat :: x in r <==> x < n
  {
    if n == 0 then [] else Positions(n - 1) + [n - 1]
  }

  predicate Distinct(ps: seq<nat>) {
    forall a, b :: 0 <= a < b < |ps| ==> ps[a] != ps[b]
  }

  /** The batch and status filters as `schedule_tasks` options (no priority
      bound, no retry filter). */
  function AsOptions(a: ResetArgs): ScheduleOptions {
    ScheduleOptions(a.batch, None, a.status, None, false)
  }

  /** The batch and status filters, applied in that order to the list: the
      tasks kept are exactly those in the given batch with the given status. */
  function Filter(ts: seq<Task>, a: ResetArgs): (r: seq<nat>)
    ensures ValidPositions(ts, r)
    ensures forall x: nat :: x in r <==> x < |ts| && Passes(ts[x], AsOptions(a))
  {
    var t0 := Positions(|ts|);
    var t1 := if a.batch.Some? then Keep(ts, t0, BatchIs(a.batch.value)) else t0;
    assert forall x: nat :: x in t1 <==> x < |ts| && (a.batch.None? || ts[x].batch == a.batch.value);
    if Present(a.status) then Keep(ts, t1, HasStatus(a.status.value)) else t1
  }

  /** The targets of a reset, or `None` when `--from` names no target (the
      command then fails). With `--from` the filtered list is sorted by
      `(batch, priority)`, stably, and cut at the first task with that
      task_no; the stable sort of the filtered positions is `Filtered`. */
  function Targets(ts: seq<Task>, a: ResetArgs): (r: Option<seq<nat>>)
    ensures r.Some? ==> ValidPositions(ts, r.value)
  {
    if Present(a.startFrom) then
      var sorted := Filtered(ts, AsOptions(a));
      var k := FirstWithNo(ts, sorted, a.startFrom.value);
      if k < |sorted| then Some(sorted[k..]) else None
    else Some(Filter(ts, a))
  }

  /** With `--from`, the reset is refused exactly when no task passing the
      filters has the anchor task_no. */
  lemma TargetsMissing(ts: seq<Task>, a: ResetArgs)
    requires Present(a.startFrom)
    ensures Targets(ts, a).None? <==>
      forall x: nat :: x < |ts| && Passes(ts[x], AsOptions(a)) ==> ts[x].taskNo != a.startFrom.value
  {
    var sorted := Filtered(ts, AsOptions(a));
    var k := FirstWithNo(ts, sorted, a.startFrom.value);
    if k == |sorted| {
      forall x: nat | x < |ts| && Passes(ts[x], AsOptions(a)) ensures ts[x].taskNo != a.startFrom.value {
        assert x in sorted;
        var i :| 0 <= i < |sorted| && sorted[i] == x;
      }
    } else {
      assert sorted[k] in sorted;
    }
  }

  /** With `--from`, the targets start at the first filtered task (in key
      order) with the anchor task_no and are exactly the filtered tasks from
      there on, in key order. */
  lemma TargetsFromAnchor(ts: seq<Task>, a: ResetArgs)
    requires Present(a.startFrom) && Targets(ts, a).Some?
    ensures var r := Targets(ts, a).value;
      r != [] && ts[r[0]].taskNo == a.startFrom.value && SortedByKey(ts, r)
      && (forall x: nat :: x in r <==> x < |ts| && Passes(ts[x], AsOptions(a)) && (x == r[0] || KeyLt(ts, r[0], x)))
      && (forall x: nat :: x < |ts| && Passes(ts[x], AsOptions(a)) && ts[x].taskNo == a.startFrom.value ==>
            x == r[0] || KeyLt(ts, r[0], x))
  {
    var sorted := Filtered(ts, AsOptions(a));
    var k := FirstWithNo(ts, sorted, a.startFrom.value);
    SortedSuffix(ts, sorted, k);
    FromAnchorMembers(ts, sorted, k);
    forall x: nat | x < |ts| && Passes(ts[x], AsOptions(a)) && ts[x].taskNo == a.startFrom.value
      ensures x == sorted[k] || KeyLt(ts, sorted[k], x)
    {
      assert x in sorted;
      var i :| 0 <= i < |sorted| && sorted[i] == x;
      SortedIndexOrder(ts, sorted, k, i);
    }
  }

  /** `Keep` of a list without repeats has none either. */
  lemma {:induction false} KeepDistinct(ts: seq<Task>, ps: seq<nat>, keep: Task -> bool)
    requires ValidPositions(ts, ps) && Distinct(ps)
    ensures Distinct(Keep(ts, ps, keep))
  {
    if ps != [] {
      assert Distinct(ps[1..]);
      KeepDistinct(ts, ps[1..], keep);
      var rest := Keep(ts, ps[1..], keep);
      assert ps[0] !in ps[1..];
      assert ps[0] !in rest;
    }
  }

  /** No target list repeats a task. */
  lemma TargetsDistinct(ts: seq<Task>, a: ResetArgs)
    requires Targets(ts, a).Some?
    ensures Distinct(Targets(ts, a).value)
  {
    if Present(a.startFrom) {
      var sorted := Filtered(ts, AsOptions(a));
      var k := FirstWithNo(ts, sorted, a.startFrom.value);
      SortedSuffix(ts, sorted, k);
      var r := sorted[k..];
      forall i, j | 0 <= i < j < |r| ensures r[i] != r[j] {
        assert KeyLt(ts, r[i], r[j]);
      }
    } else {
      var t0 := Positions(|ts|);
      var t1 := if a.batch.Some? then Keep(ts, t0, BatchIs(a.batch.value)) else t0;
      if a.batch.Some? {
        KeepDistinct(ts, t0, BatchIs(a.batch.value));
      }
      if Present(a.status) {
        KeepDistinct(ts, t1, HasStatus(a.status.value));
      }
    }
  }

  // ---------------------------------------------------------------- the reset loop

  /** Already "not-started" and never timed: counted as already clean. */
  predicate IsClean(t: Task) {
    t.status == NotStarted && t.elapsed.None?
  }

  /** The clean test as the reset loop writes it. `elapsed_seconds` is not a
      field of the task record: it exists only on a task object the executor
      has timed in the same process, which `hasAttr` says. The test reads it
      only for a "not-started" task, and `None` stands for the AttributeError
      that read raises when the attribute was never set. */
  function CleanTestAsWritten(t: Task, hasAttr: bool): (r: Option<bool>)
    ensures r.None? <==> t.status == NotStarted && !hasAttr
    ensures r.Some? ==> (r.value <==> IsClean(t))
  {
    if t.status != NotStarted then Some(false)
    else if !hasAttr then None
    else Some(t.elapsed.None?)
  }

  /** The reset command loads its task set from disk, so no target carries
      the attribute: a target that is "not-started" (for instance one whose
      document has no "status" key) makes the loop as written raise, where the
      intended behaviour counts it as already clean and leaves it unchanged. */
  lemma LoadedNotStartedAsWritten(d: map<string, Json>)
    requires "status" !in d
    ensures CleanTestAsWritten(TaskFromDict(d), false).None?
    ensures IsClean(TaskFromDict(d)) && ResetTask(TaskFromDict(d)) == TaskFromDict(d)
  {
  }

  /** One target after the loop body. */
  function ResetTask(t: Task): (u: Task)
    ensures u.status == NotStarted && u.elapsed.None?
    ensures IsClean(t) ==> u == t
    ensures !IsClean(t) ==> u == t.(status := NotStarted, elapsed := None, lastRunAt := None)
  {
    if IsClean(t) then t else t.(status := NotStarted, elapsed := None, lastRunAt := None)
  }

  /** The tasks after the loop has handled `targets` in order. */
  function ResetAll(ts: seq<Task>, targets: seq<nat>): (r: seq<Task>)
    requires ValidPositions(ts, targets)
    ensures |r| == |ts|
  {
    if targets == [] then ts
    else
      var prev := ResetAll(ts, targets[..|targets| - 1]);
      var p := targets[|targets| - 1];
      prev[p := ResetTask(prev[p])]
  }

  /** How many of `targets` are not clean in `ts`. */
  function DirtyCount(ts: seq<Task>, targets: seq<nat>): (n: nat)
    requires ValidPositions(ts, targets)
    ensures n <= |targets|
  {
    if targets == [] then 0
    else DirtyCount(ts, targets[..|targets| - 1]) + (if IsClean(ts[targets[|targets| - 1]]) then 0 else 1)
  }

  /** With no repeated target, each target is reset once from its original
      state and every other task is left as it was. */
  lemma {:induction false} ResetAllEffect(ts: seq<Task>, targets: seq<nat>)
    requires ValidPositions(ts, targets) && Distinct(targets)
    ensures forall i :: 0 <= i < |ts| ==>
      ResetAll(ts, targets)[i] == (if i in targets then ResetTask(ts[i]) else ts[i])
  {
    if targets != [] {
      var front := targets[..|targets| - 1];
      var p := targets[|targets| - 1];
      assert Distinct(front);
      ResetAllEffect(ts, front);
      assert p !in front;
      forall i | 0 <= i < |ts|
        ensures ResetAll(ts, targets)[i] == (if i in targets then ResetTask(ts[i]) else ts[i])
      {
        assert i in targets <==> i in front || i == p;
      }
    }
  }

  /** The loop of `handle_reset` over the targets, counting the tasks it
      resets and those already clean. */
  method ResetLoop(tasks: array<Task>, targets: seq<nat>) returns (resetCount: nat, alreadyClean: nat)
    requires ValidPositions(tasks[..], targets) && Distinct(targets)
    modifies tasks
    ensures tasks[..] == ResetAll(old(tasks[..]), targets)
    ensures resetCount == DirtyCount(old(tasks[..]), targets)
    ensures resetCount + alreadyClean == |targets|
  {
    ghost var init := tasks[..];
    resetCount, alreadyClean := 0, 0;
    var k := 0;
    while k < |targets|
      invariant 0 <= k <= |targets|
      invariant tasks[..] == ResetAll(init, targets[..k])
      invariant resetCount == DirtyCount(init, targets[..k])
      invariant resetCount + alreadyClean == k
    {
      var p := targets[k];
      assert targets[..k + 1][..k] == targets[..k];
      assert Distinct(targets[..k]);
      ResetAllEffect(init, targets[..k]);
      assert p !in targets[..k];
      var task := tasks[p];
      assert task == init[p];
      if task.status == NotStarted && task.elapsed.None? {
        alreadyClean := alreadyClean + 1;
      } else {
        tasks[p] := task.(status := NotStarted, elapsed := None, lastRunAt := None);
        resetCount := resetCount + 1;
      }
      k := k + 1;
    }
    assert targets[..|targets|] == targets;
  }

  /** After the loop every target is "not-started" without elapsed time,
      a clean target is untouched, the others also lose `last_run_at`, and
      no other task changes; the counts split the targets. */
  lemma ResetOutcome(ts: seq<Task>, targets: seq<nat>)
    requires ValidPositions(ts, targets) && Distinct(targets)
    ensures var r := ResetAll(ts, targets);
      (forall i :: 0 <= i < |ts| && i in targets ==>
         r[i].status == NotStarted && r[i].elapsed.None?
         && (IsClean(ts[i]) ==> r[i] == ts[i])
         && (!IsClean(ts[i]) ==> r[i].lastRunAt.None? && r[i] == ts[i].(status := r[i].status, elapsed := None, lastRunAt := None)))
      && (forall i :: 0 <= i < |ts| && i !in targets ==> r[i] == ts[i])
  {
    ResetAllEffect(ts, targets);
  }

  // ---------------------------------------------------------------- handle_reset

  /** What `handle_reset` ends with: an exit code and the files left behind,
      or the message of an exception it does not catch. */
  datatype ResetEnd = Done(code: int, files: map<string, Json>) | Raised(message: string)

  /** The project defaults passed to `load_task_set`. */
  function DefaultsOf(c: ProjectConfig): map<string, Json> {
    map["default_tool" := JStr(c.defaultTool), "default_model" := JStr(c.defaultModel)]
  }

  /** `handle_reset` on the files present. */
  function ResetSpec(files: map<string, Json>, projectsRoot: string, a: ResetArgs): ResetEnd {
    var dir := ProjectDir(projectsRoot, a.projectName);
    if !HasFilter(a) then Done(1, files)
    else if PathJoin(dir, InitFile) !in files then Done(1, files)
    else match LoadProject(files, projectsRoot, a.projectName)
      case Failure(e) => Raised(e)
      case Success(c) => ResetLoaded(files, dir, a, c)
  }

  /** `handle_reset` once the project configuration is loaded. */
  function ResetLoaded(files: map<string, Json>, dir: string, a: ResetArgs, c: ProjectConfig): ResetEnd {
    match ReadTaskSet(files, dir, a.taskSetName, DefaultsOf(c))
    case None => Done(1, files)
    case Some(ts) => ApplyReset(files, dir, a, ts)
  }

  /** `handle_reset` once the task set is loaded: exit 1 when `--from` names
      no target, exit 0 without a save when nothing is dirty, and otherwise
      save the reset task set and exit 0. */
  function ApplyReset(files: map<string, Json>, dir: string, a: ResetArgs, ts: TaskSet): (r: ResetEnd)
    requires ts.filePath == Some(TaskSetPath(dir, ts.name)) && ts.name == a.taskSetName
    ensures r.Done?
    ensures r.code == 1 <==> Targets(ts.tasks, a).None?
    ensures r.code != 1 ==> r.code == 0
    ensures r.files != files ==>
      r.code == 0 && var targets := Targets(ts.tasks, a).value;
      DirtyCount(ts.tasks, targets) > 0
      && r.files == SavedFiles(files, dir, a.taskSetName, ts.(tasks := ResetAll(ts.tasks, targets)))
  {
    match Targets(ts.tasks, a)
    case None => Done(1, files)
    case Some(targets) =>
      if targets == [] || DirtyCount(ts.tasks, targets) == 0 then Done(0, files)
      else Done(0, SavedFiles(files, dir, a.taskSetName, ts.(tasks := ResetAll(ts.tasks, targets))))
  }

  /** The command exits 1 without touching any file when no selection flag is
      given, when the project or task set is missing, or when `--from` names
      no target; an exception leaves the files as they were. */
  lemma ResetSpecCases(files: map<string, Json>, projectsRoot: string, a: ResetArgs)
    ensures !HasFilter(a) ==> ResetSpec(files, projectsRoot, a) == Done(1, files)
    ensures var r := ResetSpec(files, projectsRoot, a);
      r.Done? && r.code == 1 ==> r.files == files
    ensures var r := ResetSpec(files, projectsRoot, a);
      r.Done? ==> r.code == 0 || r.code == 1
  {
    var dir := ProjectDir(projectsRoot, a.projectName);
    if HasFilter(a) && PathJoin(dir, InitFile) in files {
      var loaded := LoadProject(files, projectsRoot, a.projectName);
      if loaded.Success? {
        var ts := ReadTaskSet(files, dir, a.taskSetName, DefaultsOf(loaded.value));
        if ts.Some? {
          var r := ApplyReset(files, dir, a, ts.value);
        }
      }
    }
  }

  /** `handle_reset`. */
  method HandleReset(store: FileStore, projectsRoot: string, a: ResetArgs) returns (r: Result<int, string>)
    modifies store
    ensures var spec := ResetSpec(old(store.files), projectsRoot, a);
      (spec.Raised? ==> r == Failure(spec.message))
      && (spec.Done? ==> r == Success(spec.code) && store.files == spec.files)
  {
    if !HasFilter(a) {
      return Success(1);
    }
    var dir := ProjectDir(projectsRoot, a.projectName);
    if PathJoin(dir, InitFile) !in store.files {
      return Success(1);
    }
    var loaded := LoadProject(store.files, projectsRoot, a.projectName);
    if loaded.Failure? {
      return Failure(loaded.error);
    }
    var c := loaded.value;
    var read := LoadTaskSet(store, dir, a.taskSetName, DefaultsOf(c));
    if read.Failure? {
      return Success(1);
    }
    var code := ResetAndSave(store, dir, a, read.value);
    return Success(code);
  }

  /** The part of `handle_reset` after the task set is loaded. */
  method ResetAndSave(store: FileStore, dir: string, a: ResetArgs, ts: TaskSet) returns (code: int)
    requires ts.filePath == Some(TaskSetPath(dir, ts.name)) && ts.name == a.taskSetName
    modifies store
    ensures var spec := ApplyReset(old(store.files), dir, a, ts);
      code == spec.code && store.files == spec.files
  {
    var chosen := Targets(ts.tasks, a);
    if chosen.None? {
      return 1;
    }
    var targets := chosen.value;
    if targets == [] {
      return 0;
    }
    TargetsDistinct(ts.tasks, a);
    var tasks := new Task[|ts.tasks|](i requires 0 <= i < |ts.tasks| => ts.tasks[i]);
    assert tasks[..] == ts.tasks;
    var resetCount, alreadyClean := ResetLoop(tasks, targets);
    if resetCount == 0 {
      return 0;
    }
    TaskSetPathHasTmp(dir, a.taskSetName);
    var saved := SaveTaskSet(store, ts.(tasks := tasks[..]), Some(dir));
    return 0;
  }
}

=== FILE: run_cmd.dfy ===
/** The `run` command (`task_runner/commands/run_cmd.py`, `_execute`): load
    the project, resolve the tool, the model, the proxy and the heartbeat,
    schedule the task set, add a "running" record to the project history,
    run the task loop, which writes the task set back whenever it changes a
    status, and finally complete that record with the run's results. The run-context files (metadata, summary, backup, the `latest`
    link), the console and the clock are not modelled: the clock readings
    and the environment are parameters. */
module RunCommand {
  import opened Wrappers
  import opened JsonData
  import opened Store
  import opened Config
  import opened TaskSets
  import opened Scheduling
  import opened Projects
  import opened Executor
  import Notify
  import RunLoop
  import Runtime

  /** The command line options `_execute` reads. */
  datatype RunArgs = RunArgs(
    projectName: string,
    taskSetName: string,
    tool: Option<string>,
    model: Option<string>,
    batch: Option<int>,
    minPriority: Option<int>,
    start: Option<string>,
    retryFailed: bool,
    proxyMode: Option<string>,
    heartbeat: int,
    verbose: bool,
    delay: Option<string>)

  /** What the command takes from outside the program. */
  datatype RunEnv = RunEnv(
    runId: string,                  // the run's `%Y-%m-%d_%H-%M-%S` timestamp
    stopAt: string,                 // the timestamp taken after the loop
    minutes: real,                  // the rounded run time in minutes
    environ: map<string, string>,   // `os.environ`
    available: set<string>,         // the tools found on PATH
    maxSeconds: nat,                // `MAX_EXECUTION_SECONDS`
    outcomes: nat -> Outcome)       // the child run of each scheduled task

  // ---------------------------------------------------------------- resolution

  /** `cli_tool or config.default_tool` */
  function ToolName(a: RunArgs, c: ProjectConfig): string {
    if Given(a.tool) then a.tool.value else c.defaultTool
  }

  /** `cli_model or config.default_model` */
  function ModelName(a: RunArgs, c: ProjectConfig): string {
    if Given(a.model) then a.model.value else c.defaultModel
  }

  /** A named model the tool would take but does not list. */
  predicate ModelRejected(model: string, tc: ToolConfig) {
    model != "" && tc.supportsModel && tc.models != [] && model !in tc.models
  }

  /** The model handed to the executor: none for a tool without model
      support, the tool's default when no model was named, else the name. */
  function RunModel(model: string, tc: ToolConfig): (r: Option<string>)
    ensures r.None? <==> !tc.supportsModel
    ensures tc.supportsModel && model != "" ==> r == Some(model)
    ensures tc.supportsModel && model == "" && Given(tc.defaultModel) ==> r == tc.defaultModel
    ensures tc.supportsModel && model == "" && !Given(tc.defaultModel) ==> r == Some("")
  {
    if !tc.supportsModel then None
    else if model == "" && Given(tc.defaultModel) then tc.defaultModel
    else Some(model)
  }

  /** For every configured tool (`GetToolConfig` only returns those), a model
      that passes validation reaches the executor only when the tool supports
      models, and then it is one of the tool's listed models. */
  lemma RunModelListed(tc: ToolConfig, model: string)
    requires tc in ToolConfigs && !ModelRejected(model, tc)
    ensures var m := RunModel(model, tc);
      (m.Some? <==> tc.supportsModel) && (m.Some? ==> m.value in tc.models)
  {
    if tc.supportsModel && model == "" {
      assert tc == ToolConfigs[1] || tc == ToolConfigs[2];
      if tc == Agent {
        assert Agent.models[9] == "opus-4.6";
      } else {
        assert Copilot.models[3] == "claude-opus-4.6";
      }
    }
  }

  /** `--proxy on` and `--proxy off` decide; otherwise the tool's
      `needs_proxy`. */
  function UseProxy(proxyMode: Option<string>, tc: ToolConfig): bool {
    if proxyMode == Some("on") then true
    else if proxyMode == Some("off") then false
    else tc.needsProxy
  }

  /** For a task without a tool of its own, the child gets the proxy exactly
      when `--proxy on` was given, or `--proxy off` was not and the run's
      tool needs it. */
  lemma UseProxyReachesChild(proxyMode: Option<string>, tc: ToolConfig)
    ensures NeedsProxy(proxyMode, None, UseProxy(proxyMode, tc))
        <==> proxyMode == Some("on") || (proxyMode != Some("off") && tc.needsProxy)
    ensures !tc.needsProxy ==> (NeedsProxy(proxyMode, None, UseProxy(proxyMode, tc)) <==> proxyMode == Some("on"))
  {
  }

  /** The heartbeat interval: verbose mode caps it at 15 seconds. */
  function Heartbeat(heartbeat: int, verbose: bool): (r: int)
    ensures r <= heartbeat
    ensures verbose ==> r <= 15 && (r == heartbeat || r == 15)
    ensures !verbose ==> r == heartbeat
  {
    if verbose && heartbeat > 15 then 15 else heartbeat
  }

  /** The scheduling options of the command line. */
  function OptionsOf(a: RunArgs): ScheduleOptions {
    ScheduleOptions(a.batch, a.minPriority, None, a.start, a.retryFailed)
  }

  // ---------------------------------------------------------------- the run record

  /** `TaskExecutor.get_results()` after the loop. */
  function ResultsOf(tot: RunLoop.Totals): (m: map<string, int>)
    ensures m.Keys == {"succeeded", "failed", "skipped", "attempted"}
    ensures m["succeeded"] == tot.succeeded && m["failed"] == tot.failed && m["skipped"] == tot.skipped
    ensures m["attempted"] == m["succeeded"] + m["failed"]
  {
    map["succeeded" := tot.succeeded as int, "failed" := tot.failed as int,
        "skipped" := tot.skipped as int, "attempted" := (tot.succeeded + tot.failed) as int]
  }

  /** `results.get(key, 0)` */
  function Get(results: map<string, int>, key: string): int {
    if key in results then results[key] else 0
  }

  /** The run record completed after the loop: the stop time, the run time,
      "completed" when no task failed and "partial" otherwise, and the counts
      copied from the results. */
  function FinalRecord(r: RunRecord, stopAt: string, minutes: real, results: map<string, int>): (f: RunRecord)
    ensures f.runAt == r.runAt && f.taskSetName == r.taskSetName
    ensures f.stopAt == stopAt && f.cumulatedMinutes == JFloat(minutes)
    ensures f.status == Runtime.SummaryStatus(results)
    ensures f.status == "completed" <==> Get(results, "failed") == 0
    ensures f.tasksAttempted == Get(results, "attempted")
    ensures f.tasksSucceeded == Get(results, "succeeded") && f.tasksFailed == Get(results, "failed")
  {
    r.(stopAt := stopAt, cumulatedMinutes := JFloat(minutes),
       status := if Get(results, "failed") == 0 then "completed" else "partial",
       tasksAttempted := Get(results, "attempted"), tasksSucceeded := Get(results, "succeeded"),
       tasksFailed := Get(results, "failed"))
  }

  /** The record of a run agrees with its exit code: a run that exits 0 is
      "completed", a "partial" run exits 1, and the attempts are the
      successes plus the failures. */
  lemma FinalRecordOfRun(r: RunRecord, stopAt: string, minutes: real, tot: RunLoop.Totals)
    ensures var f := FinalRecord(r, stopAt, minutes, ResultsOf(tot));
      (RunLoop.ExitCode(tot) == 0 ==> f.status == "completed")
      && (f.status == "partial" ==> RunLoop.ExitCode(tot) == 1)
      && f.tasksAttempted == f.tasksSucceeded + f.tasksFailed
      && f.tasksFailed == tot.failed
  {
  }

  // ---------------------------------------------------------------- _execute

  /** What `_execute` ends with: an exit code, or the message of an exception
      it does not catch, with the files left behind. */
  datatype RunEnd = Done(code: int, files: map<string, Json>) | Raised(message: string, files: map<string, Json>)

  /** The files after `save_project(c)`. */
  function Saved(files: map<string, Json>, c: ProjectConfig, projectsRoot: string): (r: map<string, Json>)
    ensures InitPath(c, projectsRoot) in r && r[InitPath(c, projectsRoot)] == JObj(ConfigToDict(c))
  {
    var path := InitPath(c, projectsRoot);
    InitPathHasTmp(c.projectDir.GetOr(ProjectDir(projectsRoot, c.project)));
    CrashState(files, path, TmpPath(path).value, JObj(ConfigToDict(c)), JObj(ConfigToDict(c)), 2)
  }

  /** The project defaults passed to `load_task_set`. */
  function DefaultsOf(c: ProjectConfig): map<string, Json> {
    map["default_tool" := JStr(c.defaultTool), "default_model" := JStr(c.defaultModel)]
  }

  /** What has been resolved before the task set is loaded. */
  datatype Resolved = Resolved(c: ProjectConfig, dir: string, tc: ToolConfig, model: Option<string>)

  /** The configuration after `add_run_record` and, for a planned project,
      `update_project_status(config, "active")`. */
  function Started(c: ProjectConfig, record: RunRecord): (s: ProjectConfig)
    ensures s.runRecord == c.runRecord + [record]
    ensures s.status == (if c.status == "planned" then "active" else c.status)
    ensures s == c.(runRecord := s.runRecord, status := s.status)
  {
    var c1 := c.(runRecord := c.runRecord + [record]);
    if c1.status == "planned" then c1.(status := "active") else c1
  }

  /** The files after the record is added and, for a planned project, the
      status is updated: two saves, or one. */
  function StartedFiles(files: map<string, Json>, c: ProjectConfig, record: RunRecord, projectsRoot: string): map<string, Json> {
    var c1 := c.(runRecord := c.runRecord + [record]);
    var f1 := Saved(files, c1, projectsRoot);
    if c1.status == "planned" then Saved(f1, Started(c, record), projectsRoot) else f1
  }

  /** The executor's settings. */
  function SettingsOf(a: RunArgs, env: RunEnv, dryRun: bool, r: Resolved, delay: DelayRange): RunLoop.Settings {
    RunLoop.Settings(r.tc, r.model, a.tool.Some?, a.model.Some?, dryRun, delay,
                     Runtime.RunDir(r.dir, env.runId, a.taskSetName), env.available,
                     Notify.CreateNotifier(None, Some(true), env.environ).Some?, false, env.maxSeconds)
  }

  /** The child outcomes of the first `n` scheduled tasks. */
  function Outcomes(env: RunEnv, n: nat): (outs: seq<Outcome>)
    ensures |outs| == n
  {
    seq(n, i requires 0 <= i < n => env.outcomes(i))
  }

  /** `_execute` on the files present. */
  function ExecuteSpec(files: map<string, Json>, projectsRoot: string, a: RunArgs, env: RunEnv, dryRun: bool): RunEnd {
    var dir := ProjectDir(projectsRoot, a.projectName);
    if PathJoin(dir, InitFile) !in files then Done(1, files)
    else match LoadProject(files, projectsRoot, a.projectName)
      case Failure(e) => Raised(e, files)
      case Success(c) => WithProject(files, projectsRoot, a, env, dryRun, c, dir)
  }

  /** `_execute` once the project is loaded: resolve and validate the tool
      and model. */
  function WithProject(files: map<string, Json>, projectsRoot: string, a: RunArgs, env: RunEnv, dryRun: bool,
                       c: ProjectConfig, dir: string): (r: RunEnd)
    ensures GetToolConfig(ToolName(a, c)).Failure? ==> r == Done(1, files)
    ensures GetToolConfig(ToolName(a, c)).Success? && ModelRejected(ModelName(a, c), GetToolConfig(ToolName(a, c)).value)
      ==> r == Done(1, files)
  {
    match GetToolConfig(ToolName(a, c))
    case Failure(_) => Done(1, files)
    case Success(tc) =>
      var model := ModelName(a, c);
      if ModelRejected(model, tc) then Done(1, files)
      else WithTool(files, projectsRoot, a, env, dryRun, Resolved(c, dir, tc, RunModel(model, tc)))
  }

  /** `_execute` once the tool is resolved: load and schedule the task set. */
  function WithTool(files: map<string, Json>, projectsRoot: string, a: RunArgs, env: RunEnv, dryRun: bool, r: Resolved): RunEnd {
    match ReadTaskSet(files, r.dir, a.taskSetName, DefaultsOf(r.c))
    case None => Done(1, files)
    case Some(ts) =>
      var sched := Scheduled(ts.tasks, OptionsOf(a));
      if sched == [] then Done(0, files)
      else Launch(files, projectsRoot, a, env, dryRun, r, ts, sched)
  }

  /** `_execute` with a non-empty schedule: record the run as "running",
      then parse the delay, whose error escapes. */
  function Launch(files: map<string, Json>, projectsRoot: string, a: RunArgs, env: RunEnv, dryRun: bool,
                  r: Resolved, ts: TaskSet, sched: seq<nat>): RunEnd
    requires ValidPositions(ts.tasks, sched)
  {
    var f2 := StartedFiles(files, r.c, NewRunRecord(env.runId, "running", a.taskSetName), projectsRoot);
    match ParseDelayRange(a.delay)
    case Failure(e) => Raised(e, f2)
    case Success(delay) =>
      var outcome := RunLoop.RunV3(SettingsOf(a, env, dryRun, r, delay), ts.tasks, sched, Outcomes(env, |sched|));
      Completed(f2, projectsRoot, a, env, r, ts, outcome.0, outcome.1)
  }

  /** The end of `_execute`: the task set as the loop last saved it (its
      final task array, when the loop saved at all), then the run record
      completed with the loop's results and the project saved with it in
      place of the running one. */
  function Completed(files: map<string, Json>, projectsRoot: string, a: RunArgs, env: RunEnv, r: Resolved,
                     ts: TaskSet, code: int, st: RunLoop.State): (e: RunEnd)
    ensures e.Done? && e.code == code
  {
    var f3 := if st.totals.saved then SavedFiles(files, r.dir, a.taskSetName, ts.(tasks := st.tasks)) else files;
    var final := FinalRecord(NewRunRecord(env.runId, "running", a.taskSetName), env.stopAt, env.minutes, ResultsOf(st.totals));
    Done(code, Saved(f3, Started(r.c, final), projectsRoot))
  }

  /** A task-set file is never a project's `__init__.json` nor its temporary
      sibling: the last character and the one before ".json" tell them apart. */
  lemma TaskSetFileApart(dir: string, name: string, projectDir: string)
    ensures TaskSetPath(dir, name) != PathJoin(projectDir, InitFile)
    ensures TmpPath(PathJoin(projectDir, InitFile)).Some? ==>
      TaskSetPath(dir, name) != TmpPath(PathJoin(projectDir, InitFile)).value
  {
    var p := TaskSetPath(dir, name);
    var q := PathJoin(projectDir, InitFile);
    assert p[|p| - 6] == 's' && q[|q| - 6] == '_';
    if TmpPath(q).Some? {
      var t := TmpPath(q).value;
      assert t[|t| - 1] == TmpSuffix[8] == 'p' && p[|p| - 1] == 'n';
    }
  }

  /** The files a project save leaves outside `__init__.json` and its
      temporary sibling are those before it. */
  lemma SavedKeepsTaskSet(files: map<string, Json>, c: ProjectConfig, projectsRoot: string, dir: string, name: string)
    ensures var path := TaskSetPath(dir, name);
      var r := Saved(files, c, projectsRoot);
      (path in r <==> path in files) && (path in files ==> r[path] == files[path])
  {
    TaskSetFileApart(dir, name, c.projectDir.GetOr(ProjectDir(projectsRoot, c.project)));
    InitPathHasTmp(c.projectDir.GetOr(ProjectDir(projectsRoot, c.project)));
  }

  /** After `_execute` completes, the task-set file holds the loop's final
      task array whenever the loop saved it; otherwise it is as it was. */
  lemma CompletedTaskSetFile(files: map<string, Json>, projectsRoot: string, a: RunArgs, env: RunEnv, r: Resolved,
                             ts: TaskSet, code: int, st: RunLoop.State)
    ensures var e := Completed(files, projectsRoot, a, env, r, ts, code, st);
      var path := TaskSetPath(r.dir, a.taskSetName);
      (st.totals.saved ==> path in e.files && e.files[path] == JObj(TaskSetToDict(ts.(tasks := st.tasks))))
      && (!st.totals.saved ==> (path in e.files <==> path in files) && (path in files ==> e.files[path] == files[path]))
  {
    var f3 := if st.totals.saved then SavedFiles(files, r.dir, a.taskSetName, ts.(tasks := st.tasks)) else files;
    var final := FinalRecord(NewRunRecord(env.runId, "running", a.taskSetName), env.stopAt, env.minutes, ResultsOf(st.totals));
    SavedKeepsTaskSet(f3, Started(r.c, final), projectsRoot, r.dir, a.taskSetName);
  }

  /** A launched run leaves the task-set file agreeing with the loop: it
      holds the final task array when the loop saved, and otherwise it is
      untouched and the loop changed no task; a dry run never writes it. */
  lemma LaunchTaskSetFile(files: map<string, Json>, projectsRoot: string, a: RunArgs, env: RunEnv, dryRun: bool,
                          r: Resolved, ts: TaskSet, sched: seq<nat>)
    requires ValidPositions(ts.tasks, sched) && ParseDelayRange(a.delay).Success?
    ensures var e := Launch(files, projectsRoot, a, env, dryRun, r, ts, sched);
      var st := RunLoop.RunV3(SettingsOf(a, env, dryRun, r, ParseDelayRange(a.delay).value), ts.tasks, sched,
                              Outcomes(env, |sched|)).1;
      var path := TaskSetPath(r.dir, a.taskSetName);
      (st.totals.saved ==> path in e.files && e.files[path] == JObj(TaskSetToDict(ts.(tasks := st.tasks))))
      && (!st.totals.saved ==>
            st.tasks == ts.tasks && (path in e.files <==> path in files)
            && (path in files ==> e.files[path] == files[path]))
      && (dryRun ==> !st.totals.saved)
  {
    var s := SettingsOf(a, env, dryRun, r, ParseDelayRange(a.delay).value);
    var outcome := RunLoop.RunV3(s, ts.tasks, sched, Outcomes(env, |sched|));
    RunLoop.RunV3Saved(s, ts.tasks, sched, Outcomes(env, |sched|));
    var record := NewRunRecord(env.runId, "running", a.taskSetName);
    var c1 := r.c.(runRecord := r.c.runRecord + [record]);
    var f1 := Saved(files, c1, projectsRoot);
    SavedKeepsTaskSet(files, c1, projectsRoot, r.dir, a.taskSetName);
    SavedKeepsTaskSet(f1, Started(r.c, record), projectsRoot, r.dir, a.taskSetName);
    CompletedTaskSetFile(StartedFiles(files, r.c, record, projectsRoot), projectsRoot, a, env, r, ts,
                         outcome.0, outcome.1);
  }

  /** The loop only exits 0 when its totals do: no failure, no interruption. */
  lemma LoopExitAgrees(s: RunLoop.Settings, init: seq<Task>, sched: seq<nat>, outs: seq<Outcome>)
    requires |sched| == |outs| && RunLoop.ValidSchedule(sched, |init|)
    ensures var r := RunLoop.RunV3(s, init, sched, outs);
      r.0 == 0 ==> RunLoop.ExitCode(r.1.totals) == 0
  {
  }

  /** A saved configuration loads back as itself. */
  lemma SavedLoads(files: map<string, Json>, c: ProjectConfig, projectsRoot: string, name: string)
    requires c.projectDir == Some(ProjectDir(projectsRoot, name)) && RecordsNumeric(c)
    ensures LoadProject(Saved(files, c, projectsRoot), projectsRoot, name) == Success(c)
  {
    InitPathHasTmp(c.projectDir.GetOr(ProjectDir(projectsRoot, c.project)));
    SaveThenLoad(files, c, projectsRoot, name);
  }

  /** After the record is added the project loads as `Started`. */
  lemma StartedLoads(files: map<string, Json>, c: ProjectConfig, record: RunRecord, projectsRoot: string, name: string)
    requires c.projectDir == Some(ProjectDir(projectsRoot, name)) && RecordsNumeric(c) && IsNumber(record.cumulatedMinutes)
    ensures LoadProject(StartedFiles(files, c, record, projectsRoot), projectsRoot, name) == Success(Started(c, record))
  {
    var c1 := c.(runRecord := c.runRecord + [record]);
    assert RecordsNumeric(c1);
    if c1.status == "planned" {
      assert RecordsNumeric(Started(c, record));
      SavedLoads(Saved(files, c1, projectsRoot), Started(c, record), projectsRoot, name);
    } else {
      SavedLoads(files, c1, projectsRoot, name);
    }
  }

  /** After the loop the project on disk is the loaded one with one record
      added for this run (see `Started`), completed with the run's stop time
      and results, and "completed" whenever the exit code is 0. */
  lemma CompletedHistory(files: map<string, Json>, projectsRoot: string, a: RunArgs, env: RunEnv, r: Resolved,
                         ts: TaskSet, code: int, st: RunLoop.State)
    requires r.c.projectDir == Some(ProjectDir(projectsRoot, a.projectName)) && RecordsNumeric(r.c)
    requires code == 0 ==> RunLoop.ExitCode(st.totals) == 0
    ensures var e := Completed(files, projectsRoot, a, env, r, ts, code, st);
      var loaded := LoadProject(e.files, projectsRoot, a.projectName);
      loaded.Success? && |loaded.value.runRecord| == |r.c.runRecord| + 1
      && loaded.value == Started(r.c, loaded.value.runRecord[|r.c.runRecord|])
    ensures var e := Completed(files, projectsRoot, a, env, r, ts, code, st);
      var last := LoadProject(e.files, projectsRoot, a.projectName).value.runRecord[|r.c.runRecord|];
      last.runAt == env.runId && last.taskSetName == a.taskSetName && last.stopAt == env.stopAt
      && (last.status == "completed" || last.status == "partial")
      && (code == 0 ==> last.status == "completed")
      && last.tasksAttempted == last.tasksSucceeded + last.tasksFailed
      && last.tasksFailed == st.totals.failed
  {
    var record := NewRunRecord(env.runId, "running", a.taskSetName);
    var final := FinalRecord(record, env.stopAt, env.minutes, ResultsOf(st.totals));
    FinalRecordOfRun(record, env.stopAt, env.minutes, st.totals);
    var s2 := Started(r.c, final);
    assert RecordsNumeric(s2);
    var f3 := if st.totals.saved then SavedFiles(files, r.dir, a.taskSetName, ts.(tasks := st.tasks)) else files;
    SavedLoads(f3, s2, projectsRoot, a.projectName);
  }

  /** When the delay option raises, the project on disk is the loaded one
      with a "running" record for this run added (see `Started`). */
  lemma RaisedHistory(files: map<string, Json>, projectsRoot: string, a: RunArgs, env: RunEnv, dryRun: bool,
                      r: Resolved, ts: TaskSet, sched: seq<nat>)
    requires ValidPositions(ts.tasks, sched) && ParseDelayRange(a.delay).Failure?
    requires r.c.projectDir == Some(ProjectDir(projectsRoot, a.projectName)) && RecordsNumeric(r.c)
    ensures var e := Launch(files, projectsRoot, a, env, dryRun, r, ts, sched);
      e == Raised(ParseDelayRange(a.delay).error, e.files)
      && LoadProject(e.files, projectsRoot, a.projectName)
         == Success(Started(r.c, NewRunRecord(env.runId, "running", a.taskSetName)))
  {
    StartedLoads(files, r.c, NewRunRecord(env.runId, "running", a.taskSetName), projectsRoot, a.projectName);
  }

  // ---------------------------------------------------------------- the command

  /** `_execute(args, dry_run)`. */
  method Execute(store: FileStore, projectsRoot: string, a: RunArgs, env: RunEnv, dryRun: bool)
    returns (r: Result<int, string>)
    modifies store
    ensures var e := ExecuteSpec(old(store.files), projectsRoot, a, env, dryRun);
      store.files == e.files
      && (e.Done? ==> r == Success(e.code))
      && (e.Raised? ==> r == Failure(e.message))
  {
    var dir := ProjectDir(projectsRoot, a.projectName);
    if PathJoin(dir, InitFile) !in store.files {
      return Success(1);
    }
    var loaded := LoadProject(store.files, projectsRoot, a.projectName);
    if loaded.Failure? {
      return Failure(loaded.error);
    }
    var c := loaded.value;
    var found := GetToolConfig(ToolName(a, c));
    if found.Failure? {
      return Success(1);
    }
    var tc := found.value;
    var model := ModelName(a, c);
    if ModelRejected(model, tc) {
      return Success(1);
    }
    r := ExecuteWithTool(store, projectsRoot, a, env, dryRun, Resolved(c, dir, tc, RunModel(model, tc)));
  }

  /** Load and schedule the task set, then launch the run. */
  method ExecuteWithTool(store: FileStore, projectsRoot: string, a: RunArgs, env: RunEnv, dryRun: bool, res: Resolved)
    returns (r: Result<int, string>)
    modifies store
    ensures var e := WithTool(old(store.files), projectsRoot, a, env, dryRun, res);
      store.files == e.files
      && (e.Done? ==> r == Success(e.code))
      && (e.Raised? ==> r == Failure(e.message))
  {
    var read := LoadTaskSet(store, res.dir, a.taskSetName, DefaultsOf(res.c));
    if read.Failure? {
      return Success(1);
    }
    var ts := read.value;
    var sched := ScheduleTasks(ts.tasks, OptionsOf(a));
    if sched == [] {
      return Success(0);
    }
    r := LaunchRun(store, projectsRoot, a, env, dryRun, res, ts, sched);
  }

  /** Record the run, parse the delay and run the loop. */
  method LaunchRun(store: FileStore, projectsRoot: string, a: RunArgs, env: RunEnv, dryRun: bool,
                   res: Resolved, ts: TaskSet, sched: seq<nat>)
    returns (r: Result<int, string>)
    requires ValidPositions(ts.tasks, sched) && ts.filePath == Some(TaskSetPath(res.dir, a.taskSetName))
    modifies store
    ensures var e := Launch(old(store.files), projectsRoot, a, env, dryRun, res, ts, sched);
      store.files == e.files
      && (e.Done? ==> r == Success(e.code))
      && (e.Raised? ==> r == Failure(e.message))
  {
    var config := StartRun(store, res.c, NewRunRecord(env.runId, "running", a.taskSetName), projectsRoot);
    var parsed := ParseDelayRange(a.delay);
    if parsed.Failure? {
      return Failure(parsed.error);
    }
    var code := FinishRun(store, projectsRoot, a, env, dryRun, res, ts, sched, parsed.value, config);
    return Success(code);
  }

  /** `add_run_record`, then `update_project_status(config, "active")` for a
      planned project. */
  method StartRun(store: FileStore, c: ProjectConfig, record: RunRecord, projectsRoot: string)
    returns (config: ProjectConfig)
    modifies store
    ensures config == Started(c, record)
    ensures store.files == StartedFiles(old(store.files), c, record, projectsRoot)
  {
    config := AddRunRecord(store, c, record, projectsRoot);
    assert store.files == Saved(old(store.files), config, projectsRoot);
    if config.status == "planned" {
      ghost var f1 := store.files;
      config := UpdateProjectStatus(store, config, "active", projectsRoot);
      assert store.files == Saved(f1, config, projectsRoot);
    }
  }

  /** Run the loop, then replace the running record with the completed one
      and save the project. */
  method FinishRun(store: FileStore, projectsRoot: string, a: RunArgs, env: RunEnv, dryRun: bool,
                   res: Resolved, ts: TaskSet, sched: seq<nat>, delay: DelayRange, config: ProjectConfig)
    returns (code: int)
    requires ValidPositions(ts.tasks, sched) && ts.filePath == Some(TaskSetPath(res.dir, a.taskSetName))
    requires config == Started(res.c, NewRunRecord(env.runId, "running", a.taskSetName))
    modifies store
    ensures var outcome := RunLoop.RunV3(SettingsOf(a, env, dryRun, res, delay), ts.tasks, sched, Outcomes(env, |sched|));
      code == outcome.0
      && store.files == Completed(old(store.files), projectsRoot, a, env, res, ts, outcome.0, outcome.1).files
  {
    var tasks := new Task[|ts.tasks|](i requires 0 <= i < |ts.tasks| => ts.tasks[i]);
    assert tasks[..] == ts.tasks;
    var tot;
    code, tot := RunLoop.Run(SettingsOf(a, env, dryRun, res, delay), tasks, sched, Outcomes(env, |sched|));
    if tot.saved {
      TaskSetPathHasTmp(res.dir, a.taskSetName);
      var written := SaveTaskSet(store, ts.(tasks := tasks[..]), Some(res.dir));
    }
    var n := |config.runRecord| - 1;
    var final := FinalRecord(config.runRecord[n], env.stopAt, env.minutes, ResultsOf(tot));
    var done := config.(runRecord := config.runRecord[..n] + [final]);
    assert config.runRecord[..n] == res.c.runRecord;
    assert done == Started(res.c, final);
    SaveProject(store, done, projectsRoot);
  }
}

=== FILE: run_loop.dfy ===
/** The task loop of `_run_v3` (`task_runner/executor.py`). The scheduled
    tasks are positions into the task set's task array, whose records the
    loop updates in place. The child process is an oracle: for the i-th
    scheduled task it reports an `Outcome` (exit code, elapsed tenths,
    timeout, a signal during the run, the finishing time, the random draw
    for the delay, a signal later in the pass and a signal during the delay
    countdown). Every signal sets the interrupted flag, and the loop head
    stops once it is set. Prompt files,
    the display and the live-status file are not modelled; the
    notifications the loop sends are recorded as `Notice`s. Every status
    change of the loop is followed by `save_task_set` of the whole set, so
    the totals record whether a save happened: the file then holds the task
    array as it is when the loop ends. */
module RunLoop {
  import opened Wrappers
  import opened Text
  import opened Config
  import opened TaskSets
  import opened Executor
  import Runtime

  /** What stays fixed during a run. */
  datatype Settings = Settings(
    runTool: ToolConfig,
    runModel: Option<string>,
    toolOverride: bool,      // `--tool` was given on the command line
    modelOverride: bool,     // `--model` was given on the command line
    dryRun: bool,
    delay: DelayRange,
    runDir: string,
    available: set<string>,  // the tool names `_check_tool_available` accepts
    notify: bool,            // a notifier was created
    notifyEach: bool,
    maxSeconds: nat)

  /** One entry of `_task_results`. */
  datatype TaskResult = TaskResult(
    taskNo: string,
    status: string,
    duration: nat,
    rc: int,
    failureReason: Option<string>,
    logFile: string)

  /** The notifications sent: a task failure (with its reason), a task
      completion (only with `notify_each`), an interrupt (with the number of
      completed tasks and the task set's size) and the batch summary. */
  datatype Notice =
    | FailureNotice(taskNo: string, reason: string)
    | CompleteNotice(taskNo: string)
    | InterruptNotice(taskNo: string, completed: nat, total: nat)
    | BatchNotice(succeeded: nat, failed: nat, skipped: nat, total: nat, totalDone: nat,
                  interrupted: bool, failedTasks: seq<TaskResult>)

  /** The loop's counters and logs; `saved` says whether the task set has
      been written back. */
  datatype Totals = Totals(
    succeeded: nat,
    failed: nat,
    skipped: nat,
    interrupted: bool,
    results: seq<TaskResult>,
    commands: seq<string>,
    delays: seq<nat>,
    notices: seq<Notice>,
    saved: bool)

  const Start := Totals(0, 0, 0, false, [], [], [], [], false)

  /** The task array together with the loop's totals. */
  datatype State = State(tasks: seq<Task>, totals: Totals)

  /** The log file name recorded in a task result. */
  function LogFile(taskNo: string): string {
    "logs/" + Runtime.SafeName(taskNo) + ".log"
  }

  function TimeoutReason(maxSeconds: nat): string {
    "超时 (" + NatToString(maxSeconds / 60) + "min)"
  }

  function CompletedCount(ts: seq<Task>): nat {
    Count(ts, StatusIs(Completed))
  }

  /** `send_notification_safe`: nothing is sent without a notifier. */
  function Send(s: Settings, notices: seq<Notice>, n: Notice): seq<Notice> {
    if s.notify then notices + [n] else notices
  }

  /** The run's end once the child process was started for the task at `p`:
      an interrupt marks the task interrupted and stops the loop, a timeout
      fails the task without delay, and any other run is concluded. */
  function Finish(s: Settings, ts: seq<Task>, tot: Totals, p: nat, o: Outcome, remaining: nat): (r: State)
    requires p < |ts|
    ensures |r.tasks| == |ts|
    ensures forall q :: 0 <= q < |ts| && q != p ==> r.tasks[q] == ts[q]
  {
    var t := ts[p];
    var v := Classify(o);
    if v == VInterrupted then
      var ts' := ts[p := t.(status := Interrupted)];
      State(ts', tot.(interrupted := true,
                      notices := Send(s, tot.notices, InterruptNotice(t.taskNo, CompletedCount(ts'), |ts'|))))
    else if v == VTimedOut then
      var ts' := ts[p := t.(status := Failed, elapsed := Some(o.elapsed), lastRunAt := Some(o.finishedAt))];
      var res := TaskResult(t.taskNo, Failed, o.elapsed, o.rc, Some("timeout"), LogFile(t.taskNo));
      State(ts', tot.(failed := tot.failed + 1, results := tot.results + [res],
                      interrupted := tot.interrupted || o.signalInPass,
                      notices := Send(s, tot.notices, FailureNotice(t.taskNo, TimeoutReason(s.maxSeconds)))))
    else Conclude(s, ts, tot, p, o, remaining)
  }

  /** A run that was neither interrupted nor timed out: the task completes
      (exit code 0 and at least ten seconds) or fails, its timing and a result
      are recorded, the failure notice (or, with `notify_each`, the completion
      notice) goes out, and a success with tasks left is followed by the
      delay unless a signal has come in. */
  function Conclude(s: Settings, ts: seq<Task>, tot: Totals, p: nat, o: Outcome, remaining: nat): (r: State)
    requires p < |ts|
    ensures |r.tasks| == |ts|
    ensures forall q :: 0 <= q < |ts| && q != p ==> r.tasks[q] == ts[q]
  {
    var t := ts[p];
    var success := Classify(o) == VCompleted;
    var status := if success then Completed else Failed;
    var ts' := ts[p := t.(status := status, elapsed := Some(o.elapsed), lastRunAt := Some(o.finishedAt))];
    var res := TaskResult(t.taskNo, status, o.elapsed, o.rc, None, LogFile(t.taskNo));
    var notices :=
      if !success then Send(s, tot.notices, FailureNotice(t.taskNo, FailureReason(o)))
      else if s.notifyEach then Send(s, tot.notices, CompleteNotice(t.taskNo))
      else tot.notices;
    var stop := tot.interrupted || o.signalInPass;
    var delayed := ShouldDelay(false, stop, success, s.delay, remaining);
    State(ts', tot.(succeeded := tot.succeeded + (if success then 1 else 0),
                    failed := tot.failed + (if success then 0 else 1),
                    results := tot.results + [res],
                    notices := notices,
                    delays := if delayed then tot.delays + [DelaySeconds(s.delay, o.delayDraw)] else tot.delays,
                    interrupted := stop || (delayed && o.signalInDelay)))
  }

  /** One pass of the loop body for the scheduled task at position `p`, with
      `remaining` scheduled tasks after it: a completed task is skipped, a
      dry run stops after the prompt file, a per-task tool that is not
      installed fails the task, and otherwise the command is built and run;
      a signal during the pass is recorded for the next loop head.
      The pass is reached through `depth` wrapping steps; `Step` goes through
      one, so the pass is expanded only where `StepUnfold` is invoked. */
  function StepAt(s: Settings, st: State, p: nat, o: Outcome, remaining: nat, depth: nat): (r: State)
    requires p < |st.tasks|
    ensures |r.tasks| == |st.tasks|
    ensures forall q :: 0 <= q < |st.tasks| && q != p ==> r.tasks[q] == st.tasks[q]
  {
    var t := st.tasks[p];
    var tot := st.totals;
    if depth > 0 then StepAt(s, st, p, o, remaining, depth - 1)
    else if t.status == Completed then
      State(st.tasks, tot.(skipped := tot.skipped + 1, interrupted := tot.interrupted || o.signalInPass))
    else if s.dryRun then State(st.tasks, tot.(interrupted := tot.interrupted || o.signalInPass))
    else
      var tc := TaskTool(s.runTool, s.toolOverride, t.cli);
      var m := TaskModel(s.runModel, s.modelOverride, t.cli);
      if tc.name != s.runTool.name && tc.name !in s.available then
        State(st.tasks[p := t.(status := Failed)],
              tot.(failed := tot.failed + 1, saved := true, interrupted := tot.interrupted || o.signalInPass))
      else
        var cmd := BuildCommand(Runtime.PromptPath(s.runDir, t.taskNo), s.runTool, s.runModel, Some(tc), m);
        Finish(s, st.tasks, tot.(commands := tot.commands + [cmd], saved := true), p, o, remaining)
  }

  /** The loop body for the scheduled task at position `p`. */
  function Step(s: Settings, st: State, p: nat, o: Outcome, remaining: nat): (r: State)
    requires p < |st.tasks|
    ensures |r.tasks| == |st.tasks|
    ensures forall q :: 0 <= q < |st.tasks| && q != p ==> r.tasks[q] == st.tasks[q]
  {
    StepAt(s, st, p, o, remaining, 1)
  }

  lemma StepUnfold(s: Settings, st: State, p: nat, o: Outcome, remaining: nat)
    requires p < |st.tasks|
    ensures Step(s, st, p, o, remaining) == StepAt(s, st, p, o, remaining, 0)
  {
    assert StepAt(s, st, p, o, remaining, 1) == StepAt(s, st, p, o, remaining, 0);
  }

  /** Every scheduled position names a task. */
  predicate ValidSchedule(sched: seq<nat>, n: nat) {
    forall i :: 0 <= i < |sched| ==> sched[i] < n
  }

  /** The state after the first `k` scheduled tasks; once interrupted, the
      loop has stopped and nothing changes any more. */
  function RunUpTo(s: Settings, init: seq<Task>, sched: seq<nat>, outs: seq<Outcome>, k: nat): (r: State)
    requires k <= |sched| == |outs| && ValidSchedule(sched, |init|)
    ensures |r.tasks| == |init|
  {
    if k == 0 then State(init, Start)
    else
      var prev := RunUpTo(s, init, sched, outs, k - 1);
      if prev.totals.interrupted then prev
      else Step(s, prev, sched[k - 1], outs[k - 1], |sched| - k)
  }

  /** `0 if failed == 0 and not self.interrupted else 1`. */
  function ExitCode(tot: Totals): int {
    if tot.failed == 0 && !tot.interrupted then 0 else 1
  }

  function FailedResults(rs: seq<TaskResult>): seq<TaskResult> {
    if rs == [] then [] else (if rs[0].status == Failed then [rs[0]] else []) + FailedResults(rs[1..])
  }

  /** After the loop: the batch notification when anything was attempted. */
  function Summarise(s: Settings, st: State): Totals {
    var tot := st.totals;
    if tot.succeeded + tot.failed > 0 then
      tot.(notices := Send(s, tot.notices,
             BatchNotice(tot.succeeded, tot.failed, tot.skipped, |st.tasks|, CompletedCount(st.tasks),
                         tot.interrupted, FailedResults(tot.results))))
    else tot
  }

  /** `_run_v3` from the schedule on: an empty schedule returns 0 at once, a
      run tool that is not installed returns 1 (not checked in a dry run),
      and otherwise the loop runs and the exit code follows its totals. */
  function RunV3(s: Settings, init: seq<Task>, sched: seq<nat>, outs: seq<Outcome>): (r: (int, State))
    requires |sched| == |outs| && ValidSchedule(sched, |init|)
  {
    if |sched| == 0 then (0, State(init, Start))
    else if !s.dryRun && s.runTool.name !in s.available then (1, State(init, Start))
    else
      var st := RunUpTo(s, init, sched, outs, |sched|);
      var tot := Summarise(s, st);
      (ExitCode(tot), State(st.tasks, tot))
  }

  // ---------------------------------------------------------------- one step

  /** A task already completed is never touched again: the step for it only
      counts a skip, and steps for other tasks leave it alone. */
  lemma StepKeepsCompleted(s: Settings, st: State, p: nat, o: Outcome, remaining: nat, q: nat)
    requires p < |st.tasks| && q < |st.tasks| && st.tasks[q].status == Completed
    ensures Step(s, st, p, o, remaining).tasks[q] == st.tasks[q]
  {
    StepUnfold(s, st, p, o, remaining);
  }

  /** In a dry run a step changes no task, counts only skips and records a
      signal that came in during the pass. */
  lemma StepDryRun(s: Settings, st: State, p: nat, o: Outcome, remaining: nat)
    requires p < |st.tasks| && s.dryRun
    ensures var r := Step(s, st, p, o, remaining);
      r.tasks == st.tasks
      && r.totals == st.totals.(skipped := r.totals.skipped, interrupted := st.totals.interrupted || o.signalInPass)
  {
    StepUnfold(s, st, p, o, remaining);
  }

  /** Counters only grow, by at most one in all. */
  predicate CountsStep(a: Totals, b: Totals) {
    a.succeeded <= b.succeeded && a.failed <= b.failed && a.skipped <= b.skipped
    && b.succeeded + b.failed + b.skipped <= a.succeeded + a.failed + a.skipped + 1
  }

  /** At most one delay is recorded, only with a success, and it lies within
      the range `d`. */
  predicate DelaysStep(d: DelayRange, a: Totals, b: Totals) {
    b.delays == a.delays
    || (|b.delays| == |a.delays| + 1 && b.delays[..|a.delays|] == a.delays
        && b.succeeded == a.succeeded + 1 && d.lo <= b.delays[|a.delays|] <= Max(d.lo, d.hi))
  }

  lemma FinishCounts(s: Settings, ts: seq<Task>, tot: Totals, p: nat, o: Outcome, remaining: nat)
    requires p < |ts|
    ensures var b := Finish(s, ts, tot, p, o, remaining).totals;
      CountsStep(tot, b) && DelaysStep(s.delay, tot, b)
  {
  }

  /** The counters grow by at most one per step and never shrink; a delay is
      only recorded after a success, and always lies within the range. */
  lemma StepCounts(s: Settings, st: State, p: nat, o: Outcome, remaining: nat)
    requires p < |st.tasks|
    ensures var b := Step(s, st, p, o, remaining).totals;
      CountsStep(st.totals, b) && DelaysStep(s.delay, st.totals, b)
  {
    StepUnfold(s, st, p, o, remaining);
    var t := st.tasks[p];
    if t.status != Completed && !s.dryRun {
      var tc := TaskTool(s.runTool, s.toolOverride, t.cli);
      if !(tc.name != s.runTool.name && tc.name !in s.available) {
        var m := TaskModel(s.runModel, s.modelOverride, t.cli);
        var cmd := BuildCommand(Runtime.PromptPath(s.runDir, t.taskNo), s.runTool, s.runModel, Some(tc), m);
        FinishCounts(s, st.tasks, st.totals.(commands := st.totals.commands + [cmd], saved := true), p, o, remaining);
      }
    }
  }

  /** Outside a dry run, a step that fails nothing and is not interrupted
      leaves its task completed. */
  lemma StepCompletes(s: Settings, st: State, p: nat, o: Outcome, remaining: nat)
    requires p < |st.tasks| && !s.dryRun
    ensures var r := Step(s, st, p, o, remaining);
      r.totals.failed == st.totals.failed && !r.totals.interrupted ==> r.tasks[p].status == Completed
  {
    StepUnfold(s, st, p, o, remaining);
  }

  /** A pass either saves the task set or changes no task, and a save once
      made stays recorded. */
  lemma StepSaved(s: Settings, st: State, p: nat, o: Outcome, remaining: nat)
    requires p < |st.tasks|
    ensures var r := Step(s, st, p, o, remaining);
      (r.totals.saved || r.tasks == st.tasks) && (st.totals.saved ==> r.totals.saved)
  {
    StepUnfold(s, st, p, o, remaining);
  }

  // ---------------------------------------------------------------- the loop

  /** Position `q` is not among the first `k` scheduled tasks. */
  predicate Unscheduled(sched: seq<nat>, k: nat, q: nat)
    requires k <= |sched|
  {
    forall j :: 0 <= j < k ==> sched[j] != q
  }

  /** Tasks the schedule does not name keep their records. */
  lemma {:induction false} UnscheduledUnchanged(s: Settings, init: seq<Task>, sched: seq<nat>, outs: seq<Outcome>, k: nat, q: nat)
    requires k <= |sched| == |outs| && ValidSchedule(sched, |init|)
    requires q < |init| && Unscheduled(sched, k, q)
    ensures RunUpTo(s, init, sched, outs, k).tasks[q] == init[q]
    decreases k
  {
    if k > 0 {
      UnscheduledUnchanged(s, init, sched, outs, k - 1, q);
    }
  }

  /** A task that was completed before the run is left exactly as it was. */
  lemma {:induction false} CompletedUnchanged(s: Settings, init: seq<Task>, sched: seq<nat>, outs: seq<Outcome>, k: nat, q: nat)
    requires k <= |sched| == |outs| && ValidSchedule(sched, |init|)
    requires q < |init| && init[q].status == Completed
    ensures RunUpTo(s, init, sched, outs, k).tasks[q] == init[q]
    decreases k
  {
    if k > 0 {
      CompletedUnchanged(s, init, sched, outs, k - 1, q);
      var prev := RunUpTo(s, init, sched, outs, k - 1);
      if !prev.totals.interrupted {
        StepKeepsCompleted(s, prev, sched[k - 1], outs[k - 1], |sched| - k, q);
      }
    }
  }

  /** A signal came in during one of the first `k` passes. */
  predicate SignalBy(outs: seq<Outcome>, k: nat)
    requires k <= |outs|
  {
    exists j :: 0 <= j < k && outs[j].signalInPass
  }

  /** A dry run changes no task and counts nothing but skips; it is
      interrupted exactly when a signal came in during one of its passes. */
  lemma {:induction false} DryRunChangesNothing(s: Settings, init: seq<Task>, sched: seq<nat>, outs: seq<Outcome>, k: nat)
    requires k <= |sched| == |outs| && ValidSchedule(sched, |init|) && s.dryRun
    ensures var r := RunUpTo(s, init, sched, outs, k);
      r.tasks == init && r.totals == Start.(skipped := r.totals.skipped, interrupted := r.totals.interrupted)
      && (r.totals.interrupted <==> SignalBy(outs, k))
    decreases k
  {
    if k > 0 {
      DryRunChangesNothing(s, init, sched, outs, k - 1);
      var prev := RunUpTo(s, init, sched, outs, k - 1);
      if !prev.totals.interrupted {
        StepDryRun(s, prev, sched[k - 1], outs[k - 1], |sched| - k);
      }
      assert SignalBy(outs, k) <==> SignalBy(outs, k - 1) || outs[k - 1].signalInPass;
    }
  }

  /** Each scheduled task is counted at most once as a success, a failure or
      a skip; there are no more delays than successes, and every delay lies
      in the configured range. */
  lemma {:induction false} RunCounters(s: Settings, init: seq<Task>, sched: seq<nat>, outs: seq<Outcome>, k: nat)
    requires k <= |sched| == |outs| && ValidSchedule(sched, |init|)
    ensures var t := RunUpTo(s, init, sched, outs, k).totals;
      t.succeeded + t.failed + t.skipped <= k && |t.delays| <= t.succeeded
      && forall i :: 0 <= i < |t.delays| ==> s.delay.lo <= t.delays[i] <= Max(s.delay.lo, s.delay.hi)
    decreases k
  {
    if k > 0 {
      RunCounters(s, init, sched, outs, k - 1);
      var prev := RunUpTo(s, init, sched, outs, k - 1);
      if !prev.totals.interrupted {
        StepCounts(s, prev, sched[k - 1], outs[k - 1], |sched| - k);
      }
    }
  }

  /** Once interrupted the loop has stopped: later tasks change nothing. */
  lemma {:induction false} StoppedStaysStopped(s: Settings, init: seq<Task>, sched: seq<nat>, outs: seq<Outcome>, k: nat, m: nat)
    requires k <= m <= |sched| == |outs| && ValidSchedule(sched, |init|)
    requires RunUpTo(s, init, sched, outs, k).totals.interrupted
    ensures RunUpTo(s, init, sched, outs, m) == RunUpTo(s, init, sched, outs, k)
    decreases m
  {
    if m > k {
      StoppedStaysStopped(s, init, sched, outs, k, m - 1);
    }
  }

  /** A signal during a pass (a skip, a dry-run pass, a failed tool check,
      or after the child has ended) stops the loop: the flag is set, and no
      later scheduled task is touched. */
  lemma SignalInPassStops(s: Settings, init: seq<Task>, sched: seq<nat>, outs: seq<Outcome>, k: nat)
    requires 0 < k <= |sched| == |outs| && ValidSchedule(sched, |init|) && outs[k - 1].signalInPass
    ensures RunUpTo(s, init, sched, outs, k).totals.interrupted
    ensures forall m :: k <= m <= |sched| ==> RunUpTo(s, init, sched, outs, m) == RunUpTo(s, init, sched, outs, k)
  {
    var prev := RunUpTo(s, init, sched, outs, k - 1);
    if !prev.totals.interrupted {
      StepUnfold(s, prev, sched[k - 1], outs[k - 1], |sched| - k);
    }
    forall m | k <= m <= |sched|
      ensures RunUpTo(s, init, sched, outs, m) == RunUpTo(s, init, sched, outs, k)
    {
      StoppedStaysStopped(s, init, sched, outs, k, m);
    }
  }

  /** Outside a dry run, a run with no failure and no interrupt has left every
      scheduled task completed. */
  lemma {:induction false} CleanRunCompletesAll(s: Settings, init: seq<Task>, sched: seq<nat>, outs: seq<Outcome>, k: nat)
    requires k <= |sched| == |outs| && ValidSchedule(sched, |init|) && !s.dryRun
    ensures var r := RunUpTo(s, init, sched, outs, k);
      r.totals.failed == 0 && !r.totals.interrupted ==>
        forall j :: 0 <= j < k ==> r.tasks[sched[j]].status == Completed
    decreases k
  {
    if k > 0 {
      var prev := RunUpTo(s, init, sched, outs, k - 1);
      var r := RunUpTo(s, init, sched, outs, k);
      CleanRunCompletesAll(s, init, sched, outs, k - 1);
      if !prev.totals.interrupted && r.totals.failed == 0 && !r.totals.interrupted {
        var p := sched[k - 1];
        StepCounts(s, prev, p, outs[k - 1], |sched| - k);
        StepCompletes(s, prev, p, outs[k - 1], |sched| - k);
        forall j | 0 <= j < k ensures r.tasks[sched[j]].status == Completed {
          if j < k - 1 {
            StepKeepsCompleted(s, prev, p, outs[k - 1], |sched| - k, sched[j]);
          }
        }
      }
    }
  }

  /** Until the first save the task array is the one loaded. */
  lemma {:induction false} UnsavedUnchanged(s: Settings, init: seq<Task>, sched: seq<nat>, outs: seq<Outcome>, k: nat)
    requires k <= |sched| == |outs| && ValidSchedule(sched, |init|)
    ensures var r := RunUpTo(s, init, sched, outs, k);
      r.totals.saved || r.tasks == init
    decreases k
  {
    if k > 0 {
      UnsavedUnchanged(s, init, sched, outs, k - 1);
      var prev := RunUpTo(s, init, sched, outs, k - 1);
      if !prev.totals.interrupted {
        StepSaved(s, prev, sched[k - 1], outs[k - 1], |sched| - k);
      }
    }
  }

  // ---------------------------------------------------------------- whole run

  /** A dry run of `_run_v3` leaves the task set untouched, and returns 0
      unless a signal came in during one of its passes, when it returns 1. */
  lemma RunV3DryRun(s: Settings, init: seq<Task>, sched: seq<nat>, outs: seq<Outcome>)
    requires |sched| == |outs| && ValidSchedule(sched, |init|) && s.dryRun
    ensures RunV3(s, init, sched, outs).1.tasks == init
    ensures RunV3(s, init, sched, outs).0 == (if SignalBy(outs, |sched|) then 1 else 0)
  {
    DryRunChangesNothing(s, init, sched, outs, |sched|);
  }

  /** After `_run_v3` the task-set file agrees with the task array: either
      the loop saved the set, or no task changed. A dry run never saves. */
  lemma RunV3Saved(s: Settings, init: seq<Task>, sched: seq<nat>, outs: seq<Outcome>)
    requires |sched| == |outs| && ValidSchedule(sched, |init|)
    ensures var r := RunV3(s, init, sched, outs);
      (r.1.totals.saved || r.1.tasks == init) && (s.dryRun ==> !r.1.totals.saved)
  {
    if |sched| > 0 && (s.dryRun || s.runTool.name in s.available) {
      UnsavedUnchanged(s, init, sched, outs, |sched|);
      if s.dryRun {
        DryRunChangesNothing(s, init, sched, outs, |sched|);
      }
    }
  }

  /** Exit code 0 from a real run means every scheduled task is now
      completed; tasks outside the schedule and tasks that were already
      completed keep their records. */
  lemma RunV3Outcome(s: Settings, init: seq<Task>, sched: seq<nat>, outs: seq<Outcome>)
    requires |sched| == |outs| && ValidSchedule(sched, |init|)
    ensures var r := RunV3(s, init, sched, outs);
      (r.0 == 0 && !s.dryRun ==> forall j :: 0 <= j < |sched| ==> r.1.tasks[sched[j]].status == Completed)
      && (r.0 == 0 || r.0 == 1)
      && (r.1.totals.failed > 0 || r.1.totals.interrupted ==> r.0 == 1)
    ensures var r := RunV3(s, init, sched, outs);
      forall q :: 0 <= q < |init| && (Unscheduled(sched, |sched|, q) || init[q].status == Completed)
        ==> r.1.tasks[q] == init[q]
  {
    var r := RunV3(s, init, sched, outs);
    if |sched| > 0 && (s.dryRun || s.runTool.name in s.available) {
      if !s.dryRun {
        CleanRunCompletesAll(s, init, sched, outs, |sched|);
      }
      forall q | 0 <= q < |init| && (Unscheduled(sched, |sched|, q) || init[q].status == Completed)
        ensures r.1.tasks[q] == init[q]
      {
        if Unscheduled(sched, |sched|, q) {
          UnscheduledUnchanged(s, init, sched, outs, |sched|, q);
        } else {
          CompletedUnchanged(s, init, sched, outs, |sched|, q);
        }
      }
    }
  }

  /** The batch notice is the only thing the summary adds, sent exactly when
      a notifier exists and some task succeeded or failed. */
  lemma SummariseNotice(s: Settings, st: State)
    ensures var t := Summarise(s, st);
      t.(notices := st.totals.notices) == st.totals
      && (|t.notices| == |st.totals.notices| + 1 <==> s.notify && st.totals.succeeded + st.totals.failed > 0)
      && t.notices[..|st.totals.notices|] == st.totals.notices
  {
  }

  // ---------------------------------------------------------------- methods

  /** The end of the loop body once the child process has run: the task at
      `p` (marked in progress) gets its final status in place. */
  method Settle(s: Settings, tasks: array<Task>, ghost ts: seq<Task>, tot: Totals, p: nat, o: Outcome, remaining: nat)
      returns (r: Totals)
    requires p < tasks.Length == |ts| && tasks[..] == ts[p := ts[p].(status := InProgress)]
    modifies tasks
    ensures State(tasks[..], r) == Finish(s, ts, tot, p, o, remaining)
  {
    var t := tasks[p];
    var v := Classify(o);
    if v == VInterrupted {
      tasks[p] := t.(status := Interrupted);
      assert tasks[..] == ts[p := ts[p].(status := Interrupted)];
      r := tot.(interrupted := true,
                notices := Send(s, tot.notices, InterruptNotice(t.taskNo, CompletedCount(tasks[..]), tasks.Length)));
      return;
    }
    if v == VTimedOut {
      tasks[p] := t.(status := Failed, elapsed := Some(o.elapsed), lastRunAt := Some(o.finishedAt));
      var res := TaskResult(t.taskNo, Failed, o.elapsed, o.rc, Some("timeout"), LogFile(t.taskNo));
      r := tot.(failed := tot.failed + 1, results := tot.results + [res],
                interrupted := tot.interrupted || o.signalInPass,
                notices := Send(s, tot.notices, FailureNotice(t.taskNo, TimeoutReason(s.maxSeconds))));
      return;
    }
    r := Record(s, tasks, ts, tot, p, o, remaining);
  }

  /** `Conclude` on the task array. */
  method Record(s: Settings, tasks: array<Task>, ghost ts: seq<Task>, tot: Totals, p: nat, o: Outcome, remaining: nat)
      returns (r: Totals)
    requires p < tasks.Length == |ts| && tasks[..] == ts[p := ts[p].(status := InProgress)]
    requires !o.interrupted && !o.timedOut
    modifies tasks
    ensures State(tasks[..], r) == Conclude(s, ts, tot, p, o, remaining)
  {
    var t := tasks[p];
    var success := Classify(o) == VCompleted;
    var status, succeeded, failed := Failed, tot.succeeded, tot.failed + 1;
    if success {
      status, succeeded, failed := Completed, tot.succeeded + 1, tot.failed;
    }
    tasks[p] := t.(status := status, elapsed := Some(o.elapsed), lastRunAt := Some(o.finishedAt));
    assert tasks[..] == ts[p := ts[p].(status := status, elapsed := Some(o.elapsed), lastRunAt := Some(o.finishedAt))];
    var notices := tot.notices;
    if !success {
      notices := Send(s, notices, FailureNotice(t.taskNo, FailureReason(o)));
    } else if s.notifyEach {
      notices := Send(s, notices, CompleteNotice(t.taskNo));
    }
    var delays, stop := tot.delays, tot.interrupted || o.signalInPass;
    if ShouldDelay(false, stop, success, s.delay, remaining) {
      delays, stop := tot.delays + [DelaySeconds(s.delay, o.delayDraw)], o.signalInDelay;
    }
    r := tot.(succeeded := succeeded, failed := failed,
              results := tot.results + [TaskResult(t.taskNo, status, o.elapsed, o.rc, None, LogFile(t.taskNo))],
              notices := notices, delays := delays, interrupted := stop);
  }

  /** One pass of the loop body, updating the task at `p` in place. */
  method ProcessTask(s: Settings, tasks: array<Task>, tot: Totals, p: nat, o: Outcome, remaining: nat)
      returns (r: Totals)
    requires p < tasks.Length
    modifies tasks
    ensures State(tasks[..], r) == Step(s, State(old(tasks[..]), tot), p, o, remaining)
  {
    StepUnfold(s, State(tasks[..], tot), p, o, remaining);
    var t := tasks[p];
    var stop := tot.interrupted || o.signalInPass;
    if t.status == Completed {
      return tot.(skipped := tot.skipped + 1, interrupted := stop);
    }
    if s.dryRun {
      return tot.(interrupted := stop);
    }
    var tc := TaskTool(s.runTool, s.toolOverride, t.cli);
    var m := TaskModel(s.runModel, s.modelOverride, t.cli);
    if tc.name != s.runTool.name && tc.name !in s.available {
      tasks[p] := t.(status := Failed);
      return tot.(failed := tot.failed + 1, saved := true, interrupted := stop);
    }
    var cmd := BuildCommand(Runtime.PromptPath(s.runDir, t.taskNo), s.runTool, s.runModel, Some(tc), m);
    ghost var ts := tasks[..];
    tasks[p] := t.(status := InProgress);
    r := Settle(s, tasks, ts, tot.(commands := tot.commands + [cmd], saved := true), p, o, remaining);
  }

  /** `_run_v3` over the task array: the scheduled tasks are processed in
      order until an interrupt, then the batch notice and the exit code. */
  method Run(s: Settings, tasks: array<Task>, sched: seq<nat>, outs: seq<Outcome>) returns (code: int, tot: Totals)
    requires |sched| == |outs| && ValidSchedule(sched, tasks.Length)
    modifies tasks
    ensures (code, State(tasks[..], tot)) == RunV3(s, old(tasks[..]), sched, outs)
  {
    if |sched| == 0 {
      return 0, Start;
    }
    if !s.dryRun && s.runTool.name !in s.available {
      return 1, Start;
    }
    ghost var init := tasks[..];
    tot := Start;
    var k := 0;
    while k < |sched|
      invariant 0 <= k <= |sched| && tasks.Length == |init|
      invariant State(tasks[..], tot) == RunUpTo(s, init, sched, outs, k)
    {
      if tot.interrupted {
        StoppedStaysStopped(s, init, sched, outs, k, |sched|);
        break;
      }
      tot := ProcessTask(s, tasks, tot, sched[k], outs[k], |sched| - k - 1);
      k := k + 1;
    }
    tot := Summarise(s, State(tasks[..], tot));
    code := ExitCode(tot);
  }
}

=== FILE: runtime.dfy ===
/** Per-run directory naming (`task_runner/runtime.py`): prompt and log file
    paths, the run directory, the summary status and the backup target.
    Directory creation and the file writes themselves are not modelled. */
module Runtime {
  import opened Wrappers
  import opened Text
  import opened Store

  /** `s` with every `c` turned into `d`, character by character. */
  function MapChar(s: string, c: char, d: char): (r: string)
    ensures |r| == |s|
    ensures forall i :: 0 <= i < |s| ==> r[i] == (if s[i] == c then d else s[i])
  {
    if s == [] then [] else [if s[0] == c then d else s[0]] + MapChar(s[1..], c, d)
  }

  /** Replacing a one-character pattern by a one-character string is a
      character map. */
  lemma {:induction false} ReplaceCharIsMap(s: string, c: char, d: char)
    ensures ReplaceAll(s, [c], [d]) == MapChar(s, c, d)
    decreases |s|
  {
    if s != [] {
      ReplaceCharIsMap(s[1..], c, d);
      if s[0] == c {
        assert s[..1] == [c];
      } else {
        assert s[..1][0] != c;
      }
    }
  }

  /** `task_no.replace("/", "_").replace("\\", "_")` */
  function SafeName(taskNo: string): string {
    ReplaceAll(ReplaceAll(taskNo, "/", "_"), "\\", "_")
  }

  /** The safe name is the task number with each separator, '/' or '\',
      replaced by '_' and every other character kept, so it never contains a
      separator. */
  lemma SafeNameChars(taskNo: string)
    ensures var r := SafeName(taskNo);
      |r| == |taskNo|
      && (forall i :: 0 <= i < |r| ==> r[i] == (if taskNo[i] == '/' || taskNo[i] == '\\' then '_' else taskNo[i]))
      && '/' !in r && '\\' !in r
  {
    ReplaceCharIsMap(taskNo, '/', '_');
    ReplaceCharIsMap(ReplaceAll(taskNo, "/", "_"), '\\', '_');
  }

  /** Separators and '_' all become '_' in a safe name. */
  function SafeChar(c: char): char {
    if c == '/' || c == '\\' then '_' else c
  }

  /** Two task numbers share a safe name, and so their prompt and log files,
      exactly when they have the same length and agree at every position up
      to the choice among '/', '\' and '_' ("a/b" and "a_b" collide). */
  lemma SafeNameCollision(x: string, y: string)
    ensures SafeName(x) == SafeName(y)
        <==> |x| == |y| && forall i :: 0 <= i < |x| ==> SafeChar(x[i]) == SafeChar(y[i])
  {
    SafeNameChars(x);
    SafeNameChars(y);
    if |x| == |y| && forall i :: 0 <= i < |x| ==> SafeChar(x[i]) == SafeChar(y[i]) {
      assert SafeName(x) == SafeName(y);
    }
    if SafeName(x) == SafeName(y) {
      forall i | 0 <= i < |x| ensures SafeChar(x[i]) == SafeChar(y[i]) {
        assert SafeName(x)[i] == SafeName(y)[i];
      }
    }
  }

  /** `RunContext.get_prompt_path(task_no)`: `<run_dir>/prompts/<safe>_task.md`. */
  function PromptPath(runDir: string, taskNo: string): string {
    PathJoin(PathJoin(runDir, "prompts"), SafeName(taskNo) + "_task.md")
  }

  /** `RunContext.get_log_path(task_no)`: `<run_dir>/logs/<safe>.log`. */
  function LogPath(runDir: string, taskNo: string): string {
    PathJoin(PathJoin(runDir, "logs"), SafeName(taskNo) + ".log")
  }

  /** The prompt file is `<run_dir>/prompts/<name>` and the log file
      `<run_dir>/logs/<name>`, where the name is as long as the task number
      plus its suffix and holds no separator, so both files sit directly in
      their directory. */
  lemma FileNamesHaveNoSeparator(runDir: string, taskNo: string)
    ensures var p := PromptPath(runDir, taskNo);
      var k := |runDir| + |"/prompts/"|;
      |p| == k + |taskNo| + |"_task.md"| && p[..k] == runDir + "/prompts/"
      && p[|p| - |"_task.md"|..] == "_task.md" && '/' !in p[k..] && '\\' !in p[k..]
    ensures var l := LogPath(runDir, taskNo);
      var k := |runDir| + |"/logs/"|;
      |l| == k + |taskNo| + |".log"| && l[..k] == runDir + "/logs/"
      && l[|l| - |".log"|..] == ".log" && '/' !in l[k..] && '\\' !in l[k..]
  {
    SafeNameChars(taskNo);
    var name := SafeName(taskNo);
    assert PromptPath(runDir, taskNo) == runDir + "/prompts/" + (name + "_task.md");
    FileUnder(runDir, "/prompts/", name, "_task.md");
    assert LogPath(runDir, taskNo) == runDir + "/logs/" + (name + ".log");
    FileUnder(runDir, "/logs/", name, ".log");
  }

  /** A separator-free name and suffix appended to a directory path. */
  lemma FileUnder(dir: string, sub: string, name: string, suffix: string)
    requires '/' !in name && '\\' !in name && '/' !in suffix && '\\' !in suffix
    ensures var p := dir + sub + (name + suffix);
      var k := |dir| + |sub|;
      |p| == k + |name| + |suffix| && p[..k] == dir + sub
      && p[|p| - |suffix|..] == suffix && '/' !in p[k..] && '\\' !in p[k..]
  {
    var p := dir + sub + (name + suffix);
    assert p[|dir| + |sub|..] == name + suffix;
  }

  /** Within one run directory, log paths are equal exactly when the safe
      names are. */
  lemma LogPathsDistinct(runDir: string, a: string, b: string)
    ensures LogPath(runDir, a) == LogPath(runDir, b) <==> SafeName(a) == SafeName(b)
  {
    assert LogPath(runDir, a) == runDir + "/logs/" + (SafeName(a) + ".log");
    assert LogPath(runDir, b) == runDir + "/logs/" + (SafeName(b) + ".log");
    if LogPath(runDir, a) == LogPath(runDir, b) {
      var k := |runDir| + |"/logs/"|;
      assert LogPath(runDir, a)[k..] == SafeName(a) + ".log";
      assert LogPath(runDir, b)[k..] == SafeName(b) + ".log";
      assert SafeName(a) == (SafeName(a) + ".log")[..|SafeName(a)|];
      assert SafeName(b) == (SafeName(b) + ".log")[..|SafeName(b)|];
    }
  }

  /** The run directory's name, `f"{run_id}__{task_set_name}"`. */
  function RunDirName(runId: string, taskSetName: string): (r: string)
    ensures |r| == |runId| + 2 + |taskSetName|
  {
    runId + "__" + taskSetName
  }

  /** `create_run_context`: `<project_dir>/runtime/runs/<run_id>__<name>`. */
  function RunDir(projectDir: string, runId: string, taskSetName: string): string {
    PathJoin(PathJoin(PathJoin(projectDir, "runtime"), "runs"), RunDirName(runId, taskSetName))
  }

  /** Run ids all have the same length (the `%Y-%m-%d_%H-%M-%S` timestamp), so
      a run directory name determines both the run id and the task set. */
  lemma RunDirNameInjective(r1: string, n1: string, r2: string, n2: string)
    requires |r1| == |r2|
    requires RunDirName(r1, n1) == RunDirName(r2, n2)
    ensures r1 == r2 && n1 == n2
  {
    var x := RunDirName(r1, n1);
    assert r1 == x[..|r1|];
    assert r2 == RunDirName(r2, n2)[..|r2|];
    assert n1 == x[|r1| + 2..];
    assert n2 == RunDirName(r2, n2)[|r2| + 2..];
  }

  /** Within one project, run directories are apart for runs with different
      ids or task sets: the directory determines both. */
  lemma RunDirsDistinct(projectDir: string, r1: string, n1: string, r2: string, n2: string)
    requires |r1| == |r2|
    requires RunDir(projectDir, r1, n1) == RunDir(projectDir, r2, n2)
    ensures r1 == r2 && n1 == n2
  {
    var base := PathJoin(PathJoin(projectDir, "runtime"), "runs") + "/";
    assert RunDir(projectDir, r1, n1) == base + RunDirName(r1, n1);
    assert RunDir(projectDir, r2, n2) == base + RunDirName(r2, n2);
    assert RunDirName(r1, n1) == RunDir(projectDir, r1, n1)[|base|..];
    assert RunDirName(r2, n2) == RunDir(projectDir, r2, n2)[|base|..];
    RunDirNameInjective(r1, n1, r2, n2);
  }

  /** `save_run_summary`'s status: "completed" when the results report no
      failures (a missing count reads as 0), "partial" otherwise. */
  function SummaryStatus(results: map<string, int>): (s: string)
    ensures s == "completed" <==> ("failed" !in results || results["failed"] == 0)
    ensures s == "completed" || s == "partial"
  {
    if (if "failed" in results then results["failed"] else 0) == 0 then "completed" else "partial"
  }

  /** `backup_task_set`: nothing when `<name>.tasks.json` is missing, otherwise
      the copy's target `<project>/runtime/backups/<name>_<timestamp>.tasks.json`.
      The timestamp is a parameter. */
  function BackupTarget(projectDir: string, taskSetName: string, sourceExists: bool, stamp: string): (r: Option<string>)
    ensures r.Some? <==> sourceExists
    ensures r.Some? ==> r.value == projectDir + "/runtime/backups/" + taskSetName + "_" + stamp + ".tasks.json"
  {
    if !sourceExists then None
    else Some(PathJoin(PathJoin(PathJoin(projectDir, "runtime"), "backups"), taskSetName + "_" + stamp + ".tasks.json"))
  }
}

=== FILE: sanitizer.dfy ===
/** Log clean-up after a task (`task_runner/executor.py`, lines 120-212): ANSI
    escape stripping, transient network-error noise, blank-line collapsing and
    the tail of the output shown to the user. */
module LogSanitizer {
  import opened Text

  // ---------------------------------------------------------------- ANSI

  const Esc: char := '\U{001B}'
  const Bel: char := '\U{0007}'

  predicate IsAsciiLetter(c: char) {
    ('a' <= c <= 'z') || ('A' <= c <= 'Z')
  }

  predicate IsParamChar(c: char) {
    IsDigit(c) || c == ';'
  }

  /** End of the run of `[0-9;]` characters starting at `i`. */
  function ParamsEnd(s: string, i: nat): (j: nat)
    requires i <= |s|
    ensures i <= j <= |s|
    ensures forall k :: i <= k < j ==> IsParamChar(s[k])
    ensures j < |s| ==> !IsParamChar(s[j])
    decreases |s| - i
  {
    if i < |s| && IsParamChar(s[i]) then ParamsEnd(s, i + 1) else i
  }

  /** Position of the first BEL at or after `i`, if any. */
  function FindBel(s: string, i: nat): (r: int)
    requires i <= |s|
    ensures r == -1 || (i <= r < |s| && s[r] == Bel)
    ensures r == -1 ==> forall k :: i <= k < |s| ==> s[k] != Bel
    decreases |s| - i
  {
    if i == |s| then -1 else if s[i] == Bel then i else FindBel(s, i + 1)
  }

  /** Length of the match `_ANSI_RE` finds at position `i`, 0 for none. The
      alternatives are tried in the pattern's order: CSI `ESC [ [0-9;]* letter`,
      OSC `ESC ] ... BEL`, private mode `ESC [ ? [0-9;]* letter`, and a lone
      carriage return. */
  function AnsiMatchLen(s: string, i: nat): (n: nat)
    requires i < |s|
    ensures i + n <= |s|
    ensures s[i] == '\r' ==> n == 1
    ensures s[i] != Esc && s[i] != '\r' ==> n == 0
  {
    if s[i] == '\r' then 1
    else if s[i] != Esc || i + 1 == |s| then 0
    else if s[i + 1] == '[' then
      var j := ParamsEnd(s, i + 2);
      if j < |s| && IsAsciiLetter(s[j]) then j + 1 - i
      else if i + 2 < |s| && s[i + 2] == '?' then
        var k := ParamsEnd(s, i + 3);
        if k < |s| && IsAsciiLetter(s[k]) then k + 1 - i else 0
      else 0
    else if s[i + 1] == ']' then
      var b := FindBel(s, i + 2);
      if b == -1 then 0 else b + 1 - i
    else 0
  }

  /** `_ANSI_RE.sub("", s[i..])`: matches are removed left to right, every
      other character is kept. */
  function StripAnsiFrom(s: string, i: nat): (r: string)
    requires i <= |s|
    ensures |r| <= |s| - i
    ensures '\r' !in r
    ensures (forall k :: i <= k < |s| ==> s[k] != Esc && s[k] != '\r') ==> r == s[i..]
    decreases |s| - i
  {
    if i == |s| then []
    else
      var n := AnsiMatchLen(s, i);
      if n > 0 then StripAnsiFrom(s, i + n)
      else
        var rest := StripAnsiFrom(s, i + 1);
        assert s[i..] == [s[i]] + s[i + 1..];
        [s[i]] + rest
  }

  /** Escape sequences and carriage returns removed: no '\r' survives, and
      text with neither is unchanged. */
  function StripAnsi(s: string): (r: string)
    ensures '\r' !in r && |r| <= |s|
    ensures (forall k :: 0 <= k < |s| ==> s[k] != Esc && s[k] != '\r') ==> r == s
  {
    StripAnsiFrom(s, 0)
  }

  // ---------------------------------------------------------------- noise patterns

  /** One character against one pattern character under `re.IGNORECASE`:
      an ASCII letter also matches its other case, and 'i', 'k' and 's'
      also match U+0130, U+0131, U+212A (Kelvin sign) and U+017F (long s). */
  predicate CharMatchI(c: char, p: char) {
    c == p
    || ('a' <= p <= 'z' && c as int == p as int - 32)
    || (p == 'i' && (c == '\U{0130}' || c == '\U{0131}'))
    || (p == 'k' && c == '\U{212A}')
    || (p == 's' && c == '\U{017F}')
  }

  /** The lower-case pattern `pat` matches case-insensitively at `i`. */
  predicate MatchAtI(s: string, i: nat, pat: string)
    decreases |pat|
  {
    pat == [] || (i < |s| && CharMatchI(s[i], pat[0]) && MatchAtI(s, i + 1, pat[1..]))
  }

  /** The end of the whitespace run (`\s*`) that starts at `i`. */
  function SkipSpaces(s: string, i: nat): (j: nat)
    requires i <= |s|
    ensures i <= j <= |s|
    ensures forall k :: i <= k < j ==> IsSpace(s[k])
    ensures j < |s| ==> !IsSpace(s[j])
    decreases |s| - i
  {
    if i < |s| && IsSpace(s[i]) then SkipSpaces(s, i + 1) else i
  }

  /** `Error:\s*<phrase>` matches at `a`. The phrases start with a letter,
      which no whitespace matches, so `\s*` can only stop at the end of the
      whitespace run. */
  predicate ErrorPhraseAt(s: string, a: nat, phrase: string) {
    a + 6 <= |s| && MatchAtI(s, a, "error:") && MatchAtI(s, SkipSpaces(s, a + 6), phrase)
  }

  /** `re.search(r"Error:\s*<phrase>", s[a..], re.I)` */
  predicate SearchErrorPhrase(s: string, phrase: string, a: nat)
    decreases |s| - a
  {
    a <= |s| && (ErrorPhraseAt(s, a, phrase) || SearchErrorPhrase(s, phrase, a + 1))
  }

  /** `re.search(r"^\s*<pat>\s*$", s, re.I)` for a pattern that starts with a
      non-space. `$` may also match before a final newline, which `\s*`
      absorbs anyway. */
  predicate WholeLineI(s: string, pat: string) {
    var a := SkipSpaces(s, 0);
    MatchAtI(s, a, pat) && a + |pat| <= |s| && SkipSpaces(s, a + |pat|) == |s|
  }

  /** `re.search(pat, s[a..], re.I)` for a literal pattern. */
  predicate ContainsI(s: string, pat: string, a: nat)
    decreases |s| - a
  {
    a <= |s| && (MatchAtI(s, a, pat) || ContainsI(s, pat, a + 1))
  }

  const PeerClosed := "peer closed connection"
  const IncompleteRead := "incomplete chunked read"

  /** `_NOISE_BLOCK_START.search(stripped)` */
  predicate IsBlockStart(s: string) {
    SearchErrorPhrase(s, PeerClosed, 0) || SearchErrorPhrase(s, IncompleteRead, 0) || WholeLineI(s, "<html>")
  }

  /** `_NOISE_BLOCK_END.search(stripped)` */
  predicate IsBlockEnd(s: string) {
    ContainsI(s, "</html>", 0)
  }

  /** `r"^\s*Error:\s*peer closed connection"` */
  predicate StartsWithPeerClosed(s: string) {
    ErrorPhraseAt(s, SkipSpaces(s, 0), PeerClosed)
  }

  /** `_is_noise_line(line)`: a non-blank line that starts with
      `Error: peer closed connection` or is exactly `(incomplete chunked read)`. */
  predicate IsNoiseLine(line: string) {
    var st := Strip(line);
    st != [] && (StartsWithPeerClosed(st) || WholeLineI(st, "(incomplete chunked read)"))
  }

  lemma {:induction false} SearchFinds(s: string, phrase: string, a: nat, b: nat)
    requires a <= b <= |s| && ErrorPhraseAt(s, b, phrase)
    ensures SearchErrorPhrase(s, phrase, a)
    decreases b - a
  {
    if a < b {
      SearchFinds(s, phrase, a + 1, b);
    }
  }

  /** A line the single-line rule would drop because of "peer closed
      connection" has already opened a noise block, so that rule only ever
      drops "(incomplete chunked read)" lines. */
  lemma PeerClosedOpensBlock(line: string)
    requires StartsWithPeerClosed(Strip(line))
    ensures IsBlockStart(Strip(line))
  {
    var st := Strip(line);
    SearchFinds(st, PeerClosed, 0, SkipSpaces(st, 0));
  }

  // ---------------------------------------------------------------- the line filter

  /** What the loop of `_sanitize_text` asks about one line, all on the
      stripped line. */
  datatype LineKind = LineKind(blank: bool, blockStart: bool, blockEnd: bool, noise: bool)

  /** The classification of a line, reached through `depth` wrapping steps.
      `KindOf` goes through one, so the regular expressions are expanded
      only where `KindOfUnfold` is invoked. */
  function Classified(line: string, depth: nat): LineKind {
    if depth > 0 then Classified(line, depth - 1)
    else
      var stripped := Strip(line);
      LineKind(stripped == [], IsBlockStart(stripped), IsBlockEnd(stripped), IsNoiseLine(stripped))
  }

  function KindOf(line: string): LineKind {
    Classified(line, 1)
  }

  /** The fields of `KindOf(line)`: the four tests on the stripped line. */
  lemma KindOfUnfold(line: string)
    ensures KindOf(line).blank == (Strip(line) == [])
    ensures KindOf(line).blockStart == IsBlockStart(Strip(line))
    ensures KindOf(line).blockEnd == IsBlockEnd(Strip(line))
    ensures KindOf(line).noise == IsNoiseLine(Strip(line))
  {
    assert Classified(line, 1) == Classified(line, 0);
  }

  function Kinds(lines: seq<string>): (ks: seq<LineKind>)
    ensures |ks| == |lines|
    ensures forall k :: 0 <= k < |lines| ==> ks[k] == KindOf(lines[k])
  {
    seq(|lines|, k requires 0 <= k < |lines| => KindOf(lines[k]))
  }

  /** The loop state of `_sanitize_text` after some lines: the two flags and
      the positions of the lines kept so far. */
  datatype Scan = Scan(inNoise: bool, prevBlank: bool, kept: seq<nat>)

  /** One iteration of the loop over line `i`. */
  function ScanStep(st: Scan, kind: LineKind, i: nat): Scan {
    if st.inNoise then st.(inNoise := !kind.blockEnd)
    else if kind.blockStart then st.(inNoise := true)
    else if kind.noise then st
    else if kind.blank && st.prevBlank then st
    else Scan(false, kind.blank, st.kept + [i])
  }

  predicate Increasing(ps: seq<nat>) {
    forall a, b :: 0 <= a < b < |ps| ==> ps[a] < ps[b]
  }

  predicate Below(ps: seq<nat>, n: nat) {
    forall k :: 0 <= k < |ps| ==> ps[k] < n
  }

  /** The state after the first `n` lines. */
  function ScanUpTo(ks: seq<LineKind>, n: nat): Scan
    requires n <= |ks|
  {
    if n == 0 then Scan(false, false, [])
    else ScanStep(ScanUpTo(ks, n - 1), ks[n - 1], n - 1)
  }

  /** Line `n` either leaves the kept positions alone or appends `n`. */
  lemma StepKept(ks: seq<LineKind>, n: nat)
    requires n < |ks|
    ensures ScanUpTo(ks, n + 1).kept == ScanUpTo(ks, n).kept
         || ScanUpTo(ks, n + 1).kept == ScanUpTo(ks, n).kept + [n]
  {
  }

  /** Line `n` is appended only when it is not a blank line after a blank
      kept line. */
  lemma StepAppends(ks: seq<LineKind>, n: nat)
    requires n < |ks|
    ensures var st := ScanUpTo(ks, n);
      ScanUpTo(ks, n + 1).kept == st.kept
      || (ScanUpTo(ks, n + 1).kept == st.kept + [n] && !(ks[n].blank && st.prevBlank))
  {
  }

  /** `prev_blank` says whether the last kept line is blank. */
  lemma PrevBlankIsLastKept(ks: seq<LineKind>, n: nat)
    requires n <= |ks|
    ensures var st := ScanUpTo(ks, n);
      st.prevBlank <==> st.kept != [] && Below(st.kept, |ks|) && ks[st.kept[|st.kept| - 1]].blank
  {
    ScanFacts(ks, n);
  }

  lemma AppendIncreasing(ps: seq<nat>, i: nat)
    requires Increasing(ps) && Below(ps, i)
    ensures Increasing(ps + [i]) && Below(ps + [i], i + 1)
  {
  }

  /** The kept positions are increasing and below `n`, and `prev_blank`
      says whether the last kept line is blank. */
  lemma {:induction false} ScanFacts(ks: seq<LineKind>, n: nat)
    requires n <= |ks|
    ensures var st := ScanUpTo(ks, n);
      && Increasing(st.kept)
      && Below(st.kept, n)
      && (st.prevBlank <==> st.kept != [] && ks[st.kept[|st.kept| - 1]].blank)
  {
    if n > 0 {
      ScanFacts(ks, n - 1);
      ScanFactsStep(ks, n);
    }
  }

  /** `ScanFacts` carried over the iteration on line `n - 1`. */
  lemma ScanFactsStep(ks: seq<LineKind>, n: nat)
    requires 0 < n <= |ks|
    requires var st := ScanUpTo(ks, n - 1);
      && Increasing(st.kept)
      && Below(st.kept, n - 1)
      && (st.prevBlank <==> st.kept != [] && ks[st.kept[|st.kept| - 1]].blank)
    ensures var st := ScanUpTo(ks, n);
      && Increasing(st.kept)
      && Below(st.kept, n)
      && (st.prevBlank <==> st.kept != [] && ks[st.kept[|st.kept| - 1]].blank)
  {
    var st := ScanUpTo(ks, n - 1);
    var st' := ScanStep(st, ks[n - 1], n - 1);
    assert ScanUpTo(ks, n) == st';
    if st'.kept != st.kept {
      assert st'.kept == st.kept + [n - 1];
      AppendIncreasing(st.kept, n - 1);
    }
  }

  function Pick(lines: seq<string>, ps: seq<nat>): (r: seq<string>)
    requires Below(ps, |lines|)
    ensures |r| == |ps|
    ensures forall k :: 0 <= k < |ps| ==> r[k] == lines[ps[k]]
  {
    if ps == [] then [] else [lines[ps[0]]] + Pick(lines, ps[1..])
  }

  /** The positions of the lines `_sanitize_text` keeps. */
  function KeptLines(lines: seq<string>): (ps: seq<nat>)
    ensures Increasing(ps) && Below(ps, |lines|)
  {
    ScanFacts(Kinds(lines), |lines|);
    ScanUpTo(Kinds(lines), |lines|).kept
  }

  /** The body of the loop of `_sanitize_text` for one line: the new flags,
      and whether the line is appended to the output. */
  method FilterLine(line: string, inNoise: bool, prevBlank: bool) returns (inNoise': bool, prevBlank': bool, keep: bool)
    ensures var st := ScanStep(Scan(inNoise, prevBlank, []), KindOf(line), 0);
      inNoise' == st.inNoise && prevBlank' == st.prevBlank && (keep <==> st.kept == [0])
  {
    KindOfUnfold(line);
    var stripped := Strip(line);
    inNoise', prevBlank', keep := inNoise, prevBlank, false;
    if inNoise {
      if IsBlockEnd(stripped) {
        inNoise' := false;
      }
    } else if IsBlockStart(stripped) {
      inNoise' := true;
    } else if IsNoiseLine(stripped) {
    } else {
      var isBlank := stripped == [];
      if !(isBlank && prevBlank) {
        prevBlank' := isBlank;
        keep := true;
      }
    }
  }

  /** One loop step acts on the kept positions only by appending `i`. */
  lemma ScanStepShift(inNoise: bool, prevBlank: bool, kind: LineKind, ps: seq<nat>, i: nat)
    ensures var st := ScanStep(Scan(inNoise, prevBlank, []), kind, 0);
      var st' := ScanStep(Scan(inNoise, prevBlank, ps), kind, i);
      st'.inNoise == st.inNoise && st'.prevBlank == st.prevBlank
      && st'.kept == (if st.kept == [0] then ps + [i] else ps)
  {
  }

  /** What the loop of `_sanitize_text` knows after the first `i` lines. */
  predicate LoopInv(lines: seq<string>, i: nat, inNoise: bool, prevBlank: bool, kept: seq<string>) {
    i <= |lines|
    && var st := ScanUpTo(Kinds(lines), i);
    Below(st.kept, |lines|)
    && inNoise == st.inNoise && prevBlank == st.prevBlank && kept == Pick(lines, st.kept)
  }

  /** One iteration of the loop, on the kinds: the flags are those of the
      next state, and the kept positions grow by `i` exactly when the line
      is kept. */
  lemma ScanAdvance(ks: seq<LineKind>, i: nat, inNoise: bool, prevBlank: bool,
                    inNoise': bool, prevBlank': bool, keep: bool)
    requires i < |ks|
    requires var st := ScanUpTo(ks, i); inNoise == st.inNoise && prevBlank == st.prevBlank
    requires var st := ScanStep(Scan(inNoise, prevBlank, []), ks[i], 0);
      inNoise' == st.inNoise && prevBlank' == st.prevBlank && (keep <==> st.kept == [0])
    ensures var st := ScanUpTo(ks, i); var st' := ScanUpTo(ks, i + 1);
      inNoise' == st'.inNoise && prevBlank' == st'.prevBlank
      && st'.kept == (if keep then st.kept + [i] else st.kept)
  {
    ScanStepShift(inNoise, prevBlank, ks[i], ScanUpTo(ks, i).kept, i);
  }

  /** One iteration of the loop keeps `LoopInv`. */
  lemma LoopStep(lines: seq<string>, i: nat, inNoise: bool, prevBlank: bool, kept: seq<string>,
                 inNoise': bool, prevBlank': bool, keep: bool, kept': seq<string>)
    requires i < |lines| && LoopInv(lines, i, inNoise, prevBlank, kept)
    requires var st := ScanStep(Scan(inNoise, prevBlank, []), KindOf(lines[i]), 0);
      inNoise' == st.inNoise && prevBlank' == st.prevBlank && (keep <==> st.kept == [0])
    requires kept' == if keep then kept + [lines[i]] else kept
    ensures LoopInv(lines, i + 1, inNoise', prevBlank', kept')
  {
    var ks := Kinds(lines);
    ScanAdvance(ks, i, inNoise, prevBlank, inNoise', prevBlank', keep);
    ScanFacts(ks, i + 1);
    if keep {
      PickAppend(lines, ScanUpTo(ks, i).kept, i);
    }
  }

  /** The loop of `_sanitize_text` over the lines of the text: the lines it
      appends to `clean`, in order. */
  method FilterLines(lines: seq<string>) returns (kept: seq<string>)
    ensures kept == Pick(lines, KeptLines(lines))
  {
    kept := [];
    var inNoise := false;
    var prevBlank := false;
    var i := 0;
    while i < |lines|
      invariant LoopInv(lines, i, inNoise, prevBlank, kept)
    {
      var line := lines[i];
      var inNoise', prevBlank', keep := FilterLine(line, inNoise, prevBlank);
      ghost var before := kept;
      if keep {
        kept := kept + [line];
      }
      LoopStep(lines, i, inNoise, prevBlank, before, inNoise', prevBlank', keep, kept);
      inNoise, prevBlank := inNoise', prevBlank';
      i := i + 1;
    }
  }

  /** `_sanitize_text(raw_text)`: ANSI codes stripped, the text split into
      lines with their terminators, the loop run over them and the kept lines
      joined back together. */
  method SanitizeText(raw: string) returns (clean: string)
    ensures var lines := SplitLinesKeepEnds(StripAnsi(raw));
      clean == Concat(Pick(lines, KeptLines(lines)))
  {
    var text := StripAnsi(raw);
    var lines := SplitLinesKeepEnds(text);
    var kept := FilterLines(lines);
    clean := Concat(kept);
  }

  lemma PickAppend(lines: seq<string>, ps: seq<nat>, i: nat)
    requires Below(ps, |lines|)
    requires i < |lines|
    ensures Pick(lines, ps + [i]) == Pick(lines, ps) + [lines[i]]
  {
  }

  // ---------------------------------------------------------------- properties

  /** The loop is inside a noise block when it reaches line `j`. */
  predicate InNoiseBefore(lines: seq<string>, j: nat)
    requires j <= |lines|
  {
    ScanUpTo(Kinds(lines), j).inNoise
  }

  /** The kept positions only grow: those kept after `m` lines are a prefix
      of those kept after `n`. */
  lemma {:induction false} KeptGrows(ks: seq<LineKind>, m: nat, n: nat)
    requires m <= n <= |ks|
    ensures ScanUpTo(ks, m).kept <= ScanUpTo(ks, n).kept
    decreases n - m
  {
    if m < n {
      KeptGrows(ks, m, n - 1);
      StepKept(ks, n - 1);
    }
  }

  /** Positions appended after the first `m` lines are at least `m`. */
  lemma {:induction false} KeptTail(ks: seq<LineKind>, m: nat, n: nat, k: nat)
    requires m <= n <= |ks|
    requires |ScanUpTo(ks, m).kept| <= k < |ScanUpTo(ks, n).kept|
    ensures ScanUpTo(ks, n).kept[k] >= m
    decreases n - m
  {
    KeptGrows(ks, m, n - 1);
    StepKept(ks, n - 1);
    if k < |ScanUpTo(ks, n - 1).kept| {
      KeptTail(ks, m, n - 1, k);
    }
  }

  /** Line `j` is in the output exactly when the iteration over it keeps it. */
  lemma KeptIffStep(ks: seq<LineKind>, j: nat)
    requires j < |ks|
    ensures j in ScanUpTo(ks, |ks|).kept <==> j in ScanUpTo(ks, j + 1).kept
  {
    KeptGrows(ks, j + 1, |ks|);
    ScanFacts(ks, j);
    StepKept(ks, j);
    var all := ScanUpTo(ks, |ks|).kept;
    var pre := ScanUpTo(ks, j + 1).kept;
    if j in all {
      var k :| 0 <= k < |all| && all[k] == j;
      if k >= |pre| {
        KeptTail(ks, j + 1, |ks|, k);
      }
    }
  }

  /** No two adjacent positions of `ps` hold blank kinds. */
  predicate NoAdjacentBlank(ks: seq<LineKind>, ps: seq<nat>)
    requires Below(ps, |ks|)
  {
    forall k :: 0 <= k < |ps| - 1 ==> !(ks[ps[k]].blank && ks[ps[k + 1]].blank)
  }

  lemma AppendNoAdjacentBlank(ks: seq<LineKind>, ps: seq<nat>, i: nat)
    requires Below(ps, |ks|) && i < |ks| && NoAdjacentBlank(ks, ps)
    requires !(ps != [] && ks[ps[|ps| - 1]].blank && ks[i].blank)
    ensures Below(ps + [i], |ks|) && NoAdjacentBlank(ks, ps + [i])
  {
    var qs := ps + [i];
    forall k | 0 <= k < |qs| - 1 ensures !(ks[qs[k]].blank && ks[qs[k + 1]].blank) {
      if k < |ps| - 1 {
        assert qs[k] == ps[k] && qs[k + 1] == ps[k + 1];
      }
    }
  }

  lemma {:induction false} NoAdjacentBlankKinds(ks: seq<LineKind>, n: nat)
    requires n <= |ks|
    ensures Below(ScanUpTo(ks, n).kept, |ks|)
    ensures NoAdjacentBlank(ks, ScanUpTo(ks, n).kept)
  {
    if n > 0 {
      NoAdjacentBlankKinds(ks, n - 1);
      PrevBlankIsLastKept(ks, n - 1);
      StepAppends(ks, n - 1);
      var before := ScanUpTo(ks, n - 1).kept;
      var after := ScanUpTo(ks, n).kept;
      if after != before {
        AppendNoAdjacentBlank(ks, before, n - 1);
        assert after == before + [n - 1];
      }
    }
  }

  /** No two adjacent output lines are both blank. */
  lemma NoAdjacentBlanks(lines: seq<string>)
    ensures var ps := KeptLines(lines);
      forall k :: 0 <= k < |ps| - 1 ==> !(IsBlank(lines[ps[k]]) && IsBlank(lines[ps[k + 1]]))
  {
    var ks := Kinds(lines);
    NoAdjacentBlankKinds(ks, |lines|);
    forall p | 0 <= p < |lines| ensures ks[p].blank <==> IsBlank(lines[p]) {
      assert ks[p] == KindOf(lines[p]);
      KindOfUnfold(lines[p]);
      StripFacts(lines[p]);
    }
  }

  /** Every output line is outside any noise block, opens none and is not
      single-line noise. */
  lemma KeptLineIsClean(lines: seq<string>, j: nat)
    requires j < |lines| && j in KeptLines(lines)
    ensures !InNoiseBefore(lines, j)
    ensures !IsBlockStart(Strip(lines[j])) && !IsNoiseLine(Strip(lines[j]))
  {
    var ks := Kinds(lines);
    KeptIffStep(ks, j);
    ScanFacts(ks, j);
    assert j !in ScanUpTo(ks, j).kept;
    assert ks[j] == KindOf(lines[j]);
    KindOfUnfold(lines[j]);
  }

  /** Conversely, a non-blank line outside a noise block that neither opens
      one nor is single-line noise is kept. */
  lemma NonBlankCleanLineKept(lines: seq<string>, j: nat)
    requires j < |lines| && !InNoiseBefore(lines, j)
    requires !IsBlockStart(Strip(lines[j])) && !IsNoiseLine(Strip(lines[j])) && !IsBlank(lines[j])
    ensures j in KeptLines(lines)
  {
    var ks := Kinds(lines);
    KeptIffStep(ks, j);
    assert ks[j] == KindOf(lines[j]);
    KindOfUnfold(lines[j]);
    StripFacts(lines[j]);
    assert ScanUpTo(ks, j + 1).kept == ScanUpTo(ks, j).kept + [j];
  }

  /** The positions kept from the lines before `j`: the start of the
      output, after which every kept position is at least `j`. */
  function KeptBefore(lines: seq<string>, j: nat): (ps: seq<nat>)
    requires j <= |lines|
    ensures Below(ps, j) && ps <= KeptLines(lines)
    ensures forall k :: |ps| <= k < |KeptLines(lines)| ==> KeptLines(lines)[k] >= j
  {
    var ks := Kinds(lines);
    ScanFacts(ks, j);
    KeptGrows(ks, j, |lines|);
    forall k | |ScanUpTo(ks, j).kept| <= k < |KeptLines(lines)|
      ensures KeptLines(lines)[k] >= j
    {
      KeptTail(ks, j, |lines|, k);
    }
    ScanUpTo(ks, j).kept
  }

  /** The other half of collapsing blank runs: a blank line outside a noise
      block is kept when no line was kept before it or the last kept line is
      not blank, so a run of blank lines leaves one blank line. */
  lemma BlankAfterNonBlankKept(lines: seq<string>, j: nat)
    requires j < |lines| && !InNoiseBefore(lines, j)
    requires !IsBlockStart(Strip(lines[j])) && !IsNoiseLine(Strip(lines[j])) && IsBlank(lines[j])
    requires var ps := KeptBefore(lines, j); ps == [] || !IsBlank(lines[ps[|ps| - 1]])
    ensures j in KeptLines(lines)
  {
    var ks := Kinds(lines);
    var ps := KeptBefore(lines, j);
    PrevBlankIsLastKept(ks, j);
    if ps != [] {
      var q := ps[|ps| - 1];
      assert ks[q] == KindOf(lines[q]);
      KindOfUnfold(lines[q]);
      StripFacts(lines[q]);
    }
    assert !ScanUpTo(ks, j).prevBlank;
    KeptIffStep(ks, j);
    assert ks[j] == KindOf(lines[j]);
    KindOfUnfold(lines[j]);
    StripFacts(lines[j]);
    assert ScanUpTo(ks, j + 1).kept == ScanUpTo(ks, j).kept + [j];
  }

  lemma {:induction false} InsideBlockKinds(ks: seq<LineKind>, i: nat, j: nat)
    requires i < j <= |ks|
    requires !ScanUpTo(ks, i).inNoise && ks[i].blockStart
    requires forall m :: i < m < j ==> !ks[m].blockEnd
    ensures ScanUpTo(ks, j).inNoise
    ensures ScanUpTo(ks, j).kept == ScanUpTo(ks, i).kept
  {
    if j > i + 1 {
      InsideBlockKinds(ks, i, j - 1);
    }
  }

  lemma {:induction false} NoiseBlockDroppedKinds(ks: seq<LineKind>, i: nat, j: nat)
    requires i <= j < |ks|
    requires !ScanUpTo(ks, i).inNoise && ks[i].blockStart
    requires forall m :: i < m < j ==> !ks[m].blockEnd
    ensures j !in ScanUpTo(ks, |ks|).kept
  {
    KeptIffStep(ks, j);
    ScanFacts(ks, j);
    if j > i {
      InsideBlockKinds(ks, i, j);
    }
    assert j !in ScanUpTo(ks, j).kept;
  }

  /** The line-level conditions of a noise block, read on the line kinds. */
  lemma BlockKinds(lines: seq<string>, i: nat, j: nat)
    requires i < |lines| && j <= |lines|
    requires IsBlockStart(Strip(lines[i]))
    requires forall m :: i < m < j ==> !IsBlockEnd(Strip(lines[m]))
    ensures Kinds(lines)[i].blockStart
    ensures forall m :: i < m < j ==> !Kinds(lines)[m].blockEnd
  {
    var ks := Kinds(lines);
    assert ks[i] == KindOf(lines[i]);
    KindOfUnfold(lines[i]);
    forall m | i < m < j ensures !ks[m].blockEnd {
      assert ks[m] == KindOf(lines[m]);
      KindOfUnfold(lines[m]);
    }
  }

  /** Once a line opens a noise block, the loop stays inside it up to and
      including the first later line that contains `</html>`. */
  lemma InsideBlock(lines: seq<string>, i: nat, j: nat)
    requires i < j <= |lines|
    requires !InNoiseBefore(lines, i) && IsBlockStart(Strip(lines[i]))
    requires forall m :: i < m < j ==> !IsBlockEnd(Strip(lines[m]))
    ensures InNoiseBefore(lines, j)
    ensures ScanUpTo(Kinds(lines), j).kept == ScanUpTo(Kinds(lines), i).kept
  {
    BlockKinds(lines, i, j);
    InsideBlockKinds(Kinds(lines), i, j);
  }

  /** The noise block is dropped: the opening line, every line after it up to
      and including the first one containing `</html>`, and, when no line
      does, every remaining line. */
  lemma NoiseBlockDropped(lines: seq<string>, i: nat, j: nat)
    requires i <= j < |lines|
    requires !InNoiseBefore(lines, i) && IsBlockStart(Strip(lines[i]))
    requires forall m :: i < m < j ==> !IsBlockEnd(Strip(lines[m]))
    ensures j !in KeptLines(lines)
  {
    BlockKinds(lines, i, j);
    NoiseBlockDroppedKinds(Kinds(lines), i, j);
  }

  /** The line that closes a noise block ends it. */
  lemma BlockCloses(lines: seq<string>, i: nat, e: nat)
    requires i < e < |lines|
    requires !InNoiseBefore(lines, i) && IsBlockStart(Strip(lines[i]))
    requires forall m :: i < m < e ==> !IsBlockEnd(Strip(lines[m]))
    requires IsBlockEnd(Strip(lines[e]))
    ensures !InNoiseBefore(lines, e + 1)
  {
    BlockKinds(lines, i, e);
    InsideBlockKinds(Kinds(lines), i, e);
    assert Kinds(lines)[e] == KindOf(lines[e]);
    KindOfUnfold(lines[e]);
  }

  // ---------------------------------------------------------------- output tail

  function NonBlank(lines: seq<string>): (r: seq<string>)
    ensures forall k :: 0 <= k < |r| ==> !IsBlank(r[k])
    ensures |r| <= |lines|
  {
    if lines == [] then []
    else (if IsBlank(lines[0]) then [] else [lines[0]]) + NonBlank(lines[1..])
  }

  /** Python's `xs[start:]` for any integer `start`. */
  function SliceFrom<T>(xs: seq<T>, start: int): (r: seq<T>)
    ensures |r| <= |xs| && r == xs[|xs| - |r|..]
  {
    if start < 0 then (if |xs| + start < 0 then xs else xs[|xs| + start..])
    else if start > |xs| then [] else xs[start..]
  }

  /** `lines[-max_lines:] if len(lines) > max_lines else lines`, as written. */
  function TailAsWritten(xs: seq<string>, maxLines: int): (r: seq<string>)
    ensures |r| <= |xs| && r == xs[|xs| - |r|..]
  {
    if |xs| > maxLines then SliceFrom(xs, -maxLines) else xs
  }

  /** The last `maxLines` elements, all of them when there are fewer. */
  function Tail(xs: seq<string>, maxLines: nat): (r: seq<string>)
    ensures |r| <= maxLines && |r| <= |xs|
    ensures |r| == maxLines || r == xs
    ensures r == xs[|xs| - |r|..]
  {
    if |xs| > maxLines then xs[|xs| - maxLines..] else xs
  }

  /** For every positive limit the expression as written is the tail. */
  lemma TailAsWrittenPositive(xs: seq<string>, maxLines: int)
    requires maxLines > 0
    ensures TailAsWritten(xs, maxLines) == Tail(xs, maxLines)
  {
  }

  /** With `max_lines = 0`, `lines[-0:]` is the whole list, so the "last zero
      lines" are all of them. */
  lemma TailAsWrittenZero()
    ensures TailAsWritten(["done"], 0) == ["done"]
    ensures Tail(["done"], 0) == []
  {
  }

  /** `_extract_output_tail(clean_text, max_lines)` as written. */
  function ExtractOutputTailAsWritten(cleanText: string, maxLines: int): string {
    Join(TailAsWritten(NonBlank(SplitLines(cleanText)), maxLines), "\n")
  }

  /** The lines `_extract_output_tail` is meant to keep: at most `max_lines`
      non-blank lines, the last ones of the text, in order. */
  function OutputTailLines(cleanText: string, maxLines: nat): (r: seq<string>)
    ensures |r| <= maxLines
    ensures forall k :: 0 <= k < |r| ==> !IsBlank(r[k])
    ensures var nb := NonBlank(SplitLines(cleanText));
      |r| <= |nb| && r == nb[|nb| - |r|..] && (|r| == maxLines || r == nb)
  {
    Tail(NonBlank(SplitLines(cleanText)), maxLines)
  }

  /** `_extract_output_tail` with the limit read as intended. */
  function ExtractOutputTail(cleanText: string, maxLines: nat): string {
    Join(OutputTailLines(cleanText, maxLines), "\n")
  }

  /** The two agree for every positive limit, including the default 30. */
  lemma ExtractOutputTailAgrees(cleanText: string, maxLines: nat)
    requires maxLines > 0
    ensures ExtractOutputTailAsWritten(cleanText, maxLines) == ExtractOutputTail(cleanText, maxLines)
  {
    TailAsWrittenPositive(NonBlank(SplitLines(cleanText)), maxLines);
  }
}

=== FILE: scheduler.dfy ===
/** Ordering and filtering of a task set for a run (`schedule_tasks` in
    `task_runner/scheduler.py`).

    A scheduled list holds references to the task set's own task objects, so
    it is modelled as a sequence of positions into the task sequence. Python's
    stable sort on `(batch, priority)` orders positions by the key
    `(batch, priority, position)`, which is a strict total order. */
module Scheduling {
  import opened Wrappers
  import opened JsonData
  import opened TaskSets
  import opened Validators
  import opened Text

  /** `p` comes before `q` in the stable `(batch, priority)` order. */
  predicate KeyLt(ts: seq<Task>, p: nat, q: nat)
    requires p < |ts| && q < |ts|
  {
    ts[p].batch < ts[q].batch
    || (ts[p].batch == ts[q].batch
        && (ts[p].priority < ts[q].priority || (ts[p].priority == ts[q].priority && p < q)))
  }

  predicate ValidPositions(ts: seq<Task>, ps: seq<nat>) {
    forall k :: 0 <= k < |ps| ==> ps[k] < |ts|
  }

  /** Positions in strictly increasing stable order (hence without repeats). */
  predicate SortedByKey(ts: seq<Task>, ps: seq<nat>) {
    ValidPositions(ts, ps)
    && forall a, b :: 0 <= a < b < |ps| ==> KeyLt(ts, ps[a], ps[b])
  }

  lemma KeyLtTransitive(ts: seq<Task>, p: nat, q: nat, r: nat)
    requires p < |ts| && q < |ts| && r < |ts|
    requires KeyLt(ts, p, q) && KeyLt(ts, q, r)
    ensures KeyLt(ts, p, r)
  {
  }

  function Insert(ts: seq<Task>, ps: seq<nat>, p: nat): (r: seq<nat>)
    requires SortedByKey(ts, ps) && p < |ts| && p !in ps
    ensures SortedByKey(ts, r)
    ensures |r| == |ps| + 1
    ensures forall x :: x in r <==> x in ps || x == p
  {
    if ps == [] then [p]
    else if KeyLt(ts, p, ps[0]) then
      assert forall b :: 0 < b < |ps| ==> KeyLt(ts, p, ps[b]) by {
        forall b | 0 < b < |ps| ensures KeyLt(ts, p, ps[b]) {
          KeyLtTransitive(ts, p, ps[0], ps[b]);
        }
      }
      [p] + ps
    else
      var rest := Insert(ts, ps[1..], p);
      assert forall x :: x in ps[1..] ==> x in ps;
      assert forall x :: x in rest ==> KeyLt(ts, ps[0], x) by {
        forall x | x in rest ensures KeyLt(ts, ps[0], x) {
          if x != p {
            var b :| 0 <= b < |ps[1..]| && ps[1..][b] == x;
            assert ps[b + 1] == x;
          }
        }
      }
      var r := [ps[0]] + rest;
      assert forall x :: x in ps <==> x == ps[0] || x in ps[1..];
      r
  }

  function SortUpTo(ts: seq<Task>, n: nat): (r: seq<nat>)
    requires n <= |ts|
    ensures SortedByKey(ts, r)
    ensures |r| == n
    ensures forall x: nat :: x in r <==> x < n
  {
    if n == 0 then []
    else
      var prev := SortUpTo(ts, n - 1);
      assert n - 1 !in prev;
      Insert(ts, prev, n - 1)
  }

  /** `tasks.sort(key=lambda t: (t.batch, t.priority))` on a copy of the set's
      task list: every position once, in stable key order. */
  function SortedPositions(ts: seq<Task>): (r: seq<nat>)
    ensures SortedByKey(ts, r) && |r| == |ts|
    ensures forall x: nat :: x in r <==> x < |ts|
  {
    SortUpTo(ts, |ts|)
  }

  /** In a sorted list, earlier index and earlier key coincide. */
  lemma SortedIndexOrder(ts: seq<Task>, ps: seq<nat>, i: nat, j: nat)
    requires SortedByKey(ts, ps) && i < |ps| && j < |ps|
    ensures KeyLt(ts, ps[i], ps[j]) <==> i < j
  {
    if j < i {
      assert KeyLt(ts, ps[j], ps[i]);
    }
  }

  /** A set of positions has only one arrangement in stable key order; so the
      stable sort is determined, and so is any filtered list built from it. */
  lemma {:induction false} SortedUnique(ts: seq<Task>, a: seq<nat>, b: seq<nat>)
    requires SortedByKey(ts, a) && SortedByKey(ts, b)
    requires forall x :: x in a <==> x in b
    ensures a == b
    decreases |a|
  {
    if a != [] {
      assert a[0] in a;
    }
    if b != [] {
      assert b[0] in b;
    }
    if a != [] && b != [] {
      var i :| 0 <= i < |b| && b[i] == a[0];
      var j :| 0 <= j < |a| && a[j] == b[0];
      SortedIndexOrder(ts, b, 0, i);
      SortedIndexOrder(ts, a, 0, j);
      forall x ensures x in a[1..] <==> x in b[1..] {
        if x in a[1..] {
          var i :| 1 <= i < |a| && a[i] == x;
          assert x != a[0] by { assert KeyLt(ts, a[0], a[i]); }
          assert x in b;
          var j :| 0 <= j < |b| && b[j] == x;
          assert b[1..][j - 1] == x;
        }
        if x in b[1..] {
          var i :| 1 <= i < |b| && b[i] == x;
          assert x != b[0] by { assert KeyLt(ts, b[0], b[i]); }
          assert x in a;
          var j :| 0 <= j < |a| && a[j] == x;
          assert a[1..][j - 1] == x;
        }
      }
      SortedUnique(ts, a[1..], b[1..]);
    }
  }

  /** `[t for t in tasks if keep(t)]` */
  function Keep(ts: seq<Task>, ps: seq<nat>, keep: Task -> bool): (r: seq<nat>)
    requires ValidPositions(ts, ps)
    ensures ValidPositions(ts, r)
    ensures forall x :: x in r <==> x in ps && keep(ts[x])
    ensures SortedByKey(ts, ps) ==> SortedByKey(ts, r)
    ensures |r| <= |ps|
  {
    if ps == [] then []
    else
      var rest := Keep(ts, ps[1..], keep);
      assert forall x :: x in ps <==> x == ps[0] || x in ps[1..];
      if keep(ts[ps[0]]) then
        assert SortedByKey(ts, ps) ==> forall x :: x in rest ==> KeyLt(ts, ps[0], x);
        [ps[0]] + rest
      else rest
  }

  /** The selection options of `schedule_tasks`. */
  datatype ScheduleOptions = ScheduleOptions(
    batch: Option<int>,
    minPriority: Option<int>,
    statusFilter: Option<string>,
    startFrom: Option<string>,
    retryFailed: bool)

  const NoFilters := ScheduleOptions(None, None, None, None, false)

  function BatchIs(b: int): Task -> bool { (t: Task) => t.batch == b }
  function PriorityAtMost(m: int): Task -> bool { (t: Task) => t.priority <= m }
  function HasStatus(s: string): Task -> bool { (t: Task) => t.status == s }
  function Retryable(): Task -> bool { (t: Task) => t.status == Failed || t.status == Interrupted }

  /** A task passes every filter the options switch on. */
  predicate Passes(t: Task, o: ScheduleOptions) {
    (o.batch.None? || t.batch == o.batch.value)
    && (o.minPriority.None? || t.priority <= o.minPriority.value)
    && (!Present(o.statusFilter) || t.status == o.statusFilter.value)
    && (!o.retryFailed || t.status == Failed || t.status == Interrupted)
  }

  /** The sorted list after the batch, priority, status and retry filters, one
      after the other. */
  function Filtered(ts: seq<Task>, o: ScheduleOptions): (r: seq<nat>)
    ensures SortedByKey(ts, r)
    ensures forall x: nat :: x in r <==> x < |ts| && Passes(ts[x], o)
  {
    var s0 := SortedPositions(ts);
    var s1 := KeepIf(ts, s0, o.batch.Some?, BatchIs(o.batch.GetOr(0)));
    var s2 := KeepIf(ts, s1, o.minPriority.Some?, PriorityAtMost(o.minPriority.GetOr(0)));
    var s3 := KeepIf(ts, s2, Present(o.statusFilter), HasStatus(o.statusFilter.GetOr("")));
    KeepIf(ts, s3, o.retryFailed, Retryable())
  }

  /** A filter step of `schedule_tasks` that applies only when its option is set. */
  function KeepIf(ts: seq<Task>, ps: seq<nat>, on: bool, keep: Task -> bool): (r: seq<nat>)
    requires SortedByKey(ts, ps)
    ensures SortedByKey(ts, r)
    ensures forall x :: x in r <==> x in ps && (on ==> keep(ts[x]))
  {
    if on then Keep(ts, ps, keep) else ps
  }

  /** Index of the first position in `ps` whose task has task_no `anchor`, or `|ps|`. */
  function FirstWithNo(ts: seq<Task>, ps: seq<nat>, anchor: string): (k: nat)
    requires ValidPositions(ts, ps)
    ensures k <= |ps|
    ensures k < |ps| ==> ts[ps[k]].taskNo == anchor
    ensures forall j :: 0 <= j < k ==> ts[ps[j]].taskNo != anchor
  {
    if ps == [] then 0
    else if ts[ps[0]].taskNo == anchor then 0
    else 1 + FirstWithNo(ts, ps[1..], anchor)
  }

  /** The list from the anchor's first occurrence on, or the whole list when
      the anchor is absent. */
  function FromAnchor(ts: seq<Task>, ps: seq<nat>, anchor: string): seq<nat>
    requires ValidPositions(ts, ps)
  {
    var k := FirstWithNo(ts, ps, anchor);
    if k < |ps| then ps[k..] else ps
  }

  /** The `start_from` loop of `schedule_tasks`, with its `found` flag. */
  method StartFrom(ts: seq<Task>, ps: seq<nat>, anchor: string) returns (r: seq<nat>)
    requires ValidPositions(ts, ps)
    ensures r == FromAnchor(ts, ps, anchor)
  {
    var k := FirstWithNo(ts, ps, anchor);
    var found := false;
    var filtered: seq<nat> := [];
    var i := 0;
    while i < |ps|
      invariant 0 <= i <= |ps|
      invariant found <==> k < i
      invariant filtered == if found then ps[k..i] else []
    {
      if ts[ps[i]].taskNo == anchor {
        found := true;
      }
      if found {
        filtered := filtered + [ps[i]];
      }
      i := i + 1;
    }
    if found {
      r := filtered;
    } else {
      r := ps;
    }
  }

  /** What `schedule_tasks` returns. */
  function Scheduled(ts: seq<Task>, o: ScheduleOptions): seq<nat> {
    var f := Filtered(ts, o);
    if Present(o.startFrom) then FromAnchor(ts, f, o.startFrom.value) else f
  }

  /** `schedule_tasks`. */
  method ScheduleTasks(ts: seq<Task>, o: ScheduleOptions) returns (r: seq<nat>)
    ensures r == Scheduled(ts, o)
    ensures SortedByKey(ts, r)
  {
    r := Filtered(ts, o);
    if Present(o.startFrom) {
      r := StartFrom(ts, r, o.startFrom.value);
    }
    ScheduledSorted(ts, o);
  }

  /** The schedule is in stable `(batch, priority)` order: a subsequence of
      the sorted task list, without repeats. */
  lemma ScheduledSorted(ts: seq<Task>, o: ScheduleOptions)
    ensures SortedByKey(ts, Scheduled(ts, o))
  {
    var f := Filtered(ts, o);
    if Present(o.startFrom) {
      var k := FirstWithNo(ts, f, o.startFrom.value);
      if k < |f| {
        SortedSuffix(ts, f, k);
      }
    }
  }

  lemma SortedSuffix(ts: seq<Task>, ps: seq<nat>, k: nat)
    requires SortedByKey(ts, ps) && k <= |ps|
    ensures SortedByKey(ts, ps[k..])
  {
    forall a, b | 0 <= a < b < |ps[k..]| ensures KeyLt(ts, ps[k..][a], ps[k..][b]) {
      assert ps[k..][a] == ps[k + a] && ps[k..][b] == ps[k + b];
    }
  }

  /** With no filter the schedule is every task, in stable key order. */
  lemma ScheduleWithoutFilters(ts: seq<Task>)
    ensures Scheduled(ts, NoFilters) == SortedPositions(ts)
    ensures |Scheduled(ts, NoFilters)| == |ts|
  {
    SortedUnique(ts, Filtered(ts, NoFilters), SortedPositions(ts));
  }

  /** The filters act as one conjunction: the filtered list is the sorted list
      restricted to the tasks passing all of them. */
  lemma FiltersAreConjunctive(ts: seq<Task>, o: ScheduleOptions)
    ensures Filtered(ts, o) == Keep(ts, SortedPositions(ts), (t: Task) => Passes(t, o))
  {
    SortedUnique(ts, Filtered(ts, o), Keep(ts, SortedPositions(ts), (t: Task) => Passes(t, o)));
  }

  /** Membership in the list from the anchor on: the anchor and what follows
      it in key order. */
  lemma FromAnchorMembers(ts: seq<Task>, ps: seq<nat>, k: nat)
    requires SortedByKey(ts, ps) && k < |ps|
    ensures forall x: nat :: x in ps[k..] <==> x in ps && (x == ps[k] || KeyLt(ts, ps[k], x))
  {
    forall x: nat ensures x in ps[k..] <==> x in ps && (x == ps[k] || KeyLt(ts, ps[k], x)) {
      if x in ps[k..] {
        var i :| k <= i < |ps| && ps[i] == x;
        assert i == k || KeyLt(ts, ps[k], ps[i]);
      }
      if x in ps && (x == ps[k] || KeyLt(ts, ps[k], x)) {
        var i :| 0 <= i < |ps| && ps[i] == x;
        SortedIndexOrder(ts, ps, i, k);
        SortedIndexOrder(ts, ps, k, i);
        assert ps[k..][i - k] == x;
      }
    }
  }

  /** Which tasks are scheduled: those passing the filters and, when the
      anchor is among them, not before the anchor's first occurrence; an
      absent anchor changes nothing. */
  lemma ScheduledMembers(ts: seq<Task>, o: ScheduleOptions)
    ensures var f := Filtered(ts, o);
      Present(o.startFrom) && FirstWithNo(ts, f, o.startFrom.value) < |f| ==>
        var a := f[FirstWithNo(ts, f, o.startFrom.value)];
        forall x: nat :: x in Scheduled(ts, o) <==>
          x < |ts| && Passes(ts[x], o) && (x == a || KeyLt(ts, a, x))
    ensures var f := Filtered(ts, o);
      (!Present(o.startFrom) || FirstWithNo(ts, f, o.startFrom.value) == |f|) ==>
        Scheduled(ts, o) == f
  {
    var f := Filtered(ts, o);
    if Present(o.startFrom) {
      var k := FirstWithNo(ts, f, o.startFrom.value);
      if k < |f| {
        FromAnchorMembers(ts, f, k);
      }
    }
  }

  // ------------------------------------------------------ dependency checks

  /** `task_map` reduced to what the checks read: each task_no with the
      `depends_on` of the last task carrying it. */
  function DepMap(ts: seq<Task>): map<string, Option<string>> {
    if ts == [] then map[]
    else DepMap(ts[..|ts| - 1])[ts[|ts| - 1].taskNo := ts[|ts| - 1].dependsOn]
  }

  /** The keys of the dependency map are the task numbers. */
  lemma {:induction false} DepMapKeys(ts: seq<Task>)
    ensures forall k :: k in DepMap(ts) <==> exists i :: 0 <= i < |ts| && ts[i].taskNo == k
  {
    if ts != [] {
      DepMapKeys(ts[..|ts| - 1]);
      assert forall i :: 0 <= i < |ts| - 1 ==> ts[..|ts| - 1][i] == ts[i];
    }
  }

  /** The next task_no along the dependency edge of `n`, if `n` is a task with a
      (non-empty) dependency. */
  function Step(g: map<string, Option<string>>, n: string): Option<string> {
    if n in g && Present(g[n]) then Some(g[n].value) else None
  }

  /** `k` steps along dependency edges from `n`. */
  function Iter(g: map<string, Option<string>>, n: string, k: nat): Option<string> {
    if k == 0 then Some(n)
    else match Iter(g, n, k - 1)
      case None => None
      case Some(m) => Step(g, m)
  }

  /** The dependency chain from `n` ends (at a task without dependency or at a
      name that is no task). */
  ghost predicate Safe(g: map<string, Option<string>>, n: string) {
    exists k :: Iter(g, n, k).None?
  }

  /** Some task reaches itself along dependency edges. */
  ghost predicate HasCycle(g: map<string, Option<string>>) {
    exists n, k :: k >= 1 && Iter(g, n, k) == Some(n)
  }

  lemma {:induction false} IterAdd(g: map<string, Option<string>>, n: string, a: nat, b: nat)
    ensures Iter(g, n, a + b) == match Iter(g, n, a) case None => None case Some(m) => Iter(g, m, b)
    decreases b
  {
    if b > 0 {
      IterAdd(g, n, a, b - 1);
    }
  }

  lemma {:induction false} NoneStays(g: map<string, Option<string>>, n: string, a: nat, b: nat)
    requires a <= b && Iter(g, n, a).None?
    ensures Iter(g, n, b).None?
    decreases b - a
  {
    if a < b {
      NoneStays(g, n, a, b - 1);
    }
  }

  /** A task on a cycle never reaches the end of its chain. */
  lemma {:induction false} CycleNeverEnds(g: map<string, Option<string>>, n: string, k: nat, m: nat)
    requires k >= 1 && Iter(g, n, k) == Some(n)
    ensures Iter(g, n, m).Some?
    decreases m
  {
    if m < k {
      if Iter(g, n, m).None? {
        NoneStays(g, n, m, k);
      }
    } else {
      IterAdd(g, n, k, m - k);
      CycleNeverEnds(g, n, k, m - k);
    }
  }

  lemma SafeStep(g: map<string, Option<string>>, n: string)
    requires Step(g, n).None? || Safe(g, Step(g, n).value)
    ensures Safe(g, n)
  {
    if Step(g, n).None? {
      assert Iter(g, n, 1).None?;
    } else {
      var k: nat :| Iter(g, Step(g, n).value, k).None?;
      IterAdd(g, n, 1, k);
      assert Iter(g, n, 1 + k).None?;
    }
  }

  /** When every task's chain ends, there is no cycle. */
  lemma AllSafeNoCycle(g: map<string, Option<string>>)
    requires forall n :: n in g ==> Safe(g, n)
    ensures !HasCycle(g)
  {
    if HasCycle(g) {
      var n, k :| k >= 1 && Iter(g, n, k) == Some(n);
      CycleNeverEnds(g, n, k, 1);
      var m :| Iter(g, n, m).None?;
      CycleNeverEnds(g, n, k, m);
    }
  }

  /** The tasks on a path. */
  function PathSet(path: seq<string>): (r: set<string>)
    ensures forall x :: x in r <==> x in path
  {
    if path == [] then {} else PathSet(path[..|path| - 1]) + {path[|path| - 1]}
  }

  /** Each element of `path` is the dependency of the one before it. */
  predicate Chain(g: map<string, Option<string>>, path: seq<string>) {
    forall j :: 0 <= j < |path| - 1 ==> Step(g, path[j]) == Some(path[j + 1])
  }

  lemma ChainExtend(g: map<string, Option<string>>, path: seq<string>, n: string)
    requires Chain(g, path) && (path != [] ==> Step(g, path[|path| - 1]) == Some(n))
    ensures Chain(g, path + [n])
  {
    var p := path + [n];
    forall j | 0 <= j < |p| - 1 ensures Step(g, p[j]) == Some(p[j + 1]) {
      if j < |path| - 1 {
        assert p[j] == path[j] && p[j + 1] == path[j + 1];
      }
    }
  }

  lemma {:induction false} ChainIter(g: map<string, Option<string>>, path: seq<string>, i: nat, m: nat)
    requires Chain(g, path) && i + m < |path|
    ensures Iter(g, path[i], m) == Some(path[i + m])
  {
    if m > 0 {
      ChainIter(g, path, i, m - 1);
    }
  }

  /** Reaching a task already on the current path closes a cycle. */
  lemma PathCycle(g: map<string, Option<string>>, path: seq<string>, n: string)
    requires Chain(g, path) && path != [] && Step(g, path[|path| - 1]) == Some(n) && n in path
    ensures HasCycle(g)
  {
    var i :| 0 <= i < |path| && path[i] == n;
    ChainIter(g, path, i, |path| - 1 - i);
    assert Iter(g, n, |path| - i) == Some(n);
  }

  const CyclePrefix := "Dependency cycle detected involving task '"

  function CycleMsg(no: string): string { CyclePrefix + no + "'" }

  predicate IsCycleMsg(e: string) {
    |e| >= |CyclePrefix| && e[..|CyclePrefix|] == CyclePrefix
  }

  lemma CycleMsgShape(no: string)
    ensures IsCycleMsg(CycleMsg(no))
  {
    assert CycleMsg(no)[..|CyclePrefix|] == CyclePrefix;
  }

  function DanglingMsg(no: string, dep: string): string {
    "Task '" + no + "' depends on '" + dep + "' which doesn't exist"
  }

  /** Task `i` depends on a task_no that no task carries. */
  predicate Dangling(ts: seq<Task>, i: nat)
    requires i < |ts|
  {
    Present(ts[i].dependsOn) && ts[i].dependsOn.value !in DepMap(ts)
  }

  /** The error for task `i`, if its dependency names no task. */
  function DanglingErrorAt(ts: seq<Task>, i: nat): (e: seq<string>)
    requires i < |ts|
    ensures e == [] <==> !Dangling(ts, i)
    ensures Dangling(ts, i) ==> e == [DanglingMsg(ts[i].taskNo, ts[i].dependsOn.value)]
  {
    if Dangling(ts, i) then [DanglingMsg(ts[i].taskNo, ts[i].dependsOn.value)] else []
  }

  /** The missing-reference errors for the first `n` tasks, in task order. */
  function DanglingErrors(ts: seq<Task>, n: nat): seq<string>
    requires n <= |ts|
  {
    if n == 0 then [] else DanglingErrors(ts, n - 1) + DanglingErrorAt(ts, n - 1)
  }

  /** No missing-reference error is reported exactly when no task among the
      first `n` depends on a missing task. */
  lemma {:induction false} DanglingErrorsEmpty(ts: seq<Task>, n: nat)
    requires n <= |ts|
    ensures DanglingErrors(ts, n) == [] <==> forall i :: 0 <= i < n ==> !Dangling(ts, i)
  {
    if DanglingErrors(ts, n) == [] {
      forall i | 0 <= i < n ensures !Dangling(ts, i) {
        DanglingPrefixEmpty(ts, n, i);
      }
    } else {
      var i := DanglingWitness(ts, n);
    }
  }

  /** With no error among the first `n` tasks, none of them is dangling. */
  lemma {:induction false} DanglingPrefixEmpty(ts: seq<Task>, n: nat, i: nat)
    requires i < n <= |ts| && DanglingErrors(ts, n) == []
    ensures !Dangling(ts, i)
  {
    var p := DanglingErrors(ts, n - 1);
    var x := DanglingErrorAt(ts, n - 1);
    assert |p + x| == |p| + |x|;
    if i < n - 1 {
      DanglingPrefixEmpty(ts, n - 1, i);
    }
  }

  /** A non-empty error list names a dangling task. */
  lemma {:induction false} DanglingWitness(ts: seq<Task>, n: nat) returns (i: nat)
    requires n <= |ts| && DanglingErrors(ts, n) != []
    ensures i < n && Dangling(ts, i)
  {
    if DanglingErrorAt(ts, n - 1) != [] {
      i := n - 1;
    } else {
      assert DanglingErrors(ts, n) == DanglingErrors(ts, n - 1) + [];
      i := DanglingWitness(ts, n - 1);
    }
  }

  /** Every task whose dependency names no task gets its message. */
  lemma {:induction false} DanglingReported(ts: seq<Task>, n: nat, i: nat)
    requires i < n <= |ts| && Dangling(ts, i)
    ensures DanglingMsg(ts[i].taskNo, ts[i].dependsOn.value) in DanglingErrors(ts, n)
  {
    if i < n - 1 {
      DanglingReported(ts, n - 1, i);
    }
  }

  /** The cycle search of `validate_dependencies`: the `visited` and `in_stack`
      sets of the nested `_dfs`, and the messages it appends to the result. */
  class DependencyChecker {
    const deps: map<string, Option<string>>
    var visited: set<string>
    var inStack: set<string>
    var cycles: seq<string>
    /** Tasks left in `in_stack` by a search that found a cycle: `_dfs` returns
        early without discarding them. */
    ghost var stale: set<string>

    constructor(deps: map<string, Option<string>>)
      ensures this.deps == deps
      ensures visited == {} && inStack == {} && stale == {} && cycles == []
      ensures Inv([])
    {
      this.deps := deps;
      visited := {};
      inStack := {};
      cycles := [];
      stale := {};
    }

    /** `path` is the chain of tasks whose search is in progress. */
    ghost predicate Inv(path: seq<string>)
      reads this
    {
      InvOf(deps, visited, inStack, stale, path)
    }

    /** `_dfs(n)`: true when a cycle is detected. */
    method Dfs(n: string, ghost path: seq<string>) returns (cycle: bool)
      requires Inv(path)
      requires path != [] ==> Step(deps, path[|path| - 1]) == Some(n)
      modifies this
      ensures Inv(path)
      ensures visited >= old(visited)
      ensures n in deps ==> n in visited
      ensures cycle ==> HasCycle(deps)
      ensures !cycle ==> Safe(deps, n) && inStack == old(inStack) && stale == old(stale)
      ensures !cycle ==> cycles == old(cycles)
      ensures cycle && n !in old(inStack) ==> |cycles| > |old(cycles)|
      ensures old(cycles) <= cycles
      decreases deps.Keys - visited, 1
    {
      if n in inStack {
        if n !in stale {
          PathCycle(deps, path, n);
        }
        return true;
      }
      if n in visited {
        return false;
      }
      if n !in deps {
        SafeStep(deps, n);
        return false;
      }
      cycle := Visit(n, path);
    }

    /** The part of `_dfs(n)` for a task not yet visited: push it, follow its
        dependency, and pop it unless a cycle was found. */
    method Visit(n: string, ghost path: seq<string>) returns (cycle: bool)
      requires Inv(path) && n in deps && n !in visited
      requires path != [] ==> Step(deps, path[|path| - 1]) == Some(n)
      modifies this
      ensures Inv(path)
      ensures visited >= old(visited) + {n}
      ensures cycle ==> HasCycle(deps)
      ensures !cycle ==> Safe(deps, n) && inStack == old(inStack) && stale == old(stale)
      ensures !cycle ==> cycles == old(cycles)
      ensures cycle ==> |cycles| > |old(cycles)|
      ensures old(cycles) <= cycles
      decreases deps.Keys - visited, 0
    {
      Push(n, path);
      cycle := Follow(n, path);
    }

    /** The rest of `_dfs(n)` once `n` is pushed: the recursive call on its
        dependency, if any, then the pop or the early return. */
    method Follow(n: string, ghost path: seq<string>) returns (cycle: bool)
      requires Inv(path + [n]) && n in deps && n in visited && n !in path && n !in stale
      modifies this
      ensures Inv(path)
      ensures visited >= old(visited)
      ensures cycle ==> HasCycle(deps)
      ensures !cycle ==> Safe(deps, n) && inStack == old(inStack) - {n} && stale == old(stale)
      ensures !cycle ==> cycles == old(cycles)
      ensures cycle ==> |cycles| > |old(cycles)|
      ensures old(cycles) <= cycles
      decreases deps.Keys - visited, 2
    {
      var dep := deps[n];
      if !Present(dep) {
        SafeStep(deps, n);
        Pop(n, path);
        return false;
      }
      var c := Dfs(dep.value, path + [n]);
      if c {
        Unwind(n, path);
        return true;
      }
      SafeStep(deps, n);
      Pop(n, path);
      return false;
    }

    /** `visited.add(n); in_stack.add(n)` for a task not yet visited. */
    method Push(n: string, ghost path: seq<string>)
      requires Inv(path) && n !in visited
      requires path != [] ==> Step(deps, path[|path| - 1]) == Some(n)
      modifies this
      ensures visited == old(visited) + {n} && inStack == old(inStack) + {n}
      ensures stale == old(stale) && cycles == old(cycles)
      ensures n !in old(inStack) && n !in path && n !in stale
      ensures Inv(path + [n])
    {
      PushPreserves(deps, visited, inStack, stale, path, n);
      visited := visited + {n};
      inStack := inStack + {n};
    }

    /** `in_stack.discard(n)` once the chain from `n` is known to end. */
    method Pop(n: string, ghost path: seq<string>)
      requires Inv(path + [n]) && n !in path && n !in stale && Safe(deps, n)
      modifies this
      ensures inStack == old(inStack) - {n}
      ensures visited == old(visited) && stale == old(stale) && cycles == old(cycles)
      ensures Inv(path)
    {
      assert n in inStack by { assert n in path + [n]; }
      PopPreserves(deps, visited, inStack - {n}, stale, path, n);
      assert inStack - {n} + {n} == inStack;
      inStack := inStack - {n};
    }

    /** The early `return True` after a cycle below `n`: the cycle is
        reported for `n`, which stays on `in_stack`. */
    method Unwind(n: string, ghost path: seq<string>)
      requires Inv(path + [n]) && HasCycle(deps)
      modifies this
      ensures visited == old(visited) && inStack == old(inStack)
      ensures stale == old(stale) + {n} && cycles == old(cycles) + [n]
      ensures Inv(path)
    {
      UnwindPreserves(deps, visited, inStack, stale, path, n);
      stale := stale + {n};
      cycles := cycles + [n];
    }
  }

  /** The search state: `in_stack` is the current path plus the stale tasks,
      stale tasks exist only once a cycle is known, every task visited and
      off the stack has a chain that ends, and the path follows dependency
      edges. */
  ghost predicate InvOf(g: map<string, Option<string>>, visited: set<string>, inStack: set<string>,
                        stale: set<string>, path: seq<string>) {
    inStack <= visited
    && inStack == PathSet(path) + stale
    && (stale != {} ==> HasCycle(g))
    && (forall v :: v in visited && v !in inStack ==> Safe(g, v))
    && Chain(g, path)
  }

  /** Pushing a fresh task that has a dependency extends the path. */
  lemma PushPreserves(g: map<string, Option<string>>, visited: set<string>, inStack: set<string>,
                      stale: set<string>, path: seq<string>, n: string)
    requires InvOf(g, visited, inStack, stale, path) && n !in visited
    requires path != [] ==> Step(g, path[|path| - 1]) == Some(n)
    ensures InvOf(g, visited + {n}, inStack + {n}, stale, path + [n])
  {
    assert PathSet(path + [n]) == PathSet(path) + {n} by {
      assert (path + [n])[..|path|] == path;
    }
    assert Chain(g, path + [n]) by {
      ChainExtend(g, path, n);
    }
    assert forall v :: v in visited + {n} && v !in inStack + {n} ==> Safe(g, v);
  }

  /** A fresh task without dependency is pushed and popped at once. */
  lemma LeafPreserves(g: map<string, Option<string>>, visited: set<string>, inStack: set<string>,
                      stale: set<string>, path: seq<string>, n: string)
    requires InvOf(g, visited, inStack, stale, path) && n !in visited && Step(g, n).None?
    ensures InvOf(g, visited + {n}, inStack + {n} - {n}, stale, path)
  {
    SafeStep(g, n);
    assert inStack + {n} - {n} == inStack;
  }

  /** Popping a task whose chain ends restores the caller's path. */
  lemma PopPreserves(g: map<string, Option<string>>, visited: set<string>, inStack: set<string>,
                     stale: set<string>, path: seq<string>, n: string)
    requires InvOf(g, visited, inStack + {n}, stale, path + [n]) && n !in inStack && n !in path && n !in stale
    requires Safe(g, n)
    ensures InvOf(g, visited, inStack + {n} - {n}, stale, path)
  {
    assert (path + [n])[..|path|] == path;
    assert PathSet(path + [n]) == PathSet(path) + {n};
    assert inStack + {n} - {n} == inStack;
    assert n !in PathSet(path);
    forall j | 0 <= j < |path| - 1 ensures Step(g, path[j]) == Some(path[j + 1]) {
      assert (path + [n])[j] == path[j] && (path + [n])[j + 1] == path[j + 1];
    }
  }

  /** After a cycle is found, the task stays on `in_stack` as a stale entry. */
  lemma UnwindPreserves(g: map<string, Option<string>>, visited: set<string>, inStack: set<string>,
                        stale: set<string>, path: seq<string>, n: string)
    requires InvOf(g, visited, inStack, stale, path + [n]) && HasCycle(g)
    ensures InvOf(g, visited, inStack, stale + {n}, path)
  {
    assert (path + [n])[..|path|] == path;
    forall j | 0 <= j < |path| - 1 ensures Step(g, path[j]) == Some(path[j + 1]) {
      assert (path + [n])[j] == path[j] && (path + [n])[j + 1] == path[j + 1];
    }
  }

  /** The cycle search of `validate_dependencies`: `_dfs` from every task
      not yet visited, in list order. It returns the task numbers it reports
      a cycle for, in reporting order; there is at least one exactly when
      the dependencies contain a cycle. */
  method FindCycles(ts: seq<Task>) returns (cycles: seq<string>)
    ensures cycles != [] <==> HasCycle(DepMap(ts))
  {
    var deps := DepMap(ts);
    DepMapKeys(ts);
    var checker := new DependencyChecker(deps);
    var i := 0;
    while i < |ts|
      invariant 0 <= i <= |ts|
      invariant checker.deps == deps
      invariant checker.Inv([])
      invariant forall j :: 0 <= j < i ==> ts[j].taskNo in checker.visited
      invariant checker.stale != {} ==> |checker.cycles| > 0
      invariant !HasCycle(deps) ==> checker.cycles == []
    {
      if ts[i].taskNo !in checker.visited {
        var _ := checker.Dfs(ts[i].taskNo, []);
      }
      i := i + 1;
    }
    if checker.stale == {} {
      forall n | n in deps ensures Safe(deps, n) {
        var j :| 0 <= j < |ts| && ts[j].taskNo == n;
      }
      AllSafeNoCycle(deps);
    }
    cycles := checker.cycles;
  }

  /** The first loop of `validate_dependencies`: an error for every task
      whose dependency names no task, in list order. */
  method ReportDangling(r: ValidationResult, ts: seq<Task>)
    modifies r
    ensures r.errors == old(r.errors) + DanglingErrors(ts, |ts|)
    ensures r.warnings == old(r.warnings)
  {
    var deps := DepMap(ts);
    ghost var e0 := r.errors;
    var i := 0;
    while i < |ts|
      invariant 0 <= i <= |ts|
      invariant r.errors == e0 + DanglingErrors(ts, i) && r.warnings == old(r.warnings)
    {
      ghost var before := r.errors;
      var dep := ts[i].dependsOn;
      if Present(dep) && dep.value !in deps {
        r.AddError(DanglingMsg(ts[i].taskNo, dep.value));
      }
      DanglingStep(ts, i, e0, before, r.errors);
      i := i + 1;
    }
  }

  lemma DanglingStep(ts: seq<Task>, i: nat, e0: seq<string>, before: seq<string>, after: seq<string>)
    requires i < |ts| && before == e0 + DanglingErrors(ts, i)
    requires after == if Present(ts[i].dependsOn) && ts[i].dependsOn.value !in DepMap(ts)
                      then before + [DanglingMsg(ts[i].taskNo, ts[i].dependsOn.value)] else before
    ensures after == e0 + DanglingErrors(ts, i + 1)
  {
    var extra := DanglingErrorAt(ts, i);
    assert after == before + extra;
    assert e0 + (DanglingErrors(ts, i) + extra) == (e0 + DanglingErrors(ts, i)) + extra;
  }

  /** The cycle messages for the reported task numbers, in order. */
  function CycleMsgs(cycles: seq<string>): (ms: seq<string>)
    ensures |ms| == |cycles|
    ensures forall k :: 0 <= k < |ms| ==> ms[k] == CycleMsg(cycles[k])
  {
    if cycles == [] then []
    else CycleMsgs(cycles[..|cycles| - 1]) + [CycleMsg(cycles[|cycles| - 1])]
  }

  lemma CycleMsgsAreCycleMsgs(cycles: seq<string>)
    ensures forall k :: 0 <= k < |cycles| ==> IsCycleMsg(CycleMsgs(cycles)[k])
  {
    forall k | 0 <= k < |cycles| ensures IsCycleMsg(CycleMsgs(cycles)[k]) {
      CycleMsgShape(cycles[k]);
    }
  }

  /** Appends one cycle message per reported task number, as `_dfs` does
      when it unwinds. */
  method ReportCycles(r: ValidationResult, cycles: seq<string>)
    modifies r
    ensures r.errors == old(r.errors) + CycleMsgs(cycles)
    ensures r.warnings == old(r.warnings)
  {
    ghost var e0 := r.errors;
    var k := 0;
    while k < |cycles|
      invariant 0 <= k <= |cycles|
      invariant r.errors == e0 + CycleMsgs(cycles[..k]) && r.warnings == old(r.warnings)
    {
      ghost var before := r.errors;
      r.AddError(CycleMsg(cycles[k]));
      CycleMsgsStep(cycles, k, e0, before, r.errors);
      k := k + 1;
    }
    assert cycles[..k] == cycles;
  }

  lemma CycleMsgsStep(cycles: seq<string>, k: nat, e0: seq<string>, before: seq<string>, after: seq<string>)
    requires k < |cycles| && before == e0 + CycleMsgs(cycles[..k])
    requires after == before + [CycleMsg(cycles[k])]
    ensures after == e0 + CycleMsgs(cycles[..k + 1])
  {
    assert cycles[..k + 1][..k] == cycles[..k];
    assert CycleMsgs(cycles[..k + 1]) == CycleMsgs(cycles[..k]) + [CycleMsg(cycles[k])];
    assert e0 + (CycleMsgs(cycles[..k]) + [CycleMsg(cycles[k])]) == before + [CycleMsg(cycles[k])];
  }

  /** `validate_dependencies`: an error per task whose dependency names no
      task, in list order, then the cycle messages. */
  method ValidateDependencies(ts: seq<Task>) returns (r: ValidationResult)
    ensures r.Ok() <==> (forall i :: 0 <= i < |ts| ==> !Dangling(ts, i)) && !HasCycle(DepMap(ts))
    ensures |r.errors| >= |DanglingErrors(ts, |ts|)|
    ensures r.errors[..|DanglingErrors(ts, |ts|)|] == DanglingErrors(ts, |ts|)
    ensures forall k :: |DanglingErrors(ts, |ts|)| <= k < |r.errors| ==> IsCycleMsg(r.errors[k])
    ensures HasCycle(DepMap(ts)) ==> |r.errors| > |DanglingErrors(ts, |ts|)|
    ensures r.warnings == []
  {
    ghost var d := DanglingErrors(ts, |ts|);
    DanglingErrorsEmpty(ts, |ts|);
    r := new ValidationResult();
    ReportDangling(r, ts);
    assert [] + d == d;
    ghost var e1 := r.errors;
    assert e1 == d;
    var cycles := FindCycles(ts);
    ReportCycles(r, cycles);
    CycleMsgsAreCycleMsgs(cycles);
    assert r.errors == e1 + CycleMsgs(cycles);
    assert r.errors[..|d|] == d;
  }

  // ---------------------------------------------------------------------
  // Execution waves (`get_execution_plan`)

  /** The task numbers of the tasks at `ps`. */
  function NamesOf(ts: seq<Task>, ps: seq<nat>): set<string>
    requires ValidPositions(ts, ps)
  {
    set i | 0 <= i < |ps| :: ts[ps[i]].taskNo
  }

  lemma NamesOfAppend(ts: seq<Task>, a: seq<nat>, b: seq<nat>)
    requires ValidPositions(ts, a) && ValidPositions(ts, b)
    ensures ValidPositions(ts, a + b)
    ensures NamesOf(ts, a + b) == NamesOf(ts, a) + NamesOf(ts, b)
  {
    forall x | x in NamesOf(ts, a + b) ensures x in NamesOf(ts, a) + NamesOf(ts, b) {
      var i :| 0 <= i < |a + b| && ts[(a + b)[i]].taskNo == x;
      if i >= |a| {
        assert (a + b)[i] == b[i - |a|];
      }
    }
    forall x | x in NamesOf(ts, b) ensures x in NamesOf(ts, a + b) {
      var i :| 0 <= i < |b| && ts[b[i]].taskNo == x;
      assert (a + b)[|a| + i] == b[i];
    }
    forall x | x in NamesOf(ts, a) ensures x in NamesOf(ts, a + b) {
      var i :| 0 <= i < |a| && ts[a[i]].taskNo == x;
      assert (a + b)[i] == a[i];
    }
  }

  /** No two positions of `ps` carry the same task number. */
  predicate NameInjective(ts: seq<Task>, ps: seq<nat>)
    requires ValidPositions(ts, ps)
  {
    forall p, q :: p in ps && q in ps && ts[p].taskNo == ts[q].taskNo ==> p == q
  }

  /** The head of a sorted list comes before everything after it. */
  lemma SortedHead(ts: seq<Task>, ps: seq<nat>)
    requires SortedByKey(ts, ps) && ps != []
    ensures SortedByKey(ts, ps[1..])
    ensures forall x :: x in ps[1..] ==> KeyLt(ts, ps[0], x)
    ensures forall x :: x in ps <==> x == ps[0] || x in ps[1..]
    ensures ps[0] !in ps[1..]
  {
    forall x | x in ps[1..] ensures KeyLt(ts, ps[0], x) {
      var j :| 0 <= j < |ps[1..]| && ps[1..][j] == x;
      assert KeyLt(ts, ps[0], ps[j + 1]);
    }
  }

  lemma SortedCons(ts: seq<Task>, p: nat, ps: seq<nat>)
    requires SortedByKey(ts, ps) && p < |ts|
    requires forall x :: x in ps ==> KeyLt(ts, p, x)
    ensures SortedByKey(ts, [p] + ps)
  {
    forall b | 0 < b < |[p] + ps| ensures KeyLt(ts, p, ([p] + ps)[b]) {
      assert ([p] + ps)[b] == ps[b - 1];
    }
  }

  lemma InjectiveCons(ts: seq<Task>, p: nat, ps: seq<nat>)
    requires ValidPositions(ts, ps) && NameInjective(ts, ps) && p < |ts|
    requires ts[p].taskNo !in NamesOf(ts, ps)
    ensures ValidPositions(ts, [p] + ps) && NameInjective(ts, [p] + ps)
  {
    forall q | q in ps ensures ts[q].taskNo != ts[p].taskNo {
      var j :| 0 <= j < |ps| && ps[j] == q;
    }
  }

  /** `{t.task_no: t for t in tasks}` over the sorted list: for each task number
      the last position carrying it, kept in list order. */
  function LastPerNo(ts: seq<Task>, ps: seq<nat>): (r: seq<nat>)
    requires SortedByKey(ts, ps)
    ensures SortedByKey(ts, r) && |r| <= |ps|
    ensures forall x :: x in r ==> x in ps
    ensures NamesOf(ts, r) == NamesOf(ts, ps)
    ensures NameInjective(ts, r)
  {
    if ps == [] then []
    else
      var tail := ps[1..];
      SortedHead(ts, ps);
      var rest := LastPerNo(ts, tail);
      NamesOfAppend(ts, [ps[0]], tail);
      assert [ps[0]] + tail == ps;
      if ts[ps[0]].taskNo in NamesOf(ts, tail) then rest
      else
        NamesOfAppend(ts, [ps[0]], rest);
        SortedCons(ts, ps[0], rest);
        InjectiveCons(ts, ps[0], rest);
        [ps[0]] + rest
  }

  /** The task kept for a task number is its last one in the sorted list. */
  lemma {:induction false} LastPerNoKeepsLast(ts: seq<Task>, ps: seq<nat>)
    requires SortedByKey(ts, ps)
    ensures forall i :: 0 <= i < |ps| ==>
      (ps[i] in LastPerNo(ts, ps) <==> ts[ps[i]].taskNo !in NamesOf(ts, ps[i + 1..]))
    decreases |ps|
  {
    if ps != [] {
      var tail := ps[1..];
      LastPerNoKeepsLast(ts, tail);
      assert ps[0] !in tail by {
        forall j | 0 <= j < |tail| ensures tail[j] != ps[0] {
          assert KeyLt(ts, ps[0], ps[j + 1]);
        }
      }
      assert ps[1..] == tail;
      forall i | 1 <= i < |ps|
        ensures ps[i] in LastPerNo(ts, ps) <==> ts[ps[i]].taskNo !in NamesOf(ts, ps[i + 1..])
      {
        assert ps[i + 1..] == tail[i..];
        assert tail[i - 1] == ps[i] != ps[0] by { SortedIndexOrder(ts, ps, 0, i); }
      }
    }
  }

  /** `task_map`: the task kept for each task number, in stable key order. */
  function Winners(ts: seq<Task>): seq<nat> {
    LastPerNo(ts, SortedPositions(ts))
  }

  /** Every task number of the set has exactly one kept task; with distinct
      task numbers every task is kept. */
  lemma WinnersMeaning(ts: seq<Task>)
    ensures SortedByKey(ts, Winners(ts)) && NameInjective(ts, Winners(ts))
    ensures NamesOf(ts, Winners(ts)) == set i | 0 <= i < |ts| :: ts[i].taskNo
    ensures (forall i, j :: 0 <= i < j < |ts| ==> ts[i].taskNo != ts[j].taskNo) ==>
      Winners(ts) == SortedPositions(ts)
  {
    var ps := SortedPositions(ts);
    forall x | x in set i | 0 <= i < |ts| :: ts[i].taskNo
      ensures x in NamesOf(ts, ps)
    {
      var i :| 0 <= i < |ts| && ts[i].taskNo == x;
      assert i in ps;
      var j :| 0 <= j < |ps| && ps[j] == i;
    }
    if forall i, j :: 0 <= i < j < |ts| ==> ts[i].taskNo != ts[j].taskNo {
      forall i | 0 <= i < |ps| ensures ps[i] in Winners(ts) {
        forall j | i < j < |ps| ensures ts[ps[j]].taskNo != ts[ps[i]].taskNo {
          SortedIndexOrder(ts, ps, i, j);
        }
        assert ts[ps[i]].taskNo !in NamesOf(ts, ps[i + 1..]);
        LastPerNoKeepsLast(ts, ps);
      }
      SortedUnique(ts, Winners(ts), ps);
    }
  }

  /** `p` may precede `q` after a sort on `(batch, priority)` alone. */
  predicate KeyLe(ts: seq<Task>, p: nat, q: nat)
    requires p < |ts| && q < |ts|
  {
    ts[p].batch < ts[q].batch || (ts[p].batch == ts[q].batch && ts[p].priority <= ts[q].priority)
  }

  /** What `wave.sort(key=lambda t: (t.batch, t.priority))` guarantees
      whatever order the wave was collected in. */
  predicate KeyOrdered(ts: seq<Task>, ps: seq<nat>) {
    ValidPositions(ts, ps)
    && forall a, b :: 0 <= a < b < |ps| ==> KeyLe(ts, ps[a], ps[b])
  }

  /** `task.depends_on is None or task.depends_on in completed` */
  predicate Ready(t: Task, completed: set<string>) {
    t.dependsOn.None? || t.dependsOn.value in completed
  }

  function InSet(names: set<string>): Task -> bool {
    (t: Task) => t.taskNo in names
  }

  function ReadyIn(remaining: set<string>, completed: set<string>): Task -> bool {
    (t: Task) => t.taskNo in remaining && Ready(t, completed)
  }

  predicate NoDependencies(ts: seq<Task>) {
    forall i :: 0 <= i < |ts| ==> ts[i].dependsOn.None?
  }

  /** Positions in strictly increasing task-number order. */
  predicate SortedByNo(ts: seq<Task>, ps: seq<nat>) {
    ValidPositions(ts, ps)
    && forall a, b :: 0 <= a < b < |ps| ==> StrLt(ts[ps[a]].taskNo, ts[ps[b]].taskNo)
  }

  lemma SortedByNoHead(ts: seq<Task>, ps: seq<nat>)
    requires SortedByNo(ts, ps) && ps != []
    ensures SortedByNo(ts, ps[1..])
    ensures forall x :: x in ps[1..] ==> StrLt(ts[ps[0]].taskNo, ts[x].taskNo)
  {
    forall x | x in ps[1..] ensures StrLt(ts[ps[0]].taskNo, ts[x].taskNo) {
      var j :| 0 <= j < |ps[1..]| && ps[1..][j] == x;
      assert StrLt(ts[ps[0]].taskNo, ts[ps[j + 1]].taskNo);
    }
  }

  lemma SortedByNoCons(ts: seq<Task>, p: nat, ps: seq<nat>)
    requires SortedByNo(ts, ps) && p < |ts|
    requires forall x :: x in ps ==> StrLt(ts[p].taskNo, ts[x].taskNo)
    ensures SortedByNo(ts, [p] + ps)
  {
    forall b | 0 < b < |[p] + ps| ensures StrLt(ts[p].taskNo, ts[([p] + ps)[b]].taskNo) {
      assert ([p] + ps)[b] == ps[b - 1];
    }
  }

  /** What goes before the head goes before everything. */
  lemma InsertBeforeHead(ts: seq<Task>, ps: seq<nat>, p: nat)
    requires SortedByNo(ts, ps) && ps != [] && p < |ts|
    requires StrLt(ts[p].taskNo, ts[ps[0]].taskNo)
    ensures forall x :: x in ps ==> StrLt(ts[p].taskNo, ts[x].taskNo)
  {
    SortedByNoHead(ts, ps);
    forall x | x in ps ensures StrLt(ts[p].taskNo, ts[x].taskNo) {
      if x != ps[0] {
        assert x in ps[1..];
        StrLtOrder(ts[p].taskNo, ts[ps[0]].taskNo, ts[x].taskNo);
      }
    }
  }

  /** When `p` goes after the head, everything inserted behind the head
      still comes after it. */
  lemma InsertAfterHead(ts: seq<Task>, ps: seq<nat>, p: nat, rest: seq<nat>)
    requires SortedByNo(ts, ps) && ps != [] && p < |ts|
    requires ts[ps[0]].taskNo != ts[p].taskNo && !StrLt(ts[p].taskNo, ts[ps[0]].taskNo)
    requires multiset(rest) == multiset(ps[1..]) + multiset{p}
    ensures forall x :: x in rest ==> x < |ts| && StrLt(ts[ps[0]].taskNo, ts[x].taskNo)
  {
    SortedByNoHead(ts, ps);
    StrLtOrder(ts[p].taskNo, ts[ps[0]].taskNo, ts[p].taskNo);
    forall x | x in rest ensures x < |ts| && StrLt(ts[ps[0]].taskNo, ts[x].taskNo) {
      assert x in multiset(rest);
    }
  }

  function InsertByNo(ts: seq<Task>, ps: seq<nat>, p: nat): (r: seq<nat>)
    requires SortedByNo(ts, ps) && p < |ts|
    requires forall q :: q in ps ==> ts[q].taskNo != ts[p].taskNo
    ensures SortedByNo(ts, r)
    ensures multiset(r) == multiset(ps) + multiset{p}
  {
    if ps == [] then [p]
    else
      if StrLt(ts[p].taskNo, ts[ps[0]].taskNo) then
        InsertBeforeHead(ts, ps, p);
        SortedByNoCons(ts, p, ps);
        [p] + ps
      else
        var rest := InsertByNo(ts, ps[1..], p);
        assert ps == [ps[0]] + ps[1..];
        InsertAfterHead(ts, ps, p, rest);
        SortedByNoCons(ts, ps[0], rest);
        [ps[0]] + rest
  }

  /** Dropping the last element of a sorted, name-injective list. */
  lemma SortedInit(ts: seq<Task>, ps: seq<nat>)
    requires SortedByKey(ts, ps) && NameInjective(ts, ps) && ps != []
    ensures ps == ps[..|ps| - 1] + [ps[|ps| - 1]]
    ensures SortedByKey(ts, ps[..|ps| - 1]) && NameInjective(ts, ps[..|ps| - 1])
    ensures forall q :: q in ps[..|ps| - 1] ==> ts[q].taskNo != ts[ps[|ps| - 1]].taskNo
  {
    var init := ps[..|ps| - 1];
    assert forall x :: x in init ==> x in ps;
    forall q | q in init ensures ts[q].taskNo != ts[ps[|ps| - 1]].taskNo {
      var j :| 0 <= j < |init| && init[j] == q;
      assert KeyLt(ts, ps[j], ps[|ps| - 1]);
    }
  }

  /** `sorted(...)` of distinct task numbers, applied to the positions
      carrying them. */
  function SortByNo(ts: seq<Task>, ps: seq<nat>): (r: seq<nat>)
    requires SortedByKey(ts, ps) && NameInjective(ts, ps)
    ensures SortedByNo(ts, r)
    ensures multiset(r) == multiset(ps)
    ensures forall x :: x in r <==> x in ps
  {
    if ps == [] then []
    else
      var last := ps[|ps| - 1];
      SortedInit(ts, ps);
      var sortedInit := SortByNo(ts, ps[..|ps| - 1]);
      var r := InsertByNo(ts, sortedInit, last);
      assert multiset(ps) == multiset(ps[..|ps| - 1]) + multiset{last};
      assert forall x :: x in r <==> x in multiset(r);
      r
  }

  /** All tasks of all waves, in wave order. */
  function Flatten(waves: seq<seq<nat>>): (r: seq<nat>)
    ensures |waves| > 0 ==> r == Flatten(waves[..|waves| - 1]) + waves[|waves| - 1]
  {
    if waves == [] then [] else Flatten(waves[..|waves| - 1]) + waves[|waves| - 1]
  }

  predicate ValidWaves(ts: seq<Task>, waves: seq<seq<nat>>) {
    forall k :: 0 <= k < |waves| ==> ValidPositions(ts, waves[k])
  }

  lemma FlattenValid(ts: seq<Task>, waves: seq<seq<nat>>)
    requires ValidWaves(ts, waves)
    ensures ValidPositions(ts, Flatten(waves))
  {
    if waves != [] {
      FlattenValid(ts, waves[..|waves| - 1]);
    }
  }

  /** The task numbers placed by the waves before wave `k`. */
  function PlacedBefore(ts: seq<Task>, waves: seq<seq<nat>>, k: nat): set<string>
    requires ValidWaves(ts, waves) && k <= |waves|
  {
    FlattenValid(ts, waves[..k]);
    NamesOf(ts, Flatten(waves[..k]))
  }

  /** Every task of wave `k` has no dependency or depends on a task placed by
      an earlier wave. */
  predicate ReadyWave(ts: seq<Task>, waves: seq<seq<nat>>, k: nat)
    requires ValidWaves(ts, waves) && k < |waves|
  {
    forall p :: p in waves[k] ==> Ready(ts[p], PlacedBefore(ts, waves, k))
  }

  /** No task of wave `k` has its dependency placed by an earlier wave. */
  predicate StuckWave(ts: seq<Task>, waves: seq<seq<nat>>, k: nat)
    requires ValidWaves(ts, waves) && k < |waves|
  {
    forall p :: p in waves[k] ==> !Ready(ts[p], PlacedBefore(ts, waves, k))
  }

  /** Wave `k` holds every kept task not yet placed whose dependency is absent
      or placed. */
  predicate MaximalWave(ts: seq<Task>, winners: seq<nat>, waves: seq<seq<nat>>, k: nat)
    requires ValidPositions(ts, winners) && ValidWaves(ts, waves) && k < |waves|
  {
    forall p :: (p in winners && ts[p].taskNo !in PlacedBefore(ts, waves, k)
                 && Ready(ts[p], PlacedBefore(ts, waves, k))) ==> p in waves[k]
  }

  /** Appending a wave leaves the earlier waves' properties alone. */
  lemma AppendWave(ts: seq<Task>, waves: seq<seq<nat>>, w: seq<nat>)
    requires ValidWaves(ts, waves) && ValidPositions(ts, w)
    ensures ValidWaves(ts, waves + [w])
    ensures (waves + [w])[..|waves|] == waves
    ensures Flatten(waves + [w]) == Flatten(waves) + w
    ensures forall k :: 0 <= k < |waves| ==>
      (ReadyWave(ts, waves + [w], k) <==> ReadyWave(ts, waves, k))
    ensures forall k, winners: seq<nat> :: 0 <= k < |waves| && ValidPositions(ts, winners) ==>
      (MaximalWave(ts, winners, waves + [w], k) <==> MaximalWave(ts, winners, waves, k))
    ensures PlacedBefore(ts, waves + [w], |waves|) == PlacedBefore(ts, waves, |waves|)
  {
    assert (waves + [w])[..|waves|] == waves == waves[..|waves|];
    forall k | 0 <= k < |waves| ensures (waves + [w])[..k] == waves[..k] {
    }
  }

  /** Keeping by `f` splits into keeping by `a` and keeping by `b` when every
      element passing `f` passes exactly one of them. */
  lemma {:induction false} KeepSplit(ts: seq<Task>, ps: seq<nat>, f: Task -> bool, a: Task -> bool, b: Task -> bool)
    requires ValidPositions(ts, ps)
    requires forall x :: x in ps ==> (f(ts[x]) <==> a(ts[x]) || b(ts[x])) && !(a(ts[x]) && b(ts[x]))
    ensures multiset(Keep(ts, ps, f)) == multiset(Keep(ts, ps, a)) + multiset(Keep(ts, ps, b))
    decreases |ps|
  {
    if ps != [] {
      assert forall x :: x in ps[1..] ==> x in ps;
      KeepSplit(ts, ps[1..], f, a, b);
    }
  }

  /** Keeping by a test every element passes keeps everything. */
  lemma {:induction false} KeepAll(ts: seq<Task>, ps: seq<nat>, f: Task -> bool)
    requires ValidPositions(ts, ps)
    requires forall x :: x in ps ==> f(ts[x])
    ensures Keep(ts, ps, f) == ps
    decreases |ps|
  {
    if ps != [] {
      assert forall x :: x in ps[1..] ==> x in ps;
      KeepAll(ts, ps[1..], f);
    }
  }

  /** One wave: the pending kept tasks split into the ready ones (the wave)
      and those still pending afterwards. */
  lemma WaveSplit(ts: seq<Task>, winners: seq<nat>, remaining: set<string>, completed: set<string>)
    requires ValidPositions(ts, winners) && NameInjective(ts, winners)
    ensures var wave := Keep(ts, winners, ReadyIn(remaining, completed));
      multiset(Keep(ts, winners, InSet(remaining)))
        == multiset(wave) + multiset(Keep(ts, winners, InSet(remaining - NamesOf(ts, wave))))
  {
    var wave := Keep(ts, winners, ReadyIn(remaining, completed));
    var after := remaining - NamesOf(ts, wave);
    forall x | x in winners
      ensures (InSet(remaining)(ts[x]) <==> ReadyIn(remaining, completed)(ts[x]) || InSet(after)(ts[x]))
      ensures !(ReadyIn(remaining, completed)(ts[x]) && InSet(after)(ts[x]))
    {
      if ReadyIn(remaining, completed)(ts[x]) {
        assert x in wave;
        var i :| 0 <= i < |wave| && wave[i] == x;
        assert ts[x].taskNo in NamesOf(ts, wave);
      }
      if ts[x].taskNo in NamesOf(ts, wave) {
        var i :| 0 <= i < |wave| && ts[wave[i]].taskNo == ts[x].taskNo;
        assert wave[i] in winners;
      }
    }
    KeepSplit(ts, winners, InSet(remaining), ReadyIn(remaining, completed), InSet(after));
  }

  /** The tasks not yet placed, among the kept ones. */
  function Pending(ts: seq<Task>, winners: seq<nat>, remaining: set<string>): (r: seq<nat>)
    requires ValidPositions(ts, winners)
    ensures ValidPositions(ts, r)
  {
    Keep(ts, winners, InSet(remaining))
  }

  /** What `get_execution_plan` promises of its waves over the kept tasks
      `winners`: each kept task is placed exactly once, no wave is empty, and
      every wave is in (batch, priority) order with each dependency placed by
      an earlier wave, except possibly a last wave in task-number order none
      of whose dependencies was placed; and no wave leaves out a task that was
      ready for it. The order among tasks of equal (batch, priority) inside a
      wave is left open: the source collects a wave by iterating a set. */
  ghost predicate IsExecutionPlan(ts: seq<Task>, winners: seq<nat>, waves: seq<seq<nat>>) {
    ValidWaves(ts, waves) && ValidPositions(ts, winners)
    && multiset(Flatten(waves)) == multiset(winners)
    && (forall k :: 0 <= k < |waves| ==> waves[k] != [] && MaximalWave(ts, winners, waves, k))
    && (forall k :: 0 <= k < |waves| ==>
          (KeyOrdered(ts, waves[k]) && ReadyWave(ts, waves, k))
          || (k == |waves| - 1 && SortedByNo(ts, waves[k]) && StuckWave(ts, waves, k)))
  }

  /** The state of the wave loop after `iteration` rounds. */
  ghost predicate PlanInv(ts: seq<Task>, winners: seq<nat>, waves: seq<seq<nat>>,
                          completed: set<string>, remaining: set<string>, iteration: nat) {
    SortedByKey(ts, winners) && NameInjective(ts, winners)
    && ValidWaves(ts, waves) && ValidPositions(ts, Flatten(waves))
    && completed == NamesOf(ts, Flatten(waves))
    && remaining == NamesOf(ts, winners) - completed
    && multiset(Flatten(waves)) + multiset(Pending(ts, winners, remaining)) == multiset(winners)
    && iteration + |Pending(ts, winners, remaining)| <= |winners|
    && (forall k :: 0 <= k < |waves| ==>
          waves[k] != [] && KeyOrdered(ts, waves[k]) && ReadyWave(ts, waves, k)
          && MaximalWave(ts, winners, waves, k))
  }

  /** Before the first wave every task is pending. */
  lemma PendingAll(ts: seq<Task>, winners: seq<nat>)
    requires ValidPositions(ts, winners)
    ensures Pending(ts, winners, NamesOf(ts, winners)) == winners
  {
    var names := NamesOf(ts, winners);
    assert forall k :: 0 <= k < |winners| ==> ts[winners[k]].taskNo in names;
    KeepAll(ts, winners, InSet(names));
  }

  lemma PlanStart(ts: seq<Task>, winners: seq<nat>)
    requires SortedByKey(ts, winners) && NameInjective(ts, winners)
    ensures PlanInv(ts, winners, [], {}, NamesOf(ts, winners), 0)
  {
    PendingAll(ts, winners);
    var waves: seq<seq<nat>> := [];
    assert Flatten(waves) == [];
    assert NamesOf(ts, Flatten(waves)) == {};
  }

  /** While a task number remains, the iteration cap has not been reached. */
  lemma PlanGuard(ts: seq<Task>, winners: seq<nat>, waves: seq<seq<nat>>,
                  completed: set<string>, remaining: set<string>, iteration: nat)
    requires PlanInv(ts, winners, waves, completed, remaining, iteration)
    ensures remaining != {} ==> iteration < |winners|
  {
    PendingNonEmpty(ts, winners, remaining);
  }

  /** A round with a non-empty wave keeps the loop state. */
  lemma PlanStep(ts: seq<Task>, winners: seq<nat>, waves: seq<seq<nat>>,
                 completed: set<string>, remaining: set<string>, iteration: nat)
    requires PlanInv(ts, winners, waves, completed, remaining, iteration)
    requires Keep(ts, winners, ReadyIn(remaining, completed)) != []
    ensures var wave := Keep(ts, winners, ReadyIn(remaining, completed));
      PlanInv(ts, winners, waves + [wave], completed + NamesOf(ts, wave),
              remaining - NamesOf(ts, wave), iteration + 1)
      && |Pending(ts, winners, remaining - NamesOf(ts, wave))| < |Pending(ts, winners, remaining)|
  {
    var wave := Keep(ts, winners, ReadyIn(remaining, completed));
    PlanStepCounts(ts, winners, waves, completed, remaining, iteration);
    NewWave(ts, winners, waves, completed, remaining, iteration);
  }

  /** The bookkeeping of a round: the placed and remaining task numbers and
      the pending count. */
  lemma PlanStepCounts(ts: seq<Task>, winners: seq<nat>, waves: seq<seq<nat>>,
                       completed: set<string>, remaining: set<string>, iteration: nat)
    requires PlanInv(ts, winners, waves, completed, remaining, iteration)
    requires Keep(ts, winners, ReadyIn(remaining, completed)) != []
    ensures var wave := Keep(ts, winners, ReadyIn(remaining, completed));
      var names := NamesOf(ts, wave);
      ValidWaves(ts, waves + [wave]) && ValidPositions(ts, Flatten(waves + [wave]))
      && completed + names == NamesOf(ts, Flatten(waves + [wave]))
      && remaining - names == NamesOf(ts, winners) - (completed + names)
      && multiset(Flatten(waves + [wave])) + multiset(Pending(ts, winners, remaining - names)) == multiset(winners)
      && |Pending(ts, winners, remaining - names)| < |Pending(ts, winners, remaining)|
  {
    var wave := Keep(ts, winners, ReadyIn(remaining, completed));
    var names := NamesOf(ts, wave);
    WaveSplit(ts, winners, remaining, completed);
    AppendWave(ts, waves, wave);
    NamesOfAppend(ts, Flatten(waves), wave);
    assert names <= remaining;
    var after := Pending(ts, winners, remaining - names);
    assert |multiset(Pending(ts, winners, remaining))| == |multiset(wave)| + |multiset(after)|;
  }

  /** The wave a round appends is non-empty, in key order, ready and maximal, and
      appending it leaves the earlier waves' properties alone. */
  lemma NewWave(ts: seq<Task>, winners: seq<nat>, waves: seq<seq<nat>>,
                completed: set<string>, remaining: set<string>, iteration: nat)
    requires PlanInv(ts, winners, waves, completed, remaining, iteration)
    requires Keep(ts, winners, ReadyIn(remaining, completed)) != []
    ensures var wave := Keep(ts, winners, ReadyIn(remaining, completed));
      var w2 := waves + [wave];
      ValidWaves(ts, w2)
      && forall k :: 0 <= k < |w2| ==>
           w2[k] != [] && KeyOrdered(ts, w2[k]) && ReadyWave(ts, w2, k) && MaximalWave(ts, winners, w2, k)
  {
    var wave := Keep(ts, winners, ReadyIn(remaining, completed));
    AppendWave(ts, waves, wave);
    var w2 := waves + [wave];
    assert PlacedBefore(ts, w2, |waves|) == completed;
    forall p | p in winners && ts[p].taskNo !in completed && Ready(ts[p], completed)
      ensures p in wave
    {
      var i :| 0 <= i < |winners| && winners[i] == p;
      assert ts[p].taskNo in NamesOf(ts, winners);
    }
    forall k | 0 <= k < |w2|
      ensures w2[k] != [] && KeyOrdered(ts, w2[k]) && ReadyWave(ts, w2, k) && MaximalWave(ts, winners, w2, k)
    {
      if k < |waves| {
        assert w2[k] == waves[k];
      }
    }
  }

  /** The wave appended when no pending task is ready. */
  lemma FallbackWave(ts: seq<Task>, winners: seq<nat>, waves: seq<seq<nat>>,
                     completed: set<string>, remaining: set<string>, iteration: nat)
    requires PlanInv(ts, winners, waves, completed, remaining, iteration)
    requires remaining != {}
    requires Keep(ts, winners, ReadyIn(remaining, completed)) == []
    ensures SortedByKey(ts, Pending(ts, winners, remaining))
    ensures NameInjective(ts, Pending(ts, winners, remaining))
    ensures var wave := SortByNo(ts, Pending(ts, winners, remaining));
      var w2 := waves + [wave];
      ValidWaves(ts, w2) && wave != [] && SortedByNo(ts, wave)
      && StuckWave(ts, w2, |waves|) && MaximalWave(ts, winners, w2, |waves|)
      && multiset(Flatten(w2)) == multiset(winners)
  {
    var pending := Pending(ts, winners, remaining);
    var wave := SortByNo(ts, pending);
    PendingNonEmpty(ts, winners, remaining);
    NoneReady(ts, winners, remaining, completed);
    AppendWave(ts, waves, wave);
    var w2 := waves + [wave];
    assert wave != [] by {
      assert pending[0] in pending;
    }
    assert PlacedBefore(ts, w2, |waves|) == completed;
    forall p | p in winners && ts[p].taskNo !in completed
      ensures !Ready(ts[p], completed)
    {
      var i :| 0 <= i < |winners| && winners[i] == p;
      assert ts[p].taskNo in NamesOf(ts, winners);
      assert p in Pending(ts, winners, remaining);
    }
    assert Flatten(w2) == Flatten(waves) + wave;
  }

  /** A round with an empty wave appends the pending tasks in task-number
      order and ends the plan. */
  lemma PlanFallback(ts: seq<Task>, winners: seq<nat>, waves: seq<seq<nat>>,
                     completed: set<string>, remaining: set<string>, iteration: nat)
    requires PlanInv(ts, winners, waves, completed, remaining, iteration)
    requires remaining != {}
    requires Keep(ts, winners, ReadyIn(remaining, completed)) == []
    ensures SortedByKey(ts, Pending(ts, winners, remaining))
    ensures NameInjective(ts, Pending(ts, winners, remaining))
    ensures IsExecutionPlan(ts, winners, waves + [SortByNo(ts, Pending(ts, winners, remaining))])
  {
    FallbackWave(ts, winners, waves, completed, remaining, iteration);
    var wave := SortByNo(ts, Pending(ts, winners, remaining));
    AppendWave(ts, waves, wave);
    var w2 := waves + [wave];
    forall k | 0 <= k < |w2|
      ensures w2[k] != [] && MaximalWave(ts, winners, w2, k)
      ensures (KeyOrdered(ts, w2[k]) && ReadyWave(ts, w2, k))
              || (k == |w2| - 1 && SortedByNo(ts, w2[k]) && StuckWave(ts, w2, k))
    {
      if k < |waves| {
        assert w2[k] == waves[k];
        assert ReadyWave(ts, waves, k) && MaximalWave(ts, winners, waves, k);
      }
    }
  }

  /** With no task number left, the waves are a complete plan. */
  lemma PlanFinish(ts: seq<Task>, winners: seq<nat>, waves: seq<seq<nat>>,
                   completed: set<string>, iteration: nat)
    requires PlanInv(ts, winners, waves, completed, {}, iteration)
    ensures IsExecutionPlan(ts, winners, waves)
  {
    KeepNone(ts, winners, InSet({}));
  }

  /** A list without repeats holds each element once. */
  lemma {:induction false} SortedCount(ts: seq<Task>, ps: seq<nat>)
    requires SortedByKey(ts, ps)
    ensures forall x :: multiset(ps)[x] <= 1
    decreases |ps|
  {
    if ps != [] {
      SortedHead(ts, ps);
      SortedCount(ts, ps[1..]);
      assert ps == [ps[0]] + ps[1..];
    }
  }

  lemma {:induction false} FlattenFront(waves: seq<seq<nat>>)
    requires waves != []
    ensures Flatten(waves) == waves[0] + Flatten(waves[1..])
    decreases |waves|
  {
    if |waves| > 1 {
      FlattenFront(waves[..|waves| - 1]);
      assert waves[..|waves| - 1][1..] == waves[1..][..|waves| - 2];
    } else {
      assert waves[..0] == [];
    }
  }

  lemma {:induction false} FlattenLength(waves: seq<seq<nat>>)
    requires forall k :: 0 <= k < |waves| ==> waves[k] != []
    ensures |Flatten(waves)| >= |waves|
    decreases |waves|
  {
    if waves != [] {
      FlattenLength(waves[..|waves| - 1]);
    }
  }

  /** When a first part already holds every element of a list without
      repeats, nothing is left for the rest. */
  lemma CoveredByFirst(first: seq<nat>, rest: seq<nat>, all: seq<nat>)
    requires multiset(first) + multiset(rest) == multiset(all)
    requires forall x :: multiset(all)[x] <= 1
    requires forall x :: x in all ==> x in first
    ensures rest == []
  {
    var m0, mr, mw := multiset(first), multiset(rest), multiset(all);
    forall y ensures mr[y] == 0 {
      assert mr[y] == mw[y] - m0[y];
      if y in all {
        assert m0[y] >= 1;
      } else {
        assert mw[y] == 0;
      }
    }
    assert mr == multiset{};
  }

  /** Without dependencies every plan is a single wave holding each kept
      task once, in (batch, priority) order. */
  lemma NoDependenciesOneWave(ts: seq<Task>, winners: seq<nat>, waves: seq<seq<nat>>)
    requires SortedByKey(ts, winners) && NoDependencies(ts)
    requires IsExecutionPlan(ts, winners, waves)
    ensures |waves| <= 1
    ensures waves != [] ==> multiset(waves[0]) == multiset(winners) && KeyOrdered(ts, waves[0])
  {
    if waves != [] {
      FirstWaveAll(ts, winners, waves);
      assert waves[0][0] in waves[0];
      assert !StuckWave(ts, waves, 0) by {
        assert waves[..0] == [];
      }
    }
  }

  lemma FirstWaveAll(ts: seq<Task>, winners: seq<nat>, waves: seq<seq<nat>>)
    requires SortedByKey(ts, winners) && NoDependencies(ts)
    requires ValidWaves(ts, waves) && waves != [] && forall k :: 0 <= k < |waves| ==> waves[k] != []
    requires multiset(Flatten(waves)) == multiset(winners)
    requires MaximalWave(ts, winners, waves, 0)
    ensures waves == [waves[0]] && multiset(waves[0]) == multiset(winners)
  {
    assert PlacedBefore(ts, waves, 0) == {} by {
      assert waves[..0] == [];
    }
    assert forall p :: p in winners ==> p in waves[0];
    OnlyOneWave(ts, winners, waves);
  }

  /** A first wave holding every kept task leaves nothing for later waves. */
  lemma OnlyOneWave(ts: seq<Task>, winners: seq<nat>, waves: seq<seq<nat>>)
    requires SortedByKey(ts, winners)
    requires waves != [] && forall k :: 0 <= k < |waves| ==> waves[k] != []
    requires multiset(Flatten(waves)) == multiset(winners)
    requires forall p :: p in winners ==> p in waves[0]
    ensures waves == [waves[0]] && multiset(waves[0]) == multiset(winners)
  {
    FlattenFront(waves);
    SortedCount(ts, winners);
    CoveredByFirst(waves[0], Flatten(waves[1..]), winners);
    FlattenLength(waves[1..]);
    assert waves[1..] == [];
    assert Flatten(waves[1..]) == [];
  }

  /** With distinct task numbers, every task is placed exactly once. */
  lemma EveryTaskOnce(ts: seq<Task>, waves: seq<seq<nat>>)
    requires forall i, j :: 0 <= i < j < |ts| ==> ts[i].taskNo != ts[j].taskNo
    requires IsExecutionPlan(ts, Winners(ts), waves)
    ensures forall x :: 0 <= x < |ts| ==> multiset(Flatten(waves))[x] == 1
  {
    DistinctWinnersOnce(ts, multiset(Flatten(waves)));
  }

  lemma DistinctWinnersOnce(ts: seq<Task>, m: multiset<nat>)
    requires forall i, j :: 0 <= i < j < |ts| ==> ts[i].taskNo != ts[j].taskNo
    requires m == multiset(Winners(ts))
    ensures forall x :: 0 <= x < |ts| ==> m[x] == 1
  {
    WinnersMeaning(ts);
    SortedCount(ts, SortedPositions(ts));
    forall x | 0 <= x < |ts| ensures m[x] == 1 {
      assert x in SortedPositions(ts);
    }
  }

  /** `get_execution_plan`: waves of tasks, each wave the pending tasks whose
      dependency is absent or already placed, sorted on (batch, priority);
      when no task is ready, the pending tasks form one last wave in
      task-number order. The iteration cap of `len(tasks) + 1` is never what
      ends the loop. Ready waves are collected here in sorted-list order, one
      of the orders the source's set iteration can produce; the contract
      promises only the (batch, priority) order. */
  method ExecutionPlan(ts: seq<Task>) returns (waves: seq<seq<nat>>)
    ensures IsExecutionPlan(ts, Winners(ts), waves)
    ensures waves == [] <==> ts == []
  {
    var tasks := SortedPositions(ts);
    var winners := LastPerNo(ts, tasks);
    WinnersMeaning(ts);
    var completed: set<string> := {};
    waves := [];
    var remaining := NamesOf(ts, tasks);
    var maxIterations := |tasks| + 1;
    var iteration := 0;
    PlanStart(ts, winners);
    while remaining != {} && iteration < maxIterations
      invariant PlanInv(ts, winners, waves, completed, remaining, iteration)
      invariant waves == [] ==> remaining == NamesOf(ts, winners) && completed == {}
      decreases |Pending(ts, winners, remaining)|
    {
      ghost var round := iteration;
      iteration := iteration + 1;
      var wave := Keep(ts, winners, ReadyIn(remaining, completed));
      if wave == [] {
        PlanFallback(ts, winners, waves, completed, remaining, round);
        wave := SortByNo(ts, Keep(ts, winners, InSet(remaining)));
        waves := waves + [wave];
        return;
      }
      PlanStep(ts, winners, waves, completed, remaining, round);
      waves := waves + [wave];
      var names := NamesOf(ts, wave);
      completed := completed + names;
      remaining := remaining - names;
    }
    PlanGuard(ts, winners, waves, completed, remaining, iteration);
    PlanFinish(ts, winners, waves, completed, iteration);
    if ts != [] {
      assert ts[0].taskNo in NamesOf(ts, winners);
    }
  }

  /** Some kept task is still pending while a task number remains. */
  lemma PendingNonEmpty(ts: seq<Task>, winners: seq<nat>, remaining: set<string>)
    requires ValidPositions(ts, winners) && remaining <= NamesOf(ts, winners)
    ensures remaining != {} ==> Pending(ts, winners, remaining) != []
  {
    if remaining != {} {
      var x :| x in remaining;
      var i :| 0 <= i < |winners| && ts[winners[i]].taskNo == x;
      assert winners[i] in Pending(ts, winners, remaining);
    }
  }

  /** An empty wave means no pending task is ready. */
  lemma NoneReady(ts: seq<Task>, winners: seq<nat>, remaining: set<string>, completed: set<string>)
    requires ValidPositions(ts, winners)
    requires Keep(ts, winners, ReadyIn(remaining, completed)) == []
    ensures forall p :: p in Pending(ts, winners, remaining) ==> !Ready(ts[p], completed)
  {
    forall p | p in Pending(ts, winners, remaining) ensures !Ready(ts[p], completed) {
      assert p !in Keep(ts, winners, ReadyIn(remaining, completed));
    }
  }

  /** Keeping by a test no element passes keeps nothing. */
  lemma {:induction false} KeepNone(ts: seq<Task>, ps: seq<nat>, f: Task -> bool)
    requires ValidPositions(ts, ps)
    requires forall x :: x in ps ==> !f(ts[x])
    ensures Keep(ts, ps, f) == []
    decreases |ps|
  {
    if ps != [] {
      assert forall x :: x in ps[1..] ==> x in ps;
      KeepNone(ts, ps[1..], f);
    }
  }
}

=== FILE: state.dfy ===
/** Task plans kept as raw JSON (`task_runner/state.py`): loading with the
    "tasks" check, the atomic save, the start-index search and statistics. */
module State {
  import opened Wrappers
  import opened JsonData
  import opened Store
  import opened TaskSets

  /** The check `load_plan` applies after parsing: the plan must hold a
      "tasks" array. */
  function CheckPlan(plan: Json, path: string): (r: Result<Json, string>)
    ensures r.Success? <==> plan.JObj? && "tasks" in plan.fields && plan.fields["tasks"].JArr?
    ensures r.Success? ==> r.value == plan
  {
    if plan.JObj? && "tasks" in plan.fields && plan.fields["tasks"].JArr? then Success(plan)
    else Failure("Plan must contain a 'tasks' array: " + path)
  }

  /** `load_plan`. */
  method LoadPlan(store: FileStore, path: string) returns (r: Result<Json, string>)
    ensures path !in store.files ==> r.Failure?
    ensures path in store.files ==> r == CheckPlan(store.files[path], path)
  {
    if path !in store.files {
      return Failure("Plan file not found: " + path);
    }
    return CheckPlan(store.files[path], path);
  }

  /** `save_plan`: the plan goes to the temporary sibling first and is then
      renamed over the target, so the target never holds a partial plan. */
  method SavePlan(store: FileStore, path: string, plan: Json) returns (ok: bool)
    modifies store
    ensures ok <==> TmpPath(path).Some?
    ensures ok ==> store.files == CrashState(old(store.files), path, TmpPath(path).value, plan, plan, 2)
    ensures !ok ==> store.files == old(store.files)
  {
    ok := store.WriteAtomic(path, plan);
  }

  predicate HasTaskNo(t: Json, no: string) {
    Field(t, "task_no") == Some(JStr(no))
  }

  predicate IsCompleted(t: Json) {
    Field(t, "status") == Some(JStr(Completed))
  }

  /** The entries from `i` up to `j` are all objects, so `t.get(...)` on each
      of them returns instead of raising `AttributeError`. */
  predicate ObjectsBetween(tasks: seq<Json>, i: nat, j: nat)
    requires i <= j <= |tasks|
  {
    forall k :: i <= k < j ==> tasks[k].JObj?
  }

  /** The loop `for i, t in enumerate(tasks): if t.get("task_no") == start_no`
      from index `i`: the first index whose task has task_no `no`, -1 when
      the loop ends without one, or `None` when `t.get` raises on an entry
      that is not an object before a match is found. */
  function FindTaskNo(tasks: seq<Json>, no: string, i: nat): (r: Option<int>)
    requires i <= |tasks|
    ensures r == Some(-1) ==>
      ObjectsBetween(tasks, i, |tasks|) && forall j :: i <= j < |tasks| ==> !HasTaskNo(tasks[j], no)
    ensures r.Some? && r.value != -1 ==>
      i <= r.value < |tasks| && HasTaskNo(tasks[r.value], no)
      && ObjectsBetween(tasks, i, r.value) && forall j :: i <= j < r.value ==> !HasTaskNo(tasks[j], no)
    ensures r.None? ==>
      exists j :: i <= j < |tasks| && !tasks[j].JObj?
        && ObjectsBetween(tasks, i, j) && forall k :: i <= k < j ==> !HasTaskNo(tasks[k], no)
    decreases |tasks| - i
  {
    if i == |tasks| then Some(-1)
    else if !tasks[i].JObj? then None
    else if HasTaskNo(tasks[i], no) then Some(i)
    else FindTaskNo(tasks, no, i + 1)
  }

  /** The loop `for i, t in enumerate(tasks): if t.get("status") != "completed"`
      from index `i`: the first index whose task is not completed, the
      length when all are, or `None` when `t.get` raises on an entry that is
      not an object first. */
  function FindNotCompleted(tasks: seq<Json>, i: nat): (r: Option<nat>)
    requires i <= |tasks|
    ensures r.Some? ==>
      i <= r.value <= |tasks| && (forall j :: i <= j < r.value ==> IsCompleted(tasks[j]))
      && (r.value < |tasks| ==> tasks[r.value].JObj? && !IsCompleted(tasks[r.value]))
    ensures r.None? ==>
      exists j :: i <= j < |tasks| && !tasks[j].JObj? && forall k :: i <= k < j ==> IsCompleted(tasks[k])
    decreases |tasks| - i
  {
    if i == |tasks| then Some(|tasks|)
    else if !tasks[i].JObj? then None
    else if !IsCompleted(tasks[i]) then Some(i)
    else FindNotCompleted(tasks, i + 1)
  }

  /** `find_start_index`: with a (non-empty) `start_no`, the first task carrying
      it or -1; otherwise the first task not completed, or `len(tasks)`.
      `None` stands for the `AttributeError` an entry that is not an object
      raises when the search reaches it. */
  function FindStartIndex(tasks: seq<Json>, startNo: Option<string>): (r: Option<int>)
    ensures Present(startNo) && r.Some? ==>
      (r.value == -1 && forall j :: 0 <= j < |tasks| ==> tasks[j].JObj? && !HasTaskNo(tasks[j], startNo.value))
      || (0 <= r.value < |tasks| && HasTaskNo(tasks[r.value], startNo.value)
          && forall j :: 0 <= j < r.value ==> tasks[j].JObj? && !HasTaskNo(tasks[j], startNo.value))
    ensures !Present(startNo) && r.Some? ==>
      0 <= r.value <= |tasks| && (forall j :: 0 <= j < r.value ==> IsCompleted(tasks[j]))
      && (r.value < |tasks| ==> !IsCompleted(tasks[r.value]))
    ensures r.None? <==> exists j :: 0 <= j < |tasks| && !tasks[j].JObj? && SearchReaches(tasks, startNo, j)
  {
    if Present(startNo) then FindTaskNo(tasks, startNo.value, 0)
    else match FindNotCompleted(tasks, 0)
      case None => None
      case Some(n) => Some(n)
  }

  /** The search of `find_start_index` passes every entry before `j`
      without returning. */
  predicate SearchReaches(tasks: seq<Json>, startNo: Option<string>, j: nat)
    requires j <= |tasks|
  {
    if Present(startNo) then forall k :: 0 <= k < j ==> !HasTaskNo(tasks[k], startNo.value)
    else forall k :: 0 <= k < j ==> IsCompleted(tasks[k])
  }

  function PlanStatusIs(s: string): Json -> bool {
    (t: Json) => Field(t, "status") == Some(JStr(s))
  }

  function PlanOtherStatus(t: Json): bool {
    !PlanStatusIs(Completed)(t) && !PlanStatusIs(Failed)(t) && !PlanStatusIs(InProgress)(t)
  }

  /** `get_task_stats` over the plan's task dictionaries; `None` stands for
      the `AttributeError` `t.get` raises on an entry that is not an object. */
  function PlanStats(tasks: seq<Json>): (s: Option<Stats>)
    ensures s.Some? <==> forall j :: 0 <= j < |tasks| ==> tasks[j].JObj?
    ensures s.Some? ==> s.value.total == |tasks|
    ensures s.Some? ==> s.value.completed == Count(tasks, PlanStatusIs(Completed))
    ensures s.Some? ==> s.value.failed == Count(tasks, PlanStatusIs(Failed))
    ensures s.Some? ==> s.value.inProgress == Count(tasks, PlanStatusIs(InProgress))
  {
    if forall j :: 0 <= j < |tasks| ==> tasks[j].JObj? then
      Some(MakeStats(|tasks|, Count(tasks, PlanStatusIs(Completed)), Count(tasks, PlanStatusIs(Failed)),
                     Count(tasks, PlanStatusIs(InProgress))))
    else None
  }

  /** "not_started" counts every task dictionary whose status is none of
      completed, failed and in-progress (a missing status included), and
      "remaining" is everything not completed. */
  lemma PlanStatsMeaning(tasks: seq<Json>)
    ensures PlanStats(tasks).Some? ==> var s := PlanStats(tasks).value;
      s.notStarted == Count(tasks, PlanOtherStatus) >= 0
      && s.remaining == s.failed + s.inProgress + s.notStarted
  {
    CountPartition(tasks, PlanStatusIs(Completed), PlanStatusIs(Failed), PlanStatusIs(InProgress), PlanOtherStatus);
  }
}

=== FILE: store.dfy ===
/** The file system as the runner's persistence code sees it: a map from path
    to the JSON document stored there, and the write-to-temp-then-rename step
    that `save_task_set`, `save_plan` and `save_project` all use. */
module Store {
  import opened Wrappers
  import opened JsonData

  /** `os.path.join`-style joining of a directory and a name. */
  function PathJoin(dir: string, name: string): string {
    dir + "/" + name
  }

  /** Position just after the last '/' of a path: where its final name starts. */
  function NameStart(p: string): (k: nat)
    ensures k <= |p|
    ensures forall i :: k <= i < |p| ==> p[i] != '/'
    ensures k > 0 ==> p[k - 1] == '/'
  {
    if p == [] then 0
    else if p[|p| - 1] == '/' then |p|
    else NameStart(p[..|p| - 1])
  }

  /** Position of the last '.' in `s`, if any. */
  function LastDot(s: string): (r: Option<nat>)
    ensures r.Some? ==> r.value < |s| && s[r.value] == '.'
    ensures r.Some? ==> forall i :: r.value < i < |s| ==> s[i] != '.'
    ensures r.None? ==> forall i :: 0 <= i < |s| ==> s[i] != '.'
  {
    if s == [] then None
    else if s[|s| - 1] == '.' then Some(|s| - 1)
    else LastDot(s[..|s| - 1])
  }

  /** `Path.suffix` of a final name: from its last dot, unless that dot leads or
      ends the name. */
  function SuffixLen(name: string): (n: nat)
    ensures n <= |name|
    ensures n > 0 ==> name[|name| - n] == '.' && forall i :: |name| - n < i < |name| ==> name[i] != '.'
  {
    match LastDot(name)
    case Some(i) => if 0 < i < |name| - 1 then |name| - i else 0
    case None => 0
  }

  const TmpSuffix := ".json.tmp"

  /** `path.with_suffix(".json.tmp")`; `None` is the `ValueError` pathlib raises
      for a path with an empty final name. */
  function TmpPath(p: string): (r: Option<string>)
    ensures r.Some? <==> NameStart(p) < |p|
    ensures r.Some? ==> r.value != p
    ensures r.Some? ==> |r.value| >= |TmpSuffix| && r.value[|r.value| - |TmpSuffix|..] == TmpSuffix
  {
    var k := NameStart(p);
    if k == |p| then None
    else
      var name := p[k..];
      var n := SuffixLen(name);
      var t := p[..|p| - n] + TmpSuffix;
      // Equal lengths would need a 9-character suffix holding a second dot.
      assert n == |TmpSuffix| ==> t[|p| - 4] == '.' && p[|p| - 4] == name[|name| - 4] != '.';
      Some(t)
  }

  /** The files after a crash at `step` of an atomic write of `content` to
      `path` through `tmp`: 0 before anything happened, 1 while the temporary
      file holds `partial` (a prefix or all of the new document), 2 after the
      rename. */
  function CrashState(files: map<string, Json>, path: string, tmp: string,
                      content: Json, partial: Json, step: nat): map<string, Json>
    requires step <= 2
  {
    if step == 0 then files
    else if step == 1 then files[tmp := partial]
    else (files - {tmp})[path := content]
  }

  /** Whatever point the write stops at, the target path holds either its old
      document or the complete new one: never the partial temporary content. */
  lemma TargetNeverPartial(files: map<string, Json>, path: string, content: Json,
                           partial: Json, step: nat)
    requires TmpPath(path).Some? && step <= 2
    ensures var after := CrashState(files, path, TmpPath(path).value, content, partial, step);
      (path in after && after[path] == content)
      || ((path in after <==> path in files) && (path in files ==> after[path] == files[path]))
    ensures forall q :: q != path && q != TmpPath(path).value ==>
      var after := CrashState(files, path, TmpPath(path).value, content, partial, step);
      (q in after <==> q in files) && (q in files ==> after[q] == files[q])
  {
  }

  /** A file system whose documents the runner saves in place. */
  class FileStore {
    var files: map<string, Json>

    constructor(initial: map<string, Json>)
      ensures files == initial
    {
      files := initial;
    }

    /** Write `content` to the temporary sibling of `path`, then rename it over
        `path`. Returns false (the `ValueError`) when `path` has no final name. */
    method WriteAtomic(path: string, content: Json) returns (ok: bool)
      modifies this
      ensures ok <==> TmpPath(path).Some?
      ensures ok ==> files == CrashState(old(files), path, TmpPath(path).value, content, content, 2)
      ensures ok ==> path in files && files[path] == content && TmpPath(path).value !in files
      ensures !ok ==> files == old(files)
    {
      var tmp := TmpPath(path);
      if tmp.None? {
        return false;
      }
      files := files[tmp.value := content];
      assert files == CrashState(old(files), path, tmp.value, content, content, 1);
      var written := files[tmp.value];
      files := (files - {tmp.value})[path := written];
      return true;
    }
  }
}

=== FILE: task_set.dfy ===
/** Tasks and task sets (`task_runner/task_set.py`): their JSON form, default
    filling on load, the atomic save, and status statistics. */
module TaskSets {
  import opened Wrappers
  import opened Text
  import opened JsonData
  import opened Store

  // Status strings a task moves through.
  const NotStarted := "not-started"
  const InProgress := "in-progress"
  const Completed := "completed"
  const Failed := "failed"
  const Skipped := "skipped"
  const Interrupted := "interrupted"

  /** `TaskCLIConfig`: per-task tool/model override. */
  datatype CliConfig = CliConfig(tool: Option<string>, model: Option<string>)

  const NoCli := CliConfig(None, None)

  /** `if self.cli.tool or self.cli.model` */
  predicate CliPresent(c: CliConfig) {
    Present(c.tool) || Present(c.model)
  }

  function NormCli(c: CliConfig): CliConfig {
    CliConfig(Norm(c.tool), Norm(c.model))
  }

  /** `TaskCLIConfig.to_dict`: only the truthy fields are written. */
  function CliToDict(c: CliConfig): (d: map<string, Json>)
    ensures d.Keys <= {"tool", "model"}
    ensures "tool" in d <==> Present(c.tool)
    ensures "model" in d <==> Present(c.model)
    ensures "tool" in d ==> d["tool"] == JStr(c.tool.value)
    ensures "model" in d ==> d["model"] == JStr(c.model.value)
  {
    var d0: map<string, Json> := map[];
    var d1 := if Present(c.tool) then d0["tool" := JStr(c.tool.value)] else d0;
    if Present(c.model) then d1["model" := JStr(c.model.value)] else d1
  }

  /** `TaskCLIConfig.from_dict(d.get("cli"))`: a missing or falsy value gives
      no override. */
  function CliFromDict(v: Option<Json>): (c: CliConfig)
    ensures (v.None? || !Truthy(v.value)) ==> c == NoCli
  {
    match v
    case Some(JObj(m)) => if m == map[] then NoCli else CliConfig(OptStr(m, "tool"), OptStr(m, "model"))
    case _ => NoCli
  }

  /** Reading back what `to_dict` wrote gives the same override, with `""`
      read as `None`. */
  lemma CliRoundTrip(c: CliConfig)
    ensures CliFromDict(Some(JObj(CliToDict(c)))) == NormCli(c)
  {
  }

  /** A task. `elapsed` (tenths of a second) and `lastRunAt` are the
      `elapsed_seconds`/`last_run_at` attributes the executor and the reset
      command set on task objects; they are not dataclass fields and are never
      serialised. */
  datatype Task = Task(
    taskNo: string,
    taskName: string,
    batch: int,
    description: string,
    priority: int,
    status: string,
    prompt: Option<string>,
    cli: CliConfig,
    dependsOn: Option<string>,
    raw: map<string, Json>,
    elapsed: Option<nat>,
    lastRunAt: Option<string>)

  function Get(d: map<string, Json>, k: string): Option<Json> {
    if k in d then Some(d[k]) else None
  }

  /** `Task.from_dict`. */
  function TaskFromDict(d: map<string, Json>): (t: Task)
    ensures t.raw == d && t.elapsed.None? && t.lastRunAt.None?
    ensures "task_no" !in d ==> t.taskNo == ""
    ensures "task_name" !in d ==> t.taskName == ""
    ensures "batch" !in d ==> t.batch == 1
    ensures "description" !in d ==> t.description == ""
    ensures "priority" !in d ==> t.priority == 50
    ensures "status" !in d ==> t.status == NotStarted
    ensures "prompt" !in d ==> t.prompt.None?
    ensures "cli" !in d ==> t.cli == NoCli
    ensures "depends_on" !in d ==> t.dependsOn.None?
  {
    Task(
      StrOr(d, "task_no", ""),
      StrOr(d, "task_name", ""),
      IntOr(d, "batch", 1),
      StrOr(d, "description", ""),
      IntOr(d, "priority", 50),
      StrOr(d, "status", NotStarted),
      OptStr(d, "prompt"),
      CliFromDict(Get(d, "cli")),
      OptStr(d, "depends_on"),
      d, None, None)
  }

  /** The six fields `to_dict` always overwrites. */
  function BaseFields(t: Task): map<string, Json> {
    map["task_no" := JStr(t.taskNo), "task_name" := JStr(t.taskName),
        "batch" := JInt(t.batch), "description" := JStr(t.description),
        "priority" := JInt(t.priority), "status" := JStr(t.status)]
  }

  /** `Task.to_dict`: `_raw` updated with the current field values. */
  function TaskToDict(t: Task): (d: map<string, Json>)
    ensures forall k :: k in BaseFields(t) ==> k in d && d[k] == BaseFields(t)[k]
    ensures Present(t.prompt) ==> "prompt" in d && d["prompt"] == JStr(t.prompt.value)
    ensures !Present(t.prompt) ==> Get(d, "prompt") == Get(t.raw, "prompt")
    ensures CliPresent(t.cli) ==> "cli" in d && d["cli"] == JObj(CliToDict(t.cli))
    ensures !CliPresent(t.cli) ==> Get(d, "cli") == Get(t.raw, "cli")
    ensures Present(t.dependsOn) ==> "depends_on" in d && d["depends_on"] == JStr(t.dependsOn.value)
    ensures !Present(t.dependsOn) ==> Get(d, "depends_on") == Get(t.raw, "depends_on")
  {
    var d0 := t.raw + BaseFields(t);
    var d1 := if Present(t.prompt) then d0["prompt" := JStr(t.prompt.value)] else d0;
    var d2 := if CliPresent(t.cli) then d1["cli" := JObj(CliToDict(t.cli))] else d1;
    if Present(t.dependsOn) then d2["depends_on" := JStr(t.dependsOn.value)] else d2
  }

  /** `to_dict` keeps every key of `_raw`, and the value of every key it does
      not write; it adds only the six base fields and the optional fields
      that are set. */
  lemma TaskToDictKeeps(t: Task)
    ensures forall k :: k in t.raw && k !in BaseFields(t) && k !in {"prompt", "cli", "depends_on"}
              ==> k in TaskToDict(t) && TaskToDict(t)[k] == t.raw[k]
    ensures TaskToDict(t).Keys == t.raw.Keys + BaseFields(t).Keys
              + (if Present(t.prompt) then {"prompt"} else {})
              + (if CliPresent(t.cli) then {"cli"} else {})
              + (if Present(t.dependsOn) then {"depends_on"} else {})
  {
  }

  /** Two tasks that agree on every serialised field, counting `""` and `None`
      as the same for the optional ones. */
  predicate SameFields(a: Task, b: Task) {
    a.taskNo == b.taskNo && a.taskName == b.taskName && a.batch == b.batch
    && a.description == b.description && a.priority == b.priority && a.status == b.status
    && Norm(a.prompt) == Norm(b.prompt) && NormCli(a.cli) == NormCli(b.cli)
    && Norm(a.dependsOn) == Norm(b.dependsOn)
  }

  /** An optional field that is unset on the task is unset in `_raw` too, so
      `to_dict` does not resurrect an old value from `_raw`. */
  predicate Coherent(t: Task) {
    (!Present(t.prompt) ==> !Present(OptStr(t.raw, "prompt")))
    && (!Present(t.dependsOn) ==> !Present(OptStr(t.raw, "depends_on")))
    && (!CliPresent(t.cli) ==> !CliPresent(CliFromDict(Get(t.raw, "cli"))))
  }

  /** Every task read from a file is coherent. */
  lemma FromDictCoherent(d: map<string, Json>)
    ensures Coherent(TaskFromDict(d))
  {
  }

  lemma ReadBackBase(t: Task)
    ensures var u := TaskFromDict(TaskToDict(t));
      u.taskNo == t.taskNo && u.taskName == t.taskName && u.batch == t.batch
      && u.description == t.description && u.priority == t.priority && u.status == t.status
  {
    var d := TaskToDict(t);
    var b := BaseFields(t);
    assert "task_no" in b && "task_name" in b && "batch" in b;
    assert "description" in b && "priority" in b && "status" in b;
  }

  lemma ReadBackOptional(t: Task)
    requires Coherent(t)
    ensures var u := TaskFromDict(TaskToDict(t));
      Norm(u.prompt) == Norm(t.prompt) && Norm(u.dependsOn) == Norm(t.dependsOn)
  {
    var d := TaskToDict(t);
    assert OptStr(d, "prompt") == (if Present(t.prompt) then t.prompt else OptStr(t.raw, "prompt"));
    assert OptStr(d, "depends_on") == (if Present(t.dependsOn) then t.dependsOn else OptStr(t.raw, "depends_on"));
  }

  lemma ReadBackCli(t: Task)
    requires Coherent(t)
    ensures NormCli(TaskFromDict(TaskToDict(t)).cli) == NormCli(t.cli)
  {
    var d := TaskToDict(t);
    if CliPresent(t.cli) {
      CliRoundTrip(t.cli);
    } else {
      assert Get(d, "cli") == Get(t.raw, "cli");
    }
  }

  /** Saving a coherent task and reading it back gives the same task; only the
      unserialised timing fields are lost. */
  lemma TaskRoundTrip(t: Task)
    requires Coherent(t)
    ensures var u := TaskFromDict(TaskToDict(t));
      SameFields(u, t) && u.raw == TaskToDict(t) && u.elapsed.None? && u.lastRunAt.None?
  {
    ReadBackBase(t);
    ReadBackOptional(t);
    ReadBackCli(t);
  }

  /** `to_dict` returns `_raw` unchanged when `_raw` already holds every value
      it would write. */
  lemma ToDictOfAgreeingRaw(u: Task)
    requires forall k :: k in BaseFields(u) ==> k in u.raw && u.raw[k] == BaseFields(u)[k]
    requires Present(u.prompt) ==> "prompt" in u.raw && u.raw["prompt"] == JStr(u.prompt.value)
    requires CliPresent(u.cli) ==> "cli" in u.raw && u.raw["cli"] == JObj(CliToDict(u.cli))
    requires Present(u.dependsOn) ==> "depends_on" in u.raw && u.raw["depends_on"] == JStr(u.dependsOn.value)
    ensures TaskToDict(u) == u.raw
  {
    var e0 := u.raw + BaseFields(u);
    assert e0 == u.raw;
    var e1 := if Present(u.prompt) then e0["prompt" := JStr(u.prompt.value)] else e0;
    assert e1 == u.raw;
    var e2 := if CliPresent(u.cli) then e1["cli" := JObj(CliToDict(u.cli))] else e1;
    assert e2 == u.raw;
    var e3 := if Present(u.dependsOn) then e2["depends_on" := JStr(u.dependsOn.value)] else e2;
    assert e3 == u.raw;
  }

  /** One load/save cycle reaches a fixed point: loading the saved file and
      saving again writes the same document. */
  lemma SaveLoadFixpoint(d: map<string, Json>)
    ensures TaskToDict(TaskFromDict(TaskToDict(TaskFromDict(d)))) == TaskToDict(TaskFromDict(d))
  {
    var t := TaskFromDict(d);
    var d1 := TaskToDict(t);
    var u := TaskFromDict(d1);
    ReadBackBase(t);
    assert BaseFields(u) == BaseFields(t);
    forall k | k in BaseFields(u) ensures k in u.raw && u.raw[k] == BaseFields(u)[k] {
      assert k in BaseFields(t);
    }
    if CliPresent(t.cli) {
      CliRoundTrip(t.cli);
    }
    ToDictOfAgreeingRaw(u);
  }

  // ---------------------------------------------------------------- task sets

  /** `TaskSet`: `raw` holds every top-level key but "tasks". */
  datatype TaskSet = TaskSet(
    name: string,
    template: Option<string>,
    tasks: seq<Task>,
    filePath: Option<string>,
    raw: map<string, Json>)

  function TasksFromJson(items: seq<Json>): (ts: seq<Task>)
    ensures |ts| == |items|
    ensures forall i :: 0 <= i < |items| && items[i].JObj? ==> ts[i] == TaskFromDict(items[i].fields)
  {
    if items == [] then []
    else [TaskFromDict(if items[0].JObj? then items[0].fields else map[])] + TasksFromJson(items[1..])
  }

  function TasksToJson(ts: seq<Task>): (items: seq<Json>)
    ensures |items| == |ts|
    ensures forall i :: 0 <= i < |ts| ==> items[i] == JObj(TaskToDict(ts[i]))
  {
    if ts == [] then [] else [JObj(TaskToDict(ts[0]))] + TasksToJson(ts[1..])
  }

  /** `TaskSet.from_dict`. */
  function TaskSetFromDict(d: map<string, Json>, name: string, filePath: Option<string>): (ts: TaskSet)
    ensures "tasks" !in ts.raw
    ensures forall k :: k in d && k != "tasks" ==> k in ts.raw && ts.raw[k] == d[k]
    ensures ts.raw.Keys == d.Keys - {"tasks"}
    ensures ts.template == OptStr(d, "template")
    ensures "tasks" in d && d["tasks"].JArr? ==> |ts.tasks| == |d["tasks"].items|
    ensures ts.name == name && ts.filePath == filePath
  {
    var items := if "tasks" in d && d["tasks"].JArr? then d["tasks"].items else [];
    TaskSet(name, OptStr(d, "template"), TasksFromJson(items), filePath, d - {"tasks"})
  }

  /** `TaskSet.to_dict`. */
  function TaskSetToDict(ts: TaskSet): (d: map<string, Json>)
    ensures forall k :: k in ts.raw && k != "tasks" && k != "template" ==> k in d && d[k] == ts.raw[k]
    ensures "tasks" in d && d["tasks"] == JArr(TasksToJson(ts.tasks))
    ensures Present(ts.template) ==> "template" in d && d["template"] == JStr(ts.template.value)
    ensures !Present(ts.template) ==> Get(d, "template") == Get(ts.raw, "template")
    ensures d.Keys == ts.raw.Keys + {"tasks"} + (if Present(ts.template) then {"template"} else {})
  {
    var d0 := if Present(ts.template) then ts.raw["template" := JStr(ts.template.value)] else ts.raw;
    d0["tasks" := JArr(TasksToJson(ts.tasks))]
  }

  /** Saving a task set and loading it again gives back its other keys, its
      template and its tasks in order, each with the same fields. */
  lemma TaskSetRoundTrip(ts: TaskSet)
    requires "tasks" !in ts.raw
    requires !Present(ts.template) ==> !Present(OptStr(ts.raw, "template"))
    requires forall i :: 0 <= i < |ts.tasks| ==> Coherent(ts.tasks[i])
    ensures var back := TaskSetFromDict(TaskSetToDict(ts), ts.name, ts.filePath);
      Norm(back.template) == Norm(ts.template)
      && |back.tasks| == |ts.tasks|
      && (forall i :: 0 <= i < |ts.tasks| ==> SameFields(back.tasks[i], ts.tasks[i]))
      && (forall k :: k in ts.raw && k != "template" ==> k in back.raw && back.raw[k] == ts.raw[k])
  {
    var d := TaskSetToDict(ts);
    var back := TaskSetFromDict(d, ts.name, ts.filePath);
    assert OptStr(d, "template") == (if Present(ts.template) then ts.template else OptStr(ts.raw, "template"));
    forall i | 0 <= i < |ts.tasks| ensures SameFields(back.tasks[i], ts.tasks[i]) {
      assert TasksToJson(ts.tasks)[i] == JObj(TaskToDict(ts.tasks[i]));
      TaskRoundTrip(ts.tasks[i]);
    }
  }

  // ---------------------------------------------------------------- defaults

  /** One task after `load_task_set`'s default filling. */
  function WithDefaults(t: Task, defaultTool: Option<string>, defaultModel: Option<string>): (u: Task)
    ensures u == t.(cli := u.cli)
    ensures Present(t.cli.tool) ==> u.cli.tool == t.cli.tool
    ensures Present(t.cli.model) ==> u.cli.model == t.cli.model
    ensures !Present(t.cli.tool) ==> u.cli.tool == (if Present(defaultTool) then defaultTool else t.cli.tool)
    ensures !Present(t.cli.model) ==> u.cli.model == (if Present(defaultModel) then defaultModel else t.cli.model)
  {
    var tool := if !Present(t.cli.tool) && Present(defaultTool) then defaultTool else t.cli.tool;
    var model := if !Present(t.cli.model) && Present(defaultModel) then defaultModel else t.cli.model;
    t.(cli := CliConfig(tool, model))
  }

  /** Filling defaults never breaks coherence. */
  lemma WithDefaultsCoherent(t: Task, defaultTool: Option<string>, defaultModel: Option<string>)
    requires Coherent(t)
    ensures Coherent(WithDefaults(t, defaultTool, defaultModel))
  {
  }

  /** The default-filling loop of `load_task_set`, over the loaded tasks in
      place. `defaults` is the project's `{"default_tool": …, "default_model": …}`. */
  method FillDefaults(tasks: array<Task>, defaults: map<string, Json>)
    modifies tasks
    ensures Truthy(JObj(defaults)) ==>
      forall i :: 0 <= i < tasks.Length ==>
        tasks[i] == WithDefaults(old(tasks[i]), OptStr(defaults, "default_tool"), OptStr(defaults, "default_model"))
    ensures !Truthy(JObj(defaults)) ==> tasks[..] == old(tasks[..])
  {
    if defaults == map[] {
      return;
    }
    var tool := OptStr(defaults, "default_tool");
    var model := OptStr(defaults, "default_model");
    var i := 0;
    while i < tasks.Length
      invariant 0 <= i <= tasks.Length
      invariant forall j :: 0 <= j < i ==> tasks[j] == WithDefaults(old(tasks[j]), tool, model)
      invariant forall j :: i <= j < tasks.Length ==> tasks[j] == old(tasks[j])
    {
      var t := tasks[i];
      if !Present(t.cli.tool) && Present(tool) {
        t := t.(cli := t.cli.(tool := tool));
      }
      if !Present(t.cli.model) && Present(model) {
        t := t.(cli := t.cli.(model := model));
      }
      tasks[i] := t;
      i := i + 1;
    }
  }

  /** The tasks after `load_task_set`'s default filling. */
  function FilledTasks(ts: seq<Task>, defaults: map<string, Json>): (r: seq<Task>)
    ensures |r| == |ts|
    ensures forall i :: 0 <= i < |ts| ==>
      r[i] == (if Truthy(JObj(defaults))
               then WithDefaults(ts[i], OptStr(defaults, "default_tool"), OptStr(defaults, "default_model"))
               else ts[i])
  {
    if ts == [] then []
    else [if Truthy(JObj(defaults))
          then WithDefaults(ts[0], OptStr(defaults, "default_tool"), OptStr(defaults, "default_model"))
          else ts[0]] + FilledTasks(ts[1..], defaults)
  }

  /** `<project_dir>/<name>.tasks.json` */
  function TaskSetPath(projectDir: string, name: string): string {
    PathJoin(projectDir, name + ".tasks.json")
  }

  /** The task set `load_task_set` returns for the files present, or `None`
      for its `FileNotFoundError`. */
  function ReadTaskSet(files: map<string, Json>, projectDir: string, name: string, defaults: map<string, Json>): Option<TaskSet> {
    var path := TaskSetPath(projectDir, name);
    if path !in files then None
    else
      var doc := files[path];
      var read := TaskSetFromDict(if doc.JObj? then doc.fields else map[], name, Some(path));
      Some(read.(tasks := FilledTasks(read.tasks, defaults)))
  }

  /** `load_task_set`: read `<project_dir>/<name>.tasks.json` and fill the
      project defaults into the tasks. */
  method LoadTaskSet(store: FileStore, projectDir: string, name: string, defaults: map<string, Json>)
    returns (r: Result<TaskSet, string>)
    ensures r.Failure? <==> TaskSetPath(projectDir, name) !in store.files
    ensures r.Success? <==> ReadTaskSet(store.files, projectDir, name, defaults).Some?
    ensures r.Success? ==> r.value == ReadTaskSet(store.files, projectDir, name, defaults).value
  {
    var path := TaskSetPath(projectDir, name);
    if path !in store.files {
      return Failure("Task set not found: " + path);
    }
    var doc := store.files[path];
    var ts := TaskSetFromDict(if doc.JObj? then doc.fields else map[], name, Some(path));
    var arr := new Task[|ts.tasks|](i requires 0 <= i < |ts.tasks| => ts.tasks[i]);
    FillDefaults(arr, defaults);
    assert arr[..] == FilledTasks(ts.tasks, defaults);
    return Success(ts.(tasks := arr[..]));
  }

  /** `save_task_set`: the target is the set's own file, else
      `<project_dir>/<name>.tasks.json`; with neither it fails (`ValueError`). */
  method SaveTaskSet(store: FileStore, ts: TaskSet, projectDir: Option<string>)
    returns (r: Result<string, string>)
    modifies store
    ensures r.Failure? <==> (ts.filePath.None? && projectDir.None?)
                            || TmpPath(SavePath(ts, projectDir)).None?
    ensures r.Success? ==>
              r.value == SavePath(ts, projectDir)
              && store.files == CrashState(old(store.files), r.value, TmpPath(r.value).value,
                                          JObj(TaskSetToDict(ts)), JObj(TaskSetToDict(ts)), 2)
    ensures r.Failure? ==> store.files == old(store.files)
  {
    if ts.filePath.None? && projectDir.None? {
      return Failure("No file path for task set and no project_dir provided");
    }
    var path := SavePath(ts, projectDir);
    var ok := store.WriteAtomic(path, JObj(TaskSetToDict(ts)));
    if !ok {
      return Failure("with_suffix: empty name");
    }
    return Success(path);
  }

  /** A task set file always has a temporary sibling. */
  lemma TaskSetPathHasTmp(dir: string, name: string)
    ensures TmpPath(TaskSetPath(dir, name)).Some?
  {
    var p := TaskSetPath(dir, name);
    assert p[|p| - 1] == 'n';
  }

  /** The files after `save_task_set` wrote `saved` back to the task set
      file it was read from. */
  function SavedFiles(files: map<string, Json>, dir: string, name: string, saved: TaskSet): (r: map<string, Json>)
    ensures TaskSetPath(dir, name) in r && r[TaskSetPath(dir, name)] == JObj(TaskSetToDict(saved))
    ensures TmpPath(TaskSetPath(dir, name)).Some?
    ensures forall q :: q != TaskSetPath(dir, name) && q != TmpPath(TaskSetPath(dir, name)).value ==>
      (q in r <==> q in files) && (q in files ==> r[q] == files[q])
  {
    var path := TaskSetPath(dir, name);
    TaskSetPathHasTmp(dir, name);
    var doc := JObj(TaskSetToDict(saved));
    TargetNeverPartial(files, path, doc, doc, 2);
    CrashState(files, path, TmpPath(path).value, doc, doc, 2)
  }

  function SavePath(ts: TaskSet, projectDir: Option<string>): string {
    match ts.filePath
    case Some(p) => p
    case None => PathJoin(projectDir.GetOr(""), ts.name + ".tasks.json")
  }

  // ---------------------------------------------------------------- statistics

  /** How many elements satisfy `p`. */
  function Count<T>(xs: seq<T>, p: T -> bool): (n: nat)
    ensures n <= |xs|
  {
    if xs == [] then 0 else (if p(xs[0]) then 1 else 0) + Count(xs[1..], p)
  }

  /** Counting by four predicates that split every element exactly one way adds
      up to the length. */
  lemma {:induction false} CountPartition<T>(xs: seq<T>, a: T -> bool, b: T -> bool, c: T -> bool, rest: T -> bool)
    requires forall x :: (if a(x) then 1 else 0) + (if b(x) then 1 else 0) + (if c(x) then 1 else 0)
                         + (if rest(x) then 1 else 0) == 1
    ensures Count(xs, a) + Count(xs, b) + Count(xs, c) + Count(xs, rest) == |xs|
  {
    if xs != [] {
      CountPartition(xs[1..], a, b, c, rest);
    }
  }

  /** The statistics dictionary of `get_task_set_stats` and `get_task_stats`. */
  datatype Stats = Stats(total: nat, completed: nat, failed: nat, inProgress: nat,
                         notStarted: int, remaining: int)

  function MakeStats(total: nat, completed: nat, failed: nat, inProgress: nat): Stats {
    Stats(total, completed, failed, inProgress, total - completed - failed - inProgress, total - completed)
  }

  function StatusIs(s: string): Task -> bool {
    (t: Task) => t.status == s
  }

  function OtherStatus(t: Task): bool {
    t.status != Completed && t.status != Failed && t.status != InProgress
  }

  /** `get_task_set_stats`. */
  function TaskSetStats(tasks: seq<Task>): (s: Stats)
    ensures s.total == |tasks|
    ensures s.completed == Count(tasks, StatusIs(Completed))
    ensures s.failed == Count(tasks, StatusIs(Failed))
    ensures s.inProgress == Count(tasks, StatusIs(InProgress))
  {
    MakeStats(|tasks|, Count(tasks, StatusIs(Completed)), Count(tasks, StatusIs(Failed)),
              Count(tasks, StatusIs(InProgress)))
  }

  /** "not_started" counts every task in none of the three tracked statuses
      (so also "skipped", "interrupted" and unknown ones), it is never negative,
      and "remaining" is everything not completed. */
  lemma TaskSetStatsMeaning(tasks: seq<Task>)
    ensures var s := TaskSetStats(tasks);
      s.notStarted == Count(tasks, OtherStatus) >= 0
      && s.remaining == s.failed + s.inProgress + s.notStarted
  {
    CountPartition(tasks, StatusIs(Completed), StatusIs(Failed), StatusIs(InProgress), OtherStatus);
  }
}

=== FILE: text.dfy ===
/** The parts of Python's `str` behaviour the task runner relies on:
    `isspace`/`strip`, `splitlines`, `"sep".join`, `replace`, `int(...)`,
    decimal formatting and UTF-8 lengths. */
module Text {
  import opened Wrappers

  /** `str.isspace()` for one character; `str.strip()` and the regex class `\s`
      use the same set. */
  predicate IsSpace(c: char) {
    ('\t' <= c <= '\r') || ('\U{001C}' <= c <= '\U{001F}') || c == ' '
    || c == '\U{0085}' || c == '\U{00A0}' || c == '\U{1680}'
    || ('\U{2000}' <= c <= '\U{200A}') || c == '\U{2028}' || c == '\U{2029}'
    || c == '\U{202F}' || c == '\U{205F}' || c == '\U{3000}'
  }

  predicate AllSpace(s: string) {
    forall i :: 0 <= i < |s| ==> IsSpace(s[i])
  }

  /** `str.strip()`: the text without leading and trailing whitespace. */
  function Strip(s: string): string
    decreases |s|
  {
    if s != [] && IsSpace(s[0]) then Strip(s[1..])
    else if s != [] && IsSpace(s[|s| - 1]) then Strip(s[..|s| - 1])
    else s
  }

  /** The stripped text is empty exactly when the text is all whitespace;
      otherwise it starts and ends with a non-space. It is no longer than
      the text and all its characters come from the text. */
  lemma {:induction false} StripFacts(s: string)
    ensures Strip(s) == [] <==> AllSpace(s)
    ensures Strip(s) != [] ==> !IsSpace(Strip(s)[0]) && !IsSpace(Strip(s)[|Strip(s)| - 1])
    ensures |Strip(s)| <= |s|
    ensures forall c :: c in Strip(s) ==> c in s
    decreases |s|
  {
    if s != [] && IsSpace(s[0]) {
      StripFacts(s[1..]);
      if AllSpace(s[1..]) {
        forall i | 0 <= i < |s| ensures IsSpace(s[i]) {
          if i > 0 { assert s[i] == s[1..][i - 1]; }
        }
      }
    } else if s != [] && IsSpace(s[|s| - 1]) {
      StripFacts(s[..|s| - 1]);
      if AllSpace(s[..|s| - 1]) {
        forall i | 0 <= i < |s| ensures IsSpace(s[i]) {
          if i < |s| - 1 { assert s[i] == s[..|s| - 1][i]; }
        }
      }
    }
  }

  /** `not line.strip()` */
  predicate IsBlank(s: string) {
    AllSpace(s)
  }

  /** The characters `str.splitlines()` breaks lines at ("\r\n" is one break). */
  predicate IsLineBreak(c: char) {
    c == '\n' || c == '\U{000B}' || c == '\U{000C}' || c == '\r'
    || c == '\U{001C}' || c == '\U{001D}' || c == '\U{001E}'
    || c == '\U{0085}' || c == '\U{2028}' || c == '\U{2029}'
  }

  /** No line break in `s[i..j]`. */
  predicate NoLineBreak(s: string, i: nat, j: nat)
    requires i <= j <= |s|
  {
    forall k :: i <= k < j ==> !IsLineBreak(s[k])
  }

  lemma LineBreakIsSpace(c: char)
    requires IsLineBreak(c)
    ensures IsSpace(c)
  {
  }

  /** The end (exclusive) of the line that contains position `i`, terminator included. */
  function LineEnd(s: string, i: nat): (n: nat)
    requires i <= |s|
    ensures i <= n <= |s|
    ensures i < |s| ==> i < n
    ensures NoLineBreak(s, i, n) || (IsLineBreak(s[n - 1]) && NoLineBreak(s, i, n - 1))
      || (n >= i + 2 && s[n - 2] == '\r' && s[n - 1] == '\n' && NoLineBreak(s, i, n - 2))
    ensures n < |s| ==>
              ((IsLineBreak(s[n - 1]) && NoLineBreak(s, i, n - 1))
               || (n >= i + 2 && s[n - 2] == '\r' && s[n - 1] == '\n' && NoLineBreak(s, i, n - 2)))
    decreases |s| - i
  {
    if i == |s| then |s|
    else if IsLineBreak(s[i]) then
      if s[i] == '\r' && i + 1 < |s| && s[i + 1] == '\n' then i + 2 else i + 1
    else
      LineEnd(s, i + 1)
  }

  /** `"".join(parts)` */
  function Concat(parts: seq<string>): string {
    if parts == [] then [] else parts[0] + Concat(parts[1..])
  }

  lemma ConcatAppend(a: seq<string>, b: seq<string>)
    ensures Concat(a + b) == Concat(a) + Concat(b)
  {
    if a != [] {
      assert (a + b)[0] == a[0];
      assert (a + b)[1..] == a[1..] + b;
      ConcatAppend(a[1..], b);
    } else {
      assert a + b == b;
    }
  }

  /** `s.splitlines(keepends=True)`: every line keeps its terminator, and the
      lines put back together are the text. */
  function SplitLinesKeepEnds(s: string): (lines: seq<string>)
    ensures Concat(lines) == s
    ensures forall k :: 0 <= k < |lines| ==> lines[k] != []
    decreases |s|
  {
    if s == [] then []
    else
      var n := LineEnd(s, 0);
      var rest := SplitLinesKeepEnds(s[n..]);
      assert ([s[..n]] + rest)[1..] == rest;
      [s[..n]] + rest
  }

  /** A line without its terminator. */
  function DropLineEnd(line: string): (r: string)
    ensures |r| <= |line| && r == line[..|r|]
    ensures AllSpace(line[|r|..])
  {
    if |line| >= 2 && line[|line| - 2..] == "\r\n" then
      assert line[|line| - 2] == '\r' && line[|line| - 1] == '\n';
      line[..|line| - 2]
    else if line != [] && IsLineBreak(line[|line| - 1]) then
      LineBreakIsSpace(line[|line| - 1]);
      line[..|line| - 1]
    else line
  }

  function DropLineEnds(lines: seq<string>): (r: seq<string>)
    ensures |r| == |lines|
    ensures forall k :: 0 <= k < |r| ==> r[k] == DropLineEnd(lines[k])
  {
    if lines == [] then [] else [DropLineEnd(lines[0])] + DropLineEnds(lines[1..])
  }

  /** `s.splitlines()` */
  function SplitLines(s: string): seq<string> {
    DropLineEnds(SplitLinesKeepEnds(s))
  }

  /** Removing a line terminator does not change whether a line is blank. */
  lemma DropLineEndBlank(line: string)
    ensures IsBlank(DropLineEnd(line)) <==> IsBlank(line)
  {
    var r := DropLineEnd(line);
    if IsBlank(r) {
      forall i | 0 <= i < |line| ensures IsSpace(line[i]) {
        if i >= |r| { assert line[i] == line[|r|..][i - |r|]; }
      }
    }
  }

  /** `sep.join(parts)` */
  function Join(parts: seq<string>, sep: string): string {
    if parts == [] then []
    else if |parts| == 1 then parts[0]
    else parts[0] + sep + Join(parts[1..], sep)
  }

  /** `pat` occurs in `s` (Python's `pat in s`). */
  predicate Contains(s: string, pat: string) {
    exists i | 0 <= i <= |s| - |pat| :: OccursAt(s, pat, i)
  }

  predicate OccursAt(s: string, pat: string, i: int) {
    0 <= i <= |s| - |pat| && s[i..i + |pat|] == pat
  }

  /** `s.replace(pat, rep)`: every non-overlapping occurrence, left to right. */
  function ReplaceAll(s: string, pat: string, rep: string): string
    requires pat != []
    decreases |s|
  {
    if |s| < |pat| then s
    else if s[..|pat|] == pat then rep + ReplaceAll(s[|pat|..], pat, rep)
    else [s[0]] + ReplaceAll(s[1..], pat, rep)
  }

  /** Text without an occurrence of the pattern is returned unchanged. */
  lemma {:induction false} ReplaceAllNoMatch(s: string, pat: string, rep: string)
    requires pat != [] && !Contains(s, pat)
    ensures ReplaceAll(s, pat, rep) == s
    decreases |s|
  {
    if |s| >= |pat| {
      assert !OccursAt(s, pat, 0);
      assert !Contains(s[1..], pat) by {
        forall i ensures !OccursAt(s[1..], pat, i) {
          if 0 <= i <= |s| - 1 - |pat| {
            assert s[1..][i..i + |pat|] == s[i + 1..i + 1 + |pat|];
            assert !OccursAt(s, pat, i + 1);
          }
        }
      }
      ReplaceAllNoMatch(s[1..], pat, rep);
      assert [s[0]] + s[1..] == s;
    }
  }

  // ---------------------------------------------------------------- numbers

  predicate IsDigit(c: char) {
    '0' <= c <= '9'
  }

  function DigitChar(d: nat): (c: char)
    requires d < 10
    ensures IsDigit(c)
  {
    ['0', '1', '2', '3', '4', '5', '6', '7', '8', '9'][d]
  }

  function DigitValue(c: char): (d: nat)
    requires IsDigit(c)
    ensures d < 10 && DigitChar(d) == c
  {
    (c as int - '0' as int) as nat
  }

  predicate AllDigits(s: string) {
    forall i :: 0 <= i < |s| ==> IsDigit(s[i])
  }

  /** `str(n)` for a non-negative integer. */
  function NatToString(n: nat): (s: string)
    ensures s != [] && AllDigits(s)
    ensures s[0] == '0' ==> n == 0
  {
    if n < 10 then [DigitChar(n)] else NatToString(n / 10) + [DigitChar(n % 10)]
  }

  /** `str(i)` for any integer. */
  function IntToString(i: int): (s: string)
    ensures s != []
  {
    if i < 0 then "-" + NatToString(-i) else NatToString(i)
  }

  /** `f"{n:02d}"` */
  function Pad2(n: nat): (s: string)
    ensures |s| >= 2 && AllDigits(s)
  {
    if n < 10 then "0" + NatToString(n) else NatToString(n)
  }

  /** The value of a string of decimal digits. */
  function DigitsValue(s: string): nat
    requires AllDigits(s)
  {
    if s == [] then 0 else 10 * DigitsValue(s[..|s| - 1]) + DigitValue(s[|s| - 1])
  }

  lemma {:induction false} DigitsValueOfNatToString(n: nat)
    ensures DigitsValue(NatToString(n)) == n
  {
    if n >= 10 {
      var s := NatToString(n);
      assert s[..|s| - 1] == NatToString(n / 10);
      DigitsValueOfNatToString(n / 10);
    }
  }

  /** Digits with single underscores between them, as `int()` accepts ("1_000"). */
  predicate IsDigitGroups(s: string) {
    s != [] && IsDigit(s[0]) && IsDigit(s[|s| - 1])
    && (forall i :: 0 <= i < |s| ==> IsDigit(s[i]) || s[i] == '_')
    && (forall i :: 0 <= i < |s| - 1 ==> !(s[i] == '_' && s[i + 1] == '_'))
  }

  function RemoveUnderscores(s: string): (r: string)
    requires forall i :: 0 <= i < |s| ==> IsDigit(s[i]) || s[i] == '_'
    ensures AllDigits(r)
    ensures AllDigits(s) ==> r == s
  {
    if s == [] then []
    else (if s[0] == '_' then [] else [s[0]]) + RemoveUnderscores(s[1..])
  }

  /** The value of an unsigned digit group string, `None` when it is malformed. */
  function ParseUnsigned(body: string): (r: Option<nat>)
    ensures r.Some? <==> IsDigitGroups(body)
  {
    if IsDigitGroups(body) then Some(DigitsValue(RemoveUnderscores(body))) else None
  }

  /** Python's `int(text)` for base-10 ASCII input: surrounding whitespace is
      ignored, an optional sign, then digits (with single underscores between
      them). `None` is the `ValueError` case. */
  function ParseInt(text: string): Option<int> {
    var t := Strip(text);
    if t == [] then None
    else if t[0] == '-' || t[0] == '+' then
      match ParseUnsigned(t[1..])
      case None => None
      case Some(v) =>
        var i: int := v;
        Some(if t[0] == '-' then -i else i)
    else
      match ParseUnsigned(t)
      case None => None
      case Some(v) => Some(v as int)
  }

  lemma DigitsAreGroups(s: string)
    requires s != [] && AllDigits(s)
    ensures IsDigitGroups(s)
    ensures ParseUnsigned(s) == Some(DigitsValue(s))
  {
  }

  lemma StripNoEdgeSpace(s: string)
    requires s != [] && !IsSpace(s[0]) && !IsSpace(s[|s| - 1])
    ensures Strip(s) == s
  {
  }

  /** `int(str(n)) == n` */
  lemma ParseIntOfNatToString(n: nat)
    ensures ParseInt(NatToString(n)) == Some(n)
  {
    var s := NatToString(n);
    assert IsDigit(s[0]) && IsDigit(s[|s| - 1]);
    StripNoEdgeSpace(s);
    assert s[0] != '-' && s[0] != '+';
    DigitsAreGroups(s);
    DigitsValueOfNatToString(n);
    assert ParseUnsigned(s) == Some(n);
  }

  /** `int("-" + str(n)) == -n` */
  lemma ParseIntNegative(n: nat)
    ensures ParseInt("-" + NatToString(n)) == Some(-(n as int))
  {
    var d := NatToString(n);
    var s := "-" + d;
    assert s[|s| - 1] == d[|d| - 1];
    StripNoEdgeSpace(s);
    assert s[1..] == d;
    DigitsAreGroups(d);
    DigitsValueOfNatToString(n);
  }

  // ---------------------------------------------------------------- UTF-8

  /** Bytes of one character in UTF-8. */
  function Utf8CharLen(c: char): (n: nat)
    ensures 1 <= n <= 4
  {
    if c as int < 0x80 then 1
    else if c as int < 0x800 then 2
    else if c as int < 0x10000 then 3
    else 4
  }

  /** `len(s.encode("utf-8"))` */
  function Utf8Len(s: string): (n: nat)
    ensures |s| <= n <= 4 * |s|
  {
    if s == [] then 0 else Utf8CharLen(s[0]) + Utf8Len(s[1..])
  }

  lemma Utf8LenAppend(a: string, b: string)
    ensures Utf8Len(a + b) == Utf8Len(a) + Utf8Len(b)
  {
    if a != [] {
      assert (a + b)[0] == a[0];
      assert (a + b)[1..] == a[1..] + b;
      Utf8LenAppend(a[1..], b);
      calc {
        Utf8Len(a + b);
        Utf8CharLen(a[0]) + Utf8Len(a[1..] + b);
        Utf8CharLen(a[0]) + Utf8Len(a[1..]) + Utf8Len(b);
        Utf8Len(a) + Utf8Len(b);
      }
    } else {
      assert a + b == b;
    }
  }

  lemma Utf8LenPrefixMono(s: string, i: nat, j: nat)
    requires i <= j <= |s|
    ensures Utf8Len(s[..i]) <= Utf8Len(s[..j])
  {
    assert s[..j] == s[..i] + s[i..j];
    Utf8LenAppend(s[..i], s[i..j]);
  }

  /** Python's `<` on strings: code point by code point, a proper prefix first. */
  predicate StrLt(a: string, b: string) {
    if a == [] then b != []
    else if b == [] then false
    else if a[0] != b[0] then a[0] < b[0]
    else StrLt(a[1..], b[1..])
  }

  /** `<` on strings is a strict total order. */
  lemma {:induction false} StrLtOrder(a: string, b: string, c: string)
    ensures !StrLt(a, a)
    ensures a != b ==> StrLt(a, b) || StrLt(b, a)
    ensures StrLt(a, b) ==> !StrLt(b, a)
    ensures StrLt(a, b) && StrLt(b, c) ==> StrLt(a, c)
    decreases |a|
  {
    if a != [] && b != [] && c != [] {
      StrLtOrder(a[1..], b[1..], c[1..]);
      if a[0] == b[0] && a[1..] == b[1..] {
        assert a == [a[0]] + a[1..] && b == [b[0]] + b[1..];
      }
    } else if a != [] && b != [] {
      StrLtOrder(a[1..], b[1..], b[1..]);
      if a[0] == b[0] && a[1..] == b[1..] {
        assert a == [a[0]] + a[1..] && b == [b[0]] + b[1..];
      }
    } else if a != [] {
      StrLtOrder(a[1..], a[1..], a[1..]);
    }
  }
}

=== FILE: validators.dfy ===
/** Validation of project and task-set documents (`task_runner/validators.py`):
    an accumulator of errors and warnings, and the checks over the JSON
    content of `__init__.json` and of a `.tasks.json` file. */
module Validators {
  import opened Wrappers
  import opened Text
  import opened JsonData

  /** Errors and warnings collected by a validation; only errors decide `ok`. */
  class ValidationResult {
    var errors: seq<string>
    var warnings: seq<string>

    constructor()
      ensures errors == [] && warnings == []
    {
      errors := [];
      warnings := [];
    }

    /** `ok`: no error, whatever the warnings. */
    predicate Ok()
      reads this
    {
      |errors| == 0
    }

    method AddError(msg: string)
      modifies this
      ensures errors == old(errors) + [msg]
      ensures warnings == old(warnings)
    {
      errors := errors + [msg];
    }

    method AddWarning(msg: string)
      modifies this
      ensures warnings == old(warnings) + [msg]
      ensures errors == old(errors)
      ensures Ok() == old(Ok())
    {
      warnings := warnings + [msg];
    }

    /** Appends the other result's errors and warnings, in order (also when
        `other` is this result itself). */
    method Merge(other: ValidationResult)
      modifies this
      ensures errors == old(errors) + old(other.errors)
      ensures warnings == old(warnings) + old(other.warnings)
      ensures Ok() <==> old(Ok()) && old(other.Ok())
    {
      var e := other.errors;
      var w := other.warnings;
      errors := errors + e;
      warnings := warnings + w;
    }
  }

  // ---------------------------------------------------------------- task sets

  const ValidTaskStatuses: seq<string> := ["completed", "failed", "in-progress", "not-started", "skipped"]
  const TaskStatusList := "completed, failed, in-progress, not-started, skipped"

  /** `d.get(k)`: the value, or `None` (shown as JSON null). */
  function GetOrNull(d: Json, k: string): Json {
    Field(d, k).GetOr(JNull)
  }

  /** The task's status is one of the valid task statuses ("not-started" when absent). */
  predicate ValidTaskStatus(t: Json) {
    var st := Field(t, "status").GetOr(JStr("not-started"));
    st.JStr? && st.s in ValidTaskStatuses
  }

  /** What a Python set compares a hashable JSON value by: `True`, `1` and
      `1.0` are equal (and so are `False`, `0` and `0.0`), so every number
      becomes its real value; other values stand for themselves. */
  function HashKey(j: Json): (k: Json)
    ensures k.JFloat? <==> j.JBool? || j.JInt? || j.JFloat?
    ensures !(j.JBool? || j.JInt? || j.JFloat?) ==> k == j
  {
    match j
    case JBool(b) => JFloat(if b then 1.0 else 0.0)
    case JInt(i) => JFloat(i as real)
    case _ => j
  }

  /** Some earlier task object carries a task_no equal to `no` in Python's
      sense. */
  predicate SeenBefore(tasks: seq<Json>, i: nat, no: Json)
    requires i <= |tasks|
  {
    exists j :: 0 <= j < i && tasks[j].JObj? && HashKey(GetOrNull(tasks[j], "task_no")) == HashKey(no)
  }

  function NotObjectMsg(i: nat): string { "Task [" + NatToString(i) + "] is not a JSON object" }
  function MissingNoMsg(i: nat): string { "Task [" + NatToString(i) + "] missing 'task_no'" }
  function DuplicateMsg(no: Json): string { "Duplicate task_no: '" + Display(no) + "'" }
  function BadTaskStatusMsg(no: Json, status: Json): string {
    "Task '" + Display(no) + "' has invalid status '" + Display(status) + "'. Must be one of: " + TaskStatusList
  }
  function MissingNameMsg(i: nat, no: Json): string {
    "Task [" + NatToString(i) + "] ('" + Display(no) + "') missing 'task_name'"
  }

  /** The task_no error for an object entry. */
  function TaskNoErrors(tasks: seq<Json>, i: nat): seq<string>
    requires i < |tasks|
  {
    var no := GetOrNull(tasks[i], "task_no");
    if !Truthy(no) then [MissingNoMsg(i)]
    else if SeenBefore(tasks, i, no) then [DuplicateMsg(no)]
    else []
  }

  /** The status error for an object entry. */
  function TaskStatusErrors(t: Json): seq<string> {
    if ValidTaskStatus(t) then []
    else [BadTaskStatusMsg(GetOrNull(t, "task_no"), Field(t, "status").GetOr(JStr("not-started")))]
  }

  /** The errors for entry `i`, reached through `depth` wrapping steps.
      `EntryErrors` goes through one, so the checks are expanded only where
      `EntryErrorsUnfold` is invoked. */
  function EntryErrorsAt(tasks: seq<Json>, i: nat, depth: nat): seq<string>
    requires i < |tasks|
  {
    if depth > 0 then EntryErrorsAt(tasks, i, depth - 1)
    else if !tasks[i].JObj? then [NotObjectMsg(i)]
    else TaskNoErrors(tasks, i) + TaskStatusErrors(tasks[i])
  }

  /** Errors the loop reports for entry `i`. */
  function EntryErrors(tasks: seq<Json>, i: nat): seq<string>
    requires i < |tasks|
  {
    EntryErrorsAt(tasks, i, 1)
  }

  /** A non-object entry draws the one message; an object draws its task_no
      error, then its status error. */
  lemma EntryErrorsUnfold(tasks: seq<Json>, i: nat)
    requires i < |tasks|
    ensures !tasks[i].JObj? ==> EntryErrors(tasks, i) == [NotObjectMsg(i)]
    ensures tasks[i].JObj? ==> EntryErrors(tasks, i) == TaskNoErrors(tasks, i) + TaskStatusErrors(tasks[i])
  {
    assert EntryErrorsAt(tasks, i, 1) == EntryErrorsAt(tasks, i, 0);
  }

  /** Warnings the loop reports for entry `i`. */
  function EntryWarnings(tasks: seq<Json>, i: nat): seq<string>
    requires i < |tasks|
  {
    var t := tasks[i];
    if t.JObj? && !Truthy(GetOrNull(t, "task_name")) then [MissingNameMsg(i, GetOrNull(t, "task_no"))]
    else []
  }

  function EntriesErrors(tasks: seq<Json>, n: nat): seq<string>
    requires n <= |tasks|
  {
    if n == 0 then [] else EntriesErrors(tasks, n - 1) + EntryErrors(tasks, n - 1)
  }

  function EntriesWarnings(tasks: seq<Json>, n: nat): seq<string>
    requires n <= |tasks|
  {
    if n == 0 then [] else EntriesWarnings(tasks, n - 1) + EntryWarnings(tasks, n - 1)
  }

  /** `data.get("tasks")` is `None` (absent, or JSON null). */
  predicate TasksMissing(data: Json) {
    GetOrNull(data, "tasks") == JNull
  }

  /** The errors of `validate_task_set_file`. */
  function TaskSetFileErrors(data: Json): seq<string> {
    if !data.JObj? then ["Task set must be a JSON object"]
    else if TasksMissing(data) then ["Missing required key: 'tasks'"]
    else if !data.fields["tasks"].JArr? then ["'tasks' must be a list"]
    else
      var tasks := data.fields["tasks"].items;
      EntriesErrors(tasks, |tasks|)
  }

  /** The warnings of `validate_task_set_file`. */
  function TaskSetFileWarnings(data: Json): seq<string> {
    if !data.JObj? || TasksMissing(data) || !data.fields["tasks"].JArr? then []
    else if data.fields["tasks"].items == [] then ["Task set has no tasks"]
    else
      var tasks := data.fields["tasks"].items;
      EntriesWarnings(tasks, |tasks|)
  }

  /** The task_nos recorded in `seen_nos` after the first `n` entries, by
      their hash keys. */
  function SeenNos(tasks: seq<Json>, n: nat): set<Json>
    requires n <= |tasks|
  {
    set j, no | 0 <= j < n && no == GetOrNull(tasks[j], "task_no") && tasks[j].JObj? && Truthy(no) :: HashKey(no)
  }

  /** `validate_task_set_file`: one pass over the tasks with the `seen_nos` set. */
  method ValidateTaskSetFile(data: Json) returns (r: ValidationResult)
    ensures r.errors == TaskSetFileErrors(data)
    ensures r.warnings == TaskSetFileWarnings(data)
  {
    r := new ValidationResult();
    if !data.JObj? {
      r.AddError("Task set must be a JSON object");
      return;
    }
    if TasksMissing(data) {
      r.AddError("Missing required key: 'tasks'");
      return;
    }
    var tasksJson := data.fields["tasks"];
    if !tasksJson.JArr? {
      r.AddError("'tasks' must be a list");
      return;
    }
    var tasks := tasksJson.items;
    if |tasks| == 0 {
      r.AddWarning("Task set has no tasks");
      return;
    }
    var seen: set<Json> := {};
    var i := 0;
    while i < |tasks|
      invariant 0 <= i <= |tasks|
      invariant seen == SeenNos(tasks, i)
      invariant r.errors == EntriesErrors(tasks, i)
      invariant r.warnings == EntriesWarnings(tasks, i)
    {
      seen := CheckEntry(r, tasks, i, seen);
      i := i + 1;
    }
  }

  /** One round of the loop of `validate_task_set_file`. */
  method CheckEntry(r: ValidationResult, tasks: seq<Json>, i: nat, seen: set<Json>)
      returns (seen': set<Json>)
    requires i < |tasks| && seen == SeenNos(tasks, i)
    modifies r
    ensures seen' == SeenNos(tasks, i + 1)
    ensures r.errors == old(r.errors) + EntryErrors(tasks, i)
    ensures r.warnings == old(r.warnings) + EntryWarnings(tasks, i)
  {
    SeenNosStep(tasks, i);
    EntryErrorsUnfold(tasks, i);
    var task := tasks[i];
    if !task.JObj? {
      r.AddError(NotObjectMsg(i));
      return seen;
    }
    ghost var e0 := r.errors;
    var no;
    no, seen' := CheckTaskNo(r, tasks, i, seen);
    if !Truthy(GetOrNull(task, "task_name")) {
      r.AddWarning(MissingNameMsg(i, no));
    }
    CheckTaskStatus(r, task);
    assert e0 + TaskNoErrors(tasks, i) + TaskStatusErrors(task) == e0 + EntryErrors(tasks, i);
  }

  /** The task_no part of a round: missing, duplicate, or recorded in `seen`. */
  method CheckTaskNo(r: ValidationResult, tasks: seq<Json>, i: nat, seen: set<Json>)
      returns (no: Json, seen': set<Json>)
    requires i < |tasks| && tasks[i].JObj? && seen == SeenNos(tasks, i)
    modifies r
    ensures no == GetOrNull(tasks[i], "task_no")
    ensures seen' == SeenNos(tasks, i + 1)
    ensures r.errors == old(r.errors) + TaskNoErrors(tasks, i)
    ensures r.warnings == old(r.warnings)
  {
    SeenNosStep(tasks, i);
    seen' := seen;
    no := GetOrNull(tasks[i], "task_no");
    if !Truthy(no) {
      r.AddError(MissingNoMsg(i));
    } else {
      SeenNosMeaning(tasks, i, no);
      if HashKey(no) in seen {
        r.AddError(DuplicateMsg(no));
      } else {
        seen' := seen + {HashKey(no)};
      }
    }
  }

  /** The status part of a round. */
  method CheckTaskStatus(r: ValidationResult, task: Json)
    modifies r
    ensures r.errors == old(r.errors) + TaskStatusErrors(task)
    ensures r.warnings == old(r.warnings)
  {
    var status := Field(task, "status").GetOr(JStr("not-started"));
    if !(status.JStr? && status.s in ValidTaskStatuses) {
      r.AddError(BadTaskStatusMsg(GetOrNull(task, "task_no"), status));
    }
  }

  lemma SeenNosMeaning(tasks: seq<Json>, i: nat, no: Json)
    requires i < |tasks| && Truthy(no)
    ensures HashKey(no) in SeenNos(tasks, i) <==> SeenBefore(tasks, i, no)
  {
    if SeenBefore(tasks, i, no) {
      var j :| 0 <= j < i && tasks[j].JObj? && HashKey(GetOrNull(tasks[j], "task_no")) == HashKey(no);
      var nj := GetOrNull(tasks[j], "task_no");
      assert Truthy(nj) by { HashKeyTruthy(nj, no); }
      assert HashKey(nj) in SeenNos(tasks, i);
    }
  }

  /** Values with the same hash key are equally truthy. */
  lemma HashKeyTruthy(a: Json, b: Json)
    requires HashKey(a) == HashKey(b)
    ensures Truthy(a) <==> Truthy(b)
  {
  }

  lemma SeenNosStep(tasks: seq<Json>, i: nat)
    requires i < |tasks|
    ensures var no := GetOrNull(tasks[i], "task_no");
      SeenNos(tasks, i + 1) == SeenNos(tasks, i) + (if tasks[i].JObj? && Truthy(no) then {HashKey(no)} else {})
  {
  }

  /** Entry `i` draws no error: an object with a truthy task_no that no
      earlier entry carries, and a valid status. */
  predicate GoodEntry(tasks: seq<Json>, i: nat)
    requires i < |tasks|
  {
    tasks[i].JObj? && Truthy(GetOrNull(tasks[i], "task_no")) && ValidTaskStatus(tasks[i])
    && !SeenBefore(tasks, i, GetOrNull(tasks[i], "task_no"))
  }

  /** The first `n` entries draw no error. */
  predicate GoodEntries(tasks: seq<Json>, n: nat)
    requires n <= |tasks|
  {
    forall i :: 0 <= i < n ==> GoodEntry(tasks, i)
  }

  /** A task list the check accepts. */
  predicate WellFormedTasks(tasks: seq<Json>) {
    GoodEntries(tasks, |tasks|)
  }

  lemma EntryErrorsEmpty(tasks: seq<Json>, i: nat)
    requires i < |tasks|
    ensures EntryErrors(tasks, i) == [] <==> GoodEntry(tasks, i)
  {
    EntryErrorsUnfold(tasks, i);
  }

  lemma {:induction false} EntriesErrorsEmpty(tasks: seq<Json>, n: nat)
    requires n <= |tasks|
    ensures EntriesErrors(tasks, n) == [] <==> GoodEntries(tasks, n)
  {
    if n > 0 {
      var a, a1, a2 := EntriesErrors(tasks, n) == [], EntriesErrors(tasks, n - 1) == [], EntryErrors(tasks, n - 1) == [];
      var b, b1, b2 := GoodEntries(tasks, n), GoodEntries(tasks, n - 1), GoodEntry(tasks, n - 1);
      assert a <==> a1 && a2 by { EntriesErrorsStep(tasks, n); }
      assert b <==> b1 && b2 by { GoodEntriesStep(tasks, n); }
      assert a1 <==> b1 by { EntriesErrorsEmpty(tasks, n - 1); }
      assert a2 <==> b2 by { EntryErrorsEmpty(tasks, n - 1); }
      IffStep(a, a1, a2, b, b1, b2);
    }
  }

  /** Two conjunctions of pairwise equivalent parts are equivalent. */
  lemma IffStep(a: bool, a1: bool, a2: bool, b: bool, b1: bool, b2: bool)
    requires a <==> a1 && a2
    requires b <==> b1 && b2
    requires a1 <==> b1
    requires a2 <==> b2
    ensures a <==> b
  {
  }

  lemma EntriesErrorsStep(tasks: seq<Json>, n: nat)
    requires 0 < n <= |tasks|
    ensures EntriesErrors(tasks, n) == [] <==> EntriesErrors(tasks, n - 1) == [] && EntryErrors(tasks, n - 1) == []
  {
    var a := EntriesErrors(tasks, n - 1);
    var b := EntryErrors(tasks, n - 1);
    assert |a + b| == |a| + |b|;
  }

  lemma GoodEntriesStep(tasks: seq<Json>, n: nat)
    requires 0 < n <= |tasks|
    ensures GoodEntries(tasks, n) <==> GoodEntries(tasks, n - 1) && GoodEntry(tasks, n - 1)
  {
  }

  /** Of two object entries whose truthy task_nos are equal in Python's
      sense (`1`, `1.0` and `true` included), the first is accepted and the
      later one is reported as a duplicate, with its own value. */
  lemma FirstOccurrenceWins(tasks: seq<Json>, i: nat, k: nat)
    requires i < k < |tasks| && tasks[i].JObj? && tasks[k].JObj?
    requires HashKey(GetOrNull(tasks[i], "task_no")) == HashKey(GetOrNull(tasks[k], "task_no"))
    requires Truthy(GetOrNull(tasks[i], "task_no"))
    requires forall j :: 0 <= j < i ==> HashKey(GetOrNull(tasks[j], "task_no")) != HashKey(GetOrNull(tasks[i], "task_no"))
    ensures DuplicateMsg(GetOrNull(tasks[k], "task_no")) in EntryErrors(tasks, k)
    ensures DuplicateMsg(GetOrNull(tasks[i], "task_no")) !in EntryErrors(tasks, i)
  {
    var no := GetOrNull(tasks[i], "task_no");
    var nk := GetOrNull(tasks[k], "task_no");
    EntryErrorsUnfold(tasks, i);
    EntryErrorsUnfold(tasks, k);
    HashKeyTruthy(no, nk);
    assert SeenBefore(tasks, k, nk);
    assert !SeenBefore(tasks, i, no);
    assert EntryErrors(tasks, k) == [DuplicateMsg(nk)] + TaskStatusErrors(tasks[k]);
    assert DuplicateMsg(no) != MissingNoMsg(i) by {
      assert DuplicateMsg(no)[0] == 'D' && MissingNoMsg(i)[0] == 'T';
    }
    assert DuplicateMsg(no) !in TaskStatusErrors(tasks[i]) by {
      if !ValidTaskStatus(tasks[i]) {
        var m := BadTaskStatusMsg(no, Field(tasks[i], "status").GetOr(JStr("not-started")));
        assert DuplicateMsg(no)[0] == 'D' && m[0] == 'T';
      }
    }
  }

  /** A task_no written as `1` and a later one written as `true` are the
      same key of `seen_nos`: the second is reported as a duplicate. */
  lemma OneAndTrueCollide(tasks: seq<Json>)
    requires |tasks| == 2
    requires tasks[0] == JObj(map["task_no" := JInt(1)])
    requires tasks[1] == JObj(map["task_no" := JBool(true)])
    ensures "Duplicate task_no: 'True'" in EntryErrors(tasks, 1)
    ensures !WellFormedTasks(tasks)
  {
    FirstOccurrenceWins(tasks, 0, 1);
    assert DuplicateMsg(JBool(true)) == "Duplicate task_no: 'True'";
    EntryErrorsEmpty(tasks, 1);
  }

  /** Statuses outside the valid set are errors; "interrupted", which the
      runner itself writes, is one of them. */
  lemma InterruptedStatusRejected(tasks: seq<Json>, i: nat)
    requires i < |tasks| && tasks[i].JObj?
    requires Field(tasks[i], "status") == Some(JStr("interrupted"))
    ensures EntryErrors(tasks, i) != []
    ensures !WellFormedTasks(tasks)
  {
    assert "interrupted" !in ValidTaskStatuses;
    EntryErrorsUnfold(tasks, i);
    assert !GoodEntry(tasks, i);
  }

  /** `validate_task_set_file` is ok exactly for an object whose "tasks" is a
      well-formed list; a missing task_name (a warning) never matters. A
      non-object, a missing or a non-list "tasks" gives exactly one error. */
  lemma TaskSetFileOk(data: Json)
    ensures TaskSetFileErrors(data) == [] <==>
      data.JObj? && "tasks" in data.fields && data.fields["tasks"].JArr?
      && WellFormedTasks(data.fields["tasks"].items)
    ensures !data.JObj? || TasksMissing(data) || !data.fields["tasks"].JArr? ==>
      |TaskSetFileErrors(data)| == 1 && TaskSetFileWarnings(data) == []
    ensures data.JObj? && "tasks" in data.fields && data.fields["tasks"] == JArr([]) ==>
      TaskSetFileErrors(data) == [] && TaskSetFileWarnings(data) == ["Task set has no tasks"]
  {
    if data.JObj? && !TasksMissing(data) && data.fields["tasks"].JArr? {
      var tasks := data.fields["tasks"].items;
      EntriesErrorsEmpty(tasks, |tasks|);
    }
  }

  // --------------------------------------------------------- __init__.json

  const ProjectStatusList := "active, archived, completed, planned"

  predicate ValidProjectStatus(s: Json) {
    s == JStr("planned") || s == JStr("active") || s == JStr("completed") || s == JStr("archived")
  }

  /** `Path(p).is_absolute()` for a POSIX path. */
  predicate IsAbsolute(p: string) {
    |p| > 0 && p[0] == '/'
  }

  /** The workspace is acceptable: falsy, or an absolute path string. */
  predicate WorkspaceOk(ws: Json) {
    !Truthy(ws) || (ws.JStr? && IsAbsolute(ws.s))
  }

  const InitNotObjectMsg := "__init__.json must be a JSON object"
  const RunRecordMsg := "'run_record' must be a list"
  function MissingKeyMsg(k: string): string { "Missing required key: '" + k + "'" }
  function BadProjectStatusMsg(status: Json): string {
    "Invalid status '" + Display(status) + "'. Must be one of: " + ProjectStatusList
  }
  function RelativeWorkspaceMsg(ws: Json): string {
    "Workspace must be an absolute path, got: '" + Display(ws) + "'"
  }
  function NameMismatchMsg(name: Json, dirName: string): string {
    "Project name '" + Display(name) + "' doesn't match directory name '" + dirName + "'"
  }

  function MissingKeyErrors(d: map<string, Json>): seq<string> {
    (if "project" in d then [] else [MissingKeyMsg("project")])
    + (if "workspace" in d then [] else [MissingKeyMsg("workspace")])
  }

  function StatusErrors(status: Json): seq<string> {
    if ValidProjectStatus(status) then [] else [BadProjectStatusMsg(status)]
  }

  function WorkspaceErrors(ws: Json): seq<string> {
    if WorkspaceOk(ws) then [] else [RelativeWorkspaceMsg(ws)]
  }

  function RunRecordErrors(rr: Json): seq<string> {
    if rr.JArr? then [] else [RunRecordMsg]
  }

  /** The errors of `validate_init_json`, the required keys in the order
      project, workspace. */
  function InitErrors(data: Json): seq<string> {
    if !data.JObj? then [InitNotObjectMsg]
    else
      MissingKeyErrors(data.fields)
      + StatusErrors(Field(data, "status").GetOr(JStr("planned")))
      + WorkspaceErrors(Field(data, "workspace").GetOr(JStr("")))
      + RunRecordErrors(Field(data, "run_record").GetOr(JArr([])))
  }

  /** The warnings of `validate_init_json`: only the name mismatch. */
  function InitWarnings(data: Json, dirName: string): seq<string> {
    var name := Field(data, "project").GetOr(JStr(""));
    if data.JObj? && Truthy(name) && name != JStr(dirName) then [NameMismatchMsg(name, dirName)]
    else []
  }

  /** `validate_init_json` with the project directory's final name. */
  method ValidateInitJson(data: Json, dirName: string) returns (r: ValidationResult)
    ensures r.errors == InitErrors(data)
    ensures r.warnings == InitWarnings(data, dirName)
  {
    r := new ValidationResult();
    if !data.JObj? {
      r.AddError(InitNotObjectMsg);
      return;
    }
    var keys := ["project", "workspace"];
    var i := 0;
    while i < |keys|
      invariant 0 <= i <= 2
      invariant r.errors == (if i >= 1 && "project" !in data.fields then [MissingKeyMsg("project")] else [])
        + (if i >= 2 && "workspace" !in data.fields then [MissingKeyMsg("workspace")] else [])
      invariant r.warnings == []
    {
      if keys[i] !in data.fields {
        r.AddError(MissingKeyMsg(keys[i]));
      }
      i := i + 1;
    }
    assert r.errors == MissingKeyErrors(data.fields);
    var name := Field(data, "project").GetOr(JStr(""));
    if Truthy(name) && name != JStr(dirName) {
      r.AddWarning(NameMismatchMsg(name, dirName));
    }
    ghost var e0 := r.errors;
    var status := Field(data, "status").GetOr(JStr("planned"));
    CheckProjectStatus(r, status);
    ghost var e1 := r.errors;
    var ws := Field(data, "workspace").GetOr(JStr(""));
    CheckWorkspace(r, ws);
    ghost var e2 := r.errors;
    var rr := Field(data, "run_record").GetOr(JArr([]));
    if !rr.JArr? {
      r.AddError(RunRecordMsg);
    }
    assert r.errors == e2 + RunRecordErrors(rr);
    assert e0 + StatusErrors(status) + WorkspaceErrors(ws) + RunRecordErrors(rr) == InitErrors(data);
  }

  /** The status check of `validate_init_json`. */
  method CheckProjectStatus(r: ValidationResult, status: Json)
    modifies r
    ensures r.errors == old(r.errors) + StatusErrors(status)
    ensures r.warnings == old(r.warnings)
  {
    if !ValidProjectStatus(status) {
      r.AddError(BadProjectStatusMsg(status));
    }
  }

  /** The workspace check of `validate_init_json`. */
  method CheckWorkspace(r: ValidationResult, ws: Json)
    modifies r
    ensures r.errors == old(r.errors) + WorkspaceErrors(ws)
    ensures r.warnings == old(r.warnings)
  {
    if Truthy(ws) && !(ws.JStr? && IsAbsolute(ws.s)) {
      r.AddError(RelativeWorkspaceMsg(ws));
    }
  }

  /** `validate_init_json` is ok exactly when the document is an object with
      both required keys, a valid (or absent) status, a falsy or absolute
      workspace and a list (or absent) run_record; the name check only warns. */
  lemma InitOk(data: Json, dirName: string)
    ensures InitErrors(data) == [] <==>
      data.JObj? && "project" in data.fields && "workspace" in data.fields
      && ValidProjectStatus(Field(data, "status").GetOr(JStr("planned")))
      && WorkspaceOk(data.fields["workspace"])
      && Field(data, "run_record").GetOr(JArr([])).JArr?
    ensures |InitWarnings(data, dirName)| <= 1
  {
  }
}

=== FILE: wrappers.dfy ===
/** Optional values and success-or-error results used throughout the model. */
module Wrappers {

  /** A value that may be absent (Python's `None`). */
  datatype Option<+T> = None | Some(value: T) {
    function GetOr(default: T): T {
      match this
      case Some(v) => v
      case None => default
    }
  }

  /** The outcome of an operation that may raise: a value or an error message. */
  datatype Result<+R, +E> = Success(value: R) | Failure(error: E)
}
